=== FILE: README.md ===
# ERC3 agents: the entity-resolution pipeline and its helpers, in Dafny

This project models the deterministic core of the ERC3 agents, a multi-agent
pipeline that turns a free-text request to a company information system into
a resolved task for a policy checker (the watchdog) and an executor (the
solver). The model covers:

- **The entity extractor** (`Entities`, `Generators`, `Candidates`,
  `Resolution`, `ResolvedObjects`, `DualView`). This is the main part.
  - Mentions go through the candidate generators in their fixed precedence:
    wiki path, exact id, standard search, lookup tables, fuzzy search with
    its per-task cache.
  - Candidates are ranked, deduplicated by `(type, id)`, cut to perfect
    matches when one exists, and truncated to ten.
  - A mention is resolved automatically by a single perfect candidate, and
    otherwise by an arbiter.
  - Each mention is replaced by a `{type:id}` tag, with every object id used
    at most once. The tags are read back into the resolved-object table.
  - From that table the pipeline builds the security view and the solver
    view of the task.
- **The infrastructure helpers**:
  - `Core`: `filter_none`, resolved keys, closing the JSON event log, the API
    error decision, the token totals at the end of a task.
  - `Llm` and `Schema`: token usage, the model-id classifier, the strict
    schema and `oneOf` rewriters.
  - `WikiRag`: section splitting, the index rows, query escaping.
  - `ExtractWiki`: output names, the checksum cache decision, category order,
    cross-file deduplication and the counts.
- **The tool wrappers**:
  - `WikiFragments`: markdown header levels and fragments.
  - `Pagination`: `paginate_all` with its page-limit discovery.
  - `Wrappers`: local project filtering, skill-level ranges, PATCH merges,
    wiki path resolution, the wiki search merge, employee field selection and
    project leads.
  - `Employee`: the security view, the extended info and the project
    conversion.
- **The watchdog** (`Watchdog`, `WatchdogPrompts`): the lead check, tool
  dispatch, the fail-closed policy loop, the rules serialiser and the prompt's
  rulebook section.
- **The solver** (`Solver`): the effective model and timeout, the outcome
  mapping and link deduplication, plan truncation, tool-result prefixes and
  the bounded step loop.
- **The session statistics script** (`TimeStats`, `LogMessage`,
  `NumberFormat`): JSONL reading, the log-message parser, telemetry
  attribution, agent-log skipping, task scores and number formatting.

Shared vocabulary lives in `Base` (`Option`, `Result`, Python truthiness),
`Strings` (the `str` and `pathlib` operations the code relies on), `Seqs`
(filtering, stable sorting by key, deduplication), `Assoc` (Python's
insertion-ordered `dict` as an association list) and `Json`.

External services are parameters of the model:
- the company API, as functions from a request to a response or a raised
  exception;
- every language-model call, as an oracle returning a parsed value or a
  failure;
- `rapidfuzz`'s token-set ratio, as an uninterpreted function onto 0..100;
- the wiki files, lookup tables and checksums, as given contents.

## Model

| member | source | states |
|---|---|---|
| Core.FinalizeJsonArray | infra/core.py:88-90 | the result is the content wrapped in `[` `]` after removing its trailing run of commas, newlines, spaces and tabs: the inner text is a prefix of the content, every removed character is one of those four, and no such character is left at the end |
| Core.EventLogShape | infra/core.py:58-61 | a non-empty log written one `json + ",\n"` line per event is the events joined by `",\n"` followed by one `",\n"` |
| Core.FinalizeClosed | infra/core.py:88-90 | a log body ending in `}` and followed by `",\n"` finalises to exactly that body in brackets |
| Core.FinalizeEventLog | infra/core.py:64-90 | finalising a session log of brace-terminated events gives the JSON array of those events, in order; an empty log gives `[]` |
| Core.HandleApiError | infra/core.py:238-311 | a status of 404 returns normally and every other status terminates the task; a non-API exception or one without an `api_error` counts as status 500; the termination carries the operation, the status and the `error_internal` response "Server error in <operation>: <message>" |
| Core.FilterNone | infra/core.py:318-337 | the result has no `None` value in any dict at any depth, keeps the kind of every value, keeps the length of lists and returns scalars unchanged |
| Core.FilterFields | infra/core.py:328-333 | the filtered dict keeps exactly the keys whose value is not `None`, in their original order, and every kept value is itself free of `None` |
| Core.FilterFieldsGet | infra/core.py:328-333 | a key is in the filtered dict if and only if the original dict holds it with a value other than `None` |
| Core.FilterNoneFixes | infra/core.py:318-337 | a value without `None` in any dict comes back unchanged |
| Core.FilterNoneIdempotent | infra/core.py:318-337 | filtering twice gives the same value as filtering once |
| Core.MakeResolvedKey | infra/core.py:340-342 | the key is the entity type, a colon and the id, with nothing added or lost |
| Core.MakeResolvedKeyInjective | infra/core.py:340-342 | for entity types without a colon, equal keys mean equal type and equal id |
| Core.FinalizeTask | infra/core.py:394-413 | the reported prompt, completion and total tokens are the sums over all models, and the placeholder `log_llm` call is made exactly when the total is at most 2 |
| Core.NoCallsMeansDummy | infra/core.py:401-413 | a task that made no LLM call after the usage reset, with or without the one-token placeholder entry, sends the placeholder telemetry |
| Core.RealCallMeansNoDummy | infra/core.py:401-413 | once a call whose total exceeds 2 tokens has been accumulated after the reset, no placeholder telemetry is sent |
| Llm.ResetTaskUsage | infra/llm.py:69-81 | a truthy model id starts the task with that model alone holding one prompt and one completion token (total 2); no model id or the empty one starts with no entry |
| Llm.Accumulate | infra/llm.py:89-93 | the model's entry becomes its previous usage (zero when absent) plus the call's usage; every other model's entry is untouched; a new model is appended at the end of the dict and an existing one keeps its place |
| Llm.TotalsPutFresh | infra/llm.py:89-93 | appending a new model's usage raises the task totals by exactly that usage |
| Llm.TotalsPutPresent | infra/llm.py:89-93 | replacing a model's usage changes the task totals by the difference between the new and the old usage |
| Llm.AccumulateTotals | infra/llm.py:89-93 | accumulating one call raises the task totals by exactly that call's usage, whether the model was seen before or not |
| Llm.IsOpenAIModel | infra/llm.py:161-177 | after lower-casing, a model id containing `/` is OpenAI exactly when its provider part is `openai`; an id without `/` is OpenAI exactly when it starts with `gpt-` or `o1` |
| Schema.MakeStrict | infra/llm.py:111-131 | lists keep their length, dicts stay dicts and scalars are returned unchanged |
| Schema.StrictFieldsGet | infra/llm.py:117-120 | the rewritten dict has the same keys as the input, and each key holds the rewritten value of the input's value |
| Schema.MakeStrictIsStrict | infra/llm.py:111-131 | in the output every dict with `"type": "object"` and `"properties"`, at every depth, has `additionalProperties` false and `required` listing exactly the keys of its `properties` |
| Schema.MakeStrictFixesStrict | infra/llm.py:111-131 | a schema that is already strict at every depth comes back unchanged |
| Schema.MakeStrictIdempotent | infra/llm.py:111-131 | making a schema strict twice gives the same schema as once |
| Schema.ConvertOneOf | infra/llm.py:134-158 | the output holds no `oneOf` and no `discriminator` key at any depth; lists keep their length and scalars are unchanged |
| Schema.ConvertMovesOneOf | infra/llm.py:150-151 | a dict's `oneOf` value reappears, converted, under `anyOf`, and the dict no longer has `oneOf` |
| Schema.ConvertKeepsOtherKeys | infra/llm.py:143-154 | every key other than `oneOf`, `anyOf` and `discriminator` is present after conversion exactly when it was before, holding the converted value; `discriminator` is always dropped |
| Schema.ConvertKeepsPresent | infra/llm.py:152-153 | a key other than `oneOf`, `anyOf` and `discriminator` keeps its converted value |
| Schema.ConvertKeepsAbsent | infra/llm.py:143-154 | a key the dict lacks, other than `oneOf` and `anyOf`, is still absent after conversion, and so is `discriminator` |
| WikiRag.WithIntroduction | infra/wiki_rag.py:120-122 | a page whose text, after leading whitespace, starts with the delimiter is kept as it is; any other page gets a `<delimiter> Introduction` header line in front |
| WikiRag.SplitSections | infra/wiki_rag.py:118-142 | the loop over the page's lines computes exactly the section list defined by cutting the page at its header lines, in page order |
| WikiRag.SplitLinesInto | infra/wiki_rag.py:124-140 | the line loop, which saves the current section at each header and at the end, equals the run-based reference definition of the sections |
| WikiRag.ScanIsSectionsFrom | infra/wiki_rag.py:128-140 | handling one line at a time (save on a header, collect otherwise) gives the same sections as cutting the lines into maximal non-header runs |
| WikiRag.SectionsFromShift | infra/wiki_rag.py:135-136 | a non-header line only joins the current section |
| WikiRag.SectionsFromHeader | infra/wiki_rag.py:129-134 | a header line closes the current section (kept only when it has lines) and opens one titled by that header |
| WikiRag.SectionsFromEnd | infra/wiki_rag.py:138-140 | at the end of the page the open section is saved when it has lines |
| WikiRag.TitledFrom | infra/wiki_rag.py:128-140 | once a title is set every later section carries a title |
| WikiRag.ClosedTitle | infra/wiki_rag.py:131-132 | a saved section carries the title that was current when it was saved |
| WikiRag.TitlesFromHeaders | infra/wiki_rag.py:129-133 | a section whose title differs from the starting one takes it from a header line among the page's lines |
| WikiRag.PageTitlesFromHeaders | infra/wiki_rag.py:118-142 | every titled section of a page takes its title from a header line of the (introduced) page, with the delimiter and surrounding spaces, `#` and tabs removed |
| WikiRag.SplitLinesPrefix | infra/wiki_rag.py:128 | a line without a newline followed by a newline splits off as the first line |
| WikiRag.IntroducedLines | infra/wiki_rag.py:121-122 | the virtual header becomes the first line of the page and is itself a header line |
| WikiRag.IntroductionTitle | infra/wiki_rag.py:122-133 | the virtual header's title is `Introduction` |
| WikiRag.IntroducedPagesAreTitled | infra/wiki_rag.py:118-142 | on a page that gets the virtual header, every section has a title, so no section is left untitled |
| WikiRag.HeaderlessPage | infra/wiki_rag.py:118-142 | a page without any header line becomes the single section `Introduction` whose body is all its lines joined and stripped |
| WikiRag.FileRows | infra/wiki_rag.py:44-52 | a file yields at most one row per section, each with the file's path, a body of at least 40 characters, and document ids consecutive from the starting id |
| WikiRag.FileRowsSpec | infra/wiki_rag.py:44-52 | a file has a row with a given body and section title (`""` for none) if and only if one of its sections of at least 40 characters has that body and title |
| WikiRag.IndexRows | infra/wiki_rag.py:34-52 | across all files, the rows have bodies of at least 40 characters and document ids that run consecutively from the starting id |
| WikiRag.EscapeQuotes | infra/wiki_rag.py:113 | every double quote in the escaped query is preceded by a backslash |
| WikiRag.EscapeRoundTrip | infra/wiki_rag.py:113 | escaping loses nothing: dropping the backslash before each escaped quote gives the query back |
| Strings.LastIndexOf | infra/extract_wiki.py:288 | the index found holds the character and no later position does; none is found only when the character does not occur |
| Strings.LastIndexOfIs | infra/extract_wiki.py:288 | the last occurrence of a character is the position holding it with no occurrence after it |
| Strings.FileName | infra/extract_wiki.py:288 | a path's final component is the part after its last `/`: a suffix without `/`, preceded by `/` unless it is the whole path |
| Strings.StemCut | infra/extract_wiki.py:288 | `Path.stem` is a prefix of the file name; when it is shorter, what was cut is a dot and a non-empty dot-free suffix after a non-empty stem |
| Strings.StemWhole | infra/extract_wiki.py:288 | the name stays whole only when it has no such suffix: every dot strictly inside it has another dot after it |
| ExtractWiki.FileBasename | infra/extract_wiki.py:281-289 | the output base name starts with the extraction name and `_` |
| ExtractWiki.MarkdownBasename | infra/extract_wiki.py:281-289 | for a plain `<name>.md` file the base name is the extraction name, `_` and the file name without `.md` |
| ExtractWiki.RulebookBasename | infra/extract_wiki.py:284-286 | `("salary_policy", "rulebook.md")` gives `salary_policy_rulebook`, the documented example |
| ExtractWiki.Rank | infra/extract_wiki.py:172-185 | a category's rank is its entry in the category order, and an unknown category ranks 99 like `other` |
| ExtractWiki.ByCategory | infra/extract_wiki.py:642 | sorting by category rank is a permutation of the items, in ascending rank |
| ExtractWiki.ByCategoryStable | infra/extract_wiki.py:642 | the sort is stable: the items of each rank keep their relative order |
| ExtractWiki.PlanFor | infra/extract_wiki.py:437-448 | a file is skipped exactly when its cached checksum matches, its JSON output exists and no rebuild is asked for; otherwise the reason is "output missing" when the output is absent, else "source changed" when the checksum differs, else "rebuild requested" |
| ExtractWiki.ExtractFile | infra/extract_wiki.py:398-509 | a file is processed exactly when it exists, needs processing, loads, and the model returns a result; only a processed file writes its JSON output and records its source checksum, and it reports its item count; every other outcome reports 0 and changes nothing |
| ExtractWiki.ProcessedIsCached | infra/extract_wiki.py:437-440 | a file just processed is taken from the cache on the next run without a rebuild, whatever the model would answer |
| ExtractWiki.SharedChecksum | infra/extract_wiki.py:433-440 | checksums are keyed by source file: once one extraction processes a changed file, a later extraction of the same file whose output already exists skips it as unchanged |
| ExtractWiki.ExtractOne | infra/extract_wiki.py:512-549 | every checksum recorded during one extraction is the current checksum of one of its source files; with no model result at all the extraction counts 0 and changes nothing |
| ExtractWiki.NoRaiseNoRaised | infra/extract_wiki.py:536-549 | an extraction raises only when some model call raises |
| ExtractWiki.ExtractAll | infra/extract_wiki.py:575-582 | there is one count per extraction, under its name and in order; a count is -1 only for an extraction that raised, so without raising calls every count is at least 0 |
| ExtractWiki.KeptSections | infra/extract_wiki.py:638-670 | each joined section keeps its items in ascending category rank and never grows |
| ExtractWiki.DedupRefs | infra/extract_wiki.py:646-661 | the kept items of a section carry exactly the references of its items not seen before |
| ExtractWiki.KeptSectionsSpec | infra/extract_wiki.py:619-675 | across all sections the kept items have pairwise distinct wiki references, and their references are exactly those of all the items minus those already seen |
| ExtractWiki.SameRefsWhenPermuted | infra/extract_wiki.py:642 | sorting does not change the set of references of a section |
| ExtractWiki.DistinctRefsCount | infra/extract_wiki.py:705-744 | items with pairwise distinct references are as many as their references |
| ExtractWiki.Joined | infra/extract_wiki.py:621-643 | there is one joined section per extraction, in the extractions' order |
| ExtractWiki.JoinedRules | infra/extract_wiki.py:705-744 | `joined.json` holds one rule per kept item |
| ExtractWiki.RuleCount | infra/extract_wiki.py:705-744 | `joined.json` holds exactly as many rules as there are distinct wiki references among all extracted items |
| ExtractWiki.SectionLines | infra/extract_wiki.py:663-670 | each kept item gives three lines |
| ExtractWiki.JoinedLines | infra/extract_wiki.py:672-675 | `joined.txt` has three lines per kept item plus two blank lines per non-empty section |
| ExtractWiki.Duplicates | infra/extract_wiki.py:650-659 | every item of a section is either kept or logged as a duplicate, and the duplicates are items of the section |
| WikiFragments.HeaderLevelSpec | tools/wrappers.py:127-135 | the level is 4, 3 or 2 exactly when the text starts with `#### `, `### ` or `## `, and 0 otherwise |
| WikiFragments.Scan | tools/wrappers.py:170-172 | each line is read as its stripped text together with that text's header level |
| WikiFragments.HeaderPositions | tools/wrappers.py:168-174 | every recorded position is a line of the page whose stripped text is the recorded text with a positive level |
| WikiFragments.HeaderPositionsAscending | tools/wrappers.py:168-174 | header positions are recorded in ascending line order |
| WikiFragments.HeaderPositionsComplete | tools/wrappers.py:168-174 | every header line from the starting line on is recorded |
| WikiFragments.PositionOf | tools/wrappers.py:168-174 | every header line of the page is recorded |
| WikiFragments.FindHeader | tools/wrappers.py:190-197 | the search finds the first recorded header with the requested text, and finds none only when no recorded header has it |
| WikiFragments.NextAtMost | tools/wrappers.py:206-212 | the end search stops at the first later header whose level is at most the requested one, or at the end of the list |
| WikiFragments.SectionEndBounds | tools/wrappers.py:206-215 | a fragment holds at least its header line and ends within the page |
| WikiFragments.WikiFragments | tools/wrappers.py:176-223 | there is one fragment per requested header, in the request's order, each the fragment of that header alone |
| WikiFragments.GetWikiFragments | tools/wrappers.py:153-162 | a missing wiki id and a missing page are reported as failures with their messages; otherwise the fragments of the page are returned |
| WikiFragments.BeforeStart | tools/wrappers.py:190-197 | no line before the fragment's start is the requested header |
| WikiFragments.InsideSection | tools/wrappers.py:206-212 | no line inside a fragment is a header of the requested level or a higher one |
| WikiFragments.EndIsBoundary | tools/wrappers.py:206-212 | a fragment ends at the end of the page or at a header of the requested level or a higher one |
| WikiFragments.FragmentIsSection | tools/wrappers.py:178-221 | for a well-formed header that occurs on the page, the fragment is the stripped text from the header's first occurrence up to, not including, the next header of the same or a higher level, or to the end of the page |
| Pagination.ShrinkLimit | tools/wrappers.py:297-312 | on "page limit exceeded" a limit of 1 gives up; with a known working limit the limit is locked and bisected down towards it, never below it; without one it is halved, at least to 1 |
| Pagination.GrowLimit | tools/wrappers.py:283-293 | after a full page the limit that worked is remembered, and the limit doubles unless it is locked |
| Pagination.LockedNeverGrows | tools/wrappers.py:292-306 | once locked, the limit stays locked and never increases |
| Pagination.LockedAtWorkingIsFixpoint | tools/wrappers.py:297-308 | once the limit is locked at the working size of two or more, a further "page limit exceeded" leaves every limit unchanged, so the same request is sent again |
| Pagination.LimitTextIsDetected | tools/wrappers.py:297 | the server's "page limit exceeded" message is recognised after lower-casing |
| Pagination.RespondFacts | tools/wrappers.py:276-280 | a page served at an offset continues the listing exactly, holds at most the limit, and is short only at the end of the listing; an error is either the page-limit message for a limit above the server's maximum or the failure the server was set to give at that offset |
| Pagination.PaginateAll | tools/wrappers.py:243-316 | the loop returns every item of the listing, in order; it reports the server as broken only when no limit of 1 or more works and no earlier failure is met; any other server error propagates with its message; a server with no failure and a maximum of at least 1 is read completely |
| Wrappers.SearchProjects | tools/wrappers.py:350-392 | a successful search returns the paginated listing filtered by the query; a broken server gives the failure response with the server-error text; other errors propagate |
| Wrappers.FilterProjectsSpec | tools/wrappers.py:381-388 | the filtered projects keep the listing's order and are exactly the projects whose lower-cased id or name contains the lower-cased query; an empty or missing query keeps all |
| Wrappers.AllLevels | tools/wrappers.py:409-412 | no level is collected exactly when no name is on the skill scale |
| Wrappers.AllLevelsNamed | tools/wrappers.py:409-412 | a level is collected exactly when one of the given names maps to it on the skill scale |
| Wrappers.LevelsToRange | tools/wrappers.py:405-415 | no names, an empty list, or only names off the scale give the full range (1, 10) |
| Wrappers.LevelsToRangeSpan | tools/wrappers.py:405-415 | with at least one name on the scale the range is the lowest and highest level those names map to, both attained |
| Wrappers.LevelsToRangeOnScale | tools/wrappers.py:396-415 | the range always lies within 1..10 with its low end at most its high end |
| Wrappers.Merge | tools/wrappers.py:782-783 | a given value replaces the current one; a missing one keeps it |
| Wrappers.Baseline | tools/wrappers.py:790-791 | missing skills or wills of the current record are sent as empty lists |
| Wrappers.UpdateEmployeeInfo | tools/wrappers.py:760-795 | an empty patch re-sends the current record (with empty lists for missing skills and wills); given fields, including empty strings and lists, replace the current ones |
| Wrappers.ApplyPatchFields | tools/wrappers.py:786-793 | each of the six fields is the patch's value when given and the current value otherwise, independently of the other fields |
| Wrappers.ApplyPatchIdempotent | tools/wrappers.py:782-793 | applying the same patch twice gives the same record as applying it once |
| Wrappers.FullPatchOverrides | tools/wrappers.py:782-793 | a patch that gives every field produces the same record whatever the current one was |
| Wrappers.UpdateTimeEntry | tools/wrappers.py:853-865 | each of the six time-entry fields is the patch's value when given and the current value otherwise |
| Wrappers.UpdateTimeEntryKeeps | tools/wrappers.py:853-865 | an empty patch keeps the entry; an empty note and `billable = false` are values that are set, not treated as missing |
| Wrappers.DeleteTarget | tools/wrappers.py:907-915 | the page is reported deleted, under the path that was emptied, exactly when emptying it raises no error |
| Wrappers.DeleteWikiTarget | tools/wrappers.py:881-903 | for a bare file name, clarification is asked exactly when zero or several listed paths are that name or end in `/` and that name; a deletion goes to the one matching path |
| Wrappers.DeleteWikiFullPath | tools/wrappers.py:881-915 | a name containing `/` is emptied directly, without listing the wiki |
| Wrappers.FindKey | tools/wrappers.py:949 | the lookup finds a merged result with the same (file, section, text) key when there is one, and none otherwise |
| Wrappers.MergeHit | tools/wrappers.py:946-955 | merging a hit keeps at most one result per (file, section, text) key |
| Wrappers.MergeHits | tools/wrappers.py:942-955 | merging all hits keeps at most one result per key |
| Wrappers.MergeHitCovers | tools/wrappers.py:949-955 | after merging a hit, its key holds a score at least the hit's, and earlier keys keep scores at least as high as before |
| Wrappers.MergeHitsCovers | tools/wrappers.py:942-955 | every hit of every query is covered by a merged result with the same key and a score at least as high |
| Wrappers.MergeHitsFromInput | tools/wrappers.py:942-955 | every merged result is one of the hits; nothing is invented |
| Wrappers.RunQueries | tools/wrappers.py:939-944 | on success there is one hit list per query, each the search's own answer; a failure is the failure of one of the queries |
| Wrappers.SearchWiki | tools/wrappers.py:918-961 | without a wiki id the search fails with "wiki_sha not available", and a failing query fails it with that query's error; otherwise the results are the `top_k` best-scoring merged hits, or all of them when there are fewer, by descending score, with distinct (file, section, text) keys: no merged hit left out scores above a kept one |
| Wrappers.SortedPrefixIsTopK | tools/wrappers.py:957-958 | the first `top_k` entries of a score-sorted permutation are taken from the pool, and no entry left out scores above one of them |
| Wrappers.SortDescKeepsDistinct | tools/wrappers.py:958 | sorting the merged results keeps their keys distinct |
| Wrappers.SearchWikiBestScores | tools/wrappers.py:942-958 | every hit of every query is covered, before the cut to `top_k`, by a merged result with its key and at least its score |
| Wrappers.BuildAll | tools/wrappers.py:714-729 | the records and error lines together number the requested ids; the batch ends without an answer exactly when some build terminates the task |
| Wrappers.BuildAllRecords | tools/wrappers.py:714-726 | the records are those of the ids that built, in id order: the record of each such id follows those of the ids before it, and there is one per such id |
| Wrappers.BuildAllErrors | tools/wrappers.py:714-729 | the error lines are `id: message` for the ids that failed, in id order, one per such id |
| Wrappers.NoFailedIff | tools/wrappers.py:727-729 | the failure count is zero exactly when no id fails |
| Wrappers.GetEmployees | tools/wrappers.py:679-753 | `total` is the number of employees returned; the employees are the built records in order, each cut to the kept fields when a field list is given; `errors` holds the batch's error lines and is absent exactly when there are none; a server error from any build propagates and ends the batch |
| Wrappers.GetEmployeesSpec | tools/wrappers.py:714-739 | per requested id: an id that built contributes its record, cut to the kept fields, in id order; an id that failed contributes its `id: message` line, in id order; `errors` is absent exactly when no id failed |
| Wrappers.SelectFieldsSpec | tools/wrappers.py:732-739 | a selected record keeps, in order and with their values, exactly the requested fields plus `id` and `notes` |
| Wrappers.LeadsOf | tools/wrappers.py:1038-1040 | the leads of a team are exactly its members whose role is `Lead` |
| Wrappers.AllLeads | tools/wrappers.py:1033-1042 | the collected leads are exactly the `Lead` members of every project whose details load; a project that fails to load is skipped |
| Wrappers.GetProjectLeadsSpec | tools/wrappers.py:1014-1044 | the answer is the one ascending, duplicate-free list of exactly the employees who lead some project that loads |
| Employee.ExecutiveIsNotOperational | tools/employee.py:17-22 | no department is both the executive one and an operational one |
| Employee.Guarded | tools/employee.py:177-196 | a failed call terminates the task exactly when a store client is given and the status is not 404, naming the operation and the status; otherwise the reply, or the fallback after a failure, is used |
| Employee.NotFound | tools/employee.py:186-196 | an employee that cannot be read is stood in for by a record with the requested id, the name `<employee not found>`, empty email, notes, location and department, salary 0 and no skills or wills |
| Employee.EmployeeProjects | tools/employee.py:89-144 | one brief per listed project, in order, with a missing customer or status read as `""`; a failed listing gives no project unless it terminates the task as `SearchProjects` |
| Employee.SkillEntries | tools/employee.py:218-219 | missing skills give an empty list; otherwise one entry per skill, in order, carrying its name and level |
| Employee.BuildExtInfo | tools/employee.py:147-221 | without a store client nothing terminates; a terminating `GetEmployee` failure ends the build first; otherwise the build ends only when projects are asked for and their listing terminates; every field of the record (id, name, email, salary, notes, location, department, skills and wills) is the employee's, or the stub's when it cannot be read, and projects are empty unless asked for |
| Employee.ExtInfoWithoutProjects | tools/employee.py:199-202 | when projects are not asked for, the project listing is never consulted |
| Employee.Members | tools/employee.py:299-304 | every team member is kept, in order, with a missing role read as `""` and a missing time slice as 0 |
| Employee.LastMatch | tools/employee.py:299-306 | the position found holds the employee and no later member does; none is found only when the employee is not in the team |
| Employee.ProjectView | tools/employee.py:308-313 | a project's view keeps its id and reads a missing status as `""` |
| Employee.BuildProjectView | tools/employee.py:297-313 | the loop over the team keeps every member in order and takes the employee's role from their last entry in the team, `""` when absent or without a role |
| Employee.ProjectViews | tools/employee.py:290-320 | the project loop ends the task exactly when reading some listed project terminates it, as `GetProject`, and never yields more views than listed projects |
| Employee.ProjectViewsContents | tools/employee.py:290-320 | a view is in the result exactly when it is the view of a listed project that was read and exists; failed reads and missing projects are skipped |
| Employee.ProjectViewsStep | tools/employee.py:290-320 | each listed project adds its view in front of the later ones when it is found and nothing otherwise, so the views keep the listing's order |
| Employee.ProjectViewsAllFound | tools/employee.py:290-320 | when every listed project is found, there is one view per project, in listing order |
| Employee.BuildSecurityView | tools/employee.py:224-330 | the executive flag holds exactly for `Corporate Leadership` and the operational flag exactly for the four operational departments, never both; the identity is the employee's or the stub's; a failed project listing gives no projects, and otherwise the projects are the loop's views |
| Watchdog.LeadIn | agents/watchdog/agent.py:89-91 | the scan over the team answers true exactly when some member is the requester with the role `Lead` |
| Watchdog.RequesterIsLead | agents/watchdog/agent.py:84-94 | the requester is Lead exactly when the project is read, exists, has a team and that team lists the requester as `Lead`; a failed read answers false |
| Watchdog.DispatchTool | agents/watchdog/agent.py:97-113 | the lead check answers `DONE: True` or `DONE: False` according to the team; the time-entry search answers its JSON or `ERROR: ` and its failure; any other tool answers `ERROR: Unknown tool: ` and its class name |
| Watchdog.StatusOf | agents/watchdog/agent.py:222-223 | allow, deny and concerns keep their status and every other decision, `reconsider` included, becomes deny |
| Watchdog.AfterTool | agents/watchdog/agent.py:261-262 | a tool step appends exactly two messages, the step and the tool's result, and keeps the conversation before them |
| Watchdog.PolicyLoop | agents/watchdog/agent.py:171-270 | every ending status is allow, deny or concerns and agrees with the decision it carries; an ending the loop makes itself is a deny with a reason of at most 500 characters; the loop makes at most three model calls |
| Watchdog.CheckPolicies | agents/watchdog/agent.py:116-270 | the check allows only on the model's own `allow` decision, which carries the task context; every other ending without context is a deny; between one and three model calls are made |
| Watchdog.FailsClosed | agents/watchdog/agent.py:204-270 | a model that never decides, whether it fails, returns nothing or only calls tools, is denied by the loop itself |
| Watchdog.ToolsOnlyExhaust | agents/watchdog/agent.py:245-270 | a model that only calls tools is denied with "Policy check exceeded maximum steps" after three calls |
| Watchdog.FirstCallFails | agents/watchdog/agent.py:204-209 | a failing first call denies with "Policy check failed: " and the error, cut to 500 characters |
| Watchdog.FirstStepDecides | agents/watchdog/agent.py:220-243 | a first step that decides ends the check after one call with the model's decision and the task context; a `reconsider` decision denies |
| WatchdogPrompts.SourceText | agents/watchdog/prompts.py:104-110 | the source line names the file and the section joined by ` > `, or whichever of the two is present |
| WatchdogPrompts.RuleLines | agents/watchdog/prompts.py:94-111 | each rule gives its `### ` category line when it has a category, its text, a `*Source: …*` line when it has a file or section, and a blank line, in that order |
| WatchdogPrompts.FormatJsonRules | agents/watchdog/prompts.py:85-113 | the formatted rules start with the rules heading, and no rules give the heading alone |
| WatchdogPrompts.RulesLinesCount | agents/watchdog/prompts.py:94-111 | every rule gives at least two lines, exactly two without category and source |
| WatchdogPrompts.RulesLinesAppend | agents/watchdog/prompts.py:94-111 | the lines of two lists of rules are the lines of the first followed by the lines of the second |
| WatchdogPrompts.BlocksInOrder | agents/watchdog/prompts.py:94-111 | each rule's block sits between the blocks of the rules before it and those after it, so rules keep their order |
| WatchdogPrompts.RulebookSection | agents/watchdog/prompts.py:126-129 | the rulebook section is empty exactly when the rulebook is empty, and otherwise is the rules heading followed by the rulebook as it is |
| WatchdogPrompts.BuildPrompt | agents/watchdog/prompts.py:116-131 | the prompt keeps the text before and after the placeholder, and the rulebook appears just before the closing text exactly when it is non-empty |
| WatchdogPrompts.BuildUserMessage | agents/watchdog/prompts.py:134-142 | the message is the facts heading with the task JSON, then the line naming the task the decision is for, with nothing else added |
| Solver.EffectiveModelConfig | agents/solver/agent.py:72-86 | a task listed among the complex tasks gets the complex model; every other task gets the agent's default model |
| Solver.EffectiveTimeout | agents/solver/agent.py:89-94 | a listed complex task gets the complex timeout when one is set and the default otherwise; every other task gets the default |
| Solver.ShippedHasNoComplexTask | agents/solver/agent_cfg.py:11-21 | with the configuration as shipped, whose task list is empty, every task uses the default model and the default timeout |
| Solver.ApiOutcome | agents/solver/agent.py:450-451 | a mapped outcome is sent under its API name and an unmapped one unchanged |
| Solver.ApiOutcomeInjective | tools/dtos.py:17-23 | distinct mapped outcomes are sent as distinct API outcomes, and `ok_not_found` keeps its name |
| Solver.SentLinks | agents/solver/agent.py:454-460 | an `ok_not_found` outcome or no requested links send no link; the sent links are requested ones with pairwise distinct (type, id) pairs |
| Solver.SentLinksSpec | agents/solver/agent.py:454-460 | the sent links keep the request's order and are exactly the first occurrence of each (type, id) pair, so every requested pair is sent once |
| Solver.Dispatched | agents/solver/agent.py:448-465 | the dispatched response carries the agent's message, the translated outcome and the deduplicated links |
| Solver.KeptPlan | agents/solver/agent.py:310-311 | a plan longer than five steps is cut to its first five; a shorter one is kept whole |
| Solver.FirstStep | agents/solver/agent.py:314 | the step announced is the first planned step, or the current state when there is no plan |
| Solver.ToolText | agents/solver/agent.py:466-499 | a tool's result reads `ERROR: ` exactly for failures and unknown tools, `INFO: ` exactly for a dict result asking for clarification with `success` false, `DONE: ` with the JSON for every other result, and is empty without a result |
| Solver.StepId | agents/solver/agent.py:245 | step ids start with `step_` |
| Solver.SolveLoop | agents/solver/agent.py:240-541 | the loop ends as completed exactly when a response is dispatched, as `rate_limit_exhausted`, or as `max_steps_exceeded` after all ten calls; it makes at most ten calls; a dispatched response never repeats a link |
| Solver.Solve | agents/solver/agent.py:222-541 | the task ends completed exactly when a response is dispatched, after between one and ten model calls |
| Solver.FirstStopFrom | agents/solver/agent.py:265-269 | the step found is the first from the given one, below ten, whose reply is an agent response or a failure naming the rate limit; when none is found no such step exists |
| Solver.SolveLoopFirstStop | agents/solver/agent.py:240-541 | on the conversation built up to a step, the loop ends with the first stopping reply from there on: completed with that response dispatched, or `rate_limit_exhausted`, after one call more than that step; with no stopping reply it ends `max_steps_exceeded` after ten calls |
| Solver.SolveCompletedIff | agents/solver/agent.py:527-533 | the task completes after k + 1 calls exactly when step k is the first stopping step and it responds, and then that response is dispatched |
| Solver.SolveRateLimitIff | agents/solver/agent.py:266-269 | the task ends `rate_limit_exhausted` exactly when the first stopping reply is a failure naming the rate limit |
| Solver.SolveRunsOutIff | agents/solver/agent.py:240-541 | the task ends `max_steps_exceeded` exactly when no reply in the ten steps stops it |
| Solver.StepsRunOut | agents/solver/agent.py:240-541 | a model that never responds and never hits a rate limit uses all ten steps and ends as `max_steps_exceeded` |
| Solver.FailedCallRetries | agents/solver/agent.py:265-278 | a failed call that is not a rate limit uses up the step, and the next step asks again with the same conversation |
| Solver.RetryThenResponds | agents/solver/agent.py:265-533 | a failure that is not a rate limit followed by a response to the same conversation completes the task after two more calls, with that response dispatched |
| Solver.FirstStepResponds | agents/solver/agent.py:448-535 | a first step that responds completes the task after one call with its dispatched response |
| TimeStats.ParseJsonl | scripts/llm_time_stats.py:22-36 | a file that cannot be read gives no records; a readable one gives at most one record per line |
| TimeStats.RecordsOfSpec | scripts/llm_time_stats.py:26-33 | the records are, one for one and in order, the decoded lines that are neither blank after stripping nor malformed |
| TimeStats.TelemetryOf | scripts/llm_time_stats.py:201-213 | a message carries telemetry exactly when its category is `telemetry` and its body has a duration |
| TimeStats.EventOf | scripts/llm_time_stats.py:185-208 | a task start keeps its spec id; a task log counts as an entry exactly when its message carries telemetry, and then as that telemetry |
| TimeStats.AddTo | scripts/llm_time_stats.py:216-228 | adding an entry under a key creates the key from zero totals when it is missing, adds one call there and changes no other key |
| TimeStats.AttributeSpec | scripts/llm_time_stats.py:185-228 | after any prefix of events the current task is the latest start's spec id, the tasks are exactly the non-empty spec ids started, each task counts the entries after its latest start, and each model counts all of its entries |
| TimeStats.CountedOnlyIfStarted | scripts/llm_time_stats.py:215-221 | no entry is attributed to a task that was never started |
| TimeStats.SessServAttribution | scripts/llm_time_stats.py:171-228 | the server log's tasks are exactly the non-empty spec ids of its task starts, each task's calls are the telemetry entries whose latest preceding start named it, and each model's calls are all of its entries |
| TimeStats.SkippedFilesNoCalls | scripts/llm_time_stats.py:59-87 | a task's call count is that of its agent logs alone: the skipped files add nothing |
| TimeStats.SkippedFilesNoCost | scripts/llm_time_stats.py:59-87 | a task's cost is that of its agent logs alone: the skipped files add nothing |
| TimeStats.StemAt | scripts/llm_time_stats.py:60 | the agent name of a log file is its file name before the last dot |
| TimeStats.TaskResultSkipped | scripts/llm_time_stats.py:62-64 | `task_result.jsonl` in any task directory is never read as an agent's log |
| TimeStats.ResolvedObjectsSkipped | scripts/llm_time_stats.py:62-64 | `resolved_objects.jsonl` in any task directory is never read as an agent's log |
| LogMessage.Search | scripts/llm_time_stats.py:121 | a search finds the capture at the leftmost position where the pattern matches, and finds nothing only when it matches nowhere |
| LogMessage.CategoryAt | scripts/llm_time_stats.py:121-123 | a category read at a position is the quote-free text of `category='…'` found there |
| LogMessage.AfterKey | scripts/llm_time_stats.py:144-162 | a key matched at a position is followed by a colon and then only whitespace up to the value's first character |
| LogMessage.RunAt | scripts/llm_time_stats.py:148-162 | a run read at a position is the longest non-empty run of the wanted characters starting there |
| LogMessage.CloseFrom | scripts/llm_time_stats.py:129-138 | the brace scan stops just after the first brace that brings the depth back to zero, and finds no end only when the depth never returns to zero |
| LogMessage.BodyText | scripts/llm_time_stats.py:126-140 | a body exists exactly when the message contains `body={`; it is the text from that brace to the brace balancing it, or empty when the braces never balance |
| LogMessage.SplitDot | scripts/llm_time_stats.py:150 | a duration's text is the part before its first dot, the dot and the rest |
| LogMessage.ParseBody | scripts/llm_time_stats.py:141-166 | the body is dropped exactly when the duration's digits and dots do not read as a number; otherwise the model is the first quoted model value and the duration is present exactly when one is written |
| LogMessage.ParseLogMessage | scripts/llm_time_stats.py:116-168 | the category is the first `category='…'` of the message and is missing only when there is none; a body is read only when `body={` occurs |
| LogMessage.UnbalancedBodyIsEmpty | scripts/llm_time_stats.py:129-164 | when the braces after `body=` never balance, the body is read from empty text and carries no field |
| NumberFormat.Digits | scripts/llm_time_stats.py:274-276 | a number's digits are decimal digits without a leading zero, a single one exactly below ten |
| NumberFormat.DigitsRoundTrip | scripts/llm_time_stats.py:274-276 | reading a number's digits back gives the number |
| NumberFormat.DigitsInjective | scripts/llm_time_stats.py:274-276 | distinct numbers have distinct digits |
| NumberFormat.IntText | scripts/llm_time_stats.py:274-276 | a number's text is its digits, after a minus sign when it is negative |
| NumberFormat.Groups | scripts/llm_time_stats.py:274-276 | the digits cut into groups, the first of one to three and every other of three, concatenate back to the digits |
| NumberFormat.FmtNum | scripts/llm_time_stats.py:274-276 | the formatted number starts with a minus sign exactly when it is negative, and a number of fewer than four digits is written as it is |
| NumberFormat.GroupedShape | scripts/llm_time_stats.py:274-276 | grouped digits start with a digit, and fewer than four digits stay unchanged |
| NumberFormat.UnspacedJoin | scripts/llm_time_stats.py:274-276 | removing the separating spaces from groups of digits gives their concatenation |
| NumberFormat.FmtNumUnspaced | scripts/llm_time_stats.py:274-276 | the formatted number without its spaces is the number's plain text, so a non-negative number reads back unchanged |
| NumberFormat.FmtNumExample | scripts/llm_time_stats.py:274-276 | 1234567 is written `1 234 567` |
| NumberFormat.DigitsCount | scripts/llm_time_stats.py:274-276 | a number below ten to the k has at most k digits |
| TimeStats.RecordScore | scripts/llm_time_stats.py:109-111 | a result record carries a score exactly when it is an object with a `score` key |
| TimeStats.GetScoreRecords | scripts/llm_time_stats.py:108-111 | reading a task's records leaves the task with the score of its last scored record, when there is one, and every other task's score as it was |
| TimeStats.GetTaskScores | scripts/llm_time_stats.py:101-111 | after the directories are read, a name has the score of the last directory of that name that gives one, and otherwise keeps its earlier score |
| TimeStats.ParseTaskResultsSpec | scripts/llm_time_stats.py:97-113 | with distinct directory names, each directory whose name starts with `t` and whose results carry a score gets the score of its last scored record; a name that no directory has gets none |
| Entities.KindNameInjective | agents/entity_extractor/agent.py:126-133 | distinct entity kinds carry distinct `entity_type` names |
| Entities.NormalizeForFuzzy | agents/entity_extractor/agent.py:569-571 | normalising keeps the length and turns each `-`, `_` and `.` into a space and every other character into its lower case |
| Entities.NormalizedForm | agents/entity_extractor/agent.py:569-571 | normalised text holds no `-`, `_`, `.` or upper-case letter |
| Entities.NormalizeIdempotent | agents/entity_extractor/agent.py:569-571 | normalising twice gives the same text as normalising once |
| Generators.FullDetails | agents/entity_extractor/agent.py:357-364 | every full customer kept is the one the API returned for a listed id, and there are no more of them than ids |
| Generators.ScanWikiPages | agents/entity_extractor/agent.py:548-566 | the wiki candidates are existing pages scoring at least the fuzzy threshold of 60 |
| Generators.SearchWiki | agents/entity_extractor/agent.py:514-566 | a mention containing `.md` gives exactly one wiki candidate for the stripped path, scored 100 and named by its stem with underscores as spaces; without a wiki or its pages there is none otherwise; every wiki candidate scores at least 60 |
| Generators.SearchById | agents/entity_extractor/agent.py:279-327 | the id search finds at most one employee, project and customer, each scored 100, and finds nothing exactly when none of the three exists |
| Generators.CustomerMatches | agents/entity_extractor/agent.py:369-388 | a customer name match scores 85 and a primary contact match scores 90 |
| Generators.SearchStandard | agents/entity_extractor/agent.py:330-402 | the standard search raises exactly when a search or the customer listing raises; its candidates score 85 or 90; a non-empty customer listing after a project search that did not raise replaces the cached customers by their full details, and keeps them there even when the employee search then raises; nothing else in the cache changes |
| Generators.MatchValue | agents/entity_extractor/agent.py:586-617 | a value equal to the mention after normalisation matches with 100; any other matches exactly when it is at least as long as the mention and its ratio reaches 60, and then with that ratio |
| Generators.MatchDepartments | agents/entity_extractor/agent.py:619-621 | department candidates are departments scoring at least 60 |
| Generators.MatchCoded | agents/entity_extractor/agent.py:623-639 | skill and will candidates carry their kind and score at least 60 |
| Generators.MatchSynonyms | agents/entity_extractor/agent.py:653-655 | a matching synonym yields a candidate for its canonical location |
| Generators.MatchLocations | agents/entity_extractor/agent.py:641-655 | location candidates are locations scoring at least 60 |
| Generators.SearchLookups | agents/entity_extractor/agent.py:574-657 | lookup candidates score at least 60 and are departments, skills, wills or locations; skills appear only when the task mentions a skill and wills only when it mentions willingness, interest or travel |
| Generators.ExactDepartmentFound | agents/entity_extractor/agent.py:594-621 | a department equal to the mention after normalisation is always among the candidates, scored 100 |
| Generators.ScanRecords | agents/entity_extractor/agent.py:433-459 | the scan stops exactly at its first perfect match, which is then its last candidate; without one, every record reaching 60 is a candidate |
| Generators.ScanContacts | agents/entity_extractor/agent.py:490-509 | contact candidates are customers scoring at least 60, and only the last may be perfect |
| Generators.ResetForTask | agents/entity_extractor/agent.py:420-428 | a new task id empties the project and employee caches and keeps the customers; the same or no task id keeps the cache |
| Generators.FuzzyAfterProjects | agents/entity_extractor/agent.py:466-511 | past the projects, the candidates are customers and employees scoring at least 60; the project cache is kept and the customer cache is loaded only when empty |
| Generators.SearchFuzzy | agents/entity_extractor/agent.py:405-511 | every fuzzy candidate scores at least the threshold of 60 |
| Generators.FuzzyPerfectProjectStops | agents/entity_extractor/agent.py:461-464 | a perfect project match ends the fuzzy search: all its candidates are projects and the perfect one is last |
| Generators.TaskChangeKeepsCustomers | agents/entity_extractor/agent.py:420-428 | customers already loaded survive the fuzzy search, whatever the task |
| Generators.TaskChangeReloadsProjects | agents/entity_extractor/agent.py:420-463 | on a new task the projects are reloaded from the API and the cache records the new task id |
| Candidates.Aggregate | agents/entity_extractor/agent.py:709-722 | the kept candidates are input candidates sorted by descending score with distinct (type, id) pairs, at most ten, non-empty when the input is, and all perfect when any input is perfect |
| Candidates.AggregateKeepsBest | agents/entity_extractor/agent.py:709-716 | a kept candidate is the first of the best-scoring input candidates with its (type, id) pair |
| Candidates.AggregateKeepsAllIdentities | agents/entity_extractor/agent.py:709-722 | with no perfect candidate and at most ten inputs, every (type, id) pair of the input survives |
| Candidates.LaterLevels | agents/entity_extractor/agent.py:696-707 | the lookups run exactly when no candidate so far is perfect, and the fuzzy search exactly when there are still no candidates after them; without the fuzzy search the cache is unchanged |
| Candidates.RankedLevels | agents/entity_extractor/agent.py:688-722 | the id search runs exactly for id-like mentions and the standard search exactly when nothing was found before it; the result is at most ten distinct candidates in descending score, all perfect when the lookups were skipped; an exception is the standard search's, with the cache it left |
| Candidates.CandidatesFor | agents/entity_extractor/agent.py:670-722 | an unreplaceable mention gets no candidates and runs no level; a mention that is not bypassed gets the ranked search levels, after the wiki search exactly when it mentions a wiki, and raises exactly when they raise, with their exception and cache |
| Candidates.MarkdownPath | agents/entity_extractor/agent.py:680-685 | a mention naming a `.md` path gets only its direct wiki candidate, and no other level runs |
| Candidates.WikiBypass | agents/entity_extractor/agent.py:680-685 | a wiki search with a perfect hit gives the mention exactly the wiki candidates, unsorted and untruncated, and no other level runs |
| Candidates.SearchCandidates | agents/entity_extractor/agent.py:660-724 | the result has one entry per distinct mention |
| Candidates.SearchEachKeys | agents/entity_extractor/agent.py:668-673 | a mention has an entry exactly when it was extracted |
| Candidates.SearchEachLast | agents/entity_extractor/agent.py:670-722 | the entry of the last mention is its own candidate search, run with the cache the earlier mentions left |
| Candidates.SearchEachRaised | agents/entity_extractor/agent.py:670-722 | an exception of the loop is the exception of a mention whose search raised, run with the cache the mentions before it left, so that cache state is what the exception carries out |
| Resolution.TagFor | agents/entity_extractor/agent.py:782 | a mention's tag is its candidate's type and id, joined by a colon and wrapped in braces |
| Resolution.Classify | agents/entity_extractor/agent.py:765-775 | a mention without candidates is skipped; it is resolved automatically only by its single perfect candidate |
| Resolution.TwoPerfectIsAmbiguous | agents/entity_extractor/agent.py:771-775 | two different perfect candidates send a mention to the arbiter |
| Resolution.SplitMentionsSpec | agents/entity_extractor/agent.py:761-775 | a mention is auto-resolved exactly when it was extracted and has a single perfect candidate, and arbitrated exactly when it was extracted and is otherwise ambiguous |
| Resolution.Substitute | agents/entity_extractor/agent.py:777-783 | every candidate's id ends up used, and no tag is applied for an id already used |
| Resolution.SubstituteDistinct | agents/entity_extractor/agent.py:777-783 | no object id is tagged twice |
| Resolution.SubstituteAllFresh | agents/entity_extractor/agent.py:777-783 | candidates with fresh, pairwise distinct ids are all applied, in order |
| Resolution.SubstituteOne | agents/entity_extractor/agent.py:782-783 | a fresh candidate replaces the first occurrence of its mention by its tag |
| Resolution.FindCandidateByIdIsFirst | agents/entity_extractor/agent.py:731-740 | the candidate found for an id is the first with that id across all mentions' candidates in order |
| Resolution.Rejected | agents/entity_extractor/agent.py:843-848 | the rejected mentions are exactly those whose selection names no id |
| Resolution.SelectionPairs | agents/entity_extractor/agent.py:850-857 | only selections naming an id that has a candidate are applied, each with the first candidate of that id; conversely every selection naming an id that has a candidate contributes its mention with that first candidate |
| Resolution.Arbitrate | agents/entity_extractor/agent.py:785-866 | with nothing ambiguous, or with a failed arbiter, the text and tags are those of the automatic pass, and the rejected mentions are none or all ambiguous ones; when the arbiter answers, the rejected mentions are those it left without a selection, the text is the automatic text with the selected candidates substituted over the ids already used, and the tags are the automatic ones followed by the selected ones applied; no id is tagged twice |
| Resolution.ResolveEntities | agents/entity_extractor/agent.py:743-866 | across the automatic and the arbitrated substitutions, no object id is tagged twice |
| Resolution.SubstituteIsDedup | agents/entity_extractor/agent.py:777-783 | substituting a list of mentions applies exactly the first pair of each object id not already used, in order, and the text is the original with each applied mention's first occurrence replaced by its tag, one after the other |
| Resolution.SubstituteTextIsDedup | agents/entity_extractor/agent.py:777-783 | the substituted text is the original with the first occurrence of each kept mention replaced by its tag, in order, where a pair is kept when its object id is neither already used nor taken by an earlier pair |
| Resolution.SubstituteAppliedIsDedup | agents/entity_extractor/agent.py:777-783 | the applied candidates are those of the kept pairs, one per fresh object id, in order |
| Resolution.ResolveEntitiesSpec | agents/entity_extractor/agent.py:743-866 | the resolved text and tags are the automatic pairs deduplicated by id and substituted in order; when an ambiguous mention exists and the arbiter answers, its selection pairs, deduplicated against the automatic ids, are substituted next and their candidates follow the automatic ones in the tags; otherwise the automatic result stands |
| Resolution.ResolveRejected | agents/entity_extractor/agent.py:785-848 | nothing ambiguous means nothing rejected; a failed arbiter rejects every ambiguous mention; otherwise the arbiter's empty selections are rejected |
| Resolution.NoAmbiguityNoArbiter | agents/entity_extractor/agent.py:785-787 | without an ambiguous mention the arbiter is never consulted and nothing is rejected |
| ResolvedObjects.MatchAt | agents/entity_extractor/agent.py:892-894 | a tag read at the start of the text is `{type:id}` with a non-empty word-character type and a non-empty id without a closing brace |
| ResolvedObjects.ScanTags | agents/entity_extractor/agent.py:891-894 | every tag found has a non-empty type without a colon and a non-empty id without a closing brace |
| ResolvedObjects.ScanTagsSkips | agents/entity_extractor/agent.py:891-894 | text without an opening brace contributes no tag |
| ResolvedObjects.TagRoundTrip | agents/entity_extractor/agent.py:892-894 | a candidate's tag is read back as its own type and id |
| ResolvedObjects.CandidateForTag | agents/entity_extractor/agent.py:897-910 | a tag's object is a candidate with that type and id, and none is found only when no candidate has them |
| ResolvedObjects.ObjectsOfSpec | agents/entity_extractor/agent.py:889-912 | a tag yields an entry exactly when it occurs and some candidate has its type and id; the entry holds the type, the id and that candidate's data or an empty dict |
| ResolvedObjects.BuildResolvedObjects | agents/entity_extractor/agent.py:873-912 | the resolved objects have distinct keys |
| ResolvedObjects.BuildResolvedObjectsSpec | agents/entity_extractor/agent.py:873-912 | a key is resolved exactly when its tag occurs in the text and has a candidate, with that candidate's data |
| ResolvedObjects.TaggedCandidateIsResolved | agents/entity_extractor/agent.py:873-912 | a text holding a candidate's tag resolves that candidate's key |
| DualView.Requester | agents/entity_extractor/agent.py:994-997 | the requester is known exactly for a non-public identity with a current user |
| DualView.Prefix | agents/entity_extractor/agent.py:988-1019 | a guest's task reads `Guest asks`, a known requester's names the requester's employee tag, and an employee without a user id reads `Employee asks`, each after today's date |
| DualView.AuthorEntries | agents/entity_extractor/agent.py:1000-1031 | only a known requester contributes an entry, keyed `employee:<id>` |
| DualView.Enrich | agents/entity_extractor/agent.py:1034-1055 | enrichment keeps the keys, types and ids; employees and projects take the view built for them when it succeeds and keep their data when it fails; other objects are unchanged |
| DualView.TypesOf | agents/entity_extractor/agent.py:1101-1107 | the detected entity types are exactly the non-empty types of the objects |
| DualView.BuildViewsKeys | agents/entity_extractor/agent.py:1027-1072 | the security objects are the requester, first, and the text objects; the security text carries the prefix; a self-referential task gives the solver the security view, any other the bare text and the text objects |
| DualView.TextObjectOverridesAuthor | agents/entity_extractor/agent.py:1029-1032 | an object found in the text overrides the requester's entry under the same key |
| DualView.Unresolved | agents/entity_extractor/agent.py:976-980 | the unresolved mentions are exactly those without candidates and those the arbiter rejected |
| DualView.UnresolvedInOrder | agents/entity_extractor/agent.py:979-980 | the unresolved mentions are the mentions without candidates, in extraction order, followed by the rejected ones |
| DualView.Extract | agents/entity_extractor/agent.py:935-1099 | without extracted mentions nothing is unresolved, the cache is untouched and the security text is the prefixed task; the pass raises only with the candidate search's exception, carrying the cache it left |
| DualView.NoCandidatesNoResolution | agents/entity_extractor/agent.py:966-980 | when no mention has a candidate the arbiter is never asked, the text stays untagged and every mention is unresolved |
| Core.FilterFieldsFixes | infra/core.py:328-333 | a dict already free of `None` at every depth is left as it is |
| Strings.ReplaceFirst | agents/entity_extractor/agent.py:783 | `str.replace(pat, rep, 1)` replaces the first occurrence of the pattern and leaves text without it unchanged |
| Strings.Lower | agents/entity_extractor/agent.py:672 | lower-casing keeps the length and lower-cases each character on its own |
| Strings.LowerIdempotent | agents/entity_extractor/agent.py:672 | lower-casing twice gives the same text as once |

## Behaviour that follows the code

Where the code departs from what its comments and names suggest, the model
follows the code:

- `_search_standard` (agents/entity_extractor/agent.py:330-402) protects only
  the per-customer detail lookups. An API exception that the search wrappers
  do not turn into a failed response propagates out of `search_candidates`, so
  `Generators.SearchStandard` and everything above it return an error. The
  error carries the fuzzy cache as it stood when the exception was raised:
  customers loaded before a failing employee search stay cached, as do the
  caches that earlier mentions filled (`Generators.Raised`).
- When a mention's wiki search has a perfect hit, the wiki list is returned as
  it is: unsorted, not deduplicated and not truncated (`Candidates.WikiBypass`).
- The branch that should clear the customer cache on a task change assigns
  `[]` to a partition that is already empty. Loaded customers therefore
  survive every task change (`Generators.TaskChangeKeepsCustomers`).
- In the fuzzy search, the result of the employee pass is ignored. A perfect
  employee match does not stop the contact-name pass that follows.
- When enriching an employee or a project fails, the object keeps the data it
  had. Nothing is emptied (`DualView.Enrich`).
- The watchdog's `_dispatch_tool` returns the time-entry search result as bare
  JSON, without the `DONE: ` prefix the other tools carry.
- The solver ends a task as `completed` once the agent responds, even when
  sending the response fails.

## Left out

- Language-model calls are oracles: metadata and entity extraction, the arbiter, the watchdog's and solver's reasoning, and JSON repair. Prompt wording, retries and sleeps are not modelled, because they carry no deterministic behaviour.
- Company-API requests are functions given to the model. The `erc3` client, pydantic validation and `model_dump` are not modelled: the model sees records as JSON values.
- `rapidfuzz.token_set_ratio` is an uninterpreted function. The txtai embedding index and its SQL engine are left out, and only the query string that `search` builds is modelled.
- File-system access is replaced by given contents: lookup loading, wiki walks, JSON reads and writes, log appends and SHA-256 checksums. Unreadable files are modelled only where the code turns them into a value.
- Candidate scores are whole numbers 0..100. The source uses floats; the code only compares scores with 60 and 100 and orders them, but two fuzzy ratios that differ by less than one are not distinguished here.
- Floating-point quantities are left out: cost and duration sums, `time_slice`, `round`, the session summary's averages and median, and `fmt_k`. `TimeStats.ParseSessServ` models the attribution before rounding and summary, and counts calls rather than summing durations.
- Of `parse_agent_logs`, only the per-task call count and cost and the file skip list are modelled. The per-model and per-agent tables are left out because they are float sums of the same records.
- TimeStats.RecordScore: a `task_result.jsonl` record that is not a JSON object carries no score here. In the script, `"score" in r` on a number raises, and on a list or string containing "score" the lookup that follows raises.
- Timing is left out: solver and watchdog timeouts, `perf_counter` durations and the session orchestration in `main.py`. `Solver.EffectiveTimeout` chooses the value but does not enforce it.
- The wording of the `doubles.txt` report is left out: which items it lists is modelled (`ExtractWiki.Duplicates`), not the lines it writes for them.
- Console output and ANSI colouring are left out, as are `print_report` and the script's entry point.
- Schema.MakeStrict: the error path is not modelled. The model requires every object schema, at any depth, to hold its `properties` as a dict (`Schema.StrictSafe`). On any other value the Python code raises when it reads the property names, at infra/llm.py:125. Its one caller passes the output of pydantic's `model_json_schema()`, which always holds a dict there.
- Strings.Lower: case mapping is ASCII-only; Python's `str.lower` is Unicode-aware. `strip` and `\s` likewise know only the ASCII whitespace of `str.isspace`, including the separators 28 to 31 but not its non-ASCII members such as U+0085 and U+00A0; `\d` and `\w` use the ASCII classes; and `splitlines` splits on `\n` only.
- TimeStats.ParseJsonl: the content is cut at `\n` only. Python's text mode also ends a line at a lone `\r`; a file with such line ends gives fewer records here, because the joined lines do not decode.
- Pagination.PaginateAll: the server keeps one maximum page size and never reports "page limit exceeded" for another reason (`Pagination.WellBehaved`). On a server that rejects a size it accepted before, the source resends the same request forever once the limit is locked at the working size (`Pagination.LockedAtWorkingIsFixpoint`); the model does not cover that server, since the loop would not end.
- Strings.FileName: paths are taken literally. `pathlib`'s normalisation of trailing and repeated slashes is not modelled.
- Wrappers.GetEmployees: the final sort is left out. Its keys mix types in a way that depends on runtime values.
- ReprList quoting follows the simple case: Python's `repr` switching to double quotes for strings that contain a single quote is not modelled.
- Wrappers that only pass a request through to the API are left out: listings, `search_employees` criteria, `search_customers`, `search_time_entries`, `get_project`, `batch_update_employees`, `get_employees_workload`, `rename_wiki`, `create_wiki_pages` and `get_current_employee`. So are the wiki page readers.
- `format_json_rules` is modelled on its own. `build_prompt` inserts the rulebook as given, JSON or not, and the model follows that.
- The repeated-call stability of `build_resolved_objects` is not stated separately: every function here is deterministic.
- The fuzzy cache is explicit state threaded through the calls. The module-level global of the source is not modelled as shared mutable state.

=== FILE: assoc.dfy ===
/**
 * Python's insertion-ordered `dict` with string keys, as an association list.
 * Assigning to a present key overwrites its value in place; assigning to an
 * absent key appends it at the end.
 */
module Assoc {
  import opened Base

  datatype Entry<+V> = Entry(key: string, val: V)

  type Dict<+V> = seq<Entry<V>>

  function Keys<V>(d: Dict<V>): (r: seq<string>)
    ensures |r| == |d|
    ensures forall i :: 0 <= i < |d| ==> r[i] == d[i].key
  {
    if |d| == 0 then [] else [d[0].key] + Keys(d[1..])
  }

  /** No key occurs twice, as in every Python dict. */
  predicate DistinctKeys<V>(d: Dict<V>) {
    forall i, j :: 0 <= i < j < |d| ==> d[i].key != d[j].key
  }

  predicate HasKey<V>(d: Dict<V>, k: string) {
    k in Keys(d)
  }

  /** `d.get(k)`: the value of the first entry with key `k`. */
  function Get<V>(d: Dict<V>, k: string): (r: Option<V>)
    ensures r.Some? <==> HasKey(d, k)
    ensures r.Some? ==> exists i :: 0 <= i < |d| && d[i] == Entry(k, r.value)
  {
    if |d| == 0 then None
    else if d[0].key == k then Some(d[0].val)
    else Get(d[1..], k)
  }

  /** Index of the first entry with key `k`. */
  function IndexOf<V>(d: Dict<V>, k: string): (r: nat)
    requires HasKey(d, k)
    ensures r < |d| && d[r].key == k
    ensures forall i :: 0 <= i < r ==> d[i].key != k
  {
    if d[0].key == k then 0 else 1 + IndexOf(d[1..], k)
  }

  /** `d[k] = v`. */
  function Put<V>(d: Dict<V>, k: string, v: V): (r: Dict<V>)
    ensures HasKey(d, k) ==> Keys(r) == Keys(d)
    ensures !HasKey(d, k) ==> Keys(r) == Keys(d) + [k]
  {
    if |d| == 0 then [Entry(k, v)]
    else if d[0].key == k then [Entry(k, v)] + d[1..]
    else
      assert Keys(d) == [d[0].key] + Keys(d[1..]);
      [d[0]] + Put(d[1..], k, v)
  }

  /** After `d[k] = v`, the keys are those of `d` and `k`. */
  lemma PutKeys<V>(d: Dict<V>, k: string, v: V, k': string)
    ensures HasKey(Put(d, k, v), k') <==> HasKey(d, k') || k' == k
  {
    if !HasKey(d, k) {
      assert Keys(Put(d, k, v)) == Keys(d) + [k];
    }
  }

  /** After `d[k] = v`, `k` maps to `v` and every other key is unchanged. */
  lemma {:induction false} GetPut<V>(d: Dict<V>, k: string, v: V, k': string)
    ensures Get(Put(d, k, v), k') == if k' == k then Some(v) else Get(d, k')
  {
    if |d| > 0 && d[0].key != k {
      GetPut(d[1..], k, v, k');
      assert Put(d, k, v)[1..] == Put(d[1..], k, v);
    }
  }

  lemma PutDistinct<V>(d: Dict<V>, k: string, v: V)
    requires DistinctKeys(d)
    ensures DistinctKeys(Put(d, k, v))
  {
    var r := Put(d, k, v);
    forall i, j | 0 <= i < j < |r| ensures r[i].key != r[j].key {
      assert Keys(r)[i] == r[i].key && Keys(r)[j] == r[j].key;
      if HasKey(d, k) {
        assert Keys(d)[i] == d[i].key && Keys(d)[j] == d[j].key;
      } else if j < |d| {
        assert Keys(d)[i] == d[i].key && Keys(d)[j] == d[j].key;
      } else {
        assert Keys(d)[i] == d[i].key;
      }
    }
  }

  /** `d.update(e)`: every entry of `e`, in order, assigned into `d`. */
  function Update<V>(d: Dict<V>, e: Dict<V>): (r: Dict<V>)
    ensures |r| >= |d| && Keys(r)[..|d|] == Keys(d)
    decreases |e|
  {
    if |e| == 0 then d
    else
      var d' := Put(d, e[0].key, e[0].val);
      assert Keys(d')[..|d|] == Keys(d);
      Update(d', e[1..])
  }

  /** After `d.update(e)` a key is present iff it was in `d` or in `e`. */
  lemma {:induction false} UpdateHasKey<V>(d: Dict<V>, e: Dict<V>, k: string)
    ensures HasKey(Update(d, e), k) <==> HasKey(d, k) || HasKey(e, k)
    decreases |e|
  {
    if |e| > 0 {
      var d' := Put(d, e[0].key, e[0].val);
      UpdateHasKey(d', e[1..], k);
      assert Keys(e) == [e[0].key] + Keys(e[1..]);
      assert HasKey(d', k) <==> HasKey(d, k) || k == e[0].key;
    }
  }

  lemma {:induction false} UpdateDistinct<V>(d: Dict<V>, e: Dict<V>)
    requires DistinctKeys(d)
    ensures DistinctKeys(Update(d, e))
    decreases |e|
  {
    if |e| > 0 {
      PutDistinct(d, e[0].key, e[0].val);
      UpdateDistinct(Put(d, e[0].key, e[0].val), e[1..]);
    }
  }

  /** With distinct keys in `e`, `d.update(e)` takes every key of `e` from `e` and the rest from `d`. */
  lemma {:induction false} GetUpdate<V>(d: Dict<V>, e: Dict<V>, k: string)
    requires DistinctKeys(e)
    ensures Get(Update(d, e), k) == if HasKey(e, k) then Get(e, k) else Get(d, k)
    decreases |e|
  {
    if |e| > 0 {
      var d' := Put(d, e[0].key, e[0].val);
      assert DistinctKeys(e[1..]);
      GetUpdate(d', e[1..], k);
      GetPut(d, e[0].key, e[0].val, k);
      assert Keys(e) == [e[0].key] + Keys(e[1..]);
    }
  }
}

=== FILE: base.dfy ===
/** Failure-carrying wrappers shared by every module of the model. */
module Base {

  /** Python's `Optional[T]`: a value or `None`. */
  datatype Option<+T> = None | Some(value: T) {
    function GetOr(default: T): T {
      match this
      case Some(v) => v
      case None => default
    }
  }

  /** A computation that either produces a value or raises. */
  datatype Result<+T, +E> = Ok(value: T) | Err(error: E)

  /** Python truthiness of an optional string: `None` and `""` are falsy. */
  predicate Truthy(s: Option<string>) {
    s.Some? && s.value != ""
  }
}

=== FILE: candidates.dfy ===
/**
 * `search_candidates`: for each mention, the generators run in order of
 * precedence (wiki, exact id, standard search, lookups, fuzzy) and their
 * candidates are ranked, deduplicated and cut to the top ten.
 */
module Candidates {
  import opened Base
  import opened Strings
  import opened Seqs
  import opened Assoc
  import opened Entities
  import opened Generators

  /** How many candidates a mention keeps. */
  const MaxCandidates := 10

  // ---------------------------------------------------------------------------
  // Ranking
  // ---------------------------------------------------------------------------

  /**
   * The ranking step: a stable sort by descending score, the first candidate
   * of each `(entity_type, object_id)`, only the perfect ones when the best
   * is perfect, and at most ten.
   */
  function Aggregate(cands: seq<Candidate>): (r: seq<Candidate>)
    ensures |r| <= MaxCandidates
    ensures DistinctCands(r)
    ensures SortedDesc(ScoreOf, r)
    ensures forall x :: x in r ==> x in cands
    ensures |cands| > 0 ==> |r| > 0
    ensures AnyPerfect(cands) ==> AllPerfect(r)
  {
    var sorted := SortDesc(ScoreOf, cands);
    var unique := Dedup(CandKey, sorted, {});
    var kept := if |unique| > 0 && unique[0].score == 100 then Filter(Perfect, unique) else unique;
    UniqueFacts(cands);
    KeptFacts(unique);
    TakeFacts(kept, MaxCandidates);
    Take(kept, MaxCandidates)
  }

  /** A prefix keeps distinctness, order, perfection and membership. */
  lemma TakeFacts(s: seq<Candidate>, n: nat)
    ensures var r := Take(s, n);
      (DistinctCands(s) ==> DistinctCands(r)) && (SortedDesc(ScoreOf, s) ==> SortedDesc(ScoreOf, r))
      && (AllPerfect(s) ==> AllPerfect(r)) && (forall x :: x in r ==> x in s)
      && (|s| > 0 && n > 0 ==> |r| > 0)
  {
    var r := Take(s, n);
    assert forall i :: 0 <= i < |r| ==> r[i] == s[i];
  }

  predicate DistinctCands(cs: seq<Candidate>) {
    forall i, j :: 0 <= i < j < |cs| ==> CandKey(cs[i]) != CandKey(cs[j])
  }

  predicate AllPerfect(cs: seq<Candidate>) {
    forall i :: 0 <= i < |cs| ==> cs[i].score == 100
  }

  /** Sorting and deduplication keep only input candidates, in descending order, a perfect one first if any. */
  lemma UniqueFacts(cands: seq<Candidate>)
    ensures var unique := Dedup(CandKey, SortDesc(ScoreOf, cands), {});
      DistinctCands(unique) && SortedDesc(ScoreOf, unique)
      && (forall x :: x in unique ==> x in cands)
      && (|cands| > 0 ==> |unique| > 0)
      && (AnyPerfect(cands) ==> |unique| > 0 && unique[0].score == 100)
  {
    UniqueOrdered(cands);
    UniqueFromInput(cands);
    UniquePerfectFirst(cands);
  }

  lemma UniqueOrdered(cands: seq<Candidate>)
    ensures var unique := Dedup(CandKey, SortDesc(ScoreOf, cands), {});
      DistinctCands(unique) && SortedDesc(ScoreOf, unique)
  {
    DedupSorted(CandKey, ScoreOf, SortDesc(ScoreOf, cands), {});
  }

  lemma UniqueFromInput(cands: seq<Candidate>)
    ensures forall x :: x in Dedup(CandKey, SortDesc(ScoreOf, cands), {}) ==> x in cands
  {
    var sorted := SortDesc(ScoreOf, cands);
    forall x | x in Dedup(CandKey, sorted, {}) ensures x in cands {
      assert x in multiset(sorted);
    }
  }

  lemma UniquePerfectFirst(cands: seq<Candidate>)
    ensures var unique := Dedup(CandKey, SortDesc(ScoreOf, cands), {});
      (|cands| > 0 ==> |unique| > 0) && (AnyPerfect(cands) ==> |unique| > 0 && unique[0].score == 100)
  {
    var sorted := SortDesc(ScoreOf, cands);
    var unique := Dedup(CandKey, sorted, {});
    if |cands| > 0 {
      assert unique[0] == sorted[0];
      if AnyPerfect(cands) {
        var i :| 0 <= i < |cands| && cands[i].score == 100;
        assert cands[i] in multiset(sorted);
        var j :| 0 <= j < |sorted| && sorted[j] == cands[i];
        assert ScoreOf(sorted[0]) >= ScoreOf(sorted[j]);
      }
    }
  }

  /** Keeping only the perfect candidates when the best one is perfect. */
  lemma KeptFacts(unique: seq<Candidate>)
    requires DistinctCands(unique) && SortedDesc(ScoreOf, unique)
    ensures var kept := if |unique| > 0 && unique[0].score == 100 then Filter(Perfect, unique) else unique;
      DistinctCands(kept) && SortedDesc(ScoreOf, kept)
      && (forall x :: x in kept ==> x in unique)
      && (|unique| > 0 ==> |kept| > 0)
      && (|unique| > 0 && unique[0].score == 100 ==> AllPerfect(kept))
  {
    if |unique| > 0 && unique[0].score == 100 {
      var kept := Filter(Perfect, unique);
      FilterDistinct(Perfect, CandKey, unique);
      FilterSpec(Perfect, unique);
      assert unique[0] in kept;
    }
  }

  /**
   * Every candidate that survives ranking is, for its identity, the one with
   * the best score, and among equal scores the one generated first.
   */
  lemma AggregateKeepsBest(cands: seq<Candidate>, x: Candidate)
    requires x in Aggregate(cands)
    ensures forall y :: y in cands && CandKey(y) == CandKey(x) ==> y.score <= x.score
    ensures FirstOfIdKey(CandKey, CandKey(x), ScoreOf, x.score, cands) == Some(x)
  {
    var sorted := SortDesc(ScoreOf, cands);
    var unique := Dedup(CandKey, sorted, {});
    var kept := if |unique| > 0 && unique[0].score == 100 then Filter(Perfect, unique) else unique;
    assert x in kept;
    if |unique| > 0 && unique[0].score == 100 {
      FilterMember(Perfect, unique, x);
    }
    FirstSeenMax(CandKey, ScoreOf, cands, x);
  }

  /** Without a perfect match and with at most ten candidates, every identity offered is kept. */
  lemma AggregateKeepsAllIdentities(cands: seq<Candidate>, y: Candidate)
    requires |cands| <= MaxCandidates && !AnyPerfect(cands) && y in cands
    ensures exists x :: x in Aggregate(cands) && CandKey(x) == CandKey(y)
  {
    var sorted := SortDesc(ScoreOf, cands);
    var unique := Dedup(CandKey, sorted, {});
    DedupCovers(CandKey, ScoreOf, cands, y);
    UniqueFromInput(cands);
    assert |unique| <= |cands|;
    if |unique| > 0 {
      assert unique[0] in cands;
      assert unique[0].score != 100;
    }
    assert Take(unique, MaxCandidates) == unique;
    assert Aggregate(cands) == unique;
  }

  // ---------------------------------------------------------------------------
  // One mention
  // ---------------------------------------------------------------------------

  /** What the generators see besides the mention: API, wiki, lookup tables, task, and the fuzzy ratio. */
  datatype Env = Env(api: Api, wikiSha: Option<string>, wikiPages: Option<seq<string>>, lookups: Lookups,
                     taskText: string, taskId: Option<string>, ratio: Ratio)

  /** Which generator levels ran for a mention. */
  datatype Levels = Levels(wiki: bool, byId: bool, standard: bool, lookups: bool, fuzzy: bool)

  const NoLevels := Levels(false, false, false, false, false)

  predicate WikiLike(text: string) {
    Contains(Lower(text), "wiki") || Contains(Lower(text), ".md")
  }

  function WikiCands(env: Env, text: string): seq<Candidate> {
    SearchWiki(env.wikiSha, text, env.wikiPages, env.ratio)
  }

  function IdCands(env: Env, text: string): seq<Candidate> {
    if LooksLikeId(text) then SearchById(env.api, text) else []
  }

  /** A mention whose candidates bypass the ranking: unreplaceable, or a wiki search with a perfect hit. */
  predicate Bypassed(env: Env, text: string) {
    Unreplaceable(Lower(text)) || (WikiLike(text) && AnyPerfect(WikiCands(env, text)))
  }

  /** Lookups and fuzzy search, after the first three levels produced `c2`. */
  function LaterLevels(env: Env, text: string, c2: seq<Candidate>, cache: FuzzyCache)
    : (r: (seq<Candidate>, FuzzyCache, bool, bool))
    ensures r.2 <==> !AnyPerfect(c2)
    ensures r.3 <==> !AnyPerfect(c2) && |c2| == 0 && SearchLookups(env.lookups, text, env.taskText, env.ratio) == []
    ensures !r.3 ==> r.1 == cache
  {
    var lk := !AnyPerfect(c2);
    var c3 := c2 + (if lk then SearchLookups(env.lookups, text, env.taskText, env.ratio) else []);
    var fz := !AnyPerfect(c3) && |c3| == 0;
    if fz then
      var f := SearchFuzzy(env.api, text, env.taskId, cache, env.ratio);
      (c3 + f.0, f.1, lk, fz)
    else (c3, cache, lk, fz)
  }

  /**
   * Levels 1 to 4 and the ranking, for a mention that was not bypassed:
   * the exact-id search, the standard search when nothing was found yet,
   * then lookups and fuzzy search.
   */
  function RankedLevels(env: Env, text: string, w: seq<Candidate>, cache: FuzzyCache)
    : (r: Result<(seq<Candidate>, FuzzyCache, Levels), Raised>)
    ensures r.Ok? ==> |r.value.0| <= MaxCandidates && DistinctCands(r.value.0) && SortedDesc(ScoreOf, r.value.0)
    ensures r.Ok? ==> var lv := r.value.2;
      (lv.byId <==> LooksLikeId(text))
      && (lv.standard <==> w == [] && IdCands(env, text) == [])
      && (lv.fuzzy ==> lv.standard && lv.lookups && SearchLookups(env.lookups, text, env.taskText, env.ratio) == [])
      && (!lv.standard && !lv.fuzzy ==> r.value.1 == cache)
    ensures r.Ok? && !r.value.2.lookups ==> AllPerfect(r.value.0)
    ensures r.Err? ==> w == [] && IdCands(env, text) == [] && SearchStandard(env.api, text, cache) == Err(r.error)
  {
    var c1 := w + IdCands(env, text);
    var stdRan := |c1| == 0;
    var std := if stdRan then SearchStandard(env.api, text, cache) else Ok(([], cache));
    if std.Err? then Err(std.error)
    else
      var c2 := c1 + std.value.0;
      var later := LaterLevels(env, text, c2, std.value.1);
      assert !later.2 ==> AnyPerfect(later.0) by {
        if !later.2 {
          var i :| 0 <= i < |c2| && c2[i].score == 100;
          assert later.0[i] == c2[i];
        }
      }
      Ok((Aggregate(later.0), later.1, Levels(false, LooksLikeId(text), stdRan, later.2, later.3)))
  }

  /**
   * The candidates of one mention, the fuzzy cache afterwards, and the
   * levels that ran; an exception of the standard search propagates.
   */
  function CandidatesFor(env: Env, text: string, cache: FuzzyCache): (r: Result<(seq<Candidate>, FuzzyCache, Levels), Raised>)
    ensures Unreplaceable(Lower(text)) ==> r == Ok(([], cache, NoLevels))
    ensures !Bypassed(env, text) ==>
      var rk := RankedLevels(env, text, if WikiLike(text) then WikiCands(env, text) else [], cache);
      (r.Err? <==> rk.Err?) && (r.Err? ==> r.error == rk.error) && (r.Ok? ==> r.value == (rk.value.0, rk.value.1, rk.value.2.(wiki := WikiLike(text))))
  {
    var lowered := Lower(text);
    if Unreplaceable(lowered) then Ok(([], cache, NoLevels))
    else
      var wikiRan := WikiLike(text);
      var w := if wikiRan then WikiCands(env, text) else [];
      if |w| > 0 && AnyPerfect(w) then Ok((w, cache, NoLevels.(wiki := true)))
      else
        match RankedLevels(env, text, w, cache)
        case Err(e) => Err(e)
        case Ok((cands, cache', levels)) => Ok((cands, cache', levels.(wiki := wikiRan)))
  }

  /** A mention naming a `.md` path gets the single direct wiki candidate for that path. */
  lemma MarkdownPath(env: Env, text: string, cache: FuzzyCache)
    requires !Unreplaceable(Lower(text)) && Contains(Lower(text), ".md")
    ensures CandidatesFor(env, text, cache)
         == Ok(([Candidate(Wiki, Strip(text), ReplaceChar(Stem(Strip(text)), '_', ' '), 100, None)], cache,
                NoLevels.(wiki := true)))
  {
    var w := WikiCands(env, text);
    assert w[0].score == 100;
    WikiBypass(env, text, cache);
  }

  /** A wiki search with a perfect hit gives the mention exactly the wiki candidates, unranked, and no other level runs. */
  lemma WikiBypass(env: Env, text: string, cache: FuzzyCache)
    requires !Unreplaceable(Lower(text)) && WikiLike(text) && AnyPerfect(WikiCands(env, text))
    ensures CandidatesFor(env, text, cache) == Ok((WikiCands(env, text), cache, NoLevels.(wiki := true)))
  {
  }

  // ---------------------------------------------------------------------------
  // All mentions
  // ---------------------------------------------------------------------------

  /** The candidates and cache of one mention, without the record of levels. */
  function MentionCandidates(env: Env, text: string, cache: FuzzyCache): Result<(seq<Candidate>, FuzzyCache), Raised> {
    var r := CandidatesFor(env, text, cache);
    if r.Err? then Err(r.error) else Ok((r.value.0, r.value.1))
  }

  /** A search for one mention: its candidates and the cache it leaves, or the exception it raised. */
  type MentionSearch = (string, FuzzyCache) -> Result<(seq<Candidate>, FuzzyCache), Raised>

  /**
   * The loop of `search_candidates`: the candidates of every mention, keyed by
   * the mention, with the fuzzy cache threaded through in order; the first
   * exception propagates.
   */
  function SearchEach(search: MentionSearch, mentions: seq<string>, cache: FuzzyCache)
    : (r: Result<(Dict<seq<Candidate>>, FuzzyCache), Raised>)
    ensures r.Ok? ==> DistinctKeys(r.value.0)
  {
    if |mentions| == 0 then Ok(([], cache))
    else
      var init := mentions[..|mentions| - 1];
      var text := mentions[|mentions| - 1];
      var before := SearchEach(search, init, cache);
      if before.Err? then Err(before.error)
      else
        var here := search(text, before.value.1);
        if here.Err? then Err(here.error)
        else
          var d := before.value.0;
          PutDistinct(d, text, here.value.0);
          Ok((Put(d, text, here.value.0), here.value.1))
  }

  /** `search_candidates` with the candidate search of this module. */
  function SearchCandidates(env: Env, mentions: seq<string>, cache: FuzzyCache)
    : (r: Result<(Dict<seq<Candidate>>, FuzzyCache), Raised>)
    ensures r.Ok? ==> DistinctKeys(r.value.0)
  {
    SearchEach((text, c) => MentionCandidates(env, text, c), mentions, cache)
  }

  /** The result has exactly one entry per distinct mention. */
  lemma {:induction false} SearchEachKeys(search: MentionSearch, mentions: seq<string>, cache: FuzzyCache, k: string)
    requires SearchEach(search, mentions, cache).Ok?
    ensures HasKey(SearchEach(search, mentions, cache).value.0, k) <==> k in mentions
  {
    if |mentions| > 0 {
      var init := mentions[..|mentions| - 1];
      var text := mentions[|mentions| - 1];
      var before := SearchEach(search, init, cache).value;
      SearchEachKeys(search, init, cache, k);
      PutKeys(before.0, text, search(text, before.1).value.0, k);
      InInitOrLast(mentions, k);
    }
  }

  /** The last mention maps to its own search, run with the cache the earlier mentions left. */
  lemma SearchEachLast(search: MentionSearch, mentions: seq<string>, cache: FuzzyCache)
    requires |mentions| > 0 && SearchEach(search, mentions, cache).Ok?
    ensures var init := mentions[..|mentions| - 1];
      var before := SearchEach(search, init, cache).value;
      var here := search(mentions[|mentions| - 1], before.1);
      here.Ok? && Get(SearchEach(search, mentions, cache).value.0, mentions[|mentions| - 1])
                  == Some(here.value.0)
  {
    var init := mentions[..|mentions| - 1];
    var text := mentions[|mentions| - 1];
    var before := SearchEach(search, init, cache).value;
    GetPut(before.0, text, search(text, before.1).value.0, text);
  }

  /**
   * An exception ends the loop with the exception of the first mention whose
   * search raised, run with the cache the mentions before it left.
   */
  lemma {:induction false} SearchEachRaised(search: MentionSearch, mentions: seq<string>, cache: FuzzyCache)
    requires SearchEach(search, mentions, cache).Err?
    ensures exists j :: (0 <= j < |mentions| && SearchEach(search, mentions[..j], cache).Ok?
                         && search(mentions[j], SearchEach(search, mentions[..j], cache).value.1)
                            == Err(SearchEach(search, mentions, cache).error))
  {
    var init := mentions[..|mentions| - 1];
    var before := SearchEach(search, init, cache);
    if before.Err? {
      SearchEachRaised(search, init, cache);
      var j :| 0 <= j < |init| && SearchEach(search, init[..j], cache).Ok?
        && search(init[j], SearchEach(search, init[..j], cache).value.1) == Err(before.error);
      assert init[..j] == mentions[..j];
      assert init[j] == mentions[j];
    } else {
      assert mentions[..|mentions| - 1] == init;
    }
  }
}

=== FILE: core.dfy ===
/**
 * Shared infrastructure: the JSON-event log format, the API-error policy,
 * `filter_none`, the resolved-object key and the end-of-task token totals.
 */
module Core {
  import opened Base
  import opened Assoc
  import opened Strings
  import opened Json
  import opened Llm

  // ---------------------------------------------------------------------------
  // Session log: comma-separated events finalised into a JSON array
  // ---------------------------------------------------------------------------

  /** The text `write_json_event` appends for one serialised event. */
  function EventLine(event: string): string {
    event + ",\n"
  }

  function EventLog(events: seq<string>): string {
    if |events| == 0 then "" else EventLog(events[..|events| - 1]) + EventLine(events[|events| - 1])
  }

  /** The characters `finalize_json_array` strips from the end. */
  predicate IsTrailer(c: char) {
    c == ',' || c == '\n' || c == ' ' || c == '\t'
  }

  /** `finalize_json_array` applied to the file contents. */
  function FinalizeJsonArray(content: string): (r: string)
    ensures |r| >= 2 && r[0] == '[' && r[|r| - 1] == ']'
    ensures StartsWith(content, r[1..|r| - 1])
    ensures |r| > 2 ==> !IsTrailer(r[|r| - 2])
    ensures forall i :: |r| - 2 <= i < |content| ==> IsTrailer(content[i])
  {
    "[" + RStripBy(content, IsTrailer) + "]"
  }

  /** A serialised event that ends in a closing brace. */
  predicate ClosedEvent(e: string) {
    |e| > 0 && e[|e| - 1] == '}'
  }

  lemma {:induction false} EventLogShape(events: seq<string>)
    requires |events| > 0 && forall i :: 0 <= i < |events| ==> ClosedEvent(events[i])
    ensures EventLog(events) == Join(",\n", events) + ",\n"
  {
    var n := |events|;
    if n > 1 {
      var init := events[..n - 1];
      EventLogShape(init);
      JoinSnoc(",\n", init, events[n - 1]);
      assert init + [events[n - 1]] == events;
      assert EventLog(events) == EventLog(init) + EventLine(events[n - 1]);
    } else {
      assert events[..0] == [];
    }
  }

  lemma {:induction false} JoinSnoc(sep: string, parts: seq<string>, x: string)
    requires |parts| > 0
    ensures Join(sep, parts + [x]) == Join(sep, parts) + sep + x
  {
    if |parts| == 1 {
      assert (parts + [x])[1..] == [x];
    } else {
      assert (parts + [x])[1..] == parts[1..] + [x];
      JoinSnoc(sep, parts[1..], x);
    }
  }

  lemma TrailCountSnoc(x: string, c: char)
    requires IsTrailer(c)
    ensures TrailCount(x + [c], IsTrailer) == 1 + TrailCount(x, IsTrailer)
  {
    assert (x + [c])[..|x|] == x;
  }

  lemma FinalizeClosed(body: string)
    requires ClosedEvent(body)
    ensures FinalizeJsonArray(body + ",\n") == "[" + body + "]"
  {
    var s := body + ",\n";
    assert s == (body + [',']) + ['\n'];
    assert TrailCount(body, IsTrailer) == 0;
    TrailCountSnoc(body, ',');
    TrailCountSnoc(body + [','], '\n');
    assert s[..|s| - 2] == body;
  }

  lemma FinalizeNonEmptyLog(events: seq<string>)
    requires |events| > 0
    requires forall i :: 0 <= i < |events| ==> ClosedEvent(events[i])
    ensures FinalizeJsonArray(EventLog(events)) == "[" + Join(",\n", events) + "]"
  {
    var body := Join(",\n", events);
    assert EventLog(events) == body + ",\n" by { EventLogShape(events); }
    assert ClosedEvent(body) by { JoinEndsWithLast(events); }
    FinalizeClosed(body);
  }

  /** A log of brace-terminated events finalises to the array of those events. */
  lemma FinalizeEventLog(events: seq<string>)
    requires forall i :: 0 <= i < |events| ==> ClosedEvent(events[i])
    ensures FinalizeJsonArray(EventLog(events)) == "[" + Join(",\n", events) + "]"
  {
    if |events| == 0 {
      assert EventLog(events) == "";
    } else {
      FinalizeNonEmptyLog(events);
    }
  }

  lemma {:induction false} JoinEndsWithLast(events: seq<string>)
    requires |events| > 0 && forall i :: 0 <= i < |events| ==> ClosedEvent(events[i])
    ensures var b := Join(",\n", events); |b| > 0 && b[|b| - 1] == '}'
  {
    if |events| > 1 {
      JoinEndsWithLast(events[1..]);
    }
  }

  // ---------------------------------------------------------------------------
  // handle_api_error
  // ---------------------------------------------------------------------------

  /** The `api_error` payload of an `ApiException`. */
  datatype ApiError = ApiError(status: Option<int>, error: string)

  /** What a caller hands to `handle_api_error`. */
  datatype Failure =
    | ApiException(apiError: Option<ApiError>, text: string)
    | OtherException(text: string)

  /** The `TaskTerminated` raised for a server error, with the response sent first. */
  datatype Termination = Termination(operation: string, status: int, error: string,
                                     outcome: string, message: string)

  function StatusOf(e: Failure): int {
    match e
    case ApiException(Some(ae), _) => ae.status.GetOr(500)
    case _ => 500
  }

  function ErrorText(e: Failure): string {
    match e
    case ApiException(Some(ae), _) => ae.error
    case ApiException(None, t) => t
    case OtherException(t) => t
  }

  /**
   * `handle_api_error`: a 404 is normal and returns; anything else is
   * reported as `error_internal` and terminates the task.
   */
  function HandleApiError(e: Failure, operation: string): (r: Option<Termination>)
    ensures r.None? <==> StatusOf(e) == 404
    ensures e.OtherException? || (e.ApiException? && e.apiError.None?) ==> r.Some? && r.value.status == 500
    ensures r.Some? ==>
      (r.value.operation == operation && r.value.status == StatusOf(e)
       && r.value.outcome == "error_internal"
       && r.value.message == "Server error in " + operation + ": " + ErrorText(e))
  {
    var status := StatusOf(e);
    if status == 404 then None
    else
      var msg := ErrorText(e);
      Some(Termination(operation, status, msg, "error_internal", "Server error in " + operation + ": " + msg))
  }

  // ---------------------------------------------------------------------------
  // filter_none
  // ---------------------------------------------------------------------------

  /** No dict at any depth has a `None` value. */
  predicate NoNoneValues(j: Json)
    decreases j, 1
  {
    match j
    case Arr(xs) => forall i :: 0 <= i < |xs| ==> NoNoneValues(xs[i])
    case Obj(fs) => forall i :: 0 <= i < |fs| ==> !fs[i].val.Null? && NoNoneValues(fs[i].val)
    case _ => true
  }

  /** `filter_none`. */
  function FilterNone(j: Json): (r: Json)
    ensures NoNoneValues(r)
    ensures r.Null? <==> j.Null?
    ensures r.Arr? <==> j.Arr?
    ensures r.Obj? <==> j.Obj?
    ensures j.Arr? ==> |r.items| == |j.items|
    ensures !j.Arr? && !j.Obj? ==> r == j
    decreases j, 1
  {
    match j
    case Obj(fs) => Obj(FilterFields(fs))
    case Arr(xs) => Arr(seq(|xs|, i requires 0 <= i < |xs| => FilterNone(xs[i])))
    case _ => j
  }

  /** The dict comprehension of `filter_none`: keeps non-`None` entries, in order. */
  function FilterFields(fs: Dict<Json>): (r: Dict<Json>)
    ensures forall i :: 0 <= i < |r| ==> !r[i].val.Null? && NoNoneValues(r[i].val)
    ensures Keys(r) == NonNullKeys(fs)
    decreases fs, 0
  {
    if |fs| == 0 then []
    else
      (if fs[0].val.Null? then [] else [Entry(fs[0].key, FilterNone(fs[0].val))]) + FilterFields(fs[1..])
  }

  /** The keys whose value is not `None`, in order. */
  function NonNullKeys(fs: Dict<Json>): seq<string> {
    if |fs| == 0 then []
    else (if fs[0].val.Null? then [] else [fs[0].key]) + NonNullKeys(fs[1..])
  }

  /** A value with no `None` in any dict passes through unchanged. */
  lemma {:induction false} FilterNoneFixes(j: Json)
    requires NoNoneValues(j)
    ensures FilterNone(j) == j
    decreases j, 1
  {
    match j
    case Arr(xs) =>
      forall i | 0 <= i < |xs| ensures FilterNone(xs[i]) == xs[i] {
        FilterNoneFixes(xs[i]);
      }
      assert FilterNone(j).items == xs;
    case Obj(fs) =>
      FilterFieldsFixes(fs);
    case _ =>
  }

  lemma {:induction false} FilterFieldsFixes(fs: Dict<Json>)
    requires forall i :: 0 <= i < |fs| ==> !fs[i].val.Null? && NoNoneValues(fs[i].val)
    ensures FilterFields(fs) == fs
    decreases fs, 0
  {
    if |fs| > 0 {
      FilterNoneFixes(fs[0].val);
      FilterFieldsFixes(fs[1..]);
    }
  }

  /** `filter_none` is idempotent. */
  lemma FilterNoneIdempotent(j: Json)
    ensures FilterNone(FilterNone(j)) == FilterNone(j)
  {
    FilterNoneFixes(FilterNone(j));
  }

  /** A dict entry survives iff its value is not `None`; list items always survive. */
  lemma {:induction false} FilterFieldsGet(fs: Dict<Json>, k: string)
    ensures HasKey(FilterFields(fs), k) <==> exists i :: 0 <= i < |fs| && fs[i].key == k && !fs[i].val.Null?
  {
    if |fs| > 0 {
      FilterFieldsGet(fs[1..], k);
      var r := FilterFields(fs);
      assert Keys(r) == NonNullKeys(fs);
      if exists i :: 0 <= i < |fs| && fs[i].key == k && !fs[i].val.Null? {
        var i :| 0 <= i < |fs| && fs[i].key == k && !fs[i].val.Null?;
        if i > 0 {
          assert fs[1..][i - 1] == fs[i];
        }
      }
      if HasKey(FilterFields(fs[1..]), k) {
        var i :| 0 <= i < |fs[1..]| && fs[1..][i].key == k && !fs[1..][i].val.Null?;
        assert fs[i + 1] == fs[1..][i];
      }
    }
  }

  // ---------------------------------------------------------------------------
  // Resolved-object keys
  // ---------------------------------------------------------------------------

  /** `make_resolved_key`: `"employee:abc123"`. */
  function MakeResolvedKey(entityType: string, entityId: string): (r: string)
    ensures |r| == |entityType| + 1 + |entityId|
    ensures r[..|entityType|] == entityType && r[|entityType|] == ':' && r[|entityType| + 1..] == entityId
  {
    entityType + ":" + entityId
  }

  /** For a type without ':' the key determines type and id. */
  lemma MakeResolvedKeyInjective(t1: string, i1: string, t2: string, i2: string)
    requires ':' !in t1 && ':' !in t2
    requires MakeResolvedKey(t1, i1) == MakeResolvedKey(t2, i2)
    ensures t1 == t2 && i1 == i2
  {
  }

  // ---------------------------------------------------------------------------
  // finalize_task
  // ---------------------------------------------------------------------------

  /** The part of `finalize_task` that does not depend on time or I/O. */
  datatype TaskStats = TaskStats(tokens: TokenUsage, dummyTelemetry: bool)

  /**
   * Token totals over all models; the server needs at least one `log_llm`
   * call per task, so a placeholder is sent when only the initial 1+1 tokens exist.
   */
  function FinalizeTask(usage: Dict<TokenUsage>): (r: TaskStats)
    ensures r.dummyTelemetry <==> r.tokens.total <= 2
    ensures r.tokens.prompt == Totals(usage).prompt
    ensures r.tokens.completion == Totals(usage).completion
    ensures r.tokens.total == Totals(usage).total
  {
    var t := Totals(usage);
    TaskStats(TokenUsage(t.prompt, t.completion, t.total, 0), t.total <= 2)
  }

  /** A task that made no LLM call after the reset sends the placeholder telemetry. */
  lemma NoCallsMeansDummy(modelId: Option<string>)
    ensures FinalizeTask(ResetTaskUsage(modelId)).dummyTelemetry
  {
    if Truthy(modelId) {
      var d := ResetTaskUsage(modelId);
      assert d[1..] == [];
      assert Totals(d) == InitUsage.Add(Zero);
    }
  }

  /** Once a call with a positive total is accumulated after the reset, no placeholder is sent. */
  lemma RealCallMeansNoDummy(modelId: Option<string>, m: string, u: TokenUsage)
    requires u.total > 2
    ensures !FinalizeTask(Accumulate(ResetTaskUsage(modelId), m, u)).dummyTelemetry
  {
    var d := ResetTaskUsage(modelId);
    AccumulateTotals(d, m, u);
    if Truthy(modelId) {
      assert d[1..] == [];
    }
  }
}

=== FILE: dual_view.dfy ===
/**
 * The deterministic part of the entity extractor's `run`: candidates,
 * resolution and tags, then the two views of the task handed on to the
 * watchdog (with the requester) and to the solver (with the requester only
 * when the task is about them).
 */
module DualView {
  import opened Base
  import opened Seqs
  import opened Assoc
  import opened Json
  import opened Core
  import opened Entities
  import opened Generators
  import opened Candidates
  import opened Resolution
  import opened ResolvedObjects

  /** The parts of `whoami` the extractor reads. */
  datatype WhoAmI = WhoAmI(isPublic: bool, currentUser: Option<string>, today: Option<string>)

  /** `getattr(whoami, 'today', None) or ""`. */
  function Today(who: Option<WhoAmI>): string {
    if who.Some? && Truthy(who.value.today) then who.value.today.value else ""
  }

  /** The signed-in employee with a known id, if any. */
  function Requester(who: Option<WhoAmI>): (r: Option<string>)
    ensures r.Some? <==> who.Some? && !who.value.isPublic && Truthy(who.value.currentUser)
  {
    if who.Some? && !who.value.isPublic && Truthy(who.value.currentUser) then who.value.currentUser else None
  }

  /** The line that introduces the task: who asks, and today's date. */
  function Prefix(who: Option<WhoAmI>): (r: string)
    ensures who.None? || who.value.isPublic ==> r == "Today, " + Today(who) + ". Guest asks:\n"
    ensures Requester(who).Some? ==>
      r == "Today, " + Today(who) + ". Requester {employee:" + Requester(who).value + "} asks:\n"
    ensures who.Some? && !who.value.isPublic && Requester(who).None? ==> r == "Today, " + Today(who) + ". Employee asks:\n"
  {
    var today := Today(who);
    if who.None? || who.value.isPublic then "Today, " + today + ". Guest asks:\n"
    else if Truthy(who.value.currentUser) then
      "Today, " + today + ". Requester {employee:" + who.value.currentUser.value + "} asks:\n"
    else "Today, " + today + ". Employee asks:\n"
  }

  /** The views of employees and projects the enrichment asks for; `None` is a failure or a missing object. */
  datatype Services = Services(getEmployee: string -> Option<Dict<Json>>,
                               securityView: string -> Option<Dict<Json>>,
                               extInfo: string -> Option<Dict<Json>>,
                               getProject: string -> Option<Dict<Json>>)

  /** The requester's own object, with the employee record or `{}` when it cannot be read. */
  function AuthorEntries(who: Option<WhoAmI>, svc: Services): (r: Dict<ResolvedObject>)
    ensures Requester(who).None? ==> r == []
    ensures Requester(who).Some? ==> |r| == 1 && r[0].key == MakeResolvedKey("employee", Requester(who).value)
  {
    match Requester(who)
    case None => []
    case Some(id) => [Entry(MakeResolvedKey("employee", id),
                            ResolvedObject("employee", id, svc.getEmployee(id).GetOr([])))]
  }

  /** Replaces an employee's or a project's data by a fresh view; a failed view keeps the data. */
  function EnrichOne(o: ResolvedObject, employeeView: string -> Option<Dict<Json>>,
                     projectView: string -> Option<Dict<Json>>): ResolvedObject {
    if o.typ == "employee" then o.(data := employeeView(o.id).GetOr(o.data))
    else if o.typ == "project" then o.(data := projectView(o.id).GetOr(o.data))
    else o
  }

  function Enrich(objs: Dict<ResolvedObject>, employeeView: string -> Option<Dict<Json>>,
                  projectView: string -> Option<Dict<Json>>): (r: Dict<ResolvedObject>)
    ensures Keys(r) == Keys(objs)
    ensures forall i :: 0 <= i < |objs| ==>
      r[i].val.typ == objs[i].val.typ && r[i].val.id == objs[i].val.id
      && (objs[i].val.typ != "employee" && objs[i].val.typ != "project" ==> r[i] == objs[i])
      && (objs[i].val.typ == "employee" && employeeView(objs[i].val.id).None? ==> r[i] == objs[i])
      && (objs[i].val.typ == "employee" && employeeView(objs[i].val.id).Some? ==>
            r[i].val.data == employeeView(objs[i].val.id).value)
      && (objs[i].val.typ == "project" && projectView(objs[i].val.id).None? ==> r[i] == objs[i])
      && (objs[i].val.typ == "project" && projectView(objs[i].val.id).Some? ==>
            r[i].val.data == projectView(objs[i].val.id).value)
  {
    seq(|objs|, i requires 0 <= i < |objs| => Entry(objs[i].key, EnrichOne(objs[i].val, employeeView, projectView)))
  }

  /** What `run` leaves in the task context. */
  datatype Views = Views(securityText: string, securityObjects: Dict<ResolvedObject>,
                         solverText: string, solverObjects: Dict<ResolvedObject>, detected: set<string>)

  /** The object types present in a map, as `detected_entities`. */
  function TypesOf(objs: Dict<ResolvedObject>): (r: set<string>)
    ensures forall t :: t in r <==> t != "" && exists i :: 0 <= i < |objs| && objs[i].val.typ == t
  {
    set i | 0 <= i < |objs| && objs[i].val.typ != "" :: objs[i].val.typ
  }

  /** The security and solver views of the resolved text and its objects. */
  function BuildViews(who: Option<WhoAmI>, formatted: string, textObjects: Dict<ResolvedObject>,
                      askingSelf: bool, svc: Services): (r: Views)
  {
    var prefix := Prefix(who);
    var security := Enrich(Update(AuthorEntries(who, svc), textObjects), svc.securityView, svc.getProject);
    var solverBase := if askingSelf then security else textObjects;
    var solver := Enrich(solverBase, svc.extInfo, svc.getProject);
    Views(prefix + formatted, security, if askingSelf then prefix + formatted else formatted, solver, TypesOf(solver))
  }

  /**
   * The security view holds the requester first (when known) and every
   * text object; the solver view holds the same keys as the security view
   * when the task is about the requester, and otherwise exactly the text
   * objects without the prefix.
   */
  lemma BuildViewsKeys(who: Option<WhoAmI>, formatted: string, textObjects: Dict<ResolvedObject>,
                       askingSelf: bool, svc: Services, k: string)
    ensures var r := BuildViews(who, formatted, textObjects, askingSelf, svc);
      (HasKey(r.securityObjects, k) <==>
         (Requester(who).Some? && k == MakeResolvedKey("employee", Requester(who).value)) || HasKey(textObjects, k))
      && (Requester(who).Some? ==> Keys(r.securityObjects)[0] == MakeResolvedKey("employee", Requester(who).value))
      && r.securityText == Prefix(who) + formatted
      && (askingSelf ==> r.solverText == r.securityText && Keys(r.solverObjects) == Keys(r.securityObjects))
      && (!askingSelf ==> r.solverText == formatted && Keys(r.solverObjects) == Keys(textObjects))
  {
    var authors := AuthorEntries(who, svc);
    UpdateHasKey(authors, textObjects, k);
    if Requester(who).Some? {
      assert Keys(authors) == [authors[0].key];
      assert HasKey(authors, k) <==> k == authors[0].key;
    } else {
      assert !HasKey(authors, k);
    }
  }

  /** A text object that shares the requester's key replaces the requester's entry. */
  lemma TextObjectOverridesAuthor(who: Option<WhoAmI>, textObjects: Dict<ResolvedObject>, svc: Services, k: string)
    requires DistinctKeys(textObjects) && HasKey(textObjects, k)
    ensures Get(Update(AuthorEntries(who, svc), textObjects), k) == Get(textObjects, k)
  {
    GetUpdate(AuthorEntries(who, svc), textObjects, k);
  }

  /** `unresolved`: the mentions without candidates, then the rejected ones. */
  function Unresolved(mentions: seq<string>, cands: Dict<seq<Candidate>>, rejected: seq<string>): (r: seq<string>)
    ensures forall e :: e in r <==> (e in mentions && CandidatesOf(cands, e) == []) || e in rejected
    ensures |r| <= |mentions| + |rejected|
  {
    if |mentions| == 0 then rejected
    else (if CandidatesOf(cands, mentions[0]) == [] then [mentions[0]] else [])
         + Unresolved(mentions[1..], cands, rejected)
  }

  /** The unresolved mentions are those without candidates, in extraction order, followed by the rejected ones. */
  lemma {:induction false} UnresolvedInOrder(mentions: seq<string>, cands: Dict<seq<Candidate>>, rejected: seq<string>)
    ensures Unresolved(mentions, cands, rejected) == Filter(e => CandidatesOf(cands, e) == [], mentions) + rejected
  {
    if |mentions| > 0 {
      UnresolvedInOrder(mentions[1..], cands, rejected);
    }
  }

  // ---------------------------------------------------------------------------
  // The whole pass
  // ---------------------------------------------------------------------------

  /** What the pass produces: the two views, the unresolved mentions, and the fuzzy cache. */
  datatype Extraction = Extraction(views: Views, unresolved: seq<string>, cache: FuzzyCache)

  predicate AnyCandidates(cands: Dict<seq<Candidate>>) {
    exists i :: 0 <= i < |cands| && cands[i].val != []
  }

  /**
   * From the extracted mentions to the views: search, resolve only when
   * some mention has a candidate, read back the tags, build the views. An
   * exception of the standard search ends the pass with its message.
   */
  function Extract(env: Env, taskText: string, mentions: seq<string>, cache: FuzzyCache, arbiter: Arbiter,
                   who: Option<WhoAmI>, askingSelf: bool, svc: Services): (r: Result<Extraction, Raised>)
    ensures r.Err? ==> |mentions| > 0 && SearchCandidates(env, mentions, cache) == Err(r.error)
    ensures r.Ok? && mentions == [] ==> r.value.unresolved == [] && r.value.cache == cache
    ensures r.Ok? && mentions == [] ==> r.value.views.securityText == Prefix(who) + taskText
  {
    var searched := if |mentions| > 0 then SearchCandidates(env, mentions, cache) else Ok(([], cache));
    if searched.Err? then Err(searched.error)
    else
      var cands := searched.value.0;
      var resolved := if |mentions| > 0 && AnyCandidates(cands) then ResolveEntities(taskText, mentions, cands, arbiter)
                      else Resolved(taskText, [], []);
      var objects := BuildResolvedObjects(resolved.text, cands);
      var views := BuildViews(who, resolved.text, objects, askingSelf, svc);
      Ok(Extraction(views, Unresolved(mentions, cands, resolved.rejected), searched.value.1))
  }

  /** Without any candidate the text is left as it is, nothing is rejected, and the arbiter is not asked. */
  lemma NoCandidatesNoResolution(env: Env, taskText: string, mentions: seq<string>, cache: FuzzyCache,
                                 a1: Arbiter, a2: Arbiter, who: Option<WhoAmI>, askingSelf: bool, svc: Services)
    requires SearchCandidates(env, mentions, cache).Ok?
    requires !AnyCandidates(SearchCandidates(env, mentions, cache).value.0)
    ensures Extract(env, taskText, mentions, cache, a1, who, askingSelf, svc)
         == Extract(env, taskText, mentions, cache, a2, who, askingSelf, svc)
    ensures var r := Extract(env, taskText, mentions, cache, a1, who, askingSelf, svc);
      r.Ok? && r.value.views.securityText == Prefix(who) + taskText
      && r.value.unresolved == mentions
  {
    var cands := SearchCandidates(env, mentions, cache).value.0;
    forall e | e in mentions ensures CandidatesOf(cands, e) == [] {
      NoCandidatesFor(cands, e);
    }
    UnresolvedAll(mentions, cands);
  }

  lemma NoCandidatesFor(cands: Dict<seq<Candidate>>, e: string)
    requires !AnyCandidates(cands)
    ensures CandidatesOf(cands, e) == []
  {
    var g := Get(cands, e);
    if g.Some? {
      var i :| 0 <= i < |cands| && cands[i] == Entry(e, g.value);
      assert cands[i].val == g.value;
    }
  }

  lemma {:induction false} UnresolvedAll(mentions: seq<string>, cands: Dict<seq<Candidate>>)
    requires forall e :: e in mentions ==> CandidatesOf(cands, e) == []
    ensures Unresolved(mentions, cands, []) == mentions
  {
    if |mentions| > 0 {
      assert CandidatesOf(cands, mentions[0]) == [];
      forall e | e in mentions[1..] ensures CandidatesOf(cands, e) == [] {
        assert e in mentions;
      }
      UnresolvedAll(mentions[1..], cands);
      assert mentions == [mentions[0]] + mentions[1..];
    }
  }
}

=== FILE: employee.dfy ===
/**
 * The employee views handed to the watchdog and the solver: the security
 * view (department flags and the projects with their teams) and the
 * extended information (the employee record, skills, wills and project
 * briefs). Every API call is a parameter; a failed call goes through
 * `handle_api_error` when the caller passes a store client, and otherwise
 * falls back to a stub or an empty list.
 */
module Employee {
  import opened Base
  import opened Core

  /** The departments whose members work in production, logistics or quality. */
  const OperationalDepartments: set<string> :=
    {"Production – Italy", "Production – Serbia", "Logistics & Supply Chain", "Quality & HSE"}

  const ExecutiveDepartment: string := "Corporate Leadership"

  /** The name the stub carries when the employee cannot be read. */
  const NotFoundName: string := "<employee not found>"

  predicate IsExecutive(department: string) {
    department == ExecutiveDepartment
  }

  predicate IsOperational(department: string) {
    department in OperationalDepartments
  }

  /** No department is both executive and operational. */
  lemma ExecutiveIsNotOperational(department: string)
    ensures IsExecutive(department) ==> !IsOperational(department)
    ensures IsOperational(department) ==> !IsExecutive(department)
  {
  }

  // ---------------------------------------------------------------------------
  // API calls and their failures
  // ---------------------------------------------------------------------------

  /** An API call: its reply, or the exception it raised. */
  datatype Outcome<T> = Done(value: T) | Failed(failure: Failure)

  /** The failed call ends the task: a store client is given and the status is not 404. */
  predicate Terminates<T>(o: Outcome<T>, operation: string, storeApi: bool) {
    o.Failed? && storeApi && HandleApiError(o.failure, operation).Some?
  }

  /**
   * The `try … except` around one call: the reply, or the fallback after
   * `handle_api_error` returned, or the `TaskTerminated` it raised.
   */
  function Guarded<T>(o: Outcome<T>, operation: string, storeApi: bool, fallback: T): (r: Result<T, Termination>)
    ensures r.Err? <==> o.Failed? && storeApi && StatusOf(o.failure) != 404
    ensures r.Err? ==> r.error.operation == operation && r.error.status == StatusOf(o.failure)
    ensures r.Ok? && o.Done? ==> r.value == o.value
    ensures r.Ok? && o.Failed? ==> r.value == fallback
  {
    match o
    case Done(v) => Ok(v)
    case Failed(e) =>
      if storeApi && HandleApiError(e, operation).Some? then Err(HandleApiError(e, operation).value)
      else Ok(fallback)
  }

  /** A skill or will as the API returns it. */
  datatype SkillLevel = SkillLevel(name: string, level: int)

  /** The employee record of `GetEmployee`. */
  datatype EmployeeRecord = EmployeeRecord(id: string, name: string, email: string, salary: int,
                                           notes: string, location: string, department: string,
                                           skills: Option<seq<SkillLevel>>, wills: Option<seq<SkillLevel>>)

  /** The stand-in for an employee that cannot be read. */
  function NotFound(employeeId: string): (r: EmployeeRecord)
    ensures r.id == employeeId && r.name == NotFoundName
    ensures r.email == "" && r.notes == "" && r.location == "" && r.department == "" && r.salary == 0
    ensures r.skills == Some([]) && r.wills == Some([])
  {
    EmployeeRecord(employeeId, NotFoundName, "", 0, "", "", "", Some([]), Some([]))
  }

  /** A project as `SearchProjects` lists it. */
  datatype ProjectSummary = ProjectSummary(id: string, name: string, customer: Option<string>, status: Option<string>)

  /** A team member as `GetProject` returns it. */
  datatype MemberRecord = MemberRecord(employee: string, role: Option<string>, timeSlice: Option<real>)

  /** The project of `GetProject`. */
  datatype ProjectRecord = ProjectRecord(id: string, status: Option<string>, team: Option<seq<MemberRecord>>)

  /**
   * The calls the views make. `searchProjects` stands for `paginate_all`
   * over the projects whose team holds the employee, archived included;
   * `getProject` may reply without a project.
   */
  datatype EmployeeApi = EmployeeApi(getEmployee: string -> Outcome<EmployeeRecord>,
                                     searchProjects: string -> Outcome<seq<ProjectSummary>>,
                                     getProject: string -> Outcome<Option<ProjectRecord>>)

  // ---------------------------------------------------------------------------
  // Extended information
  // ---------------------------------------------------------------------------

  datatype ProjectBrief = ProjectBrief(id: string, name: string, customer: string, status: string)

  function Brief(p: ProjectSummary): ProjectBrief {
    ProjectBrief(p.id, p.name, p.customer.GetOr(""), p.status.GetOr(""))
  }

  /** `_get_employee_projects`: one brief per listed project, in order; a failed listing gives none. */
  function EmployeeProjects(api: EmployeeApi, employeeId: string, storeApi: bool): (r: Result<seq<ProjectBrief>, Termination>)
    ensures r.Err? <==> Terminates(api.searchProjects(employeeId), "SearchProjects", storeApi)
    ensures r.Err? ==> r.error.operation == "SearchProjects"
    ensures r.Ok? && api.searchProjects(employeeId).Failed? ==> r.value == []
    ensures r.Ok? && api.searchProjects(employeeId).Done? ==>
      var ps := api.searchProjects(employeeId).value;
      |r.value| == |ps|
      && forall i :: 0 <= i < |ps| ==>
           r.value[i].id == ps[i].id && r.value[i].name == ps[i].name
           && (ps[i].customer.Some? ==> r.value[i].customer == ps[i].customer.value)
           && (ps[i].customer.None? ==> r.value[i].customer == "")
           && (ps[i].status.Some? ==> r.value[i].status == ps[i].status.value)
           && (ps[i].status.None? ==> r.value[i].status == "")
  {
    match Guarded(api.searchProjects(employeeId), "SearchProjects", storeApi, [])
    case Err(t) => Err(t)
    case Ok(ps) => Ok(seq(|ps|, i requires 0 <= i < |ps| => Brief(ps[i])))
  }

  /** A skill or will as `{"skill_will_id": name, "level": level}`. */
  datatype SkillEntry = SkillEntry(skillWillId: string, level: int)

  function SkillEntries(s: Option<seq<SkillLevel>>): (r: seq<SkillEntry>)
    ensures s.None? ==> r == []
    ensures s.Some? ==> |r| == |s.value|
    ensures s.Some? ==> forall i :: 0 <= i < |s.value| ==> r[i].skillWillId == s.value[i].name && r[i].level == s.value[i].level
  {
    if s.None? then [] else seq(|s.value|, i requires 0 <= i < |s.value| => SkillEntry(s.value[i].name, s.value[i].level))
  }

  datatype ExtInfo = ExtInfo(id: string, name: string, email: string, salary: int, notes: string,
                             location: string, department: string, skills: seq<SkillEntry>,
                             wills: seq<SkillEntry>, projects: seq<ProjectBrief>)

  /** `build_employee_ext_info`: the record (or the stub), its skills and wills, and the projects when asked for. */
  function BuildExtInfo(api: EmployeeApi, employeeId: string, includeProjects: bool, storeApi: bool): (r: Result<ExtInfo, Termination>)
    ensures !storeApi ==> r.Ok?
    ensures Terminates(api.getEmployee(employeeId), "GetEmployee", storeApi) ==>
      r.Err? && r.error.operation == "GetEmployee"
    ensures !Terminates(api.getEmployee(employeeId), "GetEmployee", storeApi) ==>
      (r.Err? <==> includeProjects && Terminates(api.searchProjects(employeeId), "SearchProjects", storeApi))
    ensures r.Ok? && api.getEmployee(employeeId).Failed? ==>
      r.value.id == employeeId && r.value.name == NotFoundName && r.value.email == "" && r.value.salary == 0
      && r.value.notes == "" && r.value.location == "" && r.value.department == ""
      && r.value.skills == [] && r.value.wills == []
    ensures r.Ok? && api.getEmployee(employeeId).Done? ==>
      var e := api.getEmployee(employeeId).value;
      r.value.id == e.id && r.value.name == e.name && r.value.email == e.email && r.value.salary == e.salary
      && r.value.notes == e.notes && r.value.location == e.location && r.value.department == e.department
      && r.value.skills == SkillEntries(e.skills) && r.value.wills == SkillEntries(e.wills)
    ensures r.Ok? && !includeProjects ==> r.value.projects == []
    ensures r.Ok? && includeProjects ==> r.value.projects == EmployeeProjects(api, employeeId, storeApi).value
  {
    match Guarded(api.getEmployee(employeeId), "GetEmployee", storeApi, NotFound(employeeId))
    case Err(t) => Err(t)
    case Ok(e) =>
      var projects := if includeProjects then EmployeeProjects(api, employeeId, storeApi) else Ok([]);
      if projects.Err? then Err(projects.error)
      else
        Ok(ExtInfo(e.id, e.name, e.email, e.salary, e.notes, e.location, e.department,
                   SkillEntries(e.skills), SkillEntries(e.wills), projects.value))
  }

  /** Without projects asked for, the project listing is never consulted. */
  lemma ExtInfoWithoutProjects(api: EmployeeApi, other: string -> Outcome<seq<ProjectSummary>>,
                               employeeId: string, storeApi: bool)
    ensures BuildExtInfo(api, employeeId, false, storeApi)
         == BuildExtInfo(api.(searchProjects := other), employeeId, false, storeApi)
  {
  }

  // ---------------------------------------------------------------------------
  // Security view
  // ---------------------------------------------------------------------------

  datatype TeamMember = TeamMember(employee: string, roleInProject: string, timeSlice: real)

  datatype ProjectSecurityView = ProjectSecurityView(id: string, status: string, roleInProject: string,
                                                     team: seq<TeamMember>)

  datatype SecurityView = SecurityView(id: string, name: string, location: string, department: string,
                                       isExecutive: bool, isOperational: bool,
                                       projects: seq<ProjectSecurityView>)

  function Member(m: MemberRecord): TeamMember {
    TeamMember(m.employee, m.role.GetOr(""), m.timeSlice.GetOr(0.0))
  }

  function Members(team: seq<MemberRecord>): (r: seq<TeamMember>)
    ensures |r| == |team| && forall i :: 0 <= i < |team| ==> r[i] == Member(team[i])
  {
    seq(|team|, i requires 0 <= i < |team| => Member(team[i]))
  }

  /** The last position of the employee in the team. */
  function LastMatch(team: seq<MemberRecord>, employeeId: string): (r: Option<nat>)
    ensures r.Some? ==> r.value < |team| && team[r.value].employee == employeeId
    ensures r.Some? ==> forall j :: r.value < j < |team| ==> team[j].employee != employeeId
    ensures r.None? ==> forall j :: 0 <= j < |team| ==> team[j].employee != employeeId
  {
    if |team| == 0 then None
    else if team[|team| - 1].employee == employeeId then Some(|team| - 1)
    else LastMatch(team[..|team| - 1], employeeId)
  }

  /** The employee's role in the team: that of their last entry, `""` when absent or without a role. */
  function RoleIn(team: seq<MemberRecord>, employeeId: string): string {
    match LastMatch(team, employeeId)
    case None => ""
    case Some(i) => team[i].role.GetOr("")
  }

  /** The view of one project as the reference definition the loop below is checked against. */
  function ProjectView(p: ProjectRecord, employeeId: string): (r: ProjectSecurityView)
    ensures r.id == p.id && r.status == p.status.GetOr("")
  {
    var team := p.team.GetOr([]);
    ProjectSecurityView(p.id, p.status.GetOr(""), RoleIn(team, employeeId), Members(team))
  }

  /** The loop over the team: every member kept in order, the role taken from each matching entry in turn. */
  method BuildProjectView(p: ProjectRecord, employeeId: string) returns (v: ProjectSecurityView)
    ensures v.id == p.id && v.status == p.status.GetOr("")
    ensures |v.team| == |p.team.GetOr([])|
    ensures forall i :: 0 <= i < |v.team| ==> v.team[i] == Member(p.team.GetOr([])[i])
    ensures v.roleInProject == RoleIn(p.team.GetOr([]), employeeId)
    ensures v == ProjectView(p, employeeId)
  {
    var team := p.team.GetOr([]);
    var myRole := "";
    var members: seq<TeamMember> := [];
    var i := 0;
    while i < |team|
      invariant 0 <= i <= |team|
      invariant members == Members(team[..i])
      invariant myRole == RoleIn(team[..i], employeeId)
    {
      members := members + [Member(team[i])];
      if team[i].employee == employeeId {
        myRole := team[i].role.GetOr("");
      }
      assert team[..i + 1][..i] == team[..i];
      i := i + 1;
    }
    assert team[..i] == team;
    v := ProjectSecurityView(p.id, p.status.GetOr(""), myRole, members);
  }

  /** The project is read and exists. */
  predicate Found(o: Outcome<Option<ProjectRecord>>) {
    o.Done? && o.value.Some?
  }

  /** Some listed project is read and gives this view. */
  predicate ViewOfListed(getProject: string -> Outcome<Option<ProjectRecord>>, ps: seq<ProjectSummary>,
                         employeeId: string, v: ProjectSecurityView) {
    exists i :: 0 <= i < |ps| && Found(getProject(ps[i].id)) && v == ProjectView(getProject(ps[i].id).value.value, employeeId)
  }

  /** Some listed project's read ends the task. */
  predicate AnyTerminates(getProject: string -> Outcome<Option<ProjectRecord>>, ps: seq<ProjectSummary>, storeApi: bool) {
    exists i :: 0 <= i < |ps| && Terminates(getProject(ps[i].id), "GetProject", storeApi)
  }

  /** The loop over the listed projects: a missing project or a failed read is skipped. */
  function ProjectViews(getProject: string -> Outcome<Option<ProjectRecord>>, ps: seq<ProjectSummary>,
                        employeeId: string, storeApi: bool): (r: Result<seq<ProjectSecurityView>, Termination>)
    ensures r.Err? <==> AnyTerminates(getProject, ps, storeApi)
    ensures r.Err? ==> r.error.operation == "GetProject"
    ensures r.Ok? ==> |r.value| <= |ps|
    decreases |ps|
  {
    if |ps| == 0 then Ok([])
    else
      var o := getProject(ps[0].id);
      var rest := ProjectViews(getProject, ps[1..], employeeId, storeApi);
      assert AnyTerminates(getProject, ps, storeApi) <==>
        Terminates(o, "GetProject", storeApi) || AnyTerminates(getProject, ps[1..], storeApi) by {
        if AnyTerminates(getProject, ps, storeApi) && !Terminates(o, "GetProject", storeApi) {
          var i :| 0 <= i < |ps| && Terminates(getProject(ps[i].id), "GetProject", storeApi);
          assert ps[1..][i - 1] == ps[i];
        }
        if AnyTerminates(getProject, ps[1..], storeApi) {
          var i :| 0 <= i < |ps[1..]| && Terminates(getProject(ps[1..][i].id), "GetProject", storeApi);
          assert ps[1..][i] == ps[i + 1];
        }
      }
      match Guarded(o, "GetProject", storeApi, None)
      case Err(t) => Err(t)
      case Ok(full) =>
        if rest.Err? then rest
        else if full.None? then rest
        else Ok([ProjectView(full.value, employeeId)] + rest.value)
  }

  /** A view in the result comes from a listed project, and every listed project that is read has its view. */
  lemma {:induction false} ProjectViewsContents(getProject: string -> Outcome<Option<ProjectRecord>>, ps: seq<ProjectSummary>,
                                                employeeId: string, storeApi: bool, v: ProjectSecurityView)
    requires ProjectViews(getProject, ps, employeeId, storeApi).Ok?
    ensures v in ProjectViews(getProject, ps, employeeId, storeApi).value <==> ViewOfListed(getProject, ps, employeeId, v)
    decreases |ps|
  {
    if |ps| > 0 {
      ProjectViewsStep(getProject, ps, employeeId, storeApi);
      ProjectViewsContents(getProject, ps[1..], employeeId, storeApi, v);
      if ViewOfListed(getProject, ps, employeeId, v) {
        var i :| 0 <= i < |ps| && Found(getProject(ps[i].id)) && v == ProjectView(getProject(ps[i].id).value.value, employeeId);
        if i > 0 {
          assert ps[1..][i - 1] == ps[i];
        }
      }
      if ViewOfListed(getProject, ps[1..], employeeId, v) {
        var i :| 0 <= i < |ps[1..]| && Found(getProject(ps[1..][i].id))
                 && v == ProjectView(getProject(ps[1..][i].id).value.value, employeeId);
        assert ps[1..][i] == ps[i + 1];
      }
    }
  }

  /** The views of a list: the first project's, when it is read, before those of the rest. */
  lemma ProjectViewsStep(getProject: string -> Outcome<Option<ProjectRecord>>, ps: seq<ProjectSummary>,
                         employeeId: string, storeApi: bool)
    requires |ps| > 0 && ProjectViews(getProject, ps, employeeId, storeApi).Ok?
    ensures var o := getProject(ps[0].id);
      var rest := ProjectViews(getProject, ps[1..], employeeId, storeApi);
      rest.Ok? && ProjectViews(getProject, ps, employeeId, storeApi).value
                  == (if Found(o) then [ProjectView(o.value.value, employeeId)] else []) + rest.value
  {
  }

  /** When every listed project is read, the views are exactly theirs, in order. */
  lemma {:induction false} ProjectViewsAllFound(getProject: string -> Outcome<Option<ProjectRecord>>, ps: seq<ProjectSummary>,
                                                employeeId: string, storeApi: bool)
    requires forall i :: 0 <= i < |ps| ==> Found(getProject(ps[i].id))
    ensures var r := ProjectViews(getProject, ps, employeeId, storeApi);
      r.Ok? && |r.value| == |ps|
      && forall i :: 0 <= i < |ps| ==>
           Found(getProject(ps[i].id)) && r.value[i] == ProjectView(getProject(ps[i].id).value.value, employeeId)
    decreases |ps|
  {
    if |ps| > 0 {
      assert forall i :: 0 <= i < |ps[1..]| ==> ps[1..][i] == ps[i + 1];
      ProjectViewsAllFound(getProject, ps[1..], employeeId, storeApi);
    }
  }

  /** `build_employee_security_view`. */
  function BuildSecurityView(api: EmployeeApi, employeeId: string, storeApi: bool): (r: Result<SecurityView, Termination>)
    ensures !storeApi ==> r.Ok?
    ensures Terminates(api.getEmployee(employeeId), "GetEmployee", storeApi) ==>
      r.Err? && r.error.operation == "GetEmployee"
    ensures r.Ok? ==> (r.value.isExecutive <==> r.value.department == "Corporate Leadership")
    ensures r.Ok? ==> (r.value.isOperational <==> r.value.department in OperationalDepartments)
    ensures r.Ok? ==> !(r.value.isExecutive && r.value.isOperational)
    ensures r.Ok? && api.getEmployee(employeeId).Failed? ==>
      r.value.id == employeeId && r.value.name == NotFoundName && r.value.location == ""
      && r.value.department == "" && !r.value.isExecutive && !r.value.isOperational
    ensures r.Ok? && api.getEmployee(employeeId).Done? ==>
      var e := api.getEmployee(employeeId).value;
      r.value.id == e.id && r.value.name == e.name && r.value.location == e.location
      && r.value.department == e.department
    ensures r.Ok? && api.searchProjects(employeeId).Failed? ==> r.value.projects == []
    ensures r.Ok? && api.searchProjects(employeeId).Done? ==>
      ProjectViews(api.getProject, api.searchProjects(employeeId).value, employeeId, storeApi) == Ok(r.value.projects)
  {
    match Guarded(api.getEmployee(employeeId), "GetEmployee", storeApi, NotFound(employeeId))
    case Err(t) => Err(t)
    case Ok(e) =>
      match Guarded(api.searchProjects(employeeId), "SearchProjects", storeApi, [])
      case Err(t) => Err(t)
      case Ok(ps) =>
        match ProjectViews(api.getProject, ps, employeeId, storeApi)
        case Err(t) => Err(t)
        case Ok(views) =>
          ExecutiveIsNotOperational(e.department);
          Ok(SecurityView(e.id, e.name, e.location, e.department,
                          IsExecutive(e.department), IsOperational(e.department), views))
  }
}

=== FILE: entities.dfy ===
/**
 * The vocabulary of the entity extractor: entity kinds, match scores,
 * candidates, the records the company API returns, and the small text
 * normalisations the candidate generators share.
 */
module Entities {
  import opened Base
  import opened Strings
  import opened Assoc
  import opened Json

  /** The `entity_type` values a candidate can carry. */
  datatype EntityKind = Project | Employee | Customer | Wiki | Department | Skill | Will | Location

  /** The `entity_type` string of a kind, as it appears in `{type:id}` tags. */
  function KindName(k: EntityKind): (r: string)
    ensures |r| > 0 && ':' !in r && '}' !in r
  {
    match k
    case Project => "project"
    case Employee => "employee"
    case Customer => "customer"
    case Wiki => "wiki"
    case Department => "department"
    case Skill => "skill"
    case Will => "will"
    case Location => "location"
  }

  lemma KindNameInjective(a: EntityKind, b: EntityKind)
    ensures KindName(a) == KindName(b) ==> a == b
  {
  }

  /** A match score on the 0..100 scale. */
  type Score = x: int | 0 <= x <= 100

  /** `FUZZY_THRESHOLD`. */
  const FuzzyThreshold: Score := 60

  /** The fuzzy ratio (token-set ratio of two normalised strings), an uninterpreted 0..100 function. */
  type Ratio = (string, string) -> Score

  /** A possible referent of a mention. */
  datatype Candidate = Candidate(kind: EntityKind, objectId: string, displayName: string, score: Score,
                                 data: Option<Dict<Json>>)

  /** The identity deduplication and tags use: `(entity_type, object_id)`. */
  function CandKey(c: Candidate): (EntityKind, string) {
    (c.kind, c.objectId)
  }

  function ScoreOf(c: Candidate): int {
    c.score
  }

  predicate Perfect(c: Candidate) {
    c.score == 100
  }

  predicate AnyPerfect(cs: seq<Candidate>) {
    exists i :: 0 <= i < |cs| && cs[i].score == 100
  }

  /** A project, employee or customer record as the API lists it. */
  datatype Record = Record(id: string, name: string, data: Dict<Json>)

  /** A customer with its full details, which name the primary contact. */
  datatype CustomerRecord = CustomerRecord(id: string, name: string, primaryContact: Option<string>,
                                           data: Dict<Json>)

  /** `UNREPLACEABLES`: mentions that are never resolved. */
  predicate Unreplaceable(lowered: string) {
    lowered == "bellini" || lowered == "bellini coatings"
    || lowered == "customer_id" || lowered == "project_id" || lowered == "employee_id"
  }

  /** `_looks_like_id`. */
  predicate LooksLikeId(text: string) {
    '_' in text
  }

  /** `s.replace(a, b)` for single characters. */
  function ReplaceChar(s: string, a: char, b: char): (r: string)
    ensures |r| == |s|
    ensures forall i :: 0 <= i < |s| ==> r[i] == (if s[i] == a then b else s[i])
  {
    seq(|s|, i requires 0 <= i < |s| => if s[i] == a then b else s[i])
  }

  function NormChar(c: char): char {
    if c == '-' || c == '_' || c == '.' then ' ' else LowerChar(c)
  }

  /** `_normalize_for_fuzzy`: '-', '_' and '.' become spaces, then lower case. */
  function NormalizeForFuzzy(text: string): (r: string)
    ensures |r| == |text|
    ensures forall i :: 0 <= i < |text| ==> r[i] == NormChar(text[i])
  {
    Lower(ReplaceChar(ReplaceChar(ReplaceChar(text, '-', ' '), '_', ' '), '.', ' '))
  }

  /** The normal form holds no separator and no upper-case letter. */
  lemma NormalizedForm(text: string)
    ensures var r := NormalizeForFuzzy(text);
      forall i :: 0 <= i < |r| ==> r[i] != '-' && r[i] != '_' && r[i] != '.' && !('A' <= r[i] <= 'Z')
  {
  }

  lemma {:induction false} NormalizeIdempotent(text: string)
    ensures NormalizeForFuzzy(NormalizeForFuzzy(text)) == NormalizeForFuzzy(text)
  {
    var r := NormalizeForFuzzy(text);
    forall i | 0 <= i < |r| ensures NormChar(r[i]) == r[i] {
      var c := text[i];
      if !(c == '-' || c == '_' || c == '.') {
        assert r[i] == LowerChar(c);
      }
    }
  }
}

=== FILE: extract_wiki.dfy ===
/**
 * The bookkeeping around the wiki extractions: output file names, the
 * checksum cache that decides which source files are sent to the model
 * again, the per-extraction and overall counts, and the joined outputs
 * (category order within an extraction, one item per wiki reference
 * across all extractions). The model's replies, the file system and the
 * checksums are parameters.
 */
module ExtractWiki {
  import opened Base
  import opened Strings
  import opened Seqs

  // ---------------------------------------------------------------------------
  // File names
  // ---------------------------------------------------------------------------

  /** `get_file_basename`: the extraction's name, '_', and the source file's stem. */
  function FileBasename(extraction: string, source: string): (r: string)
    ensures StartsWith(r, extraction + "_")
  {
    var r := extraction + "_" + Stem(source);
    assert r[..|extraction + "_"|] == extraction + "_";
    r
  }

  /** A plain ".md" file name loses exactly its extension. */
  lemma MarkdownBasename(extraction: string, source: string)
    requires |source| > 3 && '/' !in source && '.' !in source[..|source| - 3] && EndsWith(source, ".md")
    ensures FileBasename(extraction, source) == extraction + "_" + source[..|source| - 3]
  {
    assert FileName(source) == source;
    var i := |source| - 3;
    assert source[i..] == ".md";
    assert source[i] == '.' && source[i + 1] == 'm' && source[i + 2] == 'd';
    LastIndexOfIs(source, '.', i);
  }

  lemma RulebookBasename()
    ensures FileBasename("salary_policy", "rulebook.md") == "salary_policy_rulebook"
  {
    var source := "rulebook.md";
    assert source[..8] == "rulebook";
    MarkdownBasename("salary_policy", source);
    RulebookJoin();
  }

  lemma RulebookJoin()
    ensures "salary_policy" + "_" + "rulebook" == "salary_policy_rulebook"
  {
  }

  // ---------------------------------------------------------------------------
  // Items and their order
  // ---------------------------------------------------------------------------

  /** An extracted item: its category, its compact text and its wiki reference. */
  datatype Item = Item(category: string, compact: string, pagePath: string, header: string)

  /** The wiki reference, `(page_path, current_header)`. */
  function RefOf(x: Item): (string, string) {
    (x.pagePath, x.header)
  }

  /** The position of each category within its extraction. */
  const CategoryOrder: map<string, int> := map[
    "company_structure" := 0, "hierarchy" := 1, "role" := 2,
    "project_policy" := 0, "timeentry_policy" := 1, "salary_policy" := 2,
    "applies_to_guests" := 0, "applies_to_users" := 1, "other" := 99]

  /** A category's rank; unknown categories go last with "other". */
  function Rank(category: string): (r: int)
    ensures category !in CategoryOrder ==> r == 99
    ensures 0 <= r <= 99
  {
    if category in CategoryOrder then CategoryOrder[category] else 99
  }

  function NegRank(x: Item): int {
    -Rank(x.category)
  }

  /** Items in ascending category rank. */
  predicate RankSorted(xs: seq<Item>) {
    forall i, j :: 0 <= i < j < |xs| ==> Rank(xs[i].category) <= Rank(xs[j].category)
  }

  /** The items of one rank, in their order. */
  function OfRank(xs: seq<Item>, rank: int): seq<Item> {
    OfKey(NegRank, -rank, xs)
  }

  /** `sort(key=CATEGORY_ORDER.get(category, 99))`: a stable sort by ascending rank. */
  function ByCategory(xs: seq<Item>): (r: seq<Item>)
    ensures multiset(r) == multiset(xs) && |r| == |xs|
    ensures RankSorted(r)
  {
    var r := SortDesc(NegRank, xs);
    assert forall i, j :: 0 <= i < j < |r| ==> NegRank(r[i]) >= NegRank(r[j]);
    r
  }

  /** Items of the same rank keep their order. */
  lemma ByCategoryStable(xs: seq<Item>, rank: int)
    ensures OfRank(ByCategory(xs), rank) == OfRank(xs, rank)
  {
    SortDescStable(NegRank, xs, -rank);
  }

  // ---------------------------------------------------------------------------
  // The cache decision
  // ---------------------------------------------------------------------------

  /** Why a source file is sent to the model again. */
  datatype Reason = OutputMissing | SourceChanged | RebuildRequested

  /** `None` when the cached output can be kept; otherwise the reason, in order of priority. */
  function PlanFor(cached: Option<string>, current: string, jsonExists: bool, rebuild: bool): (r: Option<Reason>)
    ensures r.None? <==> cached == Some(current) && jsonExists && !rebuild
    ensures r == Some(OutputMissing) <==> !jsonExists
    ensures r == Some(SourceChanged) <==> jsonExists && cached != Some(current)
    ensures r == Some(RebuildRequested) <==> jsonExists && cached == Some(current) && rebuild
  {
    if cached == Some(current) && jsonExists && !rebuild then None
    else if !jsonExists then Some(OutputMissing)
    else if cached != Some(current) then Some(SourceChanged)
    else Some(RebuildRequested)
  }

  /** A source file of the wiki: whether it exists, its checksum, and whether it can be read. */
  datatype Source = Source(present: bool, checksum: string, readable: bool)

  /** The model's reply for one extraction of one file. */
  datatype Reply = Extracted(items: seq<Item>) | NoResult | Raises(message: string)

  /** The output directory: the JSON outputs by base name, and the checksums by source file name. */
  datatype Store = Store(jsons: map<string, seq<Item>>, checksums: map<string, string>)

  /** What one file gave: its item count, whether it was processed, the store after it, and whether it raised. */
  datatype FileRun = FileRun(count: nat, processed: bool, store: Store, raised: bool)

  function Cached(st: Store, source: string): Option<string> {
    if source in st.checksums then Some(st.checksums[source]) else None
  }

  /** `_extract_one_file`. */
  function ExtractFile(extraction: string, source: string, src: Source, reply: Reply, st: Store, rebuild: bool): (r: FileRun)
    ensures r.processed <==> src.present && src.readable && reply.Extracted?
                             && PlanFor(Cached(st, source), src.checksum, FileBasename(extraction, source) in st.jsons, rebuild).Some?
    ensures r.raised ==> !r.processed && r.store == st
    ensures !r.processed ==> r.count == 0 && r.store == st
    ensures r.processed ==>
      r.count == |reply.items|
      && r.store.jsons == st.jsons[FileBasename(extraction, source) := reply.items]
      && r.store.checksums == st.checksums[source := src.checksum]
  {
    var basename := FileBasename(extraction, source);
    if !src.present then FileRun(0, false, st, false)
    else if PlanFor(Cached(st, source), src.checksum, basename in st.jsons, rebuild).None? then FileRun(0, false, st, false)
    else if !src.readable then FileRun(0, false, st, false)
    else
      match reply
      case NoResult => FileRun(0, false, st, false)
      case Raises(_) => FileRun(0, false, st, true)
      case Extracted(items) =>
        FileRun(|items|, true, Store(st.jsons[basename := items], st.checksums[source := src.checksum]), false)
  }

  /** A processed file is taken from the cache on the next run unless a rebuild is asked for. */
  lemma ProcessedIsCached(extraction: string, source: string, src: Source, reply: Reply, again: Reply, st: Store)
    requires ExtractFile(extraction, source, src, reply, st, false).processed
    ensures !ExtractFile(extraction, source, src, again, ExtractFile(extraction, source, src, reply, st, false).store, false).processed
  {
  }

  /**
   * The checksum is kept per source file, not per output: once one
   * extraction has processed a changed file, a later extraction of the
   * same file whose output exists treats it as unchanged.
   */
  lemma SharedChecksum(e1: string, e2: string, source: string, src: Source, r1: Reply, r2: Reply, st: Store)
    requires ExtractFile(e1, source, src, r1, st, false).processed
    requires FileBasename(e2, source) in st.jsons
    ensures Cached(st, source) != Some(src.checksum) ==>
      !ExtractFile(e2, source, src, r2, ExtractFile(e1, source, src, r1, st, false).store, false).processed
  {
  }

  /** What one extraction gave: the items of its processed files, the store after it, and whether it raised. */
  datatype Run = Run(total: nat, store: Store, raised: bool)

  /** Every checksum recorded since `st` is the current checksum of a file of `files`. */
  predicate RecordsCurrent(st: Store, st': Store, files: seq<string>, sources: string -> Source) {
    (forall k :: k in st.checksums ==> k in st'.checksums)
    && (forall k :: k in st'.checksums && (k !in st.checksums || st'.checksums[k] != st.checksums[k]) ==>
          k in files && st'.checksums[k] == sources(k).checksum)
  }

  /** `_extract_one`: the files in order over one store, summing the items of the processed ones. */
  function ExtractOne(extraction: string, files: seq<string>, sources: string -> Source,
                      replies: (string, string) -> Reply, st: Store, rebuild: bool): (r: Run)
    ensures RecordsCurrent(st, r.store, files, sources)
    ensures (forall k :: 0 <= k < |files| ==> !replies(extraction, files[k]).Extracted?) ==> r.total == 0 && r.store == st
    decreases |files|
  {
    if |files| == 0 then Run(0, st, false)
    else
      var f := ExtractFile(extraction, files[0], sources(files[0]), replies(extraction, files[0]), st, rebuild);
      if f.raised then Run(0, f.store, true)
      else
        var rest := ExtractOne(extraction, files[1..], sources, replies, f.store, rebuild);
        assert forall k :: k in files[1..] ==> k in files;
        assert (forall k :: 0 <= k < |files| ==> !replies(extraction, files[k]).Extracted?) ==>
               (forall k :: 0 <= k < |files[1..]| ==> !replies(extraction, files[1..][k]).Extracted?) by {
          forall k | 0 <= k < |files[1..]| ensures files[1..][k] == files[k + 1] { }
        }
        Run((if f.processed then f.count else 0) + rest.total, rest.store, rest.raised)
  }

  /** An extraction: its name and its source files. */
  datatype Extraction = Extraction(name: string, files: seq<string>)

  /** The extractions, in order. */
  const Extractions: seq<Extraction> := [
    Extraction("hierarchy", ["hierarchy.md", "merger.md"]),
    Extraction("salary_policy", ["rulebook.md", "culture.md", "merger.md"]),
    Extraction("project_policy", ["rulebook.md", "hierarchy.md", "merger.md"]),
    Extraction("timeentry_policy", ["rulebook.md", "hierarchy.md", "merger.md"]),
    Extraction("rules", ["rulebook.md", "merger.md"])]

  /** `extract_all` before the joins: a count per extraction, -1 for one that raised, over one shared store. */
  function ExtractAll(exts: seq<Extraction>, sources: string -> Source, replies: (string, string) -> Reply,
                      st: Store, rebuild: bool): (r: (seq<(string, int)>, Store))
    ensures |r.0| == |exts|
    ensures forall i :: 0 <= i < |exts| ==> r.0[i].0 == exts[i].name && r.0[i].1 >= -1
    ensures (forall e, f :: !replies(e, f).Raises?) ==> forall i :: 0 <= i < |exts| ==> r.0[i].1 >= 0
    decreases |exts|
  {
    if |exts| == 0 then ([], st)
    else
      var run := ExtractOne(exts[0].name, exts[0].files, sources, replies, st, rebuild);
      assert (forall e, f :: !replies(e, f).Raises?) ==> !run.raised by {
        if forall e, f :: !replies(e, f).Raises? {
          NoRaiseNoRaised(exts[0].name, exts[0].files, sources, replies, st, rebuild);
        }
      }
      var rest := ExtractAll(exts[1..], sources, replies, run.store, rebuild);
      ([(exts[0].name, if run.raised then -1 else run.total)] + rest.0, rest.1)
  }

  lemma {:induction false} NoRaiseNoRaised(extraction: string, files: seq<string>, sources: string -> Source,
                                          replies: (string, string) -> Reply, st: Store, rebuild: bool)
    requires forall f :: !replies(extraction, f).Raises?
    ensures !ExtractOne(extraction, files, sources, replies, st, rebuild).raised
    decreases |files|
  {
    if |files| > 0 {
      var f := ExtractFile(extraction, files[0], sources(files[0]), replies(extraction, files[0]), st, rebuild);
      NoRaiseNoRaised(extraction, files[1..], sources, replies, f.store, rebuild);
    }
  }

  // ---------------------------------------------------------------------------
  // Joining
  // ---------------------------------------------------------------------------

  /** The items of an extraction's outputs that exist, file after file. */
  function SectionItems(extraction: string, files: seq<string>, jsons: map<string, seq<Item>>): seq<Item>
    decreases |files|
  {
    if |files| == 0 then []
    else
      var b := FileBasename(extraction, files[0]);
      (if b in jsons then jsons[b] else []) + SectionItems(extraction, files[1..], jsons)
  }

  function RefsOf(xs: seq<Item>): set<(string, string)> {
    set i | 0 <= i < |xs| :: RefOf(xs[i])
  }

  predicate DistinctRefs(xs: seq<Item>) {
    forall i, j :: 0 <= i < j < |xs| ==> RefOf(xs[i]) != RefOf(xs[j])
  }

  /** The items of each section after sorting, without any reference already seen, here or before. */
  function KeptSections(sections: seq<seq<Item>>, seen: set<(string, string)>): (r: seq<seq<Item>>)
    ensures |r| == |sections|
    ensures forall i :: 0 <= i < |r| ==> RankSorted(r[i]) && |r[i]| <= |sections[i]|
    decreases |sections|
  {
    if |sections| == 0 then []
    else
      var sorted := ByCategory(sections[0]);
      var kept := Dedup(RefOf, sorted, seen);
      DescIsRankSorted(sorted);
      DedupSorted(RefOf, NegRank, sorted, seen);
      RankSortedIsDesc(kept);
      var rest := KeptSections(sections[1..], seen + RefsOf(kept));
      var r := [kept] + rest;
      assert forall i :: 1 <= i < |r| ==> r[i] == rest[i - 1] && sections[i] == sections[1..][i - 1];
      r
  }

  lemma DescIsRankSorted(xs: seq<Item>)
    requires RankSorted(xs)
    ensures SortedDesc(NegRank, xs)
  {
    forall i, j | 0 <= i < j < |xs| ensures NegRank(xs[i]) >= NegRank(xs[j]) {
      assert Rank(xs[i].category) <= Rank(xs[j].category);
    }
  }

  lemma RankSortedIsDesc(xs: seq<Item>)
    requires SortedDesc(NegRank, xs)
    ensures RankSorted(xs)
  {
    forall i, j | 0 <= i < j < |xs| ensures Rank(xs[i].category) <= Rank(xs[j].category) {
      assert NegRank(xs[i]) >= NegRank(xs[j]);
    }
  }

  /** Deduplication keeps exactly the references not seen before. */
  lemma {:induction false} DedupRefs(s: seq<Item>, seen: set<(string, string)>)
    ensures RefsOf(Dedup(RefOf, s, seen)) == RefsOf(s) - seen
  {
    if |s| > 0 {
      assert RefsOf(s) == {RefOf(s[0])} + RefsOf(s[1..]) by {
        forall k | k in RefsOf(s) ensures k in {RefOf(s[0])} + RefsOf(s[1..]) {
          var i :| 0 <= i < |s| && RefOf(s[i]) == k;
          if i > 0 { assert s[1..][i - 1] == s[i]; }
        }
        forall k | k in RefsOf(s[1..]) ensures k in RefsOf(s) {
          var i :| 0 <= i < |s[1..]| && RefOf(s[1..][i]) == k;
          assert s[i + 1] == s[1..][i];
        }
      }
      if RefOf(s[0]) in seen {
        DedupRefs(s[1..], seen);
      } else {
        var rest := Dedup(RefOf, s[1..], seen + {RefOf(s[0])});
        DedupRefs(s[1..], seen + {RefOf(s[0])});
        RefsOfCons(s[0], rest);
      }
    }
  }

  lemma RefsOfCons(x: Item, xs: seq<Item>)
    ensures RefsOf([x] + xs) == {RefOf(x)} + RefsOf(xs)
  {
    var s := [x] + xs;
    forall k | k in RefsOf(s) ensures k in {RefOf(x)} + RefsOf(xs) {
      var i :| 0 <= i < |s| && RefOf(s[i]) == k;
      if i > 0 { assert s[i] == xs[i - 1]; }
    }
    forall k | k in RefsOf(xs) ensures k in RefsOf(s) {
      var i :| 0 <= i < |xs| && RefOf(xs[i]) == k;
      assert s[i + 1] == xs[i];
    }
    assert RefOf(s[0]) == RefOf(x);
  }

  lemma RefsOfAppend(a: seq<Item>, b: seq<Item>)
    ensures RefsOf(a + b) == RefsOf(a) + RefsOf(b)
  {
    var s := a + b;
    forall k | k in RefsOf(s) ensures k in RefsOf(a) + RefsOf(b) {
      var i :| 0 <= i < |s| && RefOf(s[i]) == k;
      if i < |a| { assert s[i] == a[i]; } else { assert s[i] == b[i - |a|]; }
    }
    forall k | k in RefsOf(a) ensures k in RefsOf(s) {
      var i :| 0 <= i < |a| && RefOf(a[i]) == k;
      assert s[i] == a[i];
    }
    forall k | k in RefsOf(b) ensures k in RefsOf(s) {
      var i :| 0 <= i < |b| && RefOf(b[i]) == k;
      assert s[i + |a|] == b[i];
    }
  }

  lemma SameRefsWhenPermuted(a: seq<Item>, b: seq<Item>)
    requires multiset(a) == multiset(b)
    ensures RefsOf(a) == RefsOf(b)
  {
    forall k | k in RefsOf(a) ensures k in RefsOf(b) {
      var i :| 0 <= i < |a| && RefOf(a[i]) == k;
      assert a[i] in multiset(b);
      var j :| 0 <= j < |b| && b[j] == a[i];
    }
    forall k | k in RefsOf(b) ensures k in RefsOf(a) {
      var i :| 0 <= i < |b| && RefOf(b[i]) == k;
      assert b[i] in multiset(a);
      var j :| 0 <= j < |a| && a[j] == b[i];
    }
  }

  /**
   * Across all sections every reference is kept once: the kept items have
   * distinct references, none seen before, and together they cover every
   * reference of the input that was not seen before.
   */
  lemma {:induction false} KeptSectionsSpec(sections: seq<seq<Item>>, seen: set<(string, string)>)
    ensures var kept := Concat(KeptSections(sections, seen));
      DistinctRefs(kept)
      && RefsOf(kept) == RefsOf(Concat(sections)) - seen
    decreases |sections|
  {
    if |sections| > 0 {
      var sorted := ByCategory(sections[0]);
      var first := Dedup(RefOf, sorted, seen);
      var seen' := seen + RefsOf(first);
      var restSections := KeptSections(sections[1..], seen');
      KeptSectionsSpec(sections[1..], seen');
      var rest := Concat(restSections);
      assert KeptSections(sections, seen) == [first] + restSections;
      assert Concat([first] + restSections) == first + rest by {
        assert ([first] + restSections)[1..] == restSections;
      }
      assert Concat(sections) == sections[0] + Concat(sections[1..]);
      DedupRefs(sorted, seen);
      SameRefsWhenPermuted(sorted, sections[0]);
      RefsOfAppend(first, rest);
      RefsOfAppend(sections[0], Concat(sections[1..]));
      DistinctAppend(first, rest, seen');
    }
  }

  lemma DistinctAppend(a: seq<Item>, b: seq<Item>, seen: set<(string, string)>)
    requires DistinctRefs(a) && DistinctRefs(b)
    requires RefsOf(a) <= seen && RefsOf(b) !! seen
    ensures DistinctRefs(a + b)
  {
    var s := a + b;
    forall i, j | 0 <= i < j < |s| ensures RefOf(s[i]) != RefOf(s[j]) {
      if j < |a| {
        assert s[i] == a[i] && s[j] == a[j];
      } else if i >= |a| {
        assert s[i] == b[i - |a|] && s[j] == b[j - |a|];
      } else {
        assert s[i] == a[i] && s[j] == b[j - |a|];
        assert RefOf(a[i]) in RefsOf(a);
        assert RefOf(b[j - |a|]) in RefsOf(b);
      }
    }
  }

  /** A sequence with distinct references has as many references as elements. */
  lemma {:induction false} DistinctRefsCount(xs: seq<Item>)
    requires DistinctRefs(xs)
    ensures |RefsOf(xs)| == |xs|
  {
    if |xs| > 0 {
      assert xs == [xs[0]] + xs[1..];
      assert DistinctRefs(xs[1..]) by {
        forall i, j | 0 <= i < j < |xs[1..]| ensures RefOf(xs[1..][i]) != RefOf(xs[1..][j]) {
          assert xs[1..][i] == xs[i + 1] && xs[1..][j] == xs[j + 1];
        }
      }
      DistinctRefsCount(xs[1..]);
      RefsOfCons(xs[0], xs[1..]);
      assert RefOf(xs[0]) !in RefsOf(xs[1..]) by {
        forall i | 0 <= i < |xs[1..]| ensures RefOf(xs[1..][i]) != RefOf(xs[0]) {
          assert xs[1..][i] == xs[i + 1];
        }
      }
    }
  }

  /** The joined sections of the given extractions, read from the store's outputs. */
  function Joined(exts: seq<Extraction>, jsons: map<string, seq<Item>>): (r: seq<seq<Item>>)
    ensures |r| == |exts|
  {
    KeptSections(seq(|exts|, i requires 0 <= i < |exts| => SectionItems(exts[i].name, exts[i].files, jsons)), {})
  }

  /** One rule of `joined.json`. */
  datatype Rule = Rule(category: string, text: string, file: string, section: string)

  function RuleOf(x: Item): Rule {
    Rule(x.category, x.compact, x.pagePath, x.header)
  }

  /** `join_extractions_json`: one rule per kept item, extraction after extraction. */
  function JoinedRules(exts: seq<Extraction>, jsons: map<string, seq<Item>>): (r: seq<Rule>)
    ensures |r| == |Concat(Joined(exts, jsons))|
  {
    var kept := Concat(Joined(exts, jsons));
    seq(|kept|, i requires 0 <= i < |kept| => RuleOf(kept[i]))
  }

  /** There are as many rules as distinct references among all extracted items. */
  lemma RuleCount(exts: seq<Extraction>, jsons: map<string, seq<Item>>)
    ensures |JoinedRules(exts, jsons)|
         == |RefsOf(Concat(seq(|exts|, i requires 0 <= i < |exts| => SectionItems(exts[i].name, exts[i].files, jsons))))|
  {
    var sections := seq(|exts|, i requires 0 <= i < |exts| => SectionItems(exts[i].name, exts[i].files, jsons));
    KeptSectionsSpec(sections, {});
    DistinctRefsCount(Concat(KeptSections(sections, {})));
  }

  /** The three lines of a kept item. */
  function ItemLines(x: Item): seq<string> {
    ["[" + x.category + "] " + x.compact, "  source: " + x.pagePath + " > " + x.header, ""]
  }

  function SectionLines(kept: seq<Item>): (r: seq<string>)
    ensures |r| == 3 * |kept|
  {
    if |kept| == 0 then [] else ItemLines(kept[0]) + SectionLines(kept[1..])
  }

  /** The number of non-empty sections. */
  function NonEmpty(sections: seq<seq<Item>>): nat {
    if |sections| == 0 then 0 else (if |sections[0]| > 0 then 1 else 0) + NonEmpty(sections[1..])
  }

  /** `joined.txt` as lines: each non-empty section's items followed by two blank lines. */
  function JoinedLines(sections: seq<seq<Item>>): (r: seq<string>)
    ensures |r| == 3 * |Concat(sections)| + 2 * NonEmpty(sections)
  {
    if |sections| == 0 then []
    else
      (if |sections[0]| > 0 then SectionLines(sections[0]) + ["", ""] else []) + JoinedLines(sections[1..])
  }

  /** `joined.txt`. */
  function JoinedText(exts: seq<Extraction>, jsons: map<string, seq<Item>>): string {
    Join("\n", JoinedLines(Joined(exts, jsons)))
  }

  /** The items deduplication drops: their reference was seen before or earlier in `s`. */
  function Duplicates(s: seq<Item>, seen: set<(string, string)>): (r: seq<Item>)
    ensures |r| + |Dedup(RefOf, s, seen)| == |s|
    ensures forall i :: 0 <= i < |r| ==> r[i] in s
  {
    if |s| == 0 then []
    else if RefOf(s[0]) in seen then [s[0]] + Duplicates(s[1..], seen)
    else Duplicates(s[1..], seen + {RefOf(s[0])})
  }
}

=== FILE: generators.dfy ===
/**
 * The candidate generators of the entity extractor: wiki paths, exact ids,
 * the standard substring searches, the static lookup tables and the fuzzy
 * search over cached listings. The company API, the wiki directory listing
 * and the fuzzy ratio are parameters.
 */
module Generators {
  import opened Base
  import opened Strings
  import opened Assoc
  import opened Json
  import opened Entities
  import opened Seqs

  // ---------------------------------------------------------------------------
  // The company API as the generators see it
  // ---------------------------------------------------------------------------

  /** A wrapped listing: its items, an unsuccessful response (ServerSystemError) or an exception that propagates. */
  datatype Listing<T> = Listed(items: seq<T>) | Unlisted | ListRaised(message: string)

  datatype Api = Api(
    /** `Req_GetEmployee`, `Req_GetProject`, `Req_GetCustomer`: `None` when not found or on an API error. */
    getEmployee: string -> Option<Record>,
    getProject: string -> Option<Record>,
    getCustomer: string -> Option<CustomerRecord>,
    /** `search_projects` and `search_employees` with `name_or_id_substring`. */
    searchProjects: string -> Listing<Record>,
    searchEmployees: string -> Listing<Record>,
    /** `list_customers`: the customer ids. */
    listCustomers: Listing<string>,
    /** The fuzzy loaders' full listings, empty when the listing raised. */
    allProjects: seq<Record>,
    allEmployees: seq<Record>)

  /** The items of a successful listing; nothing otherwise. */
  function Items<T>(l: Listing<T>): (r: seq<T>)
    ensures l.Listed? ==> r == l.items
    ensures !l.Listed? ==> r == []
  {
    if l.Listed? then l.items else []
  }

  /** Full details of every listed customer; customers whose details fail are skipped. */
  function FullDetails(ids: seq<string>, getCustomer: string -> Option<CustomerRecord>): (r: seq<CustomerRecord>)
    ensures |r| <= |ids|
    ensures forall c :: c in r ==> exists i :: 0 <= i < |ids| && getCustomer(ids[i]) == Some(c)
  {
    if |ids| == 0 then []
    else
      var rest := FullDetails(ids[1..], getCustomer);
      assert forall i :: 0 <= i < |ids[1..]| ==> ids[1..][i] == ids[i + 1];
      match getCustomer(ids[0])
      case Some(c) => [c] + rest
      case None => rest
  }

  // ---------------------------------------------------------------------------
  // Level 0: wiki
  // ---------------------------------------------------------------------------

  function WikiPageCandidate(rel: string, text: string, ratio: Ratio): (r: Option<Candidate>)
    ensures r.Some? ==> r.value.kind == Wiki && r.value.score >= FuzzyThreshold && r.value.objectId == rel
  {
    var pageName := Stem(rel);
    var score := ratio(Lower(text), ReplaceChar(Lower(pageName), '_', ' '));
    if score >= FuzzyThreshold then Some(Candidate(Wiki, rel, ReplaceChar(pageName, '_', ' '), score, None))
    else None
  }

  /** The candidates of the wiki pages whose name matches the mention well enough, in page order. */
  function ScanWikiPages(pages: seq<string>, text: string, ratio: Ratio): (r: seq<Candidate>)
    ensures |r| <= |pages|
    ensures forall i :: 0 <= i < |r| ==> r[i].kind == Wiki && r[i].score >= FuzzyThreshold && r[i].objectId in pages
  {
    FilterMap(rel => WikiPageCandidate(rel, text, ratio), pages)
  }

  /**
   * `_search_wiki`: a mention naming a ".md" file is taken as a path; other
   * mentions are matched against the wiki's pages (`None`: no wiki directory).
   */
  function SearchWiki(wikiSha: Option<string>, text: string, pages: Option<seq<string>>, ratio: Ratio)
    : (r: seq<Candidate>)
    ensures Contains(Lower(text), ".md") ==>
      r == [Candidate(Wiki, Strip(text), ReplaceChar(Stem(Strip(text)), '_', ' '), 100, None)]
    ensures !Contains(Lower(text), ".md") && (!Truthy(wikiSha) || pages.None?) ==> r == []
    ensures forall i :: 0 <= i < |r| ==> r[i].kind == Wiki && r[i].score >= FuzzyThreshold
  {
    if Contains(Lower(text), ".md") then
      [Candidate(Wiki, Strip(text), ReplaceChar(Stem(Strip(text)), '_', ' '), 100, None)]
    else if !Truthy(wikiSha) || pages.None? then []
    else ScanWikiPages(pages.value, text, ratio)
  }

  // ---------------------------------------------------------------------------
  // Level 1: exact id
  // ---------------------------------------------------------------------------

  function IdCandidate(kind: EntityKind, rec: Option<Record>): seq<Candidate> {
    match rec
    case Some(x) => [Candidate(kind, x.id, x.name, 100, Some(x.data))]
    case None => []
  }

  /** `_search_by_id`: employee, project and customer lookups by the mention itself, each at score 100. */
  function SearchById(api: Api, text: string): (r: seq<Candidate>)
    ensures |r| <= 3
    ensures forall i :: 0 <= i < |r| ==> r[i].score == 100
    ensures |r| == 0 <==> api.getEmployee(text).None? && api.getProject(text).None? && api.getCustomer(text).None?
  {
    var cust := match api.getCustomer(text)
      case Some(c) => Some(Record(c.id, c.name, c.data))
      case None => None;
    IdCandidate(Employee, api.getEmployee(text)) + IdCandidate(Project, api.getProject(text))
      + IdCandidate(Customer, cust)
  }

  // ---------------------------------------------------------------------------
  // Level 2: standard search
  // ---------------------------------------------------------------------------

  /** Cached listings for the fuzzy search, shared across mentions and tasks. */
  datatype FuzzyCache = FuzzyCache(employees: seq<Record>, projects: seq<Record>,
                                   customers: seq<CustomerRecord>, taskId: Option<string>)

  function AtScore(kind: EntityKind, recs: seq<Record>, score: Score): (r: seq<Candidate>)
    ensures |r| == |recs|
    ensures forall i :: 0 <= i < |r| ==> r[i] == Candidate(kind, recs[i].id, recs[i].name, score, Some(recs[i].data))
  {
    seq(|recs|, i requires 0 <= i < |recs| => Candidate(kind, recs[i].id, recs[i].name, score, Some(recs[i].data)))
  }

  /** Name matches score 85 and contact-name matches 90; a customer can match both ways. */
  function CustomerMatches(custs: seq<CustomerRecord>, textLower: string): (r: seq<Candidate>)
    ensures forall i :: 0 <= i < |r| ==> r[i].kind == Customer && (r[i].score == 85 || r[i].score == 90)
  {
    if |custs| == 0 then []
    else
      var c := custs[0];
      (if Contains(Lower(c.name), textLower) then [Candidate(Customer, c.id, c.name, 85, Some(c.data))] else [])
      + (if Truthy(c.primaryContact) && Contains(Lower(c.primaryContact.value), textLower)
         then [Candidate(Customer, c.id, c.primaryContact.value + " (" + c.name + ")", 90, Some(c.data))] else [])
      + CustomerMatches(custs[1..], textLower)
  }

  /**
   * An exception out of the candidate search, with the fuzzy cache as it
   * stood when it was raised: the cache is module state, so whatever was
   * stored before the exception stays stored.
   */
  datatype Raised = Raised(message: string, cache: FuzzyCache)

  /** The cache a search leaves, whether it returned or raised. */
  function CacheLeft<T>(r: Result<(T, FuzzyCache), Raised>): FuzzyCache {
    if r.Ok? then r.value.1 else r.error.cache
  }

  /** The customer listing of the standard search ran and returned customers. */
  predicate CustomersLoaded(api: Api, text: string) {
    !api.searchProjects(text).ListRaised? && api.listCustomers.Listed? && |api.listCustomers.items| > 0
  }

  /**
   * `_search_standard`: up to five projects, the matching customers and up
   * to five employees, in that order. A successful non-empty customer listing
   * replaces the cached customers, and stays in the cache even when the
   * employee search that follows raises; an exception other than
   * ServerSystemError propagates.
   */
  function SearchStandard(api: Api, text: string, cache: FuzzyCache): (r: Result<(seq<Candidate>, FuzzyCache), Raised>)
    ensures r.Ok? ==> forall i :: 0 <= i < |r.value.0| ==> 85 <= r.value.0[i].score <= 90
    ensures r.Err? <==> api.searchProjects(text).ListRaised? || api.listCustomers.ListRaised?
                        || api.searchEmployees(text).ListRaised?
    ensures CacheLeft(r).projects == cache.projects && CacheLeft(r).employees == cache.employees
            && CacheLeft(r).taskId == cache.taskId
    ensures CustomersLoaded(api, text) ==> CacheLeft(r).customers == FullDetails(api.listCustomers.items, api.getCustomer)
    ensures !CustomersLoaded(api, text) ==> CacheLeft(r) == cache
  {
    var textLower := Lower(text);
    if api.searchProjects(text).ListRaised? then Err(Raised(api.searchProjects(text).message, cache))
    else if api.listCustomers.ListRaised? then Err(Raised(api.listCustomers.message, cache))
    else
      var loaded := |Items(api.listCustomers)| > 0;
      var full := if loaded then FullDetails(Items(api.listCustomers), api.getCustomer) else [];
      var cache' := if loaded then cache.(customers := full) else cache;
      if api.searchEmployees(text).ListRaised? then Err(Raised(api.searchEmployees(text).message, cache'))
      else
        var projects := AtScore(Project, Take(Items(api.searchProjects(text)), 5), 85);
        var customers := CustomerMatches(full, textLower);
        var employees := AtScore(Employee, Take(Items(api.searchEmployees(text)), 5), 85);
        Ok((projects + customers + employees, cache'))
  }

  // ---------------------------------------------------------------------------
  // Level 3: lookup tables
  // ---------------------------------------------------------------------------

  /** A `locations` entry: a dict with a location name and synonyms, or anything else. */
  datatype LocationObj = LocationEntry(location: Option<string>, synonyms: seq<string>) | NotADict

  /** The static reference data: departments, skill and will ids with descriptions, locations. */
  datatype Lookups = Lookups(departments: seq<string>, skills: seq<(string, string)>,
                             wills: seq<(string, string)>, locations: seq<LocationObj>)

  /** `match_value`: an exact normalised match scores 100; otherwise a long enough value may match fuzzily. */
  function MatchValue(kind: EntityKind, text: string, value: string, objectId: string, display: string,
                      data: Option<Dict<Json>>, ratio: Ratio): (r: Option<Candidate>)
    ensures r.Some? ==> r.value.kind == kind && r.value.objectId == objectId && r.value.displayName == display
                        && r.value.data == data
    ensures NormalizeForFuzzy(text) == NormalizeForFuzzy(value) ==> r.Some? && r.value.score == 100
    ensures NormalizeForFuzzy(text) != NormalizeForFuzzy(value) ==>
      (r.Some? <==> |value| >= |text| && ratio(NormalizeForFuzzy(text), NormalizeForFuzzy(value)) >= FuzzyThreshold)
    ensures r.Some? && NormalizeForFuzzy(text) != NormalizeForFuzzy(value) ==>
      r.value.score == ratio(NormalizeForFuzzy(text), NormalizeForFuzzy(value))
  {
    var tn := NormalizeForFuzzy(text);
    var vn := NormalizeForFuzzy(value);
    if tn == vn then Some(Candidate(kind, objectId, display, 100, data))
    else if |value| >= |text| && ratio(tn, vn) >= FuzzyThreshold then
      Some(Candidate(kind, objectId, display, ratio(tn, vn), data))
    else None
  }

  function OptSeq<T>(o: Option<T>): seq<T> {
    match o case Some(x) => [x] case None => []
  }

  function MatchDepartments(depts: seq<string>, text: string, ratio: Ratio): (r: seq<Candidate>)
    ensures forall i :: 0 <= i < |r| ==> r[i].kind == Department && r[i].score >= FuzzyThreshold
  {
    if |depts| == 0 then []
    else OptSeq(MatchValue(Department, text, depts[0], depts[0], depts[0], None, ratio))
         + MatchDepartments(depts[1..], text, ratio)
  }

  function IdDescData(id: string, description: string): Dict<Json> {
    [Entry("id", Str(id)), Entry("description", Str(description))]
  }

  /** Each skill (or will) is matched by its id and then by its description. */
  function MatchCoded(kind: EntityKind, entries: seq<(string, string)>, text: string, ratio: Ratio): (r: seq<Candidate>)
    ensures forall i :: 0 <= i < |r| ==> r[i].kind == kind && r[i].score >= FuzzyThreshold
  {
    if |entries| == 0 then []
    else
      var (id, description) := entries[0];
      var data := Some(IdDescData(id, description));
      OptSeq(MatchValue(kind, text, id, id, description, data, ratio))
      + OptSeq(MatchValue(kind, text, description, id, description, data, ratio))
      + MatchCoded(kind, entries[1..], text, ratio)
  }

  function MatchSynonyms(synonyms: seq<string>, location: string, data: Dict<Json>, text: string, ratio: Ratio)
    : (r: seq<Candidate>)
    ensures forall i :: 0 <= i < |r| ==> r[i].kind == Location && r[i].score >= FuzzyThreshold
                                         && r[i].objectId == location
  {
    if |synonyms| == 0 then []
    else OptSeq(MatchValue(Location, text, synonyms[0], location, location, Some(data), ratio))
         + MatchSynonyms(synonyms[1..], location, data, text, ratio)
  }

  /** Locations match by name and by every synonym, always under the location's own name. */
  function MatchLocations(locs: seq<LocationObj>, text: string, ratio: Ratio): (r: seq<Candidate>)
    ensures forall i :: 0 <= i < |r| ==> r[i].kind == Location && r[i].score >= FuzzyThreshold
  {
    if |locs| == 0 then []
    else
      var here := match locs[0]
        case NotADict => []
        case LocationEntry(loc, syns) =>
          if !Truthy(loc) then []
          else
            var data := [Entry("location", Str(loc.value)), Entry("synonyms", StrArr(syns))];
            OptSeq(MatchValue(Location, text, loc.value, loc.value, loc.value, Some(data), ratio))
            + MatchSynonyms(syns, loc.value, data, text, ratio);
      here + MatchLocations(locs[1..], text, ratio)
  }

  predicate IsLookupKind(k: EntityKind) {
    k == Department || k == Skill || k == Will || k == Location
  }

  /** Lookup candidates above the threshold, skills and wills only where their gates are open. */
  predicate LookupHits(cs: seq<Candidate>, skillOk: bool, willOk: bool) {
    forall i :: 0 <= i < |cs| ==>
      cs[i].score >= FuzzyThreshold && IsLookupKind(cs[i].kind)
      && (cs[i].kind == Skill ==> skillOk) && (cs[i].kind == Will ==> willOk)
  }

  lemma LookupHitsConcat(a: seq<Candidate>, b: seq<Candidate>, skillOk: bool, willOk: bool)
    requires LookupHits(a, skillOk, willOk) && LookupHits(b, skillOk, willOk)
    ensures LookupHits(a + b, skillOk, willOk)
  {
    forall i | 0 <= i < |a + b| ensures (a + b)[i] == if i < |a| then a[i] else b[i - |a|] { }
  }

  predicate SkillGate(taskText: string) {
    Contains(Lower(taskText), "skill")
  }

  predicate WillGate(taskText: string) {
    var t := Lower(taskText);
    Contains(t, "will") || Contains(t, "willing") || Contains(t, "eager") || Contains(t, "interest")
    || Contains(t, "travel")
  }

  /**
   * `_search_lookups`: departments, then skills (only when the task mentions
   * "skill"), then wills (only when it mentions one of the will keywords),
   * then locations.
   */
  function SearchLookups(lookups: Lookups, text: string, taskText: string, ratio: Ratio): (r: seq<Candidate>)
    ensures forall i :: 0 <= i < |r| ==> r[i].score >= FuzzyThreshold
    ensures forall i :: 0 <= i < |r| ==> IsLookupKind(r[i].kind)
    ensures !SkillGate(taskText) ==> forall i :: 0 <= i < |r| ==> r[i].kind != Skill
    ensures !WillGate(taskText) ==> forall i :: 0 <= i < |r| ==> r[i].kind != Will
  {
    var d := MatchDepartments(lookups.departments, text, ratio);
    var sk := if SkillGate(taskText) then MatchCoded(Skill, lookups.skills, text, ratio) else [];
    var w := if WillGate(taskText) then MatchCoded(Will, lookups.wills, text, ratio) else [];
    var l := MatchLocations(lookups.locations, text, ratio);
    var skillOk, willOk := SkillGate(taskText), WillGate(taskText);
    assert LookupHits(d, skillOk, willOk) && LookupHits(sk, skillOk, willOk);
    assert LookupHits(w, skillOk, willOk) && LookupHits(l, skillOk, willOk);
    LookupHitsConcat(d, sk, skillOk, willOk);
    LookupHitsConcat(d + sk, w, skillOk, willOk);
    LookupHitsConcat(d + sk + w, l, skillOk, willOk);
    d + sk + w + l
  }

  /** A department that equals the mention after normalisation is always offered at score 100. */
  lemma {:induction false} ExactDepartmentFound(depts: seq<string>, text: string, ratio: Ratio, k: nat)
    requires k < |depts| && NormalizeForFuzzy(depts[k]) == NormalizeForFuzzy(text)
    ensures Candidate(Department, depts[k], depts[k], 100, None) in MatchDepartments(depts, text, ratio)
  {
    if k > 0 {
      ExactDepartmentFound(depts[1..], text, ratio, k - 1);
    }
  }

  // ---------------------------------------------------------------------------
  // Level 4: fuzzy search over cached listings
  // ---------------------------------------------------------------------------

  function FuzzyCandidate(kind: EntityKind, x: Record, score: Score): Candidate {
    Candidate(kind, x.id, x.name, score, Some(x.data))
  }

  /**
   * `search_in_cache`'s scan: every item whose name scores at least the
   * threshold, stopping right after the first score of 100 (the flag).
   */
  function ScanRecords(kind: EntityKind, items: seq<Record>, tn: string, ratio: Ratio): (r: (seq<Candidate>, bool))
    ensures forall i :: 0 <= i < |r.0| ==> r.0[i].kind == kind && r.0[i].score >= FuzzyThreshold
    ensures r.1 <==> |r.0| > 0 && r.0[|r.0| - 1].score == 100
    ensures forall i :: 0 <= i < |r.0| - 1 ==> r.0[i].score < 100
    ensures !r.1 ==> forall j :: 0 <= j < |items| ==> ratio(tn, NormalizeForFuzzy(items[j].name)) < 100
    ensures !r.1 ==> forall j :: 0 <= j < |items| && ratio(tn, NormalizeForFuzzy(items[j].name)) >= FuzzyThreshold ==>
      FuzzyCandidate(kind, items[j], ratio(tn, NormalizeForFuzzy(items[j].name))) in r.0
  {
    if |items| == 0 then ([], false)
    else
      var score := ratio(tn, NormalizeForFuzzy(items[0].name));
      var c := FuzzyCandidate(kind, items[0], score);
      if score == 100 then ([c], true)
      else
        var rest := ScanRecords(kind, items[1..], tn, ratio);
        assert forall j :: 1 <= j < |items| ==> items[j] == items[1..][j - 1];
        if score >= FuzzyThreshold then ([c] + rest.0, rest.1) else rest
  }

  function AsRecords(cs: seq<CustomerRecord>): (r: seq<Record>)
    ensures |r| == |cs|
    ensures forall i :: 0 <= i < |cs| ==> r[i] == Record(cs[i].id, cs[i].name, cs[i].data)
  {
    seq(|cs|, i requires 0 <= i < |cs| => Record(cs[i].id, cs[i].name, cs[i].data))
  }

  /** The contact-name pass: customers with a contact, stopping after the first score of 100. */
  function ScanContacts(custs: seq<CustomerRecord>, tn: string, ratio: Ratio): (r: seq<Candidate>)
    ensures forall i :: 0 <= i < |r| ==> r[i].kind == Customer && r[i].score >= FuzzyThreshold
    ensures forall i :: 0 <= i < |r| - 1 ==> r[i].score < 100
  {
    if |custs| == 0 then []
    else
      var c := custs[0];
      if !Truthy(c.primaryContact) then ScanContacts(custs[1..], tn, ratio)
      else
        var contact := c.primaryContact.value;
        var score := ratio(tn, NormalizeForFuzzy(contact));
        var cand := Candidate(Customer, c.id, contact + " (" + c.name + ")", score, Some(c.data));
        if score == 100 then [cand]
        else if score >= FuzzyThreshold then [cand] + ScanContacts(custs[1..], tn, ratio)
        else ScanContacts(custs[1..], tn, ratio)
  }

  /**
   * The cache on entry to `_search_fuzzy`: a new task id empties the project
   * and employee partitions. The customers partition is kept either way.
   */
  function ResetForTask(cache: FuzzyCache, taskId: Option<string>): (r: FuzzyCache)
    ensures r.customers == cache.customers
    ensures Truthy(taskId) && cache.taskId != taskId ==> r == FuzzyCache([], [], cache.customers, taskId)
    ensures !(Truthy(taskId) && cache.taskId != taskId) ==> r == cache
  {
    if Truthy(taskId) && cache.taskId != taskId then cache.(projects := [], employees := [], taskId := taskId)
    else cache
  }

  /** Loads a partition only when it is empty. */
  function LoadIfEmpty<T>(cached: seq<T>, loader: seq<T>): (r: seq<T>)
    ensures |cached| > 0 ==> r == cached
    ensures |cached| == 0 ==> r == loader
  {
    if |cached| == 0 then loader else cached
  }

  /** The customer loader of the fuzzy search: full details, or nothing when the listing is unsuccessful. */
  function LoadCustomers(api: Api): seq<CustomerRecord> {
    if api.listCustomers.Listed? then FullDetails(api.listCustomers.items, api.getCustomer) else []
  }

  /** The passes after the project pass: customers, then employees and contacts unless a customer scored 100. */
  function FuzzyAfterProjects(api: Api, tn: string, c1: FuzzyCache, ratio: Ratio): (r: (seq<Candidate>, FuzzyCache))
    ensures forall i :: 0 <= i < |r.0| ==> r.0[i].kind != Project && r.0[i].score >= FuzzyThreshold
    ensures r.1.projects == c1.projects && r.1.taskId == c1.taskId
    ensures r.1.customers == LoadIfEmpty(c1.customers, LoadCustomers(api))
  {
    var c2 := c1.(customers := LoadIfEmpty(c1.customers, LoadCustomers(api)));
    var (cc, cStop) := ScanRecords(Customer, AsRecords(c2.customers), tn, ratio);
    if cStop then (cc, c2)
    else
      var c3 := c2.(employees := LoadIfEmpty(c2.employees, api.allEmployees));
      var (ec, _) := ScanRecords(Employee, c3.employees, tn, ratio);
      var ct := ScanContacts(c3.customers, tn, ratio);
      var r := cc + ec + ct;
      assert forall i :: 0 <= i < |r| ==> r[i] in cc || r[i] in ec || r[i] in ct by {
        forall i | 0 <= i < |r| ensures r[i] in cc || r[i] in ec || r[i] in ct {
          if i < |cc| { assert r[i] == cc[i]; }
          else if i < |cc| + |ec| { assert r[i] == ec[i - |cc|]; }
          else { assert r[i] == ct[i - |cc| - |ec|]; }
        }
      }
      (r, c3)
  }

  /**
   * `_search_fuzzy`: projects, then customers, then employees, each from the
   * cache (loaded when empty); a score of 100 among projects or customers
   * ends the search. The employee pass's flag is not consulted: the contact
   * pass always follows it.
   */
  function SearchFuzzy(api: Api, text: string, taskId: Option<string>, cache: FuzzyCache, ratio: Ratio)
    : (r: (seq<Candidate>, FuzzyCache))
    ensures forall i :: 0 <= i < |r.0| ==> r.0[i].score >= FuzzyThreshold
  {
    var c0 := ResetForTask(cache, taskId);
    var tn := NormalizeForFuzzy(text);
    var c1 := c0.(projects := LoadIfEmpty(c0.projects, api.allProjects));
    var (pc, pStop) := ScanRecords(Project, c1.projects, tn, ratio);
    if pStop then (pc, c1)
    else
      var rest := FuzzyAfterProjects(api, tn, c1, ratio);
      assert forall i :: 0 <= i < |pc + rest.0| ==> (pc + rest.0)[i] in pc || (pc + rest.0)[i] in rest.0;
      (pc + rest.0, rest.1)
  }

  lemma NoPerfectOfKind(a: seq<Candidate>, b: seq<Candidate>, k: EntityKind)
    requires forall i :: 0 <= i < |a| ==> a[i].score < 100
    requires forall i :: 0 <= i < |b| ==> b[i].kind != k
    ensures forall i :: 0 <= i < |a + b| ==> !((a + b)[i].kind == k && (a + b)[i].score == 100)
  {
    forall i | 0 <= i < |a + b| ensures !((a + b)[i].kind == k && (a + b)[i].score == 100) {
      if i >= |a| { assert (a + b)[i] == b[i - |a|]; }
    }
  }

  /** The order of the fuzzy passes: a perfect project ends the search with projects only. */
  lemma FuzzyPerfectProjectStops(api: Api, text: string, taskId: Option<string>, cache: FuzzyCache, ratio: Ratio)
    ensures var r := SearchFuzzy(api, text, taskId, cache, ratio);
      (exists i :: 0 <= i < |r.0| && r.0[i].kind == Project && r.0[i].score == 100) ==>
        (forall i :: 0 <= i < |r.0| ==> r.0[i].kind == Project) && r.0[|r.0| - 1].score == 100
  {
    var c0 := ResetForTask(cache, taskId);
    var tn := NormalizeForFuzzy(text);
    var c1 := c0.(projects := LoadIfEmpty(c0.projects, api.allProjects));
    var scan := ScanRecords(Project, c1.projects, tn, ratio);
    var r := SearchFuzzy(api, text, taskId, cache, ratio);
    if !scan.1 {
      var rest := FuzzyAfterProjects(api, tn, c1, ratio);
      assert r.0 == scan.0 + rest.0;
      NoPerfectOfKind(scan.0, rest.0, Project);
    } else {
      assert r.0 == scan.0;
    }
  }

  /** A task change never drops the customers the standard search cached. */
  lemma TaskChangeKeepsCustomers(api: Api, text: string, taskId: Option<string>, cache: FuzzyCache, ratio: Ratio)
    requires |cache.customers| > 0
    ensures SearchFuzzy(api, text, taskId, cache, ratio).1.customers == cache.customers
  {
  }

  /** After a task change the project listing is reloaded from the API. */
  lemma TaskChangeReloadsProjects(api: Api, text: string, taskId: Option<string>, cache: FuzzyCache, ratio: Ratio)
    requires Truthy(taskId) && cache.taskId != taskId
    ensures SearchFuzzy(api, text, taskId, cache, ratio).1.projects == api.allProjects
    ensures SearchFuzzy(api, text, taskId, cache, ratio).1.taskId == taskId
  {
  }
}

=== FILE: json.dfy ===
/**
 * JSON values as the Python code handles them (`dict`, `list`, `str`, `int`,
 * `bool`, `None`). Objects keep their insertion order. Floating-point numbers
 * are not modelled; numbers are integers.
 */
module Json {
  import opened Base
  import opened Assoc

  datatype Json =
    | Null
    | Bool(b: bool)
    | Num(n: int)
    | Str(s: string)
    | Arr(items: seq<Json>)
    | Obj(fields: Dict<Json>)

  /** The value of `key` when `j` is an object holding it. */
  function Field(j: Json, key: string): (r: Option<Json>)
    ensures r.Some? ==> j.Obj? && HasKey(j.fields, key)
  {
    if j.Obj? then Get(j.fields, key) else None
  }

  /** A JSON array of strings. */
  function StrArr(ss: seq<string>): (r: Json)
    ensures r.Arr? && |r.items| == |ss|
    ensures forall i :: 0 <= i < |ss| ==> r.items[i] == Str(ss[i])
  {
    Arr(seq(|ss|, i requires 0 <= i < |ss| => Str(ss[i])))
  }
}

=== FILE: llm.dfy ===
/**
 * The deterministic parts of the LLM client: per-task token accounting, the
 * JSON-schema rewriters applied before a structured-output call, and the
 * model-id classifier that decides which rewriter is needed.
 */
module Llm {
  import opened Base
  import opened Assoc
  import opened Strings
  import opened Json

  // ---------------------------------------------------------------------------
  // Token accounting
  // ---------------------------------------------------------------------------

  /** The integer counters of one call's usage (cost and duration are floats and left out). */
  datatype TokenUsage = TokenUsage(prompt: int, completion: int, total: int, cachedTokens: int) {
    /** `self.add(other)`. */
    function Add(other: TokenUsage): (r: TokenUsage)
      ensures r.prompt - prompt == other.prompt
      ensures r.completion - completion == other.completion
      ensures r.total - total == other.total
      ensures r.cachedTokens - cachedTokens == other.cachedTokens
    {
      TokenUsage(prompt + other.prompt, completion + other.completion,
                 total + other.total, cachedTokens + other.cachedTokens)
    }
  }

  const Zero := TokenUsage(0, 0, 0, 0)

  /** The placeholder usage that makes telemetry possible for a task without LLM calls. */
  const InitUsage := TokenUsage(1, 1, 2, 0)

  lemma AddZero(u: TokenUsage)
    ensures Zero.Add(u) == u && u.Add(Zero) == u
  {
  }

  lemma AddCommutes(u: TokenUsage, v: TokenUsage)
    ensures u.Add(v) == v.Add(u)
  {
  }

  lemma AddAssociates(u: TokenUsage, v: TokenUsage, w: TokenUsage)
    ensures u.Add(v).Add(w) == u.Add(v.Add(w))
  {
  }

  /** `reset_task_usage(model_id)`: the accumulator at the start of a task. */
  function ResetTaskUsage(modelId: Option<string>): (r: Dict<TokenUsage>)
    ensures Truthy(modelId) ==> Keys(r) == [modelId.value] && Get(r, modelId.value) == Some(InitUsage)
    ensures !Truthy(modelId) ==> r == []
  {
    if Truthy(modelId) then [Entry(modelId.value, InitUsage)] else []
  }

  /** `_accumulate_usage(model_id, usage)`: a zero entry is created before adding. */
  function Accumulate(d: Dict<TokenUsage>, modelId: string, u: TokenUsage): (r: Dict<TokenUsage>)
    ensures Get(r, modelId) == Some(Get(d, modelId).GetOr(Zero).Add(u))
    ensures forall m :: m != modelId ==> Get(r, m) == Get(d, m)
    ensures HasKey(d, modelId) ==> Keys(r) == Keys(d)
    ensures !HasKey(d, modelId) ==> Keys(r) == Keys(d) + [modelId]
  {
    var d' := if HasKey(d, modelId) then d else Put(d, modelId, Zero);
    var cur := Get(d', modelId).GetOr(Zero);
    GetPut(d, modelId, Zero, modelId);
    GetPut(d', modelId, cur.Add(u), modelId);
    forall m | m != modelId ensures Get(Put(d', modelId, cur.Add(u)), m) == Get(d, m) {
      GetPut(d, modelId, Zero, m);
      GetPut(d', modelId, cur.Add(u), m);
    }
    Put(d', modelId, cur.Add(u))
  }

  /** Sum of the per-model counters (the totals `finalize_task` reports). */
  function Totals(d: Dict<TokenUsage>): TokenUsage {
    if |d| == 0 then Zero else d[0].val.Add(Totals(d[1..]))
  }

  lemma {:induction false} TotalsPutFresh(d: Dict<TokenUsage>, m: string, u: TokenUsage)
    requires !HasKey(d, m)
    ensures Totals(Put(d, m, u)) == Totals(d).Add(u)
  {
    if |d| > 0 {
      assert Keys(d) == [d[0].key] + Keys(d[1..]);
      TotalsPutFresh(d[1..], m, u);
      assert Put(d, m, u) == [d[0]] + Put(d[1..], m, u);
      assert Put(d, m, u)[1..] == Put(d[1..], m, u);
    }
  }

  lemma {:induction false} TotalsPutPresent(d: Dict<TokenUsage>, m: string, u: TokenUsage)
    requires HasKey(d, m)
    ensures Totals(Put(d, m, u)).Add(Get(d, m).value) == Totals(d).Add(u)
  {
    var t := d[1..];
    if d[0].key == m {
      assert Put(d, m, u) == [Entry(m, u)] + t;
      assert ([Entry(m, u)] + t)[1..] == t;
      assert Totals(Put(d, m, u)) == u.Add(Totals(t));
      assert Totals(d) == d[0].val.Add(Totals(t));
    } else {
      assert Keys(d) == [d[0].key] + Keys(t);
      assert HasKey(t, m);
      TotalsPutPresent(t, m, u);
      var pt := Put(t, m, u);
      assert Put(d, m, u) == [d[0]] + pt;
      assert ([d[0]] + pt)[1..] == pt;
      assert Totals(Put(d, m, u)) == d[0].val.Add(Totals(pt));
      assert Get(d, m) == Get(t, m);
      AddAssociates(d[0].val, Totals(pt), Get(t, m).value);
      AddAssociates(d[0].val, Totals(t), u);
    }
  }

  lemma AddCancel(x: TokenUsage, y: TokenUsage, c: TokenUsage)
    requires x.Add(c) == y.Add(c)
    ensures x == y
  {
    assert x.Add(c).prompt == y.Add(c).prompt;
    assert x.Add(c).completion == y.Add(c).completion;
    assert x.Add(c).total == y.Add(c).total;
    assert x.Add(c).cachedTokens == y.Add(c).cachedTokens;
  }

  /** Accumulating one call's usage raises the task totals by exactly that usage. */
  lemma AccumulateTotals(d: Dict<TokenUsage>, modelId: string, u: TokenUsage)
    ensures Totals(Accumulate(d, modelId, u)) == Totals(d).Add(u)
  {
    if HasKey(d, modelId) {
      var cur := Get(d, modelId).value;
      var r := Put(d, modelId, cur.Add(u));
      assert Accumulate(d, modelId, u) == r;
      TotalsPutPresent(d, modelId, cur.Add(u));
      assert Totals(r).Add(cur) == Totals(d).Add(u).Add(cur) by {
        AddAssociates(Totals(d), cur, u);
        AddCommutes(cur, u);
        AddAssociates(Totals(d), u, cur);
      }
      AddCancel(Totals(r), Totals(d).Add(u), cur);
    } else {
      var d' := Put(d, modelId, Zero);
      TotalsPutFresh(d, modelId, Zero);
      GetPut(d, modelId, Zero, modelId);
      assert Accumulate(d, modelId, u) == Put(d', modelId, Zero.Add(u));
      assert Keys(d') == Keys(d) + [modelId];
      assert HasKey(d', modelId);
      TotalsPutPresent(d', modelId, Zero.Add(u));
      AddZero(u);
      AddZero(Totals(Put(d', modelId, u)));
      AddZero(Totals(d));
    }
  }

  // ---------------------------------------------------------------------------
  // Model-id classification
  // ---------------------------------------------------------------------------

  lemma FindSlash(s: string)
    ensures Find(s, "/").Some? <==> '/' in s
    ensures Find(s, "/").Some? ==> s[Find(s, "/").value] == '/' && '/' !in s[..Find(s, "/").value]
  {
    if '/' in s {
      var i :| 0 <= i < |s| && s[i] == '/';
      assert OccursAt(s, "/", i);
    }
    if Find(s, "/").Some? {
      var k := Find(s, "/").value;
      assert s[k..k + 1] == "/";
      assert s[k] in s;
      forall j | 0 <= j < k ensures s[j] != '/' {
        assert !OccursAt(s, "/", j);
        assert s[j..j + 1] == [s[j]];
      }
    }
  }

  lemma LowerSlash(s: string)
    ensures '/' in s <==> '/' in Lower(s)
  {
    if '/' in s {
      var i :| 0 <= i < |s| && s[i] == '/';
      assert Lower(s)[i] == '/';
    }
    if '/' in Lower(s) {
      var i :| 0 <= i < |s| && Lower(s)[i] == '/';
      assert s[i] == '/';
    }
  }

  /** `_is_openai_model`: OpenAI models need `anyOf` in place of `oneOf`. */
  function IsOpenAIModel(modelId: string): (r: bool)
    ensures '/' in modelId ==> (r <==> StartsWith(Lower(modelId), "openai/"))
    ensures '/' !in modelId ==> (r <==> StartsWith(Lower(modelId), "gpt-") || StartsWith(Lower(modelId), "o1"))
  {
    var low := Lower(modelId);
    LowerSlash(modelId);
    FindSlash(low);
    match Find(low, "/")
    case Some(i) =>
      assert StartsWith(low, "openai/") ==> i == 6 by {
        if StartsWith(low, "openai/") {
          assert low[6] == '/';
        }
      }
      low[..i] == "openai"
    case None =>
      StartsWith(low, "gpt-") || StartsWith(low, "o1")
  }
}

=== FILE: log_message.dfy ===
/**
 * Reading a server log message of the form
 * `type='…' body={…} category='…'`: the category, the body cut out by
 * brace depth, and the telemetry fields the body carries.
 */
module LogMessage {
  import opened Base
  import opened Strings
  import opened NumberFormat

  // ---------------------------------------------------------------------------
  // Leftmost matches
  // ---------------------------------------------------------------------------

  /** A pattern tried at one position: what it captures there, if it matches. */
  type Matcher = (string, nat) -> Option<string>

  /** `re.search`: the capture of the leftmost position at or after `k` where the pattern matches. */
  function SearchFrom(s: string, k: nat, at: Matcher): (r: Option<string>)
    ensures r.Some? ==> exists j :: k <= j <= |s| && at(s, j) == r && forall i :: k <= i < j ==> at(s, i).None?
    ensures r.None? ==> forall j :: k <= j <= |s| ==> at(s, j).None?
    decreases |s| + 1 - k
  {
    if k > |s| then None
    else if at(s, k).Some? then at(s, k)
    else SearchFrom(s, k + 1, at)
  }

  function Search(s: string, at: Matcher): (r: Option<string>)
    ensures r.Some? ==> exists j :: 0 <= j <= |s| && at(s, j) == r && forall i :: 0 <= i < j ==> at(s, i).None?
    ensures r.None? ==> forall j :: 0 <= j <= |s| ==> at(s, j).None?
  {
    SearchFrom(s, 0, at)
  }

  /** `'…'` starting at `k`: the text up to the next quote, which it may not contain. */
  function QuotedAt(s: string, k: nat): (r: Option<string>)
    ensures r.Some? ==> OccursAt(s, "'" + r.value + "'", k) && '\'' !in r.value
  {
    if k < |s| && s[k] == '\'' then
      match FindFrom(s, "'", k + 1)
      case None => None
      case Some(q) =>
        QuotedBetween(s, k, q);
        Some(s[k + 1..q])
    else None
  }

  /** The text between two quotes with no quote between them is quoted there. */
  lemma QuotedBetween(s: string, k: nat, q: nat)
    requires k < |s| && s[k] == '\''
    requires k + 1 <= q && OccursAt(s, "'", q)
    requires forall j :: k + 1 <= j < q ==> !OccursAt(s, "'", j)
    ensures OccursAt(s, "'" + s[k + 1..q] + "'", k) && '\'' !in s[k + 1..q]
  {
    var v := s[k + 1..q];
    forall j | 0 <= j < |v| ensures v[j] != '\'' {
      assert !OccursAt(s, "'", k + 1 + j);
      assert s[k + 1 + j..k + 2 + j] == [v[j]];
    }
    assert s[q..q + 1] == "'";
    assert s[k..q + 1] == "'" + v + "'";
  }

  /** `category='([^']*)'` at `k`. */
  function CategoryAt(s: string, k: nat): (r: Option<string>)
    ensures r.Some? ==> OccursAt(s, "category=" + "'" + r.value + "'", k) && '\'' !in r.value
  {
    if OccursAt(s, "category=", k) then
      var v := QuotedAt(s, k + 9);
      if v.Some? then
        assert s[k..k + 9] == "category=";
        assert s[k + 9..k + 9 + |v.value| + 2] == "'" + v.value + "'";
        assert s[k..k + 9 + |v.value| + 2] == "category=" + "'" + v.value + "'";
        v
      else None
    else None
  }

  /** The position after `'key':` and any white space that follows it at `k`. */
  function AfterKey(s: string, key: string, k: nat): (r: Option<nat>)
    ensures r.Some? ==> OccursAt(s, "'" + key + "':", k) && k + |key| + 3 <= r.value <= |s|
    ensures r.Some? ==> forall i :: k + |key| + 3 <= i < r.value ==> IsSpace(s[i])
    ensures r.Some? && r.value < |s| ==> !IsSpace(s[r.value])
  {
    var pat := "'" + key + "':";
    if OccursAt(s, pat, k) then
      var n := LeadCount(s[k + |pat|..], IsSpace);
      Some(k + |pat| + n)
    else None
  }

  /** The longest run of characters accepted by `p` from `j`, if it is not empty. */
  function RunAt(s: string, j: nat, p: char -> bool): (r: Option<string>)
    requires j <= |s|
    ensures r.Some? ==> |r.value| > 0 && j + |r.value| <= |s| && r.value == s[j..j + |r.value|]
    ensures r.Some? ==> (forall i :: 0 <= i < |r.value| ==> p(r.value[i])) && (j + |r.value| < |s| ==> !p(s[j + |r.value|]))
    ensures r.None? ==> j == |s| || !p(s[j])
  {
    var n := LeadCount(s[j..], p);
    if n > 0 then Some(s[j..j + n]) else None
  }

  predicate IsDigitOrDot(c: char) {
    IsDigit(c) || c == '.'
  }

  /** `'key':\s*(\d+)` at `k`. */
  function DigitsAt(key: string): Matcher {
    (s: string, k: nat) =>
      match AfterKey(s, key, k)
      case None => None
      case Some(j) => RunAt(s, j, IsDigit)
  }

  /** `'key':\s*([\d.]+)` at `k`. */
  function DecimalAt(key: string): Matcher {
    (s: string, k: nat) =>
      match AfterKey(s, key, k)
      case None => None
      case Some(j) => RunAt(s, j, IsDigitOrDot)
  }

  /** `'key':\s*'([^']*)'` at `k`. */
  function QuotedAfterKey(key: string): Matcher {
    (s: string, k: nat) =>
      match AfterKey(s, key, k)
      case None => None
      case Some(j) => QuotedAt(s, j)
  }

  // ---------------------------------------------------------------------------
  // The body
  // ---------------------------------------------------------------------------

  /** Opening braces minus closing braces in `t`. */
  function Depth(t: string): int {
    if |t| == 0 then 0
    else Depth(t[..|t| - 1]) + (if t[|t| - 1] == '{' then 1 else if t[|t| - 1] == '}' then -1 else 0)
  }

  /**
   * The brace scan from `i` with the depth reached so far: the position
   * just after the brace that brings the depth back to zero.
   */
  function CloseFrom(s: string, start: nat, i: nat, depth: int): (r: Option<nat>)
    requires start < |s| && s[start] == '{'
    requires start <= i <= |s| && depth == Depth(s[start..i])
    requires forall e :: start < e <= i ==> Depth(s[start..e]) > 0
    ensures r.Some? ==> i < r.value <= |s| && Depth(s[start..r.value]) == 0
    ensures r.Some? ==> forall e :: start < e < r.value ==> Depth(s[start..e]) > 0
    ensures r.None? ==> forall e :: start < e <= |s| ==> Depth(s[start..e]) > 0
    decreases |s| - i
  {
    if i == |s| then None
    else
      assert s[start..i + 1][..i - start] == s[start..i];
      var d := depth + (if s[i] == '{' then 1 else if s[i] == '}' then -1 else 0);
      assert d == Depth(s[start..i + 1]);
      if s[i] == '}' && d == 0 then Some(i + 1)
      else
        assert i > start ==> Depth(s[start..i]) > 0;
        CloseFrom(s, start, i + 1, d)
  }

  /** No prefix of the text from `start` on has as many closing braces as opening ones. */
  predicate NeverBalances(message: string, start: nat)
    requires start <= |message|
  {
    forall e :: start < e <= |message| ==> Depth(message[start..e]) > 0
  }

  /** The body as it sits in the message: after `body=` at `p`, up to its end `e` or empty. */
  predicate BodyFrom(message: string, p: nat, body: string) {
    var start := p + 5;
    start <= |message|
    && ((body == "" && NeverBalances(message, start))
        || (0 < |body| && start + |body| <= |message| && body == message[start..start + |body|]
            && Depth(body) == 0 && forall e :: 0 < e < |body| ==> Depth(body[..e]) > 0))
  }

  /**
   * The body text after the first `body=`: from its opening brace to the
   * brace that balances it; empty when the braces never balance.
   */
  function BodyText(message: string): (r: Option<string>)
    ensures r.None? <==> Find(message, "body={").None?
    ensures r.Some? ==> BodyFrom(message, Find(message, "body={").value, r.value)
  {
    match Find(message, "body={")
    case None => None
    case Some(p) =>
      var start := p + 5;
      assert message[start] == '{' by {
        assert message[p..p + 6] == "body={";
      }
      match CloseFrom(message, start, start, 0)
      case None => Some("")
      case Some(e) =>
        var body := message[start..e];
        assert forall k :: 0 < k < |body| ==> body[..k] == message[start..start + k];
        Some(body)
  }

  // ---------------------------------------------------------------------------
  // The fields
  // ---------------------------------------------------------------------------

  function Count(t: string, c: char): nat {
    if |t| == 0 then 0 else Count(t[1..], c) + (if t[0] == c then 1 else 0)
  }

  /** `float()` accepts a run of digits and dots iff it holds a digit and at most one dot. */
  predicate FloatReads(t: string) {
    Count(t, '.') <= 1 && exists i :: 0 <= i < |t| && IsDigit(t[i])
  }

  /** The digits before the first dot and those after it. */
  function SplitDot(t: string): (r: (string, string))
    ensures Count(t, '.') == 0 ==> r == (t, "")
    ensures Count(t, '.') > 0 ==> t == r.0 + "." + r.1
    ensures '.' !in r.0
    ensures Count(t, '.') > 0 ==> Count(r.1, '.') + 1 == Count(t, '.')
  {
    if |t| == 0 then ("", "")
    else if t[0] == '.' then
      assert t == "" + "." + t[1..];
      ("", t[1..])
    else
      var rest := SplitDot(t[1..]);
      assert t == [t[0]] + t[1..];
      ([t[0]] + rest.0, rest.1)
  }

  /** The value `float()` reads from digits with at most one dot. */
  function DecimalValue(t: string): real
    requires forall i :: 0 <= i < |t| ==> IsDigitOrDot(t[i])
    requires Count(t, '.') <= 1
  {
    var (whole, frac) := SplitDot(t);
    SplitDotDigits(t);
    ValueOf(whole) as real + ValueOf(frac) as real / Pow10(|frac|) as real
  }

  /** Both sides of the dot are digits. */
  lemma {:induction false} SplitDotDigits(t: string)
    requires forall i :: 0 <= i < |t| ==> IsDigitOrDot(t[i])
    requires Count(t, '.') <= 1
    ensures AllDigits(SplitDot(t).0) && AllDigits(SplitDot(t).1)
  {
    if |t| > 0 {
      assert forall i :: 1 <= i < |t| ==> t[i] == t[1..][i - 1];
      if t[0] == '.' {
        NoDotIsDigits(t[1..]);
      } else {
        SplitDotDigits(t[1..]);
      }
    }
  }

  lemma {:induction false} NoDotIsDigits(t: string)
    requires forall i :: 0 <= i < |t| ==> IsDigitOrDot(t[i])
    requires Count(t, '.') == 0
    ensures forall i :: 0 <= i < |t| ==> IsDigit(t[i])
  {
    if |t| > 0 {
      NoDotIsDigits(t[1..]);
      assert forall i :: 1 <= i < |t| ==> t[i] == t[1..][i - 1];
    }
  }

  /** The telemetry fields of a body. */
  datatype Body = Body(model: Option<string>, durationSec: Option<real>, promptTokens: Option<nat>,
                       cachedPromptTokens: Option<nat>, completionTokens: Option<nat>)

  /** `parse_log_message`'s result: the category and the body, each when present. */
  datatype ParsedLog = ParsedLog(category: Option<string>, body: Option<Body>)

  function IntField(b: string, key: string): (r: Option<nat>)
    ensures r.Some? ==> exists k :: 0 <= k <= |b| && DigitsAt(key)(b, k).Some?
  {
    match Search(b, DigitsAt(key))
    case None => None
    case Some(t) => Some(ValueOf(t))
  }

  /**
   * The fields of a body; `None` when the duration's digits and dots do
   * not read as a number, which drops the whole body.
   */
  function ParseBody(b: string): (r: Option<Body>)
    ensures r.None? <==> Search(b, DecimalAt("duration_sec")).Some? && !FloatReads(Search(b, DecimalAt("duration_sec")).value)
    ensures r.Some? ==> r.value.model == Search(b, QuotedAfterKey("model"))
    ensures r.Some? ==> (r.value.durationSec.Some? <==> Search(b, DecimalAt("duration_sec")).Some?)
  {
    var duration := Search(b, DecimalAt("duration_sec"));
    if duration.Some? && !FloatReads(duration.value) then None
    else
      Some(Body(Search(b, QuotedAfterKey("model")),
                if duration.Some? then Some(DecimalValue(duration.value)) else None,
                IntField(b, "prompt_tokens"),
                IntField(b, "cached_prompt_tokens"),
                IntField(b, "completion_tokens")))
  }

  /** `parse_log_message`. */
  function ParseLogMessage(message: string): (r: ParsedLog)
    ensures r.category.Some? ==> exists k :: OccursAt(message, "category=" + "'" + r.category.value + "'", k)
    ensures r.category.None? ==> forall k :: 0 <= k <= |message| ==> CategoryAt(message, k).None?
    ensures r.body.Some? ==> Find(message, "body={").Some?
  {
    var category := Search(message, CategoryAt);
    var body := match BodyText(message)
      case None => None
      case Some(b) => ParseBody(b);
    ParsedLog(category, body)
  }

  /** When the braces after `body=` never balance, the body is read from the empty text and has no field. */
  lemma UnbalancedBodyIsEmpty(message: string)
    requires Find(message, "body={").Some?
    requires Find(message, "body={").value + 5 <= |message| && NeverBalances(message, Find(message, "body={").value + 5)
    ensures ParseLogMessage(message).body == Some(Body(None, None, None, None, None))
  {
  }
}

=== FILE: number_format.dfy ===
/**
 * Decimal text of integers: Python's `str` of an `int`, its reading back,
 * and `format(n, ",")` with the commas turned into spaces.
 */
module NumberFormat {
  import opened Seqs

  predicate IsDigit(c: char) {
    '0' <= c <= '9'
  }

  predicate AllDigits(s: string) {
    forall i :: 0 <= i < |s| ==> IsDigit(s[i])
  }

  function DigitChar(d: nat): (c: char)
    requires d < 10
    ensures IsDigit(c) && (c as int) - ('0' as int) == d
  {
    ['0', '1', '2', '3', '4', '5', '6', '7', '8', '9'][d]
  }

  function DigitValue(c: char): (d: nat)
    requires IsDigit(c)
    ensures d < 10
  {
    (c as int) - ('0' as int)
  }

  /** The decimal digits of `n`, without leading zeros. */
  function Digits(n: nat): (r: string)
    ensures |r| >= 1 && AllDigits(r)
    ensures |r| > 1 ==> r[0] != '0'
    ensures n < 10 <==> |r| == 1
  {
    if n < 10 then [DigitChar(n)]
    else
      var r := Digits(n / 10) + [DigitChar(n % 10)];
      assert r[0] == Digits(n / 10)[0];
      r
  }

  /** The value of a string of decimal digits, as `int(s)` reads it. */
  function ValueOf(s: string): nat
    requires AllDigits(s)
  {
    if |s| == 0 then 0 else ValueOf(s[..|s| - 1]) * 10 + DigitValue(s[|s| - 1])
  }

  /** Reading back the digits of a number gives the number. */
  lemma {:induction false} DigitsRoundTrip(n: nat)
    ensures ValueOf(Digits(n)) == n
  {
    if n >= 10 {
      DigitsRoundTrip(n / 10);
      var r := Digits(n);
      assert r[..|r| - 1] == Digits(n / 10);
    }
  }

  /** Distinct numbers have distinct digits. */
  lemma DigitsInjective(m: nat, n: nat)
    requires Digits(m) == Digits(n)
    ensures m == n
  {
    DigitsRoundTrip(m);
    DigitsRoundTrip(n);
  }

  /** `str(n)` of an `int`. */
  function IntText(n: int): (r: string)
    ensures n >= 0 ==> r == Digits(n)
    ensures n < 0 ==> r == "-" + Digits(-n)
  {
    if n >= 0 then Digits(n) else "-" + Digits(-n)
  }

  // ---------------------------------------------------------------------------
  // Thousands groups
  // ---------------------------------------------------------------------------

  /** The digits cut into groups of three from the right; the first group holds one to three. */
  function Groups(ds: string): (r: seq<string>)
    requires |ds| >= 1
    ensures |r| >= 1 && 1 <= |r[0]| <= 3
    ensures forall k :: 1 <= k < |r| ==> |r[k]| == 3
    ensures Concat(r) == ds
    decreases |ds|
  {
    if |ds| <= 3 then
      assert Concat([ds]) == ds + Concat([ds][1..]);
      [ds]
    else
      var front := Groups(ds[..|ds| - 3]);
      var r := front + [ds[|ds| - 3..]];
      ConcatAppendOne(front, ds[|ds| - 3..]);
      assert ds == ds[..|ds| - 3] + ds[|ds| - 3..];
      r
  }

  lemma {:induction false} ConcatAppendOne<T>(ss: seq<seq<T>>, s: seq<T>)
    ensures Concat(ss + [s]) == Concat(ss) + s
  {
    if |ss| == 0 {
      assert ss + [s] == [s];
      assert Concat([s]) == s + Concat([s][1..]);
    } else {
      assert (ss + [s])[1..] == ss[1..] + [s];
      ConcatAppendOne(ss[1..], s);
    }
  }

  /** The groups joined by single spaces. */
  function SpaceJoin(gs: seq<string>): string {
    if |gs| == 0 then "" else if |gs| == 1 then gs[0] else gs[0] + " " + SpaceJoin(gs[1..])
  }

  /** The characters of `s` other than spaces. */
  function Unspaced(s: string): string {
    Filter(c => c != ' ', s)
  }

  lemma {:induction false} UnspacedAppend(a: string, b: string)
    ensures Unspaced(a + b) == Unspaced(a) + Unspaced(b)
  {
    if |a| == 0 {
      assert a + b == b;
    } else {
      assert (a + b)[0] == a[0] && (a + b)[1..] == a[1..] + b;
      UnspacedAppend(a[1..], b);
    }
  }

  lemma {:induction false} UnspacedDigits(s: string)
    requires AllDigits(s)
    ensures Unspaced(s) == s
  {
    if |s| > 0 {
      UnspacedDigits(s[1..]);
      assert s == [s[0]] + s[1..];
    }
  }

  /** Dropping the separators of digit groups gives the digits back. */
  lemma {:induction false} UnspacedJoin(gs: seq<string>)
    requires forall k :: 0 <= k < |gs| ==> AllDigits(gs[k])
    ensures Unspaced(SpaceJoin(gs)) == Concat(gs)
  {
    if |gs| == 1 {
      UnspacedDigits(gs[0]);
      assert Concat(gs) == gs[0] + Concat(gs[1..]);
    } else if |gs| > 1 {
      UnspacedJoin(gs[1..]);
      UnspacedAppend(gs[0] + " ", SpaceJoin(gs[1..]));
      UnspacedAppend(gs[0], " ");
      UnspacedDigits(gs[0]);
    }
  }

  /**
   * `fmt_num`: the decimal digits in groups of three separated by spaces,
   * after a minus sign for a negative number.
   */
  function FmtNum(n: int): (r: string)
    ensures n < 0 <==> |r| > 0 && r[0] == '-'
    ensures -1000 < n < 1000 ==> r == IntText(n)
  {
    var ds := Digits(if n < 0 then -n else n);
    var body := SpaceJoin(Groups(ds));
    GroupedShape(ds);
    if -1000 < n < 1000 then
      DigitsCount(if n < 0 then -n else n, 3);
      (if n < 0 then "-" else "") + body
    else
      (if n < 0 then "-" else "") + body
  }

  /** The grouped digits start with a digit, and fewer than four digits stay as they are. */
  lemma GroupedShape(ds: string)
    requires |ds| >= 1 && AllDigits(ds)
    ensures var j := SpaceJoin(Groups(ds)); |j| > 0 && IsDigit(j[0])
    ensures |ds| <= 3 ==> SpaceJoin(Groups(ds)) == ds
  {
    var gs := Groups(ds);
    GroupDigits(ds, gs, 0);
    assert |gs| == 1 || SpaceJoin(gs) == gs[0] + " " + SpaceJoin(gs[1..]);
  }

  /** Without its spaces, the formatted number is `str(n)`, so the number reads back unchanged. */
  lemma FmtNumUnspaced(n: int)
    ensures Unspaced(FmtNum(n)) == IntText(n)
    ensures n >= 0 ==> ValueOf(Unspaced(FmtNum(n))) == n
  {
    var ds := Digits(if n < 0 then -n else n);
    var gs := Groups(ds);
    forall k | 0 <= k < |gs| ensures AllDigits(gs[k]) {
      GroupDigits(ds, gs, k);
    }
    UnspacedJoin(gs);
    if n < 0 {
      UnspacedAppend("-", SpaceJoin(gs));
      assert Unspaced("-") == "-";
      assert FmtNum(n) == "-" + SpaceJoin(gs);
    } else {
      assert FmtNum(n) == SpaceJoin(gs);
    }
    if n >= 0 {
      DigitsRoundTrip(n);
    }
  }

  /** Each group of a digit string holds digits only. */
  lemma {:induction false} GroupDigits(ds: string, gs: seq<string>, k: nat)
    requires |ds| >= 1 && AllDigits(ds) && gs == Groups(ds) && k < |gs|
    ensures AllDigits(gs[k])
    decreases |ds|
  {
    if |ds| > 3 {
      var front := ds[..|ds| - 3];
      if k < |gs| - 1 {
        GroupDigits(front, Groups(front), k);
      }
    }
  }

  /** 1234567 is written "1 234 567". */
  lemma FmtNumExample()
    ensures FmtNum(1234567) == "1 234 567"
  {
    DigitsExample();
    GroupsExample();
    assert SpaceJoin(["1", "234", "567"]) == "1" + " " + SpaceJoin(["234", "567"]);
    assert SpaceJoin(["234", "567"]) == "234 567";
  }

  lemma DigitsExample()
    ensures Digits(1234567) == "1234567"
  {
    DigitsStep(1, 2);
    DigitsStep(12, 3);
    DigitsStep(123, 4);
    DigitsStep(1234, 5);
    DigitsStep(12345, 6);
    DigitsStep(123456, 7);
  }

  lemma GroupsExample()
    ensures Groups("1234567") == ["1", "234", "567"]
  {
    assert "1234"[..1] == "1" && "1234"[1..] == "234";
    assert Groups("1234") == ["1", "234"];
    assert "1234567"[..4] == "1234" && "1234567"[4..] == "567";
  }

  /** Appending a digit to a positive number appends its digit character. */
  lemma DigitsStep(n: nat, d: nat)
    requires n >= 1 && d < 10
    ensures Digits(n * 10 + d) == Digits(n) + [DigitChar(d)]
  {
    var m := n * 10 + d;
    assert m / 10 == n && m % 10 == d;
  }

  function Pow10(k: nat): (r: nat)
    ensures r >= 1
  {
    if k == 0 then 1 else 10 * Pow10(k - 1)
  }

  /** A number below 10^k has at most k digits. */
  lemma {:induction false} DigitsCount(n: nat, k: nat)
    requires 1 <= k && n < Pow10(k)
    ensures |Digits(n)| <= k
  {
    if n >= 10 {
      DigitsCount(n / 10, k - 1);
    }
  }
}

=== FILE: objects.dfy ===
/**
 * `build_resolved_objects`: the `{type:id}` tags of the resolved text, read
 * back with the pattern `\{(\w+):([^}]+)\}`, each looked up among the
 * candidates to give the object's type, id and data.
 */
module ResolvedObjects {
  import opened Base
  import opened Seqs
  import opened Assoc
  import opened Json
  import opened Entities
  import opened Core
  import opened Resolution

  /** `\w` on ASCII text: letters, digits and '_'. */
  predicate IsWordChar(c: char) {
    'a' <= c <= 'z' || 'A' <= c <= 'Z' || '0' <= c <= '9' || c == '_'
  }

  /** The end of the run of word characters starting at `i`. */
  function WordEnd(s: string, i: nat): (r: nat)
    requires i <= |s|
    ensures i <= r <= |s|
    ensures forall k :: i <= k < r ==> IsWordChar(s[k])
    ensures r < |s| ==> !IsWordChar(s[r])
    decreases |s| - i
  {
    if i < |s| && IsWordChar(s[i]) then WordEnd(s, i + 1) else i
  }

  /** The first '}' at or after `i`. */
  function CloseFrom(s: string, i: nat): (r: Option<nat>)
    requires i <= |s|
    ensures r.Some? ==> i <= r.value < |s| && s[r.value] == '}' && '}' !in s[i..r.value]
    ensures r.None? ==> '}' !in s[i..]
    decreases |s| - i
  {
    if i == |s| then None
    else if s[i] == '}' then Some(i)
    else
      var r := CloseFrom(s, i + 1);
      assert s[i..] == [s[i]] + s[i + 1..];
      assert r.Some? ==> s[i..r.value] == [s[i]] + s[i + 1..r.value];
      r
  }

  /** A tag read at the start of the text: its type, its id, and where it ends. */
  datatype TagMatch = TagMatch(typ: string, id: string, end: nat)

  /** The pattern matched at position 0; the greedy runs never need to backtrack. */
  function MatchAt(s: string): (r: Option<TagMatch>)
    ensures r.Some? ==>
      var m := r.value;
      3 < m.end <= |s| && s[..m.end] == "{" + m.typ + ":" + m.id + "}"
      && |m.typ| > 0 && (forall k :: 0 <= k < |m.typ| ==> IsWordChar(m.typ[k]))
      && |m.id| > 0 && '}' !in m.id
  {
    if |s| == 0 || s[0] != '{' then None
    else
      var j := WordEnd(s, 1);
      if j == 1 || j == |s| || s[j] != ':' then None
      else
        match CloseFrom(s, j + 1)
        case None => None
        case Some(k) =>
          if k == j + 1 then None
          else
            assert s[..k + 1] == "{" + s[1..j] + ":" + s[j + 1..k] + "}";
            Some(TagMatch(s[1..j], s[j + 1..k], k + 1))
  }

  /** `re.finditer`: every non-overlapping match, left to right. */
  function ScanTags(s: string): (r: seq<(string, string)>)
    ensures forall t :: t in r ==> |t.0| > 0 && |t.1| > 0 && '}' !in t.1 && ':' !in t.0
    decreases |s|
  {
    if |s| == 0 then []
    else
      match MatchAt(s)
      case Some(m) =>
        assert ':' !in m.typ by {
          forall k | 0 <= k < |m.typ| ensures m.typ[k] != ':' { assert IsWordChar(m.typ[k]); }
        }
        [(m.typ, m.id)] + ScanTags(s[m.end..])
      case None => ScanTags(s[1..])
  }

  /** Text without '{' holds no tag and does not disturb the tags after it. */
  lemma {:induction false} ScanTagsSkips(a: string, b: string)
    requires '{' !in a
    ensures ScanTags(a + b) == ScanTags(b)
  {
    if |a| > 0 {
      assert (a + b)[0] == a[0];
      assert (a + b)[1..] == a[1..] + b;
      ScanTagsSkips(a[1..], b);
    } else {
      assert a + b == b;
    }
  }

  lemma KindNameIsWord(k: EntityKind)
    ensures forall i :: 0 <= i < |KindName(k)| ==> IsWordChar(KindName(k)[i])
  {
  }

  /** A tag written by the resolver is read back as its candidate's type and id. */
  lemma TagRoundTrip(c: Candidate, b: string)
    requires |c.objectId| > 0 && '}' !in c.objectId
    ensures ScanTags(TagFor(c) + b) == [(KindName(c.kind), c.objectId)] + ScanTags(b)
  {
    var s := TagFor(c) + b;
    MatchTag(c, b);
    assert s[|TagFor(c)|..] == b;
  }

  lemma MatchTag(c: Candidate, b: string)
    requires |c.objectId| > 0 && '}' !in c.objectId
    ensures MatchAt(TagFor(c) + b) == Some(TagMatch(KindName(c.kind), c.objectId, |TagFor(c)|))
  {
    var kind := KindName(c.kind);
    KindNameIsWord(c.kind);
    TagLayout(kind, c.objectId, b);
    MatchLaidOut(TagFor(c) + b, kind, c.objectId);
  }

  /** Where the kind, the colon, the id and the closing brace of a tag sit. */
  lemma TagLayout(kind: string, id: string, b: string)
    ensures var s := "{" + kind + ":" + id + "}" + b;
      var j := 1 + |kind|;
      var k := j + 1 + |id|;
      k < |s| && s[0] == '{' && s[j] == ':' && s[k] == '}' && s[1..j] == kind && s[j + 1..k] == id
  {
    var front := "{" + kind + ":";
    var back := id + "}" + b;
    var s := "{" + kind + ":" + id + "}" + b;
    assert s == front + back;
    var j := 1 + |kind|;
    assert front[1..j] == kind;
    assert back[..|id|] == id;
  }

  /** Text laid out as a tag matches as that tag. */
  lemma MatchLaidOut(s: string, kind: string, id: string)
    requires |kind| > 0 && (forall i :: 0 <= i < |kind| ==> IsWordChar(kind[i]))
    requires |id| > 0 && '}' !in id
    requires var j := 1 + |kind|;
      var k := j + 1 + |id|;
      k < |s| && s[0] == '{' && s[j] == ':' && s[k] == '}' && s[1..j] == kind && s[j + 1..k] == id
    ensures MatchAt(s) == Some(TagMatch(kind, id, |kind| + |id| + 3))
  {
    var j := 1 + |kind|;
    var k := j + 1 + |id|;
    forall m | 1 <= m < j ensures IsWordChar(s[m]) {
      assert s[m] == kind[m - 1];
    }
    WordEndAt(s, 1, j);
    forall m | j + 1 <= m < k ensures s[m] != '}' {
      assert s[m] == id[m - j - 1];
    }
    CloseFromAt(s, j + 1, k);
  }

  lemma {:induction false} CloseFromAt(s: string, i: nat, k: nat)
    requires i <= k < |s| && s[k] == '}'
    requires forall m :: i <= m < k ==> s[m] != '}'
    ensures CloseFrom(s, i) == Some(k)
    decreases k - i
  {
    if i < k {
      CloseFromAt(s, i + 1, k);
    }
  }

  lemma {:induction false} WordEndAt(s: string, i: nat, j: nat)
    requires i <= j < |s| && !IsWordChar(s[j])
    requires forall k :: i <= k < j ==> IsWordChar(s[k])
    ensures WordEnd(s, i) == j
    decreases j - i
  {
    if i < j {
      WordEndAt(s, i + 1, j);
    }
  }

  // ---------------------------------------------------------------------------
  // Resolved objects
  // ---------------------------------------------------------------------------

  /** An entry of `resolved_objects`: `{"type", "id", "data"}`. */
  datatype ResolvedObject = ResolvedObject(typ: string, id: string, data: Dict<Json>)

  function TagKey(c: Candidate): (string, string) {
    (KindName(c.kind), c.objectId)
  }

  /** The first candidate, over every mention in order, with the tag's type and id. */
  function CandidateForTag(cands: Dict<seq<Candidate>>, tag: (string, string)): (r: Option<Candidate>)
    ensures r.Some? ==> r.value in AllCandidates(cands) && TagKey(r.value) == tag
    ensures r.None? ==> forall c :: c in AllCandidates(cands) ==> TagKey(c) != tag
  {
    FirstOfId(TagKey, tag, AllCandidates(cands))
  }

  /** The objects of the given tags, keyed `type:id`; a tag without a candidate is dropped. */
  function ObjectsOf(tags: seq<(string, string)>, cands: Dict<seq<Candidate>>): (r: Dict<ResolvedObject>)
    ensures DistinctKeys(r)
  {
    if |tags| == 0 then []
    else
      var d := ObjectsOf(tags[..|tags| - 1], cands);
      var tag := tags[|tags| - 1];
      match CandidateForTag(cands, tag)
      case None => d
      case Some(c) =>
        PutDistinct(d, MakeResolvedKey(tag.0, tag.1), ResolvedObject(tag.0, tag.1, c.data.GetOr([])));
        Put(d, MakeResolvedKey(tag.0, tag.1), ResolvedObject(tag.0, tag.1, c.data.GetOr([])))
  }

  /** `build_resolved_objects`. */
  function BuildResolvedObjects(text: string, cands: Dict<seq<Candidate>>): (r: Dict<ResolvedObject>)
    ensures DistinctKeys(r)
  {
    ObjectsOf(ScanTags(text), cands)
  }

  /**
   * A key is present exactly for a tag with a candidate, and its object
   * carries the tag's type and id and the first such candidate's data.
   */
  lemma {:induction false} ObjectsOfSpec(tags: seq<(string, string)>, cands: Dict<seq<Candidate>>, tag: (string, string))
    requires ':' !in tag.0 && forall t :: t in tags ==> ':' !in t.0
    ensures var r := ObjectsOf(tags, cands);
      var key := MakeResolvedKey(tag.0, tag.1);
      (HasKey(r, key) <==> tag in tags && CandidateForTag(cands, tag).Some?)
      && (HasKey(r, key) ==>
            Get(r, key) == Some(ResolvedObject(tag.0, tag.1, CandidateForTag(cands, tag).value.data.GetOr([]))))
  {
    if |tags| > 0 {
      var init := tags[..|tags| - 1];
      var last := tags[|tags| - 1];
      assert tags == init + [last];
      assert forall t :: t in init ==> t in tags;
      ObjectsOfSpec(init, cands, tag);
      var d := ObjectsOf(init, cands);
      var key := MakeResolvedKey(tag.0, tag.1);
      var lastKey := MakeResolvedKey(last.0, last.1);
      if lastKey == key {
        MakeResolvedKeyInjective(last.0, last.1, tag.0, tag.1);
      }
      match CandidateForTag(cands, last)
      case None =>
      case Some(c) =>
        GetPut(d, lastKey, ResolvedObject(last.0, last.1, c.data.GetOr([])), key);
        assert HasKey(d, lastKey) ==> lastKey in Keys(d);
    }
  }

  /** The objects of a text: one per tag in it that names a candidate, with that candidate's data. */
  lemma BuildResolvedObjectsSpec(text: string, cands: Dict<seq<Candidate>>, tag: (string, string))
    requires ':' !in tag.0
    ensures var r := BuildResolvedObjects(text, cands);
      var key := MakeResolvedKey(tag.0, tag.1);
      (HasKey(r, key) <==> tag in ScanTags(text) && CandidateForTag(cands, tag).Some?)
      && (HasKey(r, key) ==>
            Get(r, key) == Some(ResolvedObject(tag.0, tag.1, CandidateForTag(cands, tag).value.data.GetOr([]))))
  {
    ObjectsOfSpec(ScanTags(text), cands, tag);
  }

  /** A tag the resolver wrote for a known candidate yields that candidate's object. */
  lemma TaggedCandidateIsResolved(c: Candidate, cands: Dict<seq<Candidate>>)
    requires |c.objectId| > 0 && '}' !in c.objectId && c in AllCandidates(cands)
    ensures HasKey(BuildResolvedObjects(TagFor(c), cands), MakeResolvedKey(KindName(c.kind), c.objectId))
  {
    TagRoundTrip(c, []);
    assert TagFor(c) + [] == TagFor(c);
    assert ScanTags(TagFor(c)) == [(KindName(c.kind), c.objectId)];
    ObjectsOfSpec([(KindName(c.kind), c.objectId)], cands, (KindName(c.kind), c.objectId));
  }
}

=== FILE: paginate.dfy ===
/**
 * `paginate_all`: fetches every item of a paginated listing while discovering
 * the server's largest accepted page size.
 *
 * The server is a finite listing `data` that accepts page sizes up to
 * `maxLimit` and answers larger ones with a "page limit exceeded" error; it
 * may also fail with another error whenever it is asked for the page at
 * offset `failAt`.
 */
module Pagination {
  import opened Base
  import opened Strings

  const LimitExceededText := "page limit exceeded"

  /** A server whose behaviour does not change between calls. */
  datatype PageServer<T> = PageServer(data: seq<T>, maxLimit: int, failAt: Option<(nat, string)>)

  datatype Reply<T> = Page(items: seq<T>) | ApiErr(message: string)

  /**
   * The answer to `offset`/`limit`. A different error than the page-limit
   * one must not mention the page limit; otherwise the server would be
   * rejecting a page size it has already accepted.
   */
  function Respond<T>(s: PageServer<T>, offset: nat, limit: nat): Reply<T> {
    if s.failAt.Some? && s.failAt.value.0 == offset then ApiErr(s.failAt.value.1)
    else if limit > s.maxLimit then ApiErr(LimitExceededText)
    else if offset >= |s.data| then Page([])
    else if offset + limit >= |s.data| then Page(s.data[offset..])
    else Page(s.data[offset..offset + limit])
  }

  predicate WellBehaved<T>(s: PageServer<T>) {
    s.failAt.Some? ==> !Contains(Lower(s.failAt.value.1), LimitExceededText)
  }

  /** What `paginate_all` returns or raises. */
  datatype Paged<T> = Fetched(items: seq<T>) | ServerSystemError | Raised(message: string)

  /** The limit state after a "page limit exceeded" error; `None` is ServerSystemError. */
  datatype Limits = Limits(working: nat, current: nat, locked: bool)

  function ShrinkLimit(l: Limits): (r: Option<Limits>)
    requires l.current >= 1
    ensures r.None? <==> l.current == 1
    ensures r.Some? && l.working < l.current ==> 1 <= r.value.current < l.current
    ensures r.Some? && l.working > 0 ==> r.value.locked && r.value.current >= l.working
    ensures r.Some? && l.working == 0 ==> r.value.locked == l.locked && r.value.current == l.current / 2
    ensures r.Some? ==> r.value.working == l.working
    ensures r.Some? && l.locked ==> r.value.locked
  {
    if l.current == 1 then None
    else if l.working > 0 then
      var c := l.working + (l.current - l.working) / 2;
      Some(Limits(l.working, if c <= l.working then l.working else c, true))
    else
      Some(Limits(l.working, if l.current / 2 < 1 then 1 else l.current / 2, l.locked))
  }

  /** The limit state after a successful page of the full requested size. */
  function GrowLimit(l: Limits): (r: Limits)
    ensures r.working == l.current
    ensures r.locked == l.locked
    ensures l.locked ==> r.current == l.current
    ensures !l.locked ==> r.current == 2 * l.current
  {
    Limits(l.current, if l.locked then l.current else l.current * 2, l.locked)
  }

  /** Once locked, the page size never grows again, whatever the server answers. */
  lemma LockedNeverGrows(l: Limits)
    requires l.locked && l.current >= 1 && l.working <= l.current
    ensures GrowLimit(l).locked && GrowLimit(l).current <= l.current
    ensures ShrinkLimit(l).Some? ==> ShrinkLimit(l).value.locked && ShrinkLimit(l).value.current <= l.current
  {
  }

  /**
   * Once locked at the working size, another "page limit exceeded" leaves the
   * limits as they are: the loop would send the same request again. The
   * servers of this model never reject a size they accepted, so they never
   * reach this state.
   */
  lemma LockedAtWorkingIsFixpoint(w: nat)
    requires w >= 2
    ensures ShrinkLimit(Limits(w, w, true)) == Some(Limits(w, w, true))
  {
  }

  lemma LimitTextIsDetected()
    ensures Contains(Lower(LimitExceededText), LimitExceededText)
  {
    var t := LimitExceededText;
    assert Lower(t) == t by {
      forall i | 0 <= i < |t| ensures Lower(t)[i] == t[i] {
        assert !('A' <= t[i] <= 'Z');
      }
    }
    assert OccursAt(t, t, 0);
  }

  /** How `paginate_all` reads each kind of reply from this server. */
  lemma RespondFacts<T>(s: PageServer<T>, offset: nat, limit: nat)
    requires WellBehaved(s) && offset <= |s.data| && limit >= 1
    ensures Respond(s, offset, limit).Page? ==>
      limit <= s.maxLimit
      && (s.failAt.None? || s.failAt.value.0 != offset)
      && var items := Respond(s, offset, limit).items;
         s.data[..offset] + items == s.data[..offset + |items|]
         && |items| <= limit
         && (|items| < limit ==> offset + |items| == |s.data|)
    ensures Respond(s, offset, limit).ApiErr? ==>
      var m := Respond(s, offset, limit).message;
      if Contains(Lower(m), LimitExceededText) then limit > s.maxLimit
      else s.failAt.Some? && s.failAt.value.0 == offset && m == s.failAt.value.1
  {
    LimitTextIsDetected();
  }

  method PaginateAll<T>(s: PageServer<T>) returns (r: Paged<T>)
    requires WellBehaved(s)
    ensures r.Fetched? ==> r.items == s.data
    ensures r.ServerSystemError? ==> s.maxLimit < 1 && (s.failAt.None? || s.failAt.value.0 != 0)
    ensures r.Raised? ==> s.failAt.Some? && r.message == s.failAt.value.1
    ensures s.failAt.None? && s.maxLimit >= 1 ==> r == Fetched(s.data)
    ensures s.maxLimit < 1 && (s.failAt.None? || s.failAt.value.0 != 0) ==> r == ServerSystemError
  {
    var all: seq<T> := [];
    var offset: nat := 0;
    var lim := Limits(0, 2, false);
    while true
      invariant offset <= |s.data| && all == s.data[..offset]
      invariant lim.current >= 1
      invariant lim.working > 0 ==> lim.working <= s.maxLimit
      invariant s.maxLimit < 1 ==> offset == 0 && lim.working == 0
      decreases |s.data| - offset, lim.current
    {
      var reply := Respond(s, offset, lim.current);
      RespondFacts(s, offset, lim.current);
      match reply
      case Page(items) =>
        all := all + items;
        if |items| < lim.current {
          assert all == s.data;
          return Fetched(all);
        }
        offset := offset + |items|;
        lim := GrowLimit(lim);
      case ApiErr(msg) =>
        if Contains(Lower(msg), LimitExceededText) {
          var next := ShrinkLimit(lim);
          if next.None? {
            return ServerSystemError;
          }
          lim := next.value;
        } else {
          return Raised(msg);
        }
    }
  }
}

=== FILE: resolution.dfy ===
/**
 * `resolve_entities`: mentions with exactly one perfect candidate are tagged
 * directly; the others go to an arbiter (a language model) whose selections
 * are then tagged. Each object id is tagged at most once, at the first
 * occurrence of its mention in the text.
 */
module Resolution {
  import opened Base
  import opened Strings
  import opened Seqs
  import opened Assoc
  import opened Entities
  import opened Core

  /** The `{type:id}` tag that replaces a mention. */
  function TagFor(c: Candidate): (r: string)
    ensures r == "{" + KindName(c.kind) + ":" + c.objectId + "}"
  {
    "{" + MakeResolvedKey(KindName(c.kind), c.objectId) + "}"
  }

  /** `candidates.get(entity, [])`. */
  function CandidatesOf(cands: Dict<seq<Candidate>>, entity: string): seq<Candidate> {
    Get(cands, entity).GetOr([])
  }

  // ---------------------------------------------------------------------------
  // Classification
  // ---------------------------------------------------------------------------

  datatype Class = NoCandidates | AutoResolved(c: Candidate) | NeedsArbiter

  /** A single perfect candidate resolves a mention; any other non-empty list is ambiguous. */
  function Classify(cs: seq<Candidate>): (r: Class)
    ensures r == NoCandidates <==> |cs| == 0
    ensures r.AutoResolved? ==>
      r.c in cs && r.c.score == 100 && forall i :: 0 <= i < |cs| && cs[i].score == 100 ==> cs[i] == r.c
  {
    if |cs| == 0 then NoCandidates
    else
      var perfect := Filter(Perfect, cs);
      if |perfect| == 1 then
        FilterSpec(Perfect, cs);
        assert perfect[0] in perfect;
        assert forall i :: 0 <= i < |cs| && cs[i].score == 100 ==> cs[i] in perfect;
        AutoResolved(perfect[0])
      else NeedsArbiter
  }

  /** Two different perfect candidates make a mention ambiguous. */
  lemma TwoPerfectIsAmbiguous(cs: seq<Candidate>, i: nat, j: nat)
    requires i < |cs| && j < |cs| && cs[i].score == 100 && cs[j].score == 100 && cs[i] != cs[j]
    ensures Classify(cs) == NeedsArbiter
  {
  }

  /** The mentions split into the auto-resolved and the arbitrated ones, each keyed by mention. */
  datatype Split = Split(auto: Dict<Candidate>, needs: Dict<seq<Candidate>>)

  function SplitMentions(entities: seq<string>, cands: Dict<seq<Candidate>>): (r: Split)
    ensures DistinctKeys(r.auto) && DistinctKeys(r.needs)
  {
    if |entities| == 0 then Split([], [])
    else
      var s := SplitMentions(entities[..|entities| - 1], cands);
      var e := entities[|entities| - 1];
      match Classify(CandidatesOf(cands, e))
      case NoCandidates => s
      case AutoResolved(c) => PutDistinct(s.auto, e, c); s.(auto := Put(s.auto, e, c))
      case NeedsArbiter =>
        PutDistinct(s.needs, e, CandidatesOf(cands, e));
        s.(needs := Put(s.needs, e, CandidatesOf(cands, e)))
  }

  /** A mention is auto-resolved, with its single perfect candidate, or arbitrated, exactly by its class. */
  lemma {:induction false} SplitMentionsSpec(entities: seq<string>, cands: Dict<seq<Candidate>>, e: string)
    ensures var s := SplitMentions(entities, cands);
      var cl := Classify(CandidatesOf(cands, e));
      (HasKey(s.auto, e) <==> e in entities && cl.AutoResolved?)
      && (HasKey(s.needs, e) <==> e in entities && cl == NeedsArbiter)
      && (HasKey(s.auto, e) ==> Get(s.auto, e) == Some(cl.c))
      && (HasKey(s.needs, e) ==> Get(s.needs, e) == Some(CandidatesOf(cands, e)))
  {
    SplitAuto(entities, cands, e);
    SplitNeeds(entities, cands, e);
  }

  lemma {:induction false} SplitAuto(entities: seq<string>, cands: Dict<seq<Candidate>>, e: string)
    ensures var cl := Classify(CandidatesOf(cands, e));
      Get(SplitMentions(entities, cands).auto, e) == if e in entities && cl.AutoResolved? then Some(cl.c) else None
  {
    if |entities| > 0 {
      var init := entities[..|entities| - 1];
      var last := entities[|entities| - 1];
      var s := SplitMentions(init, cands);
      SplitAuto(init, cands, e);
      InInitOrLast(entities, e);
      var cl := Classify(CandidatesOf(cands, last));
      if cl.AutoResolved? {
        assert SplitMentions(entities, cands).auto == Put(s.auto, last, cl.c);
        GetPut(s.auto, last, cl.c, e);
      } else {
        assert SplitMentions(entities, cands).auto == s.auto;
      }
    }
  }

  lemma {:induction false} SplitNeeds(entities: seq<string>, cands: Dict<seq<Candidate>>, e: string)
    ensures Get(SplitMentions(entities, cands).needs, e)
         == if e in entities && Classify(CandidatesOf(cands, e)) == NeedsArbiter then Some(CandidatesOf(cands, e)) else None
  {
    if |entities| > 0 {
      var init := entities[..|entities| - 1];
      var last := entities[|entities| - 1];
      var s := SplitMentions(init, cands);
      SplitNeeds(init, cands, e);
      InInitOrLast(entities, e);
      if Classify(CandidatesOf(cands, last)) == NeedsArbiter {
        assert SplitMentions(entities, cands).needs == Put(s.needs, last, CandidatesOf(cands, last));
        GetPut(s.needs, last, CandidatesOf(cands, last), e);
      } else {
        assert SplitMentions(entities, cands).needs == s.needs;
      }
    }
  }

  // ---------------------------------------------------------------------------
  // Substitution
  // ---------------------------------------------------------------------------

  datatype Subst = Subst(text: string, used: set<string>, applied: seq<Candidate>)

  function Ids(pairs: seq<(string, Candidate)>): (r: set<string>)
    ensures forall i :: 0 <= i < |pairs| ==> pairs[i].1.objectId in r
    ensures forall x :: x in r ==> exists i :: 0 <= i < |pairs| && pairs[i].1.objectId == x
  {
    if |pairs| == 0 then {}
    else
      var rest := Ids(pairs[1..]);
      assert forall i :: 1 <= i < |pairs| ==> pairs[i] == pairs[1..][i - 1];
      {pairs[0].1.objectId} + rest
  }

  /** No two candidates share an object id. */
  predicate DistinctIds(cs: seq<Candidate>) {
    forall i, j :: 0 <= i < j < |cs| ==> cs[i].objectId != cs[j].objectId
  }

  /**
   * Tags each mention with its candidate, in order, skipping candidates whose
   * object id is already used: the first mention of an id wins.
   */
  function Substitute(text: string, used: set<string>, pairs: seq<(string, Candidate)>): (r: Subst)
    ensures r.used == used + Ids(pairs)
    ensures |r.applied| <= |pairs|
    ensures forall i :: 0 <= i < |r.applied| ==> r.applied[i].objectId !in used
    decreases |pairs|
  {
    if |pairs| == 0 then Subst(text, used, [])
    else
      var (entity, c) := pairs[0];
      if c.objectId in used then Substitute(text, used, pairs[1..])
      else
        var rest := Substitute(ReplaceFirst(text, entity, TagFor(c)), used + {c.objectId}, pairs[1..]);
        Subst(rest.text, rest.used, [c] + rest.applied)
  }

  /** No object id is tagged twice. */
  lemma {:induction false} SubstituteDistinct(text: string, used: set<string>, pairs: seq<(string, Candidate)>)
    ensures DistinctIds(Substitute(text, used, pairs).applied)
    decreases |pairs|
  {
    if |pairs| > 0 {
      var (entity, c) := pairs[0];
      if c.objectId in used {
        SubstituteDistinct(text, used, pairs[1..]);
      } else {
        var text', used' := ReplaceFirst(text, entity, TagFor(c)), used + {c.objectId};
        SubstituteDistinct(text', used', pairs[1..]);
        var rest := Substitute(text', used', pairs[1..]);
        assert Substitute(text, used, pairs).applied == [c] + rest.applied;
        DistinctCons(c, rest.applied);
      }
    }
  }

  lemma DistinctCons(c: Candidate, rest: seq<Candidate>)
    requires DistinctIds(rest)
    requires forall i :: 0 <= i < |rest| ==> rest[i].objectId != c.objectId
    ensures DistinctIds([c] + rest)
  {
    var cs := [c] + rest;
    forall i, j | 0 <= i < j < |cs| ensures cs[i].objectId != cs[j].objectId {
      assert cs[j] == rest[j - 1];
      if i > 0 {
        assert cs[i] == rest[i - 1];
      }
    }
  }

  /** Every candidate tagged is the candidate of one of the pairs. */
  lemma {:induction false} SubstituteFromPairs(text: string, used: set<string>, pairs: seq<(string, Candidate)>)
    ensures forall c :: c in Substitute(text, used, pairs).applied ==> exists i :: 0 <= i < |pairs| && pairs[i].1 == c
    decreases |pairs|
  {
    if |pairs| > 0 {
      var (entity, c) := pairs[0];
      var text' := if c.objectId in used then text else ReplaceFirst(text, entity, TagFor(c));
      var used' := if c.objectId in used then used else used + {c.objectId};
      SubstituteFromPairs(text', used', pairs[1..]);
      var rest := Substitute(text', used', pairs[1..]);
      forall x | x in Substitute(text, used, pairs).applied ensures exists i :: 0 <= i < |pairs| && pairs[i].1 == x {
        if x != c {
          assert x in rest.applied;
          var i :| 0 <= i < |pairs[1..]| && pairs[1..][i].1 == x;
          assert pairs[i + 1].1 == x;
        } else {
          assert pairs[0].1 == x;
        }
      }
    }
  }

  /** With fresh, distinct ids every pair is applied, in order. */
  lemma {:induction false} SubstituteAllFresh(text: string, used: set<string>, pairs: seq<(string, Candidate)>)
    requires forall i :: 0 <= i < |pairs| ==> pairs[i].1.objectId !in used
    requires forall i, j :: 0 <= i < j < |pairs| ==> pairs[i].1.objectId != pairs[j].1.objectId
    ensures var r := Substitute(text, used, pairs);
      |r.applied| == |pairs| && forall i :: 0 <= i < |pairs| ==> r.applied[i] == pairs[i].1
    decreases |pairs|
  {
    if |pairs| > 0 {
      var (entity, c) := pairs[0];
      var tail := pairs[1..];
      var used' := used + {c.objectId};
      forall i | 0 <= i < |tail| ensures tail[i].1.objectId !in used' {
        assert tail[i] == pairs[i + 1];
      }
      forall i, j | 0 <= i < j < |tail| ensures tail[i].1.objectId != tail[j].1.objectId {
        assert tail[i] == pairs[i + 1] && tail[j] == pairs[j + 1];
      }
      var text' := ReplaceFirst(text, entity, TagFor(c));
      SubstituteAllFresh(text', used', tail);
      var sub := Substitute(text', used', tail);
      assert Substitute(text, used, pairs).applied == [c] + sub.applied;
      forall i | 0 <= i < |pairs| ensures Substitute(text, used, pairs).applied[i] == pairs[i].1 {
        if i > 0 {
          assert pairs[i] == tail[i - 1];
        }
      }
    }
  }

  /** A fresh candidate's tag replaces the first occurrence of its mention. */
  lemma SubstituteOne(text: string, used: set<string>, entity: string, c: Candidate)
    requires c.objectId !in used && Contains(text, entity)
    ensures var r := Substitute(text, used, [(entity, c)]);
      r.applied == [c] && Contains(r.text, TagFor(c))
      && r.text == text[..Find(text, entity).value] + TagFor(c) + text[Find(text, entity).value + |entity|..]
  {
    var i := Find(text, entity).value;
    var t := ReplaceFirst(text, entity, TagFor(c));
    assert Substitute(text, used, [(entity, c)]).text == t;
    assert t[i..i + |TagFor(c)|] == TagFor(c);
    assert OccursAt(t, TagFor(c), i);
    ContainsIff(t, TagFor(c));
  }

  /** The object id a pair would tag. */
  function PairId(p: (string, Candidate)): string {
    p.1.objectId
  }

  /** The candidates of the pairs, in order. */
  function PairCandidates(pairs: seq<(string, Candidate)>): (r: seq<Candidate>)
    ensures |r| == |pairs|
    ensures forall i :: 0 <= i < |pairs| ==> r[i] == pairs[i].1
  {
    seq(|pairs|, i requires 0 <= i < |pairs| => pairs[i].1)
  }

  /** Replaces the first occurrence of each pair's mention by its candidate's tag, pair after pair. */
  function ReplaceInOrder(text: string, pairs: seq<(string, Candidate)>): string
    decreases |pairs|
  {
    if |pairs| == 0 then text
    else ReplaceInOrder(ReplaceFirst(text, pairs[0].0, TagFor(pairs[0].1)), pairs[1..])
  }

  /**
   * Substitution applies exactly the first pair of each object id not used
   * before, in order: the text gets those pairs' tags one after the other,
   * and the tagged candidates are theirs.
   */
  /** One step of `Substitute` over a pair whose id is still fresh. */
  lemma SubstituteFreshStep(text: string, used: set<string>, pairs: seq<(string, Candidate)>)
    requires |pairs| > 0 && pairs[0].1.objectId !in used
    ensures var rest := Substitute(ReplaceFirst(text, pairs[0].0, TagFor(pairs[0].1)), used + {pairs[0].1.objectId}, pairs[1..]);
      Substitute(text, used, pairs).text == rest.text
      && Substitute(text, used, pairs).applied == [pairs[0].1] + rest.applied
  {
  }

  /** One step of `Dedup` over a pair whose id is still fresh. */
  lemma DedupFreshStep(pairs: seq<(string, Candidate)>, used: set<string>)
    requires |pairs| > 0 && pairs[0].1.objectId !in used
    ensures Dedup(PairId, pairs, used) == [pairs[0]] + Dedup(PairId, pairs[1..], used + {pairs[0].1.objectId})
  {
  }

  /** The candidates of a list of pairs, one pair at a time. */
  lemma PairCandidatesCons(p: (string, Candidate), pairs: seq<(string, Candidate)>)
    ensures PairCandidates([p] + pairs) == [p.1] + PairCandidates(pairs)
  {
    assert forall i :: 0 < i < |pairs| + 1 ==> ([p] + pairs)[i] == pairs[i - 1];
  }

  /** Substituting a list of pairs applies exactly its first pair per fresh object id, in order. */
  lemma {:induction false} SubstituteIsDedup(text: string, used: set<string>, pairs: seq<(string, Candidate)>)
    ensures Substitute(text, used, pairs).text == ReplaceInOrder(text, Dedup(PairId, pairs, used))
    ensures Substitute(text, used, pairs).applied == PairCandidates(Dedup(PairId, pairs, used))
  {
    SubstituteTextIsDedup(text, used, pairs);
    SubstituteAppliedIsDedup(text, used, pairs);
  }

  lemma {:induction false} SubstituteTextIsDedup(text: string, used: set<string>, pairs: seq<(string, Candidate)>)
    ensures Substitute(text, used, pairs).text == ReplaceInOrder(text, Dedup(PairId, pairs, used))
    decreases |pairs|
  {
    if |pairs| > 0 {
      var (entity, c) := pairs[0];
      if c.objectId in used {
        SubstituteTextIsDedup(text, used, pairs[1..]);
      } else {
        var text' := ReplaceFirst(text, entity, TagFor(c));
        SubstituteTextIsDedup(text', used + {c.objectId}, pairs[1..]);
        SubstituteFreshStep(text, used, pairs);
        DedupFreshStep(pairs, used);
        var kept := Dedup(PairId, pairs[1..], used + {c.objectId});
        assert ([pairs[0]] + kept)[1..] == kept;
      }
    }
  }

  lemma {:induction false} SubstituteAppliedIsDedup(text: string, used: set<string>, pairs: seq<(string, Candidate)>)
    ensures Substitute(text, used, pairs).applied == PairCandidates(Dedup(PairId, pairs, used))
    decreases |pairs|
  {
    if |pairs| > 0 {
      var (entity, c) := pairs[0];
      if c.objectId in used {
        SubstituteAppliedIsDedup(text, used, pairs[1..]);
      } else {
        var text' := ReplaceFirst(text, entity, TagFor(c));
        SubstituteAppliedIsDedup(text', used + {c.objectId}, pairs[1..]);
        SubstituteFreshStep(text, used, pairs);
        DedupFreshStep(pairs, used);
        PairCandidatesCons(pairs[0], Dedup(PairId, pairs[1..], used + {c.objectId}));
      }
    }
  }

  // ---------------------------------------------------------------------------
  // Arbitration
  // ---------------------------------------------------------------------------

  /** One answer of the arbiter: the chosen object id for a mention, or none. */
  datatype Selection = Selection(entity: string, selectedId: Option<string>)

  /**
   * The arbiter sees the partly tagged text and the ambiguous mentions with
   * their candidates; `None` is a failed or unparsable answer.
   */
  type Arbiter = (string, Dict<seq<Candidate>>) -> Option<seq<Selection>>

  /** Every candidate of every mention, in dictionary order. */
  function AllCandidates(cands: Dict<seq<Candidate>>): (r: seq<Candidate>)
    ensures forall k, c :: Get(cands, k) == Some(c) ==> forall x :: x in c ==> x in r
  {
    if |cands| == 0 then []
    else
      var rest := AllCandidates(cands[1..]);
      cands[0].val + rest
  }

  function ObjectIdOf(c: Candidate): string {
    c.objectId
  }

  function FindInList(cs: seq<Candidate>, id: string): (r: Option<Candidate>)
    ensures r == FirstOfId(ObjectIdOf, id, cs)
  {
    if |cs| == 0 then None
    else if cs[0].objectId == id then Some(cs[0])
    else FindInList(cs[1..], id)
  }

  /** `_find_candidate_by_id`: the first candidate with this object id, over every mention and any kind. */
  function FindCandidateById(cands: Dict<seq<Candidate>>, id: string): (r: Option<Candidate>)
    ensures r.Some? ==> r.value.objectId == id
  {
    if |cands| == 0 then None
    else
      match FindInList(cands[0].val, id)
      case Some(c) => Some(c)
      case None => FindCandidateById(cands[1..], id)
  }

  lemma {:induction false} FirstOfIdConcat(a: seq<Candidate>, b: seq<Candidate>, id: string)
    ensures FirstOfId(ObjectIdOf, id, a + b)
         == if FirstOfId(ObjectIdOf, id, a).Some? then FirstOfId(ObjectIdOf, id, a) else FirstOfId(ObjectIdOf, id, b)
  {
    if |a| > 0 {
      FirstOfIdConcat(a[1..], b, id);
      assert (a + b)[1..] == a[1..] + b;
    } else {
      assert a + b == b;
    }
  }

  /** The nested search finds the first candidate with the id in the flattened list. */
  lemma {:induction false} FindCandidateByIdIsFirst(cands: Dict<seq<Candidate>>, id: string)
    ensures FindCandidateById(cands, id) == FirstOfId(ObjectIdOf, id, AllCandidates(cands))
  {
    if |cands| > 0 {
      FindCandidateByIdIsFirst(cands[1..], id);
      FirstOfIdConcat(cands[0].val, AllCandidates(cands[1..]), id);
    }
  }

  /** Selection `s` names an object whose first candidate is `p`'s, for `p`'s mention. */
  predicate Chooses(s: Selection, cands: Dict<seq<Candidate>>, p: (string, Candidate)) {
    s.entity == p.0 && Truthy(s.selectedId) && FindCandidateById(cands, s.selectedId.value) == Some(p.1)
  }

  /** The selections that name an id with a candidate, paired with that candidate. */
  function SelectionPairs(sels: seq<Selection>, cands: Dict<seq<Candidate>>): (r: seq<(string, Candidate)>)
    ensures |r| <= |sels|
    ensures forall p :: p in r ==> exists s :: s in sels && Chooses(s, cands, p)
    ensures forall j :: 0 <= j < |sels| && Truthy(sels[j].selectedId)
                        && FindCandidateById(cands, sels[j].selectedId.value).Some? ==>
      (sels[j].entity, FindCandidateById(cands, sels[j].selectedId.value).value) in r
  {
    if |sels| == 0 then []
    else
      var rest := SelectionPairs(sels[1..], cands);
      assert forall s :: s in sels[1..] ==> s in sels;
      assert forall j :: 1 <= j < |sels| ==> sels[j] == sels[1..][j - 1];
      var s := sels[0];
      if !Truthy(s.selectedId) then rest
      else match FindCandidateById(cands, s.selectedId.value)
        case None => rest
        case Some(c) =>
          assert Chooses(s, cands, (s.entity, c));
          [(s.entity, c)] + rest
  }

  /** The mentions whose selection names no object. */
  function Rejected(sels: seq<Selection>): (r: seq<string>)
    ensures |r| <= |sels|
    ensures forall e :: e in r <==> exists j :: 0 <= j < |sels| && sels[j].entity == e && !Truthy(sels[j].selectedId)
  {
    if |sels| == 0 then []
    else
      var rest := Rejected(sels[1..]);
      assert forall j :: 1 <= j < |sels| ==> sels[j] == sels[1..][j - 1];
      assert forall j :: 0 <= j < |sels[1..]| ==> sels[1..][j] == sels[j + 1];
      (if Truthy(sels[0].selectedId) then [] else [sels[0].entity]) + rest
  }

  function AutoPairs(auto: Dict<Candidate>): (r: seq<(string, Candidate)>)
    ensures |r| == |auto|
    ensures forall i :: 0 <= i < |auto| ==> r[i] == (auto[i].key, auto[i].val)
  {
    seq(|auto|, i requires 0 <= i < |auto| => (auto[i].key, auto[i].val))
  }

  /** The outcome: the tagged text, the mentions left unresolved, and every candidate tagged. */
  datatype Resolved = Resolved(text: string, rejected: seq<string>, tagged: seq<Candidate>)

  /** The arbitration step, after the automatic substitutions produced `auto`. */
  function Arbitrate(auto: Subst, needs: Dict<seq<Candidate>>, cands: Dict<seq<Candidate>>, arbiter: Arbiter)
    : (r: Resolved)
    requires DistinctIds(auto.applied)
    requires forall c :: c in auto.applied ==> c.objectId in auto.used
    ensures DistinctIds(r.tagged)
    ensures |needs| == 0 ==> r == Resolved(auto.text, [], auto.applied)
    ensures |needs| > 0 && arbiter(auto.text, needs).None? ==> r == Resolved(auto.text, Keys(needs), auto.applied)
    ensures |needs| > 0 && arbiter(auto.text, needs).Some? ==> r.rejected == Rejected(arbiter(auto.text, needs).value)
    ensures |needs| > 0 && arbiter(auto.text, needs).Some? ==>
      var chosen := Substitute(auto.text, auto.used, SelectionPairs(arbiter(auto.text, needs).value, cands));
      r.text == chosen.text && r.tagged == auto.applied + chosen.applied
  {
    if |needs| == 0 then Resolved(auto.text, [], auto.applied)
    else
      match arbiter(auto.text, needs)
      case None => Resolved(auto.text, Keys(needs), auto.applied)
      case Some(sels) =>
        var chosen := Substitute(auto.text, auto.used, SelectionPairs(sels, cands));
        var tagged := auto.applied + chosen.applied;
        SubstituteDistinct(auto.text, auto.used, SelectionPairs(sels, cands));
        DistinctJoin(auto.applied, chosen.applied, auto.used);
        Resolved(chosen.text, Rejected(sels), tagged)
  }

  /** `resolve_entities`. */
  function ResolveEntities(text: string, entities: seq<string>, cands: Dict<seq<Candidate>>, arbiter: Arbiter)
    : (r: Resolved)
    ensures DistinctIds(r.tagged)
  {
    var split := SplitMentions(entities, cands);
    var pairs := AutoPairs(split.auto);
    var auto := Substitute(text, {}, pairs);
    SubstituteDistinct(text, {}, pairs);
    SubstituteFromPairs(text, {}, pairs);
    assert forall c :: c in auto.applied ==> c.objectId in auto.used by {
      forall c | c in auto.applied ensures c.objectId in auto.used {
        var i :| 0 <= i < |pairs| && pairs[i].1 == c;
      }
    }
    Arbitrate(auto, split.needs, cands, arbiter)
  }

  /**
   * The automatic substitutions come first: the first automatic pair of each
   * object id is applied, in order. When the arbiter answers, its selections
   * follow: the first selection pair of each id not tagged automatically is
   * applied, in order. The tagged candidates are those pairs' candidates.
   */
  lemma ResolveEntitiesSpec(text: string, entities: seq<string>, cands: Dict<seq<Candidate>>, arbiter: Arbiter)
    ensures var split := SplitMentions(entities, cands);
      var auto := Dedup(PairId, AutoPairs(split.auto), {});
      var autoText := ReplaceInOrder(text, auto);
      var r := ResolveEntities(text, entities, cands, arbiter);
      if |split.needs| == 0 || arbiter(autoText, split.needs).None? then
        r.text == autoText && r.tagged == PairCandidates(auto)
      else
        var chosen := Dedup(PairId, SelectionPairs(arbiter(autoText, split.needs).value, cands), Ids(AutoPairs(split.auto)));
        r.text == ReplaceInOrder(autoText, chosen) && r.tagged == PairCandidates(auto) + PairCandidates(chosen)
  {
    var split := SplitMentions(entities, cands);
    var pairs := AutoPairs(split.auto);
    SubstituteIsDedup(text, {}, pairs);
    var autoText := ReplaceInOrder(text, Dedup(PairId, pairs, {}));
    assert {} + Ids(pairs) == Ids(pairs);
    if |split.needs| > 0 && arbiter(autoText, split.needs).Some? {
      SubstituteIsDedup(autoText, Ids(pairs), SelectionPairs(arbiter(autoText, split.needs).value, cands));
    }
  }

  /** Two lists of distinct ids, the first within `used` and the second outside it, stay distinct joined. */
  lemma DistinctJoin(a: seq<Candidate>, b: seq<Candidate>, used: set<string>)
    requires DistinctIds(a) && DistinctIds(b)
    requires forall c :: c in a ==> c.objectId in used
    requires forall i :: 0 <= i < |b| ==> b[i].objectId !in used
    ensures DistinctIds(a + b)
  {
    var ab := a + b;
    forall i, j | 0 <= i < j < |ab| ensures ab[i].objectId != ab[j].objectId {
      if j < |a| {
        assert ab[i] == a[i] && ab[j] == a[j];
      } else if i >= |a| {
        assert ab[i] == b[i - |a|] && ab[j] == b[j - |a|];
      } else {
        assert ab[i] == a[i] && a[i] in a;
        assert ab[j] == b[j - |a|];
      }
    }
  }

  /** Mentions are left unresolved exactly when the arbiter rejects them, or all of the ambiguous ones when it fails. */
  lemma ResolveRejected(text: string, entities: seq<string>, cands: Dict<seq<Candidate>>, arbiter: Arbiter)
    ensures var split := SplitMentions(entities, cands);
      var auto := Substitute(text, {}, AutoPairs(split.auto));
      var r := ResolveEntities(text, entities, cands, arbiter);
      (split.needs == [] ==> r.rejected == [])
      && (split.needs != [] && arbiter(auto.text, split.needs).None? ==> r.rejected == Keys(split.needs))
      && (split.needs != [] && arbiter(auto.text, split.needs).Some? ==>
            r.rejected == Rejected(arbiter(auto.text, split.needs).value))
  {
  }

  /** When every mention with candidates has one perfect candidate, the arbiter is never consulted. */
  lemma NoAmbiguityNoArbiter(text: string, entities: seq<string>, cands: Dict<seq<Candidate>>, a1: Arbiter, a2: Arbiter)
    requires forall e :: e in entities ==> Classify(CandidatesOf(cands, e)) != NeedsArbiter
    ensures ResolveEntities(text, entities, cands, a1) == ResolveEntities(text, entities, cands, a2)
    ensures ResolveEntities(text, entities, cands, a1).rejected == []
  {
    var needs := SplitMentions(entities, cands).needs;
    if |needs| > 0 {
      var e := needs[0].key;
      assert Keys(needs)[0] == e;
      SplitMentionsSpec(entities, cands, e);
      assert false;
    }
  }
}

=== FILE: schema.dfy ===
/**
 * The two recursive JSON-schema rewriters of the LLM client:
 * `_make_strict_schema` (strict structured-output mode) and
 * `_convert_oneof_to_anyof` (OpenAI rejects `oneOf`).
 *
 * A schema object is a Python dict, so its keys are distinct; the rewriters
 * visit the keys in insertion order.
 */
module Schema {
  import opened Base
  import opened Assoc
  import opened Json

  /** Every entry of `Put(d, k, v)` is an entry of `d` or the new entry. */
  lemma {:induction false} PutEntries<V>(d: Dict<V>, k: string, v: V)
    ensures forall i :: 0 <= i < |Put(d, k, v)| ==> Put(d, k, v)[i] in d || Put(d, k, v)[i] == Entry(k, v)
  {
    if |d| > 0 && d[0].key != k {
      PutEntries(d[1..], k, v);
      assert Put(d, k, v) == [d[0]] + Put(d[1..], k, v);
    }
  }

  /** Assigning the value a key already holds changes nothing. */
  lemma {:induction false} PutSame<V>(d: Dict<V>, k: string, v: V)
    requires Get(d, k) == Some(v)
    ensures Put(d, k, v) == d
  {
    assert |d| > 0;
    var rest := d[1..];
    assert d == [d[0]] + rest;
    if d[0].key == k {
      assert d[0] == Entry(k, v);
    } else {
      assert Get(rest, k) == Some(v);
      PutSame(rest, k, v);
      assert Put(d, k, v) == [d[0]] + Put(rest, k, v);
    }
  }

  // ---------------------------------------------------------------------------
  // _make_strict_schema
  // ---------------------------------------------------------------------------

  /** A dict with `"type": "object"` and a `"properties"` key. */
  predicate IsObjectSchema(fs: Dict<Json>) {
    Get(fs, "type") == Some(Str("object")) && HasKey(fs, "properties")
  }

  /**
   * The rewriter reads the keys of `"properties"` of every object schema, so
   * that value must be a dict; any other value makes the Python code raise.
   */
  predicate StrictSafe(j: Json)
    decreases j
  {
    match j
    case Arr(xs) => forall i :: 0 <= i < |xs| ==> StrictSafe(xs[i])
    case Obj(fs) =>
      (IsObjectSchema(fs) ==> Get(fs, "properties").value.Obj?)
      && forall i :: 0 <= i < |fs| ==> StrictSafe(fs[i].val)
    case _ => true
  }

  /** Every object schema at every depth is closed and requires all its properties. */
  predicate AllStrict(j: Json)
    decreases j
  {
    match j
    case Arr(xs) => forall i :: 0 <= i < |xs| ==> AllStrict(xs[i])
    case Obj(fs) =>
      (IsObjectSchema(fs) ==>
        Get(fs, "properties").value.Obj?
        && Get(fs, "additionalProperties") == Some(Bool(false))
        && Get(fs, "required") == Some(StrArr(Keys(Get(fs, "properties").value.fields))))
      && forall i :: 0 <= i < |fs| ==> AllStrict(fs[i].val)
    case _ => true
  }

  /** Each value of `fs` rewritten, keys and order unchanged. */
  function StrictFields(fs: Dict<Json>): (r: Dict<Json>)
    requires forall i :: 0 <= i < |fs| ==> StrictSafe(fs[i].val)
    ensures |r| == |fs|
    ensures forall i :: 0 <= i < |fs| ==> r[i].key == fs[i].key
    decreases fs, 0
  {
    if |fs| == 0 then []
    else [Entry(fs[0].key, MakeStrict(fs[0].val))] + StrictFields(fs[1..])
  }

  /** `_make_strict_schema`. */
  function MakeStrict(j: Json): (r: Json)
    requires StrictSafe(j)
    ensures r.Arr? <==> j.Arr?
    ensures r.Obj? <==> j.Obj?
    ensures j.Arr? ==> |r.items| == |j.items|
    ensures !j.Arr? && !j.Obj? ==> r == j
    decreases j, 1
  {
    match j
    case Obj(fs) =>
      var mapped := StrictFields(fs);
      StrictFieldsGet(fs, "type");
      StrictFieldsGet(fs, "properties");
      if IsObjectSchema(mapped) then
        var props := Get(mapped, "properties").value;
        Obj(Put(Put(mapped, "additionalProperties", Bool(false)), "required", StrArr(Keys(props.fields))))
      else
        Obj(mapped)
    case Arr(xs) => Arr(seq(|xs|, i requires 0 <= i < |xs| => MakeStrict(xs[i])))
    case _ => j
  }

  /** Looking a key up after rewriting = rewriting the looked-up value. */
  lemma {:induction false} StrictFieldsGet(fs: Dict<Json>, k: string)
    requires forall i :: 0 <= i < |fs| ==> StrictSafe(fs[i].val)
    ensures HasKey(StrictFields(fs), k) <==> HasKey(fs, k)
    ensures HasKey(fs, k) ==>
      (StrictSafe(Get(fs, k).value) && Get(StrictFields(fs), k) == Some(MakeStrict(Get(fs, k).value)))
    decreases fs, 2
  {
    var r := StrictFields(fs);
    assert Keys(r) == Keys(fs);
    if |fs| > 0 && fs[0].key != k {
      StrictFieldsGet(fs[1..], k);
      assert r[1..] == StrictFields(fs[1..]);
    }
  }

  lemma AllStrictStrArr(ss: seq<string>)
    ensures AllStrict(StrArr(ss)) && StrictSafe(StrArr(ss))
  {
  }

  /** Every object schema in the output is strict. */
  lemma {:induction false} MakeStrictIsStrict(j: Json)
    requires StrictSafe(j)
    ensures AllStrict(MakeStrict(j))
    decreases j
  {
    match j
    case Arr(xs) =>
      forall i | 0 <= i < |xs| ensures AllStrict(MakeStrict(j).items[i]) {
        MakeStrictIsStrict(xs[i]);
      }
    case Obj(fs) =>
      var mapped := StrictFields(fs);
      forall i | 0 <= i < |fs| ensures AllStrict(mapped[i].val) {
        StrictFieldsElem(fs, i);
        MakeStrictIsStrict(fs[i].val);
      }
      StrictFieldsGet(fs, "type");
      StrictFieldsGet(fs, "properties");
      if IsObjectSchema(mapped) {
        var props := Get(mapped, "properties").value;
        var req := StrArr(Keys(props.fields));
        var m1 := Put(mapped, "additionalProperties", Bool(false));
        var m2 := Put(m1, "required", req);
        PutEntries(mapped, "additionalProperties", Bool(false));
        PutEntries(m1, "required", req);
        AllStrictStrArr(Keys(props.fields));
        forall i | 0 <= i < |m2| ensures AllStrict(m2[i].val) {
          if m2[i] != Entry("required", req) {
            assert m2[i] in m1;
            var k :| 0 <= k < |m1| && m1[k] == m2[i];
            if m1[k] != Entry("additionalProperties", Bool(false)) {
              assert m1[k] in mapped;
            }
          }
        }
        GetPut(mapped, "additionalProperties", Bool(false), "type");
        GetPut(mapped, "additionalProperties", Bool(false), "properties");
        GetPut(m1, "required", req, "type");
        GetPut(m1, "required", req, "properties");
        GetPut(m1, "required", req, "additionalProperties");
        GetPut(mapped, "additionalProperties", Bool(false), "additionalProperties");
        GetPut(m1, "required", req, "required");
        assert IsObjectSchema(m2);
        assert MakeStrict(j) == Obj(m2);
      } else {
        assert MakeStrict(j) == Obj(mapped);
      }
    case _ =>
  }

  lemma {:induction false} StrictFieldsElem(fs: Dict<Json>, i: int)
    requires forall k :: 0 <= k < |fs| ==> StrictSafe(fs[k].val)
    requires 0 <= i < |fs|
    ensures StrictFields(fs)[i] == Entry(fs[i].key, MakeStrict(fs[i].val))
  {
    if i > 0 {
      StrictFieldsElem(fs[1..], i - 1);
    }
  }

  /** A strict schema is left unchanged by the rewriter. */
  lemma {:induction false} MakeStrictFixesStrict(j: Json)
    requires AllStrict(j)
    ensures StrictSafe(j) && MakeStrict(j) == j
    decreases j
  {
    match j
    case Arr(xs) =>
      forall i | 0 <= i < |xs| ensures StrictSafe(xs[i]) && MakeStrict(xs[i]) == xs[i] {
        MakeStrictFixesStrict(xs[i]);
      }
      assert MakeStrict(j).items == xs;
    case Obj(fs) =>
      forall i | 0 <= i < |fs| ensures StrictSafe(fs[i].val) && MakeStrict(fs[i].val) == fs[i].val {
        MakeStrictFixesStrict(fs[i].val);
      }
      var mapped := StrictFields(fs);
      forall i | 0 <= i < |fs| ensures mapped[i] == fs[i] {
        StrictFieldsElem(fs, i);
      }
      assert mapped == fs;
      if IsObjectSchema(fs) {
        var props := Get(fs, "properties").value;
        var req := StrArr(Keys(props.fields));
        PutSame(fs, "additionalProperties", Bool(false));
        PutSame(fs, "required", req);
      }
    case _ =>
  }

  /** `_make_strict_schema` is idempotent. */
  lemma MakeStrictIdempotent(j: Json)
    requires StrictSafe(j)
    ensures StrictSafe(MakeStrict(j)) && MakeStrict(MakeStrict(j)) == MakeStrict(j)
  {
    MakeStrictIsStrict(j);
    MakeStrictFixesStrict(MakeStrict(j));
  }

  // ---------------------------------------------------------------------------
  // _convert_oneof_to_anyof
  // ---------------------------------------------------------------------------

  /** The key a field is stored under after conversion. */
  function Rename(k: string): string {
    if k == "oneOf" then "anyOf" else k
  }

  /** No `oneOf` and no `discriminator` key at any depth. */
  predicate NoOneOf(j: Json)
    decreases j, 1
  {
    match j
    case Arr(xs) => forall i :: 0 <= i < |xs| ==> NoOneOf(xs[i])
    case Obj(fs) => NoOneOfFields(fs)
    case _ => true
  }

  predicate NoOneOfFields(fs: Dict<Json>)
    decreases fs, 0
  {
    forall i :: 0 <= i < |fs| ==> fs[i].key != "oneOf" && fs[i].key != "discriminator" && NoOneOf(fs[i].val)
  }

  /** `_convert_oneof_to_anyof`. */
  function ConvertOneOf(j: Json): (r: Json)
    ensures NoOneOf(r)
    ensures r.Arr? <==> j.Arr?
    ensures r.Obj? <==> j.Obj?
    ensures j.Arr? ==> |r.items| == |j.items|
    ensures !j.Arr? && !j.Obj? ==> r == j
    decreases j, 1
  {
    match j
    case Obj(fs) => Obj(ConvertFields([], fs))
    case Arr(xs) => Arr(seq(|xs|, i requires 0 <= i < |xs| => ConvertOneOf(xs[i])))
    case _ => j
  }

  /** The loop over the fields of one dict, assigning into the result `acc`. */
  function ConvertFields(acc: Dict<Json>, fs: Dict<Json>): (r: Dict<Json>)
    requires NoOneOfFields(acc)
    ensures NoOneOfFields(r)
    decreases fs, 0
  {
    if |fs| == 0 then acc
    else if fs[0].key == "discriminator" then ConvertFields(acc, fs[1..])
    else
      var k := Rename(fs[0].key);
      var v := ConvertOneOf(fs[0].val);
      PutNoOneOf(acc, k, v);
      var acc' := Put(acc, k, v);
      ConvertFields(acc', fs[1..])
  }

  lemma PutNoOneOf(acc: Dict<Json>, k: string, v: Json)
    requires NoOneOfFields(acc) && k != "oneOf" && k != "discriminator" && NoOneOf(v)
    ensures NoOneOfFields(Put(acc, k, v))
  {
    var acc' := Put(acc, k, v);
    PutEntries(acc, k, v);
    forall i | 0 <= i < |acc'|
      ensures acc'[i].key != "oneOf" && acc'[i].key != "discriminator" && NoOneOf(acc'[i].val)
    {
      if acc'[i] != Entry(k, v) {
        var m :| 0 <= m < |acc| && acc[m] == acc'[i];
      }
    }
  }

  /** Field `e` is written to key `t` of the converted dict. */
  predicate WritesTo(e: Entry<Json>, t: string) {
    e.key != "discriminator" && Rename(e.key) == t
  }

  lemma {:induction false} ConvertFieldsKeeps(acc: Dict<Json>, fs: Dict<Json>, t: string)
    requires NoOneOfFields(acc)
    requires forall i :: 0 <= i < |fs| ==> !WritesTo(fs[i], t)
    ensures Get(ConvertFields(acc, fs), t) == Get(acc, t)
    decreases |fs|
  {
    if |fs| > 0 {
      if fs[0].key == "discriminator" {
        ConvertFieldsKeeps(acc, fs[1..], t);
      } else {
        var k := Rename(fs[0].key);
        var v := ConvertOneOf(fs[0].val);
        PutNoOneOf(acc, k, v);
        assert ConvertFields(acc, fs) == ConvertFields(Put(acc, k, v), fs[1..]);
        GetPut(acc, k, v, t);
        ConvertFieldsKeeps(Put(acc, k, v), fs[1..], t);
      }
    }
  }

  lemma {:induction false} ConvertFieldsWrites(acc: Dict<Json>, fs: Dict<Json>, t: string, i: int)
    requires NoOneOfFields(acc)
    requires 0 <= i < |fs| && WritesTo(fs[i], t)
    requires forall m :: 0 <= m < |fs| && m != i ==> !WritesTo(fs[m], t)
    ensures Get(ConvertFields(acc, fs), t) == Some(ConvertOneOf(fs[i].val))
    decreases |fs|
  {
    if fs[0].key == "discriminator" {
      ConvertFieldsWrites(acc, fs[1..], t, i - 1);
    } else {
      var k := Rename(fs[0].key);
      var v := ConvertOneOf(fs[0].val);
      PutNoOneOf(acc, k, v);
      assert ConvertFields(acc, fs) == ConvertFields(Put(acc, k, v), fs[1..]);
      GetPut(acc, k, v, t);
      if i == 0 {
        ConvertFieldsKeeps(Put(acc, k, v), fs[1..], t);
      } else {
        ConvertFieldsWrites(Put(acc, k, v), fs[1..], t, i - 1);
      }
    }
  }

  lemma DistinctIndex(fs: Dict<Json>, k: string, i: int, m: int)
    requires DistinctKeys(fs) && 0 <= i < |fs| && 0 <= m < |fs| && fs[i].key == k && fs[m].key == k
    ensures i == m
  {
  }

  /** A `oneOf` list reappears, converted, under `anyOf`. */
  lemma ConvertMovesOneOf(fs: Dict<Json>)
    requires DistinctKeys(fs) && HasKey(fs, "oneOf") && !HasKey(fs, "anyOf")
    ensures Field(ConvertOneOf(Obj(fs)), "anyOf") == Some(ConvertOneOf(Get(fs, "oneOf").value))
    ensures Field(ConvertOneOf(Obj(fs)), "oneOf") == None
  {
    var i := IndexOf(fs, "oneOf");
    assert Keys(fs)[i] == "oneOf";
    forall m | 0 <= m < |fs| && m != i ensures !WritesTo(fs[m], "anyOf") {
      assert Keys(fs)[m] == fs[m].key;
      if fs[m].key == "oneOf" { DistinctIndex(fs, "oneOf", i, m); }
    }
    ConvertFieldsWrites([], fs, "anyOf", i);
    assert Get(fs, "oneOf") == Some(fs[i].val) by {
      var q :| 0 <= q < |fs| && fs[q] == Entry("oneOf", Get(fs, "oneOf").value);
      DistinctIndex(fs, "oneOf", i, q);
    }
    forall m | 0 <= m < |fs| ensures !WritesTo(fs[m], "oneOf") { }
    ConvertFieldsKeeps([], fs, "oneOf");
  }

  /** Every other key keeps its (converted) value; `discriminator` is dropped. */
  lemma ConvertKeepsOtherKeys(fs: Dict<Json>, k: string)
    requires DistinctKeys(fs)
    requires k != "oneOf" && k != "anyOf" && k != "discriminator"
    ensures Field(ConvertOneOf(Obj(fs)), k)
         == if HasKey(fs, k) then Some(ConvertOneOf(Get(fs, k).value)) else None
    ensures Field(ConvertOneOf(Obj(fs)), "discriminator") == None
  {
    if HasKey(fs, k) {
      ConvertKeepsPresent(fs, k);
    } else {
      ConvertKeepsAbsent(fs, k);
    }
    ConvertKeepsAbsent(fs, "discriminator");
  }

  lemma ConvertKeepsPresent(fs: Dict<Json>, k: string)
    requires DistinctKeys(fs) && HasKey(fs, k)
    requires k != "oneOf" && k != "anyOf" && k != "discriminator"
    ensures Field(ConvertOneOf(Obj(fs)), k) == Some(ConvertOneOf(Get(fs, k).value))
  {
    var i := IndexOf(fs, k);
    forall m | 0 <= m < |fs| && m != i ensures !WritesTo(fs[m], k) {
      if fs[m].key == k { DistinctIndex(fs, k, i, m); }
    }
    ConvertFieldsWrites([], fs, k, i);
    assert Get(fs, k) == Some(fs[i].val) by {
      var q :| 0 <= q < |fs| && fs[q] == Entry(k, Get(fs, k).value);
      DistinctIndex(fs, k, i, q);
    }
  }

  /** A key the object lacks, other than the two the conversion writes, stays absent. */
  lemma ConvertKeepsAbsent(fs: Dict<Json>, k: string)
    requires !HasKey(fs, k) || k == "discriminator"
    requires k != "oneOf" && k != "anyOf"
    ensures Field(ConvertOneOf(Obj(fs)), k) == None
  {
    forall m | 0 <= m < |fs| ensures !WritesTo(fs[m], k) {
      assert Keys(fs)[m] == fs[m].key;
    }
    ConvertFieldsKeeps([], fs, k);
  }
}


=== FILE: seqs.dfy ===
/**
 * Python's `sorted(xs, key=k, reverse=True)` on integer keys: a stable sort
 * into descending key order, and the notions needed to state what it does.
 */
module Seqs {
  import opened Base

  /** The elements of `s` whose key is `v`, in their order in `s`. */
  function OfKey<T>(key: T -> int, v: int, s: seq<T>): (r: seq<T>)
    ensures |r| <= |s|
    ensures forall i :: 0 <= i < |r| ==> key(r[i]) == v
  {
    if |s| == 0 then []
    else (if key(s[0]) == v then [s[0]] else []) + OfKey(key, v, s[1..])
  }

  /** Every key is at least every later key. */
  predicate SortedDesc<T>(key: T -> int, s: seq<T>) {
    forall i, j :: 0 <= i < j < |s| ==> key(s[i]) >= key(s[j])
  }

  /** Inserts `x` before the first element whose key is at most `key(x)`. */
  function InsertDesc<T>(key: T -> int, x: T, s: seq<T>): (r: seq<T>)
    ensures |r| == |s| + 1
    ensures multiset(r) == multiset(s) + multiset{x}
    ensures key(r[0]) == if |s| == 0 || key(x) >= key(s[0]) then key(x) else key(s[0])
    ensures SortedDesc(key, s) ==> SortedDesc(key, r)
  {
    if |s| == 0 then [x]
    else if key(x) >= key(s[0]) then [x] + s
    else
      var rest := InsertDesc(key, x, s[1..]);
      HeadTailMultiset(s);
      SortedCons(key, s[0], rest);
      [s[0]] + rest
  }

  lemma HeadTailMultiset<T>(s: seq<T>)
    requires |s| > 0
    ensures multiset(s) == multiset{s[0]} + multiset(s[1..])
  {
    assert s == [s[0]] + s[1..];
  }

  /** An element no smaller than the head of a descending sequence may go in front of it. */
  lemma SortedCons<T>(key: T -> int, h: T, t: seq<T>)
    ensures SortedDesc(key, t) && (|t| > 0 ==> key(h) >= key(t[0])) ==> SortedDesc(key, [h] + t)
  {
    if SortedDesc(key, t) && (|t| > 0 ==> key(h) >= key(t[0])) {
      var s := [h] + t;
      forall i, j | 0 <= i < j < |s| ensures key(s[i]) >= key(s[j]) {
        assert s[j] == t[j - 1];
        if i > 0 {
          assert s[i] == t[i - 1];
        }
      }
    }
  }

  /** Stable sort by descending key (insertion sort from the back). */
  function SortDesc<T>(key: T -> int, s: seq<T>): (r: seq<T>)
    ensures multiset(r) == multiset(s)
    ensures |r| == |s|
    ensures SortedDesc(key, r)
  {
    if |s| == 0 then []
    else
      assert s == [s[0]] + s[1..];
      InsertDesc(key, s[0], SortDesc(key, s[1..]))
  }

  /** A member of a non-empty sequence is a member of all but its last element, or is that element. */
  lemma InInitOrLast<T>(s: seq<T>, x: T)
    requires |s| > 0
    ensures x in s <==> x in s[..|s| - 1] || x == s[|s| - 1]
  {
    assert s == s[..|s| - 1] + [s[|s| - 1]];
  }

  lemma {:induction false} InsertDescOfKey<T>(key: T -> int, x: T, s: seq<T>, v: int)
    ensures OfKey(key, v, InsertDesc(key, x, s))
         == (if key(x) == v then [x] else []) + OfKey(key, v, s)
  {
    if |s| == 0 || key(x) >= key(s[0]) {
      OfKeyCons(key, v, x, s);
    } else {
      var t := InsertDesc(key, x, s[1..]);
      InsertDescOfKey(key, x, s[1..], v);
      OfKeyCons(key, v, s[0], t);
      OfKeyCons(key, v, s[0], s[1..]);
      assert [s[0]] + s[1..] == s;
      // x sorts after s[0], so at most one of the two has key v
      OfKeyBoth(key, v, x, s[0], OfKey(key, v, s[1..]));
    }
  }

  lemma OfKeyCons<T>(key: T -> int, v: int, h: T, t: seq<T>)
    ensures OfKey(key, v, [h] + t) == (if key(h) == v then [h] else []) + OfKey(key, v, t)
  {
    assert ([h] + t)[0] == h && ([h] + t)[1..] == t;
  }

  /** Of two elements with different keys at most one has key `v`, so their order does not matter. */
  lemma OfKeyBoth<T>(key: T -> int, v: int, x: T, y: T, rest: seq<T>)
    requires key(x) < key(y)
    ensures (if key(y) == v then [y] else []) + ((if key(x) == v then [x] else []) + rest)
         == (if key(x) == v then [x] else []) + ((if key(y) == v then [y] else []) + rest)
  {
  }

  /** Sorting keeps the relative order of equal-key elements. */
  lemma {:induction false} SortDescStable<T>(key: T -> int, s: seq<T>, v: int)
    ensures OfKey(key, v, SortDesc(key, s)) == OfKey(key, v, s)
  {
    if |s| > 0 {
      SortDescStable(key, s[1..], v);
      InsertDescOfKey(key, s[0], SortDesc(key, s[1..]), v);
    }
  }

  /** `a` is obtained from `b` by dropping elements. */
  predicate IsSubseq<T(==)>(a: seq<T>, b: seq<T>)
    decreases |b|
  {
    |a| == 0 || (|b| > 0 && (if a[0] == b[0] then IsSubseq(a[1..], b[1..]) else IsSubseq(a, b[1..])))
  }

  /** `[x for x in s if p(x)]`. */
  function Filter<T>(p: T -> bool, s: seq<T>): (r: seq<T>)
    ensures |r| <= |s|
    ensures forall i :: 0 <= i < |r| ==> p(r[i])
  {
    if |s| == 0 then []
    else (if p(s[0]) then [s[0]] else []) + Filter(p, s[1..])
  }

  /** `[y for x in s if (y := f(x)) is not None]`: the present results of `f`, in order. */
  function FilterMap<A, B>(f: A -> Option<B>, s: seq<A>): (r: seq<B>)
    ensures |r| <= |s|
    ensures forall i :: 0 <= i < |r| ==> exists j :: 0 <= j < |s| && f(s[j]) == Some(r[i])
  {
    if |s| == 0 then []
    else
      var rest := FilterMap(f, s[1..]);
      assert forall i :: 0 <= i < |rest| ==> exists j :: 0 <= j < |s| && f(s[j]) == Some(rest[i]) by {
        forall i | 0 <= i < |rest| ensures exists j :: 0 <= j < |s| && f(s[j]) == Some(rest[i]) {
          var j :| 0 <= j < |s[1..]| && f(s[1..][j]) == Some(rest[i]);
          assert s[1..][j] == s[j + 1];
        }
      }
      match f(s[0])
      case Some(y) => [y] + rest
      case None => rest
  }

  /** One step of the filter: the head is kept exactly when it satisfies `p`. */
  lemma FilterStep<T>(p: T -> bool, s: seq<T>)
    requires |s| > 0
    ensures p(s[0]) ==> Filter(p, s) == [s[0]] + Filter(p, s[1..]) && Filter(p, s)[1..] == Filter(p, s[1..])
    ensures !p(s[0]) ==> Filter(p, s) == Filter(p, s[1..])
  {
    assert [] + Filter(p, s[1..]) == Filter(p, s[1..]);
  }

  /** Filtering keeps elements of distinct identities distinct. */
  lemma {:induction false} FilterDistinct<T, K>(p: T -> bool, id: T -> K, s: seq<T>)
    requires forall i, j :: 0 <= i < j < |s| ==> id(s[i]) != id(s[j])
    ensures var r := Filter(p, s); forall i, j :: 0 <= i < j < |r| ==> id(r[i]) != id(r[j])
  {
    if |s| > 0 {
      var t := Filter(p, s[1..]);
      FilterDistinct(p, id, s[1..]);
      forall y | y in t ensures id(y) != id(s[0]) {
        FilterMember(p, s[1..], y);
      }
    }
  }

  /** The sequences of `ss` one after the other. */
  function Concat<T>(ss: seq<seq<T>>): seq<T> {
    if |ss| == 0 then [] else ss[0] + Concat(ss[1..])
  }

  /** `s[:n]`. */
  function Take<T>(s: seq<T>, n: nat): (r: seq<T>)
    ensures |r| <= n && |r| <= |s| && r == s[..|r|]
    ensures |s| >= n ==> |r| == n
    ensures |s| <= n ==> r == s
  {
    if |s| <= n then s else s[..n]
  }

  /** An element is kept iff it is in `s` and satisfies `p`. */
  lemma {:induction false} FilterMember<T>(p: T -> bool, s: seq<T>, x: T)
    ensures x in Filter(p, s) <==> x in s && p(x)
  {
    if |s| > 0 {
      FilterMember(p, s[1..], x);
      assert s == [s[0]] + s[1..];
    }
  }

  /** Filtering keeps the relative order of what it keeps. */
  lemma {:induction false} FilterIsSubseq<T>(p: T -> bool, s: seq<T>)
    ensures IsSubseq(Filter(p, s), s)
  {
    if |s| > 0 {
      FilterIsSubseq(p, s[1..]);
      var t := Filter(p, s[1..]);
      if p(s[0]) {
        assert Filter(p, s) == [s[0]] + t;
        assert ([s[0]] + t)[1..] == t;
      } else {
        assert Filter(p, s) == t;
        SubseqDropHead(t, s);
      }
    }
  }

  /** A subsequence of `b[1..]` is a subsequence of `b`. */
  lemma {:induction false} SubseqDropHead<T>(a: seq<T>, b: seq<T>)
    requires |b| > 0 && IsSubseq(a, b[1..])
    ensures IsSubseq(a, b)
    decreases |a| + |b|
  {
    if |a| > 0 && a[0] == b[0] {
      // the head matches: `a[1..]` must be a subsequence of `b[1..]`
      SubseqTail(a, b[1..]);
    }
  }

  /** Dropping the head of a non-empty subsequence keeps it a subsequence. */
  lemma {:induction false} SubseqTail<T>(a: seq<T>, b: seq<T>)
    requires |a| > 0 && IsSubseq(a, b)
    ensures IsSubseq(a[1..], b)
    decreases |a| + |b|
  {
    if a[0] == b[0] {
      if |a[1..]| > 0 {
        SubseqDropHead(a[1..], b);
      }
    } else {
      SubseqTail(a, b[1..]);
      if |a[1..]| > 0 {
        SubseqDropHead(a[1..], b);
      }
    }
  }

  /** Everything a filter keeps passes it, in order, and nothing that passes is lost. */
  lemma FilterSpec<T>(p: T -> bool, s: seq<T>)
    ensures IsSubseq(Filter(p, s), s)
    ensures forall x :: x in Filter(p, s) <==> x in s && p(x)
  {
    FilterIsSubseq(p, s);
    forall x ensures x in Filter(p, s) <==> x in s && p(x) {
      FilterMember(p, s, x);
    }
  }

  // ---------------------------------------------------------------------------
  // First occurrence per identity (`seen`-set deduplication)
  // ---------------------------------------------------------------------------

  /** The first element of `s` whose identity is `k`. */
  function FirstOfId<T, K(==)>(id: T -> K, k: K, s: seq<T>): (r: Option<T>)
    ensures r.Some? ==> r.value in s && id(r.value) == k
    ensures r.None? ==> forall i :: 0 <= i < |s| ==> id(s[i]) != k
  {
    if |s| == 0 then None
    else if id(s[0]) == k then Some(s[0])
    else FirstOfId(id, k, s[1..])
  }

  /** The first element of `s` whose identity is `k` and whose key is `v`. */
  function FirstOfIdKey<T, K(==)>(id: T -> K, k: K, key: T -> int, v: int, s: seq<T>): (r: Option<T>)
    ensures r.Some? ==> r.value in s && id(r.value) == k && key(r.value) == v
  {
    if |s| == 0 then None
    else if id(s[0]) == k && key(s[0]) == v then Some(s[0])
    else FirstOfIdKey(id, k, key, v, s[1..])
  }

  /** Keeps the first element of each identity not in `seen`, in order. */
  function Dedup<T, K(==)>(id: T -> K, s: seq<T>, seen: set<K>): (r: seq<T>)
    ensures |r| <= |s|
    ensures forall i :: 0 <= i < |r| ==> id(r[i]) !in seen && r[i] in s
    ensures forall i, j :: 0 <= i < j < |r| ==> id(r[i]) != id(r[j])
  {
    if |s| == 0 then []
    else if id(s[0]) in seen then Dedup(id, s[1..], seen)
    else [s[0]] + Dedup(id, s[1..], seen + {id(s[0])})
  }

  /** Deduplication keeps the order of what it keeps. */
  lemma {:induction false} DedupIsSubseq<T, K>(id: T -> K, s: seq<T>, seen: set<K>)
    ensures IsSubseq(Dedup(id, s, seen), s)
  {
    if |s| > 0 {
      if id(s[0]) in seen {
        DedupIsSubseq(id, s[1..], seen);
        if |Dedup(id, s, seen)| > 0 {
          SubseqDropHead(Dedup(id, s, seen), s);
        }
      } else {
        var t := Dedup(id, s[1..], seen + {id(s[0])});
        DedupIsSubseq(id, s[1..], seen + {id(s[0])});
        assert Dedup(id, s, seen) == [s[0]] + t;
        assert ([s[0]] + t)[1..] == t;
      }
    }
  }

  /** An element survives iff it is the first of its identity and that identity was not seen. */
  lemma {:induction false} DedupMember<T, K>(id: T -> K, s: seq<T>, seen: set<K>, x: T)
    ensures x in Dedup(id, s, seen) <==> id(x) !in seen && FirstOfId(id, id(x), s) == Some(x)
  {
    if |s| > 0 {
      if id(s[0]) in seen {
        DedupMember(id, s[1..], seen, x);
      } else {
        DedupMember(id, s[1..], seen + {id(s[0])}, x);
      }
    }
  }

  /** In a descending sequence the first element of an identity has the largest key of that identity. */
  lemma {:induction false} SortedFirstIsMax<T, K>(id: T -> K, key: T -> int, t: seq<T>, x: T)
    requires SortedDesc(key, t) && FirstOfId(id, id(x), t) == Some(x)
    ensures forall y :: y in t && id(y) == id(x) ==> key(y) <= key(x)
  {
    if id(t[0]) != id(x) {
      assert SortedDesc(key, t[1..]);
      SortedFirstIsMax(id, key, t[1..], x);
      assert forall y :: y in t && y != t[0] ==> y in t[1..];
    } else {
      assert forall y :: y in t[1..] ==> key(y) <= key(t[0]);
      assert forall y :: y in t && y != t[0] ==> y in t[1..];
    }
  }

  lemma {:induction false} FirstOfIdHasItsKey<T, K>(id: T -> K, key: T -> int, t: seq<T>, x: T)
    requires FirstOfId(id, id(x), t) == Some(x)
    ensures FirstOfIdKey(id, id(x), key, key(x), t) == Some(x)
  {
    if id(t[0]) != id(x) {
      FirstOfIdHasItsKey(id, key, t[1..], x);
    }
  }

  lemma {:induction false} FirstOfIdOfKey<T, K>(id: T -> K, k: K, key: T -> int, v: int, t: seq<T>)
    ensures FirstOfId(id, k, OfKey(key, v, t)) == FirstOfIdKey(id, k, key, v, t)
  {
    if |t| > 0 {
      FirstOfIdOfKey(id, k, key, v, t[1..]);
      if key(t[0]) == v {
        assert OfKey(key, v, t) == [t[0]] + OfKey(key, v, t[1..]);
        assert ([t[0]] + OfKey(key, v, t[1..]))[1..] == OfKey(key, v, t[1..]);
      } else {
        assert OfKey(key, v, t) == OfKey(key, v, t[1..]);
      }
    }
  }

  /**
   * Sorting by descending key and then keeping the first of each identity
   * keeps, for every identity, the element of largest key, and among those
   * the one that came first in the input.
   */
  lemma FirstSeenMax<T, K>(id: T -> K, key: T -> int, s: seq<T>, x: T)
    requires x in Dedup(id, SortDesc(key, s), {})
    ensures x in s
    ensures forall y :: y in s && id(y) == id(x) ==> key(y) <= key(x)
    ensures FirstOfIdKey(id, id(x), key, key(x), s) == Some(x)
  {
    var t := SortDesc(key, s);
    DedupMember(id, t, {}, x);
    assert x in multiset(t);
    forall y | y in s && id(y) == id(x) ensures key(y) <= key(x) {
      assert y in multiset(t);
      SortedFirstIsMax(id, key, t, x);
    }
    FirstOfIdHasItsKey(id, key, t, x);
    FirstOfIdOfKey(id, id(x), key, key(x), t);
    SortDescStable(key, s, key(x));
    FirstOfIdOfKey(id, id(x), key, key(x), s);
  }

  /** Every identity of the input is represented after sorting and deduplication. */
  lemma DedupCovers<T, K>(id: T -> K, key: T -> int, s: seq<T>, y: T)
    requires y in s
    ensures exists x :: x in Dedup(id, SortDesc(key, s), {}) && id(x) == id(y)
  {
    var t := SortDesc(key, s);
    assert y in multiset(t);
    var x := FirstOfId(id, id(y), t).value;
    DedupMember(id, t, {}, x);
  }

  /** Deduplication keeps a descending order. */
  lemma {:induction false} DedupSorted<T, K>(id: T -> K, key: T -> int, s: seq<T>, seen: set<K>)
    requires SortedDesc(key, s)
    ensures SortedDesc(key, Dedup(id, s, seen))
  {
    if |s| > 0 {
      assert SortedDesc(key, s[1..]);
      if id(s[0]) in seen {
        DedupSorted(id, key, s[1..], seen);
      } else {
        var rest := Dedup(id, s[1..], seen + {id(s[0])});
        DedupSorted(id, key, s[1..], seen + {id(s[0])});
        assert forall i :: 0 <= i < |rest| ==> rest[i] in s[1..];
        assert forall i :: 0 <= i < |rest| ==> key(s[0]) >= key(rest[i]);
      }
    }
  }
}

=== FILE: solver.dfy ===
/**
 * The solver's reasoning loop: at most ten model steps, each calling one
 * tool, until an agent response finishes the task; the response's outcome
 * is translated for the API and its links are deduplicated.
 */
module Solver {
  import opened Base
  import opened Strings
  import opened Seqs
  import opened NumberFormat

  const MaxSolverSteps: nat := 10
  const MaxPlanSteps: nat := 5

  // ---------------------------------------------------------------------------
  // Complex tasks
  // ---------------------------------------------------------------------------

  datatype ModelConfig = ModelConfig(modelId: string, temperature: real, maxCompletionTokens: nat)

  /**
   * `COMPLEX_TASKS` when present and non-empty: the ids of the tasks that
   * get the stronger model, that model, and their timeout if one is set.
   */
  datatype ComplexTasks = ComplexTasks(taskIds: Option<seq<string>>, model: ModelConfig, timeoutSec: Option<real>)

  /** The configuration as shipped lists no complex task. */
  const ShippedComplexTasks: Option<ComplexTasks> :=
    Some(ComplexTasks(Some([]), ModelConfig("x-ai/grok-4.1-fast", 0.1, 10000), None))

  predicate IsComplexTask(taskId: string, complex: Option<ComplexTasks>) {
    complex.Some? && taskId in complex.value.taskIds.GetOr([])
  }

  /** `_get_effective_model_config`: the complex model for a listed task, else the agent's own. */
  function EffectiveModelConfig(taskId: string, complex: Option<ComplexTasks>, default: ModelConfig): (r: ModelConfig)
    ensures IsComplexTask(taskId, complex) ==> r == complex.value.model
    ensures !IsComplexTask(taskId, complex) ==> r == default
  {
    if complex.Some? && taskId in complex.value.taskIds.GetOr([]) then complex.value.model else default
  }

  /** `_get_effective_timeout`: a listed task takes the complex timeout when one is set. */
  function EffectiveTimeout(taskId: string, complex: Option<ComplexTasks>, default: real): (r: real)
    ensures !IsComplexTask(taskId, complex) ==> r == default
    ensures IsComplexTask(taskId, complex) ==> r == complex.value.timeoutSec.GetOr(default)
  {
    if complex.Some? && taskId in complex.value.taskIds.GetOr([]) then complex.value.timeoutSec.GetOr(default) else default
  }

  /** With the shipped configuration every task runs on the default model and timeout. */
  lemma ShippedHasNoComplexTask(taskId: string, default: ModelConfig, timeout: real)
    ensures !IsComplexTask(taskId, ShippedComplexTasks)
    ensures EffectiveModelConfig(taskId, ShippedComplexTasks, default) == default
    ensures EffectiveTimeout(taskId, ShippedComplexTasks, timeout) == timeout
  {
  }

  // ---------------------------------------------------------------------------
  // The agent response
  // ---------------------------------------------------------------------------

  /** `OUTCOME_TO_API`: the agent's outcome names and the API's. */
  const OutcomeToApi: map<string, string> := map[
    "successful" := "ok_answer",
    "ok_not_found" := "ok_not_found",
    "unclear_term_need_clarification" := "none_clarification_needed",
    "action_not_supported" := "none_unsupported",
    "server_error" := "error_internal"
  ]

  /** The API outcome of an agent outcome; an unmapped one passes unchanged. */
  function ApiOutcome(outcome: string): (r: string)
    ensures outcome in OutcomeToApi ==> r == OutcomeToApi[outcome]
    ensures outcome !in OutcomeToApi ==> r == outcome
  {
    if outcome in OutcomeToApi then OutcomeToApi[outcome] else outcome
  }

  /** The mapping keeps the five agent outcomes apart, and keeps "ok_not_found" as it is. */
  lemma ApiOutcomeInjective(a: string, b: string)
    requires a in OutcomeToApi && b in OutcomeToApi && a != b
    ensures ApiOutcome(a) != ApiOutcome(b)
    ensures ApiOutcome("ok_not_found") == "ok_not_found"
  {
  }

  datatype RequestedLink = RequestedLink(entityType: string, entityId: string)

  function LinkKey(l: RequestedLink): (string, string) {
    (l.entityType, l.entityId)
  }

  /**
   * The links sent with the response: the requested ones, first occurrence
   * of each (type, id) pair only, and none when nothing was found.
   */
  function SentLinks(outcome: string, requested: Option<seq<RequestedLink>>): (r: seq<RequestedLink>)
    ensures outcome == "ok_not_found" || requested.None? ==> r == []
    ensures forall i, j :: 0 <= i < j < |r| ==> LinkKey(r[i]) != LinkKey(r[j])
    ensures forall i :: 0 <= i < |r| ==> requested.Some? && r[i] in requested.value
  {
    if outcome != "ok_not_found" && requested.Some? && |requested.value| > 0 then Dedup(LinkKey, requested.value, {})
    else []
  }

  /**
   * Unless nothing was found, every requested (type, id) pair is sent, by
   * its first request, in the order of the requests.
   */
  lemma SentLinksSpec(outcome: string, requested: seq<RequestedLink>, l: RequestedLink)
    requires outcome != "ok_not_found"
    ensures IsSubseq(SentLinks(outcome, Some(requested)), requested)
    ensures l in SentLinks(outcome, Some(requested)) <==> FirstOfId(LinkKey, LinkKey(l), requested) == Some(l)
    ensures l in requested ==> exists x :: x in SentLinks(outcome, Some(requested)) && LinkKey(x) == LinkKey(l)
  {
    if |requested| > 0 {
      DedupIsSubseq(LinkKey, requested, {});
      DedupMember(LinkKey, requested, {}, l);
      if l in requested {
        var x := FirstOfId(LinkKey, LinkKey(l), requested);
        assert x.Some? by {
          var i :| 0 <= i < |requested| && requested[i] == l;
        }
        DedupMember(LinkKey, requested, {}, x.value);
      }
    }
  }

  /** The response as dispatched: message, API outcome and links. */
  datatype SentResponse = SentResponse(message: string, outcome: string, links: seq<RequestedLink>)

  datatype AgentResponse = AgentResponse(message: string, outcome: string, requestedLinks: Option<seq<RequestedLink>>)

  function Dispatched(a: AgentResponse): (r: SentResponse)
    ensures r.message == a.message && r.outcome == ApiOutcome(a.outcome)
    ensures r.links == SentLinks(a.outcome, a.requestedLinks)
  {
    SentResponse(a.message, ApiOutcome(a.outcome), SentLinks(a.outcome, a.requestedLinks))
  }

  // ---------------------------------------------------------------------------
  // One step
  // ---------------------------------------------------------------------------

  /** The plan as kept: its first five entries. */
  function KeptPlan(plan: seq<string>): (r: seq<string>)
    ensures |r| <= MaxPlanSteps && |r| <= |plan| && r == plan[..|r|]
    ensures |plan| <= MaxPlanSteps ==> r == plan
    ensures |plan| > MaxPlanSteps ==> |r| == MaxPlanSteps
  {
    if |plan| > MaxPlanSteps then plan[..MaxPlanSteps] else plan
  }

  /** The step the assistant message announces: the plan's first, or the current state when the plan is empty. */
  function FirstStep(plan: seq<string>, currentState: string): (r: string)
    ensures |plan| > 0 ==> r == plan[0]
    ensures |plan| == 0 ==> r == currentState
  {
    var kept := KeptPlan(plan);
    if |kept| > 0 then kept[0] else currentState
  }

  /** What a tool call came to. */
  datatype ToolOutcome =
    | DictResult(json: string, successFalse: bool, needsClarification: bool)
    | ModelResult(json: string)
    | NoResult
    | ApiFailure(detail: string)
    | OtherFailure(message: string)
    | UnknownTool(typeName: string)

  predicate IsFailure(o: ToolOutcome) {
    o.ApiFailure? || o.OtherFailure? || o.UnknownTool?
  }

  /** The tool's result as the model reads it back. */
  function ToolText(o: ToolOutcome): (r: string)
    ensures StartsWith(r, "ERROR: ") <==> IsFailure(o)
    ensures StartsWith(r, "INFO: ") <==> o.DictResult? && o.successFalse && o.needsClarification
    ensures o.ModelResult? ==> r == "DONE: " + o.json
    ensures o.DictResult? && !(o.successFalse && o.needsClarification) ==> r == "DONE: " + o.json
    ensures o.NoResult? ==> r == ""
  {
    match o
    case DictResult(json, successFalse, needsClarification) =>
      if successFalse && needsClarification then Tagged("INFO: ", json) else Tagged("DONE: ", json)
    case ModelResult(json) => Tagged("DONE: ", json)
    case NoResult => ""
    case ApiFailure(detail) => Tagged("ERROR: ", detail)
    case OtherFailure(message) => Tagged("ERROR: ", "{\"error\": \"" + message + "\"}")
    case UnknownTool(name) => Tagged("ERROR: ", "Unknown tool type: " + name)
  }

  /** A tag followed by its text; the tags differ in their first letter. */
  function Tagged(tag: string, text: string): (r: string)
    requires tag in {"DONE: ", "INFO: ", "ERROR: "}
    ensures StartsWith(r, tag) && r == tag + text
    ensures StartsWith(r, "ERROR: ") <==> tag == "ERROR: "
    ensures StartsWith(r, "INFO: ") <==> tag == "INFO: "
  {
    var r := tag + text;
    assert r[0] == tag[0];
    assert r[..|tag|] == tag;
    r
  }

  // ---------------------------------------------------------------------------
  // The loop
  // ---------------------------------------------------------------------------

  /** The function a step calls: the agent response, or a tool by name with its JSON arguments. */
  datatype Call = Respond(arguments: string, response: AgentResponse) | Tool(name: string, arguments: string)

  function CallName(c: Call): string {
    if c.Respond? then "AgentResponse" else c.name
  }

  datatype NextStep = NextStep(currentState: string, plan: seq<string>, call: Call)

  datatype Reply = LlmFailed(error: string) | Parsed(step: NextStep)

  datatype LogEntry =
    | Message(role: string, content: string)
    | ToolCall(content: string, callId: string, name: string, arguments: string)
    | ToolReply(content: string, callId: string)

  /**
   * The language model as the loop calls it at step `i` with the conversation
   * so far. The step index lets two calls with the same conversation answer
   * differently, as a retried call can.
   */
  type Model = (nat, seq<LogEntry>) -> Reply

  /** Runs a tool at step `i` by name on its JSON arguments; earlier steps may have changed the store. */
  type ToolRunner = (nat, string, string) -> ToolOutcome

  /** How the loop ends: the final status, the response dispatched if any, and the model calls made. */
  datatype Ending = Ending(status: string, sent: Option<SentResponse>, calls: nat)

  /** The id of step `i`, counted from zero: "step_1" for the first. */
  function StepId(i: nat): (r: string)
    ensures StartsWith(r, "step_")
  {
    "step_" + Digits(i + 1)
  }

  /** The conversation after a tool step: the announced call, then the tool's reply. */
  function AfterToolStep(i: nat, log: seq<LogEntry>, step: NextStep, tools: ToolRunner): seq<LogEntry>
    requires step.call.Tool?
  {
    log + [ToolCall(FirstStep(step.plan, step.currentState), StepId(i), CallName(step.call), step.call.arguments),
           ToolReply(ToolText(tools(i, step.call.name, step.call.arguments)), StepId(i))]
  }

  /** The loop from step `i` on, with the conversation so far. */
  function SolveLoop(i: nat, log: seq<LogEntry>, model: Model, tools: ToolRunner): (r: Ending)
    requires i <= MaxSolverSteps
    ensures r.status == "completed" || r.status == "max_steps_exceeded" || r.status == "rate_limit_exhausted"
    ensures r.status == "completed" <==> r.sent.Some?
    ensures i <= r.calls <= MaxSolverSteps
    ensures r.status == "max_steps_exceeded" ==> r.calls == MaxSolverSteps
    ensures r.sent.Some? ==> forall a, b :: 0 <= a < b < |r.sent.value.links| ==>
      LinkKey(r.sent.value.links[a]) != LinkKey(r.sent.value.links[b])
    decreases MaxSolverSteps - i
  {
    if i == MaxSolverSteps then Ending("max_steps_exceeded", None, i)
    else
      match model(i, log)
      case LlmFailed(error) =>
        if Contains(error, "Rate limit") then Ending("rate_limit_exhausted", None, i + 1)
        else SolveLoop(i + 1, log, model, tools)
      case Parsed(step) =>
        match step.call
        case Respond(_, response) => Ending("completed", Some(Dispatched(response)), i + 1)
        case Tool(_, _) => SolveLoop(i + 1, AfterToolStep(i, log, step, tools), model, tools)
  }

  /** `_solve_task_impl` from the system prompt and the user message. */
  function Solve(systemPrompt: string, userMessage: string, model: Model, tools: ToolRunner): (r: Ending)
    ensures r.status == "completed" || r.status == "max_steps_exceeded" || r.status == "rate_limit_exhausted"
    ensures r.status == "completed" <==> r.sent.Some?
    ensures 1 <= r.calls <= MaxSolverSteps
  {
    SolveLoop(0, InitialLog(systemPrompt, userMessage), model, tools)
  }

  function InitialLog(systemPrompt: string, userMessage: string): seq<LogEntry> {
    [Message("system", systemPrompt), Message("user", userMessage)]
  }

  // ---------------------------------------------------------------------------
  // The loop's ending, step by step
  // ---------------------------------------------------------------------------

  /** A reply ends the loop: an agent response, or a failure naming the rate limit. */
  predicate Stops(reply: Reply) {
    (reply.Parsed? && reply.step.call.Respond?) || (reply.LlmFailed? && Contains(reply.error, "Rate limit"))
  }

  /** The ending a stopping reply at step `k` gives. */
  function StopEnding(k: nat, reply: Reply): Ending
    requires Stops(reply)
  {
    if reply.Parsed? then Ending("completed", Some(Dispatched(reply.step.call.response)), k + 1)
    else Ending("rate_limit_exhausted", None, k + 1)
  }

  /** The conversation the loop holds before step `k`, built forward from the one it starts with. */
  function LogAt(k: nat, log0: seq<LogEntry>, model: Model, tools: ToolRunner): seq<LogEntry> {
    if k == 0 then log0
    else
      var log := LogAt(k - 1, log0, model, tools);
      match model(k - 1, log)
      case Parsed(step) => if step.call.Tool? then AfterToolStep(k - 1, log, step, tools) else log
      case LlmFailed(_) => log
  }

  /** The reply of step `k`. */
  function ReplyAt(k: nat, log0: seq<LogEntry>, model: Model, tools: ToolRunner): Reply {
    model(k, LogAt(k, log0, model, tools))
  }

  /** The first step from `j` on, below the step limit, whose reply stops the loop. */
  function FirstStopFrom(j: nat, log0: seq<LogEntry>, model: Model, tools: ToolRunner): (r: Option<nat>)
    requires j <= MaxSolverSteps
    ensures r.Some? ==> j <= r.value < MaxSolverSteps && Stops(ReplyAt(r.value, log0, model, tools))
    ensures r.Some? ==> forall m :: j <= m < r.value ==> !Stops(ReplyAt(m, log0, model, tools))
    ensures r.None? ==> forall m :: j <= m < MaxSolverSteps ==> !Stops(ReplyAt(m, log0, model, tools))
    decreases MaxSolverSteps - j
  {
    if j == MaxSolverSteps then None
    else if Stops(ReplyAt(j, log0, model, tools)) then Some(j)
    else FirstStopFrom(j + 1, log0, model, tools)
  }

  /**
   * Started on the conversation of step `i`, the loop ends as the first
   * stopping reply from `i` on says, or runs out of steps when there is none.
   */
  lemma {:induction false} SolveLoopFirstStop(i: nat, log0: seq<LogEntry>, model: Model, tools: ToolRunner)
    requires i <= MaxSolverSteps
    ensures var stop := FirstStopFrom(i, log0, model, tools);
      SolveLoop(i, LogAt(i, log0, model, tools), model, tools)
        == if stop.Some? then StopEnding(stop.value, ReplyAt(stop.value, log0, model, tools))
           else Ending("max_steps_exceeded", None, MaxSolverSteps)
    decreases MaxSolverSteps - i
  {
    if i < MaxSolverSteps {
      var log := LogAt(i, log0, model, tools);
      var reply := model(i, log);
      assert reply == ReplyAt(i, log0, model, tools);
      if !Stops(reply) {
        SolveLoopFirstStop(i + 1, log0, model, tools);
        assert LogAt(i + 1, log0, model, tools)
            == (if reply.Parsed? then AfterToolStep(i, log, reply.step, tools) else log);
      }
    }
  }

  /**
   * The task ends completed, with the response of step `k` dispatched after
   * `k + 1` calls, exactly when step `k` is the first to stop and responds.
   */
  lemma SolveCompletedIff(systemPrompt: string, userMessage: string, model: Model, tools: ToolRunner, k: nat)
    requires k < MaxSolverSteps
    ensures var log0 := InitialLog(systemPrompt, userMessage);
      var reply := ReplyAt(k, log0, model, tools);
      (Solve(systemPrompt, userMessage, model, tools).status == "completed"
         && Solve(systemPrompt, userMessage, model, tools).calls == k + 1)
      <==> (FirstStopFrom(0, log0, model, tools) == Some(k) && reply.Parsed?)
    ensures var log0 := InitialLog(systemPrompt, userMessage);
      var reply := ReplyAt(k, log0, model, tools);
      FirstStopFrom(0, log0, model, tools) == Some(k) && reply.Parsed?
      ==> Solve(systemPrompt, userMessage, model, tools).sent == Some(Dispatched(reply.step.call.response))
  {
    SolveLoopFirstStop(0, InitialLog(systemPrompt, userMessage), model, tools);
  }

  /** The task ends as "rate_limit_exhausted" exactly when the first stopping reply is a rate-limit failure. */
  lemma SolveRateLimitIff(systemPrompt: string, userMessage: string, model: Model, tools: ToolRunner)
    ensures var log0 := InitialLog(systemPrompt, userMessage);
      var stop := FirstStopFrom(0, log0, model, tools);
      Solve(systemPrompt, userMessage, model, tools).status == "rate_limit_exhausted"
      <==> stop.Some? && ReplyAt(stop.value, log0, model, tools).LlmFailed?
  {
    SolveLoopFirstStop(0, InitialLog(systemPrompt, userMessage), model, tools);
  }

  /** The task uses up all ten steps exactly when no step's reply stops it. */
  lemma SolveRunsOutIff(systemPrompt: string, userMessage: string, model: Model, tools: ToolRunner)
    ensures Solve(systemPrompt, userMessage, model, tools).status == "max_steps_exceeded"
      <==> FirstStopFrom(0, InitialLog(systemPrompt, userMessage), model, tools).None?
  {
    SolveLoopFirstStop(0, InitialLog(systemPrompt, userMessage), model, tools);
  }

  /** The model never answers with an agent response, and no error is a rate limit. */
  ghost predicate NeverResponds(model: Model) {
    forall k, m :: !Stops(model(k, m))
  }

  /** Such a model uses up every step and the task ends as "max_steps_exceeded". */
  lemma {:induction false} StepsRunOut(i: nat, log: seq<LogEntry>, model: Model, tools: ToolRunner)
    requires i <= MaxSolverSteps
    requires NeverResponds(model)
    ensures SolveLoop(i, log, model, tools) == Ending("max_steps_exceeded", None, MaxSolverSteps)
    decreases MaxSolverSteps - i
  {
    if i < MaxSolverSteps {
      assert !Stops(model(i, log));
      match model(i, log)
      case LlmFailed(_) =>
        StepsRunOut(i + 1, log, model, tools);
      case Parsed(step) =>
        StepsRunOut(i + 1, AfterToolStep(i, log, step, tools), model, tools);
    }
  }

  /** A failed call that is not a rate limit uses up its step; the next step asks again with the same conversation. */
  lemma FailedCallRetries(i: nat, log: seq<LogEntry>, model: Model, tools: ToolRunner)
    requires i < MaxSolverSteps
    requires model(i, log).LlmFailed? && !Contains(model(i, log).error, "Rate limit")
    ensures SolveLoop(i, log, model, tools) == SolveLoop(i + 1, log, model, tools)
  {
  }

  /** A failure followed by a response to the same conversation completes the task after two more calls. */
  lemma RetryThenResponds(i: nat, log: seq<LogEntry>, model: Model, tools: ToolRunner, response: AgentResponse)
    requires i + 1 < MaxSolverSteps
    requires model(i, log).LlmFailed? && !Contains(model(i, log).error, "Rate limit")
    requires model(i + 1, log).Parsed? && model(i + 1, log).step.call == Respond(model(i + 1, log).step.call.arguments, response)
    ensures SolveLoop(i, log, model, tools) == Ending("completed", Some(Dispatched(response)), i + 2)
  {
  }

  /** A response at the first step completes the task with the response as dispatched. */
  lemma FirstStepResponds(systemPrompt: string, userMessage: string, model: Model, tools: ToolRunner,
                          arguments: string, response: AgentResponse, plan: seq<string>, state: string)
    requires model(0, InitialLog(systemPrompt, userMessage)) == Parsed(NextStep(state, plan, Respond(arguments, response)))
    ensures Solve(systemPrompt, userMessage, model, tools) == Ending("completed", Some(Dispatched(response)), 1)
  {
  }
}

=== FILE: strings.dfy ===
/**
 * The string operations of Python's `str` that the modelled code relies on,
 * stated over `seq<char>`. Case mapping is ASCII-only; whitespace is the ASCII
 * whitespace set; line splitting recognises '\n' only.
 */
module Strings {
  import opened Base

  // ---------------------------------------------------------------------------
  // Case mapping
  // ---------------------------------------------------------------------------

  function LowerChar(c: char): (r: char)
    ensures 'A' <= c <= 'Z' ==> r as int == c as int + 32
    ensures !('A' <= c <= 'Z') ==> r == c
  {
    if 'A' <= c <= 'Z' then (c as int + 32) as char else c
  }

  /** `str.lower()` restricted to ASCII letters. */
  function Lower(s: string): (r: string)
    ensures |r| == |s|
    ensures forall i :: 0 <= i < |s| ==> r[i] == LowerChar(s[i])
  {
    seq(|s|, i requires 0 <= i < |s| => LowerChar(s[i]))
  }

  lemma LowerIdempotent(s: string)
    ensures Lower(Lower(s)) == Lower(s)
  {
  }

  // ---------------------------------------------------------------------------
  // Prefixes, suffixes, substrings
  // ---------------------------------------------------------------------------

  predicate StartsWith(s: string, p: string) {
    |p| <= |s| && s[..|p|] == p
  }

  predicate EndsWith(s: string, p: string) {
    |p| <= |s| && s[|s| - |p|..] == p
  }

  /** `t` occurs in `s` at position `i`. */
  predicate OccursAt(s: string, t: string, i: int) {
    0 <= i && i + |t| <= |s| && s[i..i + |t|] == t
  }

  /** First occurrence of `t` in `s` at or after `i` (Python `str.find(t, i)`). */
  function FindFrom(s: string, t: string, i: nat): (r: Option<nat>)
    requires i <= |s|
    decreases |s| - i
    ensures r.Some? ==> i <= r.value && OccursAt(s, t, r.value)
    ensures r.Some? ==> forall j :: i <= j < r.value ==> !OccursAt(s, t, j)
    ensures r.None? ==> forall j :: i <= j ==> !OccursAt(s, t, j)
  {
    if i + |t| > |s| then None
    else if s[i..i + |t|] == t then Some(i)
    else FindFrom(s, t, i + 1)
  }

  function Find(s: string, t: string): (r: Option<nat>)
    ensures r.Some? ==> OccursAt(s, t, r.value)
    ensures r.Some? ==> forall j :: 0 <= j < r.value ==> !OccursAt(s, t, j)
    ensures r.None? ==> forall j :: !OccursAt(s, t, j)
  {
    FindFrom(s, t, 0)
  }

  /** Python's `t in s` for strings. */
  predicate Contains(s: string, t: string) {
    Find(s, t).Some?
  }

  lemma ContainsIff(s: string, t: string)
    ensures Contains(s, t) <==> exists i :: OccursAt(s, t, i)
  {
  }

  /** `s.replace(old, new, 1)`: replaces the first occurrence only. */
  function ReplaceFirst(s: string, pat: string, rep: string): (r: string)
    ensures Find(s, pat).None? ==> r == s
    ensures Find(s, pat).Some? ==>
      var i := Find(s, pat).value;
      r == s[..i] + rep + s[i + |pat|..]
  {
    match Find(s, pat)
    case None => s
    case Some(i) => s[..i] + rep + s[i + |pat|..]
  }

  // ---------------------------------------------------------------------------
  // Stripping
  // ---------------------------------------------------------------------------

  /**
   * The ASCII characters Python counts as whitespace (`str.isspace`), which
   * `str.strip()` removes and `\s` matches: space, tab, line feed, vertical
   * tab, form feed, carriage return, and the separators 28 to 31.
   */
  predicate IsSpace(c: char) {
    c == ' ' || c == '\t' || c == '\n' || c == '\r' || c as int == 11 || c as int == 12
    || 28 <= c as int <= 31
  }

  /** Number of leading characters of `s` accepted by `p`. */
  function LeadCount(s: string, p: char -> bool): (n: nat)
    ensures n <= |s|
    ensures forall i :: 0 <= i < n ==> p(s[i])
    ensures n < |s| ==> !p(s[n])
  {
    if |s| > 0 && p(s[0]) then 1 + LeadCount(s[1..], p) else 0
  }

  /** Number of trailing characters of `s` accepted by `p`. */
  function TrailCount(s: string, p: char -> bool): (n: nat)
    ensures n <= |s|
    ensures forall i :: |s| - n <= i < |s| ==> p(s[i])
    ensures n < |s| ==> !p(s[|s| - n - 1])
  {
    if |s| > 0 && p(s[|s| - 1]) then 1 + TrailCount(s[..|s| - 1], p) else 0
  }

  function LStripBy(s: string, p: char -> bool): string {
    s[LeadCount(s, p)..]
  }

  function RStripBy(s: string, p: char -> bool): string {
    s[..|s| - TrailCount(s, p)]
  }

  function StripBy(s: string, p: char -> bool): string {
    RStripBy(LStripBy(s, p), p)
  }

  /** `str.strip()`. */
  function Strip(s: string): string {
    StripBy(s, IsSpace)
  }

  /** `str.lstrip()`. */
  function LStrip(s: string): string {
    LStripBy(s, IsSpace)
  }

  // ---------------------------------------------------------------------------
  // Splitting and joining
  // ---------------------------------------------------------------------------

  /** `s.split(c)` for a one-character separator: never empty. */
  function SplitOn(s: string, c: char): (r: seq<string>)
    ensures |r| >= 1
    ensures forall k :: 0 <= k < |r| ==> c !in r[k]
  {
    if |s| == 0 then [""]
    else
      var rest := SplitOn(s[1..], c);
      if s[0] == c then [""] + rest else [[s[0]] + rest[0]] + rest[1..]
  }

  /** `sep.join(parts)`. */
  function Join(sep: string, parts: seq<string>): string {
    if |parts| == 0 then ""
    else if |parts| == 1 then parts[0]
    else parts[0] + sep + Join(sep, parts[1..])
  }

  lemma {:induction false} JoinSplitRoundTrip(s: string, c: char)
    ensures Join([c], SplitOn(s, c)) == s
  {
    if |s| > 0 {
      var rest := SplitOn(s[1..], c);
      JoinSplitRoundTrip(s[1..], c);
      if s[0] == c {
        assert SplitOn(s, c) == [""] + rest;
        assert Join([c], [""] + rest) == "" + [c] + Join([c], rest) by {
          assert ([""] + rest)[1..] == rest;
        }
        assert s == [s[0]] + s[1..];
      } else {
        assert SplitOn(s, c) == [[s[0]] + rest[0]] + rest[1..];
        if |rest| == 1 {
          assert Join([c], rest) == rest[0];
        } else {
          assert Join([c], rest) == rest[0] + [c] + Join([c], rest[1..]);
          assert ([[s[0]] + rest[0]] + rest[1..])[1..] == rest[1..];
        }
        assert s == [s[0]] + s[1..];
      }
    }
  }

  /**
   * `str.splitlines()` for '\n'-terminated lines: the pieces between
   * newlines, where a final newline does not open an extra empty line.
   */
  function SplitLines(s: string): (r: seq<string>)
    ensures forall k :: 0 <= k < |r| ==> '\n' !in r[k]
  {
    var parts := SplitOn(s, '\n');
    if parts[|parts| - 1] == "" then parts[..|parts| - 1] else parts
  }

  lemma SplitLinesEmpty()
    ensures SplitLines("") == []
  {
  }

  // ---------------------------------------------------------------------------
  // Paths (`pathlib` names of '/'-separated paths)
  // ---------------------------------------------------------------------------

  /** The last position of `c` in `s` (`str.rfind`). */
  function LastIndexOf(s: string, c: char): (r: Option<nat>)
    ensures r.Some? ==> r.value < |s| && s[r.value] == c && c !in s[r.value + 1..]
    ensures r.None? ==> c !in s
  {
    if |s| == 0 then None
    else if s[|s| - 1] == c then Some(|s| - 1)
    else
      var r := LastIndexOf(s[..|s| - 1], c);
      assert s == s[..|s| - 1] + [s[|s| - 1]];
      assert r.Some? ==> s[r.value + 1..] == s[..|s| - 1][r.value + 1..] + [s[|s| - 1]];
      r
  }

  /** The last occurrence is the one with no occurrence after it. */
  lemma LastIndexOfIs(s: string, c: char, i: nat)
    requires i < |s| && s[i] == c && c !in s[i + 1..]
    ensures LastIndexOf(s, c) == Some(i)
  {
    assert s[i] in s;
  }

  /** The final component of a '/'-separated path. */
  function FileName(path: string): (r: string)
    ensures '/' !in r
    ensures |r| <= |path| && r == path[|path| - |r|..]
    ensures |r| < |path| ==> path[|path| - |r| - 1] == '/'
  {
    match LastIndexOf(path, '/')
    case None => path
    case Some(i) => path[i + 1..]
  }

  /** `Path.stem`: the name without its last suffix; a leading or trailing dot is not a suffix. */
  function Stem(path: string): string {
    var name := FileName(path);
    match LastIndexOf(name, '.')
    case Some(i) => if 0 < i < |name| - 1 then name[..i] else name
    case None => name
  }

  /** The stem is a prefix of the file name; a shorter one is cut at a dot inside the name that has no dot after it. */
  lemma StemCut(path: string)
    ensures var name := FileName(path); var r := Stem(path);
      |r| <= |name| && r == name[..|r|]
      && (|r| < |name| ==> 0 < |r| && |r| + 1 < |name| && name[|r|] == '.' && '.' !in name[|r| + 1..])
  {
  }

  /** A name keeps its whole self as its stem only when no dot inside it is the last one. */
  lemma StemWhole(path: string)
    ensures var name := FileName(path);
      |Stem(path)| == |name| ==> forall i :: 0 < i < |name| - 1 && name[i] == '.' ==> '.' in name[i + 1..]
  {
    var name := FileName(path);
    forall i | 0 < i < |name| - 1 && name[i] == '.' && |Stem(path)| == |name|
      ensures '.' in name[i + 1..]
    {
      if '.' !in name[i + 1..] {
        LastIndexOfIs(name, '.', i);
      }
    }
  }

  // ---------------------------------------------------------------------------
  // Ordering (Python's `<` on `str`: code-point lexicographic)
  // ---------------------------------------------------------------------------

  predicate Less(a: string, b: string) {
    if |a| == 0 then |b| > 0
    else |b| > 0 && (a[0] < b[0] || (a[0] == b[0] && Less(a[1..], b[1..])))
  }

  lemma {:induction false} LessIrreflexive(a: string)
    ensures !Less(a, a)
  {
    if |a| > 0 {
      LessIrreflexive(a[1..]);
    }
  }

  lemma {:induction false} LessTransitive(a: string, b: string, c: string)
    requires Less(a, b) && Less(b, c)
    ensures Less(a, c)
  {
    if |a| > 0 && a[0] == b[0] && b[0] == c[0] {
      LessTransitive(a[1..], b[1..], c[1..]);
    }
  }

  lemma {:induction false} LessTotal(a: string, b: string)
    ensures a == b || Less(a, b) || Less(b, a)
  {
    if |a| > 0 && |b| > 0 && a[0] == b[0] {
      LessTotal(a[1..], b[1..]);
      if a[1..] == b[1..] {
        assert a == [a[0]] + a[1..] && b == [b[0]] + b[1..];
      }
    }
  }

  /** Strictly increasing, hence free of duplicates. */
  predicate StrictlySorted(s: seq<string>) {
    forall i, j :: 0 <= i < j < |s| ==> Less(s[i], s[j])
  }

  /** Adds `x` to a strictly sorted sequence, as adding to a set and sorting would. */
  function InsertSorted(x: string, s: seq<string>): (r: seq<string>)
    requires StrictlySorted(s)
    ensures StrictlySorted(r)
    ensures forall y :: y in r <==> y == x || y in s
  {
    if |s| == 0 then [x]
    else if x == s[0] then s
    else
      LessTotal(x, s[0]);
      if Less(x, s[0]) then
        assert StrictlySorted([x] + s) by {
          forall j | 0 <= j < |s| ensures Less(x, s[j]) {
            if j > 0 { LessTransitive(x, s[0], s[j]); }
          }
        }
        [x] + s
      else
        var t := InsertSorted(x, s[1..]);
        assert s == [s[0]] + s[1..];
        assert StrictlySorted([s[0]] + t) by {
          forall j | 0 <= j < |t| ensures Less(s[0], t[j]) {
            assert t[j] in t;
          }
        }
        [s[0]] + t
  }

  /** `sorted(set(xs))`. */
  function SortedSet(xs: seq<string>): (r: seq<string>)
    ensures StrictlySorted(r)
    ensures forall y :: y in r <==> y in xs
  {
    if |xs| == 0 then []
    else
      assert xs == xs[..|xs| - 1] + [xs[|xs| - 1]];
      InsertSorted(xs[|xs| - 1], SortedSet(xs[..|xs| - 1]))
  }

  /** A strictly sorted sequence is determined by its elements. */
  lemma {:induction false} StrictlySortedUnique(a: seq<string>, b: seq<string>)
    requires StrictlySorted(a) && StrictlySorted(b)
    requires forall y :: y in a <==> y in b
    ensures a == b
  {
    SameElementsEmpty(a, b);
    if |a| > 0 {
      assert a[0] in b;
      var k :| 0 <= k < |b| && b[k] == a[0];
      assert b[0] in a;
      var m :| 0 <= m < |a| && a[m] == b[0];
      if k > 0 {
        if m == 0 {
          LessIrreflexive(b[0]);
        } else {
          LessTransitive(a[0], a[m], b[k]);
          LessIrreflexive(a[0]);
        }
      }
      forall y ensures y in a[1..] <==> y in b[1..] {
        if y in a[1..] {
          var i :| 1 <= i < |a| && a[i] == y;
          LessIrreflexive(a[0]);
          assert y in b && y != b[0];
        }
        if y in b[1..] {
          var i :| 1 <= i < |b| && b[i] == y;
          LessIrreflexive(b[0]);
          assert y in a && y != a[0];
        }
      }
      StrictlySortedUnique(a[1..], b[1..]);
      assert a == [a[0]] + a[1..] && b == [b[0]] + b[1..];
    }
  }

  lemma SameElementsEmpty(a: seq<string>, b: seq<string>)
    requires forall y :: y in a <==> y in b
    ensures |a| == 0 <==> |b| == 0
  {
    if |a| > 0 { assert a[0] in a; }
    if |b| > 0 { assert b[0] in b; }
  }
}

=== FILE: time_stats.dfy ===
/**
 * The session statistics script: reading JSONL logs, attributing the
 * server's telemetry entries to the task that was running, and counting
 * the model calls recorded in the agents' own logs.
 */
module TimeStats {
  import opened Base
  import opened Strings
  import opened Seqs
  import opened Json
  import Assoc
  import opened LogMessage

  // ---------------------------------------------------------------------------
  // JSONL files
  // ---------------------------------------------------------------------------

  /** The records of the lines from `lines` on that are neither blank nor malformed, in order. */
  function RecordsOf(lines: seq<string>, decode: string -> Option<Json>): (r: seq<Json>)
    ensures |r| <= |lines|
  {
    if |lines| == 0 then []
    else
      var line := Strip(lines[0]);
      (if line != "" && decode(line).Some? then [decode(line).value] else []) + RecordsOf(lines[1..], decode)
  }

  /**
   * `parse_jsonl`: the file's content when it can be read, cut into lines;
   * a file that cannot be read gives no records.
   */
  function ParseJsonl(content: Option<string>, decode: string -> Option<Json>): (r: seq<Json>)
    ensures content.None? ==> r == []
    ensures content.Some? ==> |r| <= |SplitOn(content.value, '\n')|
  {
    match content
    case None => []
    case Some(text) => RecordsOf(SplitOn(text, '\n'), decode)
  }

  /** A line that reads as a record. */
  predicate Reads(line: string, decode: string -> Option<Json>) {
    Strip(line) != "" && decode(Strip(line)).Some?
  }

  /** The lines that read, in order. */
  function ReadingLines(lines: seq<string>, decode: string -> Option<Json>): seq<string> {
    Filter(l => Reads(l, decode), lines)
  }

  /** The records are the decoded lines that read, one for one and in the order of the lines. */
  lemma {:induction false} RecordsOfSpec(lines: seq<string>, decode: string -> Option<Json>)
    ensures var r := RecordsOf(lines, decode); var kept := ReadingLines(lines, decode);
      |r| == |kept| && forall i :: 0 <= i < |r| ==> Some(r[i]) == decode(Strip(kept[i]))
  {
    if |lines| > 0 {
      RecordsOfSpec(lines[1..], decode);
      var rest := RecordsOf(lines[1..], decode);
      var keptRest := ReadingLines(lines[1..], decode);
      if Reads(lines[0], decode) {
        assert ReadingLines(lines, decode) == [lines[0]] + keptRest;
        assert RecordsOf(lines, decode) == [decode(Strip(lines[0])).value] + rest;
      } else {
        assert ReadingLines(lines, decode) == keptRest;
        assert RecordsOf(lines, decode) == rest;
      }
    }
  }

  // ---------------------------------------------------------------------------
  // Telemetry attribution
  // ---------------------------------------------------------------------------

  /** One telemetry entry: the model (default "unknown"), its duration and its token counts (default 0). */
  datatype Telemetry = Telemetry(model: string, durationSec: real, prompt: nat, cached: nat, completion: nat)

  /** The telemetry a log message carries: only with category "telemetry" and a duration. */
  function TelemetryOf(message: string): (r: Option<Telemetry>)
    ensures r.Some? ==> ParseLogMessage(message).category == Some("telemetry")
    ensures r.Some? <==> ParseLogMessage(message).category == Some("telemetry")
                         && ParseLogMessage(message).body.Some? && ParseLogMessage(message).body.value.durationSec.Some?
  {
    var parsed := ParseLogMessage(message);
    if parsed.category == Some("telemetry") && parsed.body.Some? && parsed.body.value.durationSec.Some? then
      var b := parsed.body.value;
      Some(Telemetry(b.model.GetOr("unknown"), b.durationSec.value, b.promptTokens.GetOr(0),
                     b.cachedPromptTokens.GetOr(0), b.completionTokens.GetOr(0)))
    else None
  }

  /** The events of the session's server log as read: a task start, a task log line, or anything else. */
  datatype LogEvent = TaskStarted(specId: Option<string>) | TaskLogged(message: string) | Unread

  /** The events the attribution reads: a task start, a telemetry entry, or nothing to count. */
  datatype Event = TaskStart(specId: Option<string>) | Entry(entry: Telemetry) | OtherEvent

  /** The event a server log event amounts to: a log line counts only when it carries telemetry. */
  function EventOf(ev: LogEvent): (r: Event)
    ensures r.TaskStart? <==> ev.TaskStarted?
    ensures r.TaskStart? ==> r.specId == ev.specId
    ensures r.Entry? <==> ev.TaskLogged? && TelemetryOf(ev.message).Some?
    ensures r.Entry? ==> Some(r.entry) == TelemetryOf(ev.message)
  {
    match ev
    case TaskStarted(id) => TaskStart(id)
    case TaskLogged(message) => if TelemetryOf(message).Some? then Entry(TelemetryOf(message).value) else OtherEvent
    case Unread => OtherEvent
  }

  /** Sums of durations, calls and tokens. */
  datatype Totals = Totals(duration: real, calls: nat, prompt: nat, cached: nat, completion: nat)

  const Zero: Totals := Totals(0.0, 0, 0, 0, 0)

  function Add(t: Totals, e: Telemetry): (r: Totals)
    ensures r.calls == t.calls + 1
  {
    Totals(t.duration + e.durationSec, t.calls + 1, t.prompt + e.prompt, t.cached + e.cached, t.completion + e.completion)
  }

  /** The task being run, the totals per task, and the totals per model. */
  datatype Attribution = Attribution(current: Option<string>, tasks: map<string, Totals>, models: map<string, Totals>)

  function AddTo(m: map<string, Totals>, key: string, e: Telemetry): (r: map<string, Totals>)
    ensures r.Keys == m.Keys + {key}
    ensures r[key] == Add(if key in m then m[key] else Zero, e)
    ensures forall k :: k in m && k != key ==> r[k] == m[k]
  {
    m[key := Add(if key in m then m[key] else Zero, e)]
  }

  /** One event: a task start switches the current task, a telemetry entry counts for it and its model. */
  function Step(a: Attribution, ev: Event): Attribution {
    match ev
    case TaskStart(id) =>
      if Truthy(id) && id.value !in a.tasks then Attribution(id, a.tasks[id.value := Zero], a.models)
      else a.(current := id)
    case Entry(e) =>
      var tasks := if Truthy(a.current) && a.current.value in a.tasks then AddTo(a.tasks, a.current.value, e) else a.tasks;
      Attribution(a.current, tasks, AddTo(a.models, e.model, e))
    case OtherEvent => a
  }

  /** The pass over the events, before the summary. */
  function Attribute(events: seq<Event>): Attribution {
    if |events| == 0 then Attribution(None, map[], map[])
    else Step(Attribute(events[..|events| - 1]), events[|events| - 1])
  }

  /** The spec id of the latest task start, if there is one. */
  function LatestStart(events: seq<Event>): Option<Option<string>> {
    if |events| == 0 then None
    else if events[|events| - 1].TaskStart? then Some(events[|events| - 1].specId)
    else LatestStart(events[..|events| - 1])
  }

  /** The event at `k` is a telemetry entry and the latest task start before it named `task`. */
  predicate AttributedAt(events: seq<Event>, k: nat, task: string)
    requires k < |events|
  {
    events[k].Entry? && LatestStart(events[..k]) == Some(Some(task))
  }

  /** The number of telemetry entries attributed to `task`. */
  function AttributedCount(events: seq<Event>, task: string): nat {
    if |events| == 0 then 0
    else AttributedCount(events[..|events| - 1], task)
         + (if AttributedAt(events, |events| - 1, task) then 1 else 0)
  }

  /** The number of telemetry entries of `model`. */
  function ModelCount(events: seq<Event>, model: string): nat {
    if |events| == 0 then 0
    else
      var last := events[|events| - 1];
      ModelCount(events[..|events| - 1], model)
      + (if last.Entry? && last.entry.model == model then 1 else 0)
  }

  /** Some task start names `task`. */
  predicate Started(events: seq<Event>, task: string) {
    exists k :: 0 <= k < |events| && events[k] == TaskStart(Some(task))
  }

  /** The current task is the latest task start's spec id. */
  predicate CurrentIsLatest(events: seq<Event>) {
    Attribute(events).current == (if LatestStart(events).Some? then LatestStart(events).value else None)
  }

  /** The tasks are the non-empty spec ids started. */
  ghost predicate TasksAreStarted(events: seq<Event>) {
    forall t :: t in Attribute(events).tasks <==> t != "" && Started(events, t)
  }

  /** Every task counts the telemetry entries attributed to it. */
  ghost predicate TasksCount(events: seq<Event>) {
    forall t :: t in Attribute(events).tasks ==> Attribute(events).tasks[t].calls == AttributedCount(events, t)
  }

  /** The models are those with telemetry, and each counts all of its entries. */
  ghost predicate ModelsCount(events: seq<Event>) {
    (forall m :: m in Attribute(events).models <==> ModelCount(events, m) > 0)
    && (forall m :: m in Attribute(events).models ==> Attribute(events).models[m].calls == ModelCount(events, m))
  }

  /**
   * The current task is the latest task start's spec id; the tasks are the
   * non-empty spec ids started; every task counts the telemetry entries
   * since its starts, and every model all of its own.
   */
  lemma {:induction false} AttributeSpec(events: seq<Event>)
    ensures CurrentIsLatest(events) && TasksAreStarted(events)
    ensures TasksCount(events) && ModelsCount(events)
  {
    if |events| > 0 {
      var init := events[..|events| - 1];
      var ev := events[|events| - 1];
      AttributeSpec(init);
      assert events == init + [ev];
      StepUnfolds(init, ev);
      StepTasks(init, ev);
      StepTaskCounts(init, ev);
      StepModels(init, ev);
    }
  }

  /** Entries are attributed only to a task that was started. */
  lemma {:induction false} CountedOnlyIfStarted(events: seq<Event>, t: string)
    requires !Started(events, t)
    ensures AttributedCount(events, t) == 0
  {
    if |events| > 0 {
      var init := events[..|events| - 1];
      StartedAppend(init, events[|events| - 1], t);
      assert events == init + [events[|events| - 1]];
      CountedOnlyIfStarted(init, t);
      LatestStartWasStarted(init, t);
    }
  }

  /** The latest task start names a task that was started. */
  lemma {:induction false} LatestStartWasStarted(events: seq<Event>, t: string)
    ensures LatestStart(events) == Some(Some(t)) ==> Started(events, t)
  {
    if |events| > 0 {
      var init := events[..|events| - 1];
      var ev := events[|events| - 1];
      assert events == init + [ev];
      StartedAppend(init, ev, t);
      if !ev.TaskStart? {
        LatestStartWasStarted(init, t);
      }
    }
  }

  lemma StartedAppend(init: seq<Event>, ev: Event, t: string)
    ensures Started(init + [ev], t) <==> Started(init, t) || ev == TaskStart(Some(t))
  {
    var events := init + [ev];
    if Started(events, t) {
      var k :| 0 <= k < |events| && events[k] == TaskStart(Some(t));
      if k < |init| {
        assert init[k] == events[k];
      }
    }
    if Started(init, t) {
      var k :| 0 <= k < |init| && init[k] == TaskStart(Some(t));
      assert events[k] == init[k];
    }
    if ev == TaskStart(Some(t)) {
      assert events[|init|] == ev;
    }
  }

  /** One more event: one more step of the pass, and of the latest start and the counts. */
  lemma StepUnfolds(init: seq<Event>, ev: Event)
    requires CurrentIsLatest(init)
    ensures Attribute(init + [ev]) == Step(Attribute(init), ev)
    ensures LatestStart(init + [ev]) == if ev.TaskStart? then Some(ev.specId) else LatestStart(init)
    ensures CurrentIsLatest(init + [ev])
    ensures forall t :: AttributedCount(init + [ev], t)
                        == AttributedCount(init, t) + (if ev.Entry? && LatestStart(init) == Some(Some(t)) then 1 else 0)
    ensures forall m :: ModelCount(init + [ev], m)
                        == ModelCount(init, m) + (if ev.Entry? && ev.entry.model == m then 1 else 0)
  {
    var events := init + [ev];
    assert events[..|events| - 1] == init;
    assert events[|events| - 1] == ev;
  }

  lemma StepTasks(init: seq<Event>, ev: Event)
    requires CurrentIsLatest(init) && TasksAreStarted(init)
    ensures TasksAreStarted(init + [ev])
  {
    StepUnfolds(init, ev);
    forall t ensures t in Attribute(init + [ev]).tasks <==> t != "" && Started(init + [ev], t) {
      StartedAppend(init, ev, t);
    }
  }

  lemma StepTaskCounts(init: seq<Event>, ev: Event)
    requires CurrentIsLatest(init) && TasksAreStarted(init) && TasksCount(init)
    ensures TasksCount(init + [ev])
  {
    StepUnfolds(init, ev);
    var a0 := Attribute(init);
    var a := Attribute(init + [ev]);
    forall t | t in a.tasks ensures a.tasks[t].calls == AttributedCount(init + [ev], t) {
      if t !in a0.tasks {
        CountedOnlyIfStarted(init, t);
      }
    }
  }

  lemma StepModels(init: seq<Event>, ev: Event)
    requires CurrentIsLatest(init) && ModelsCount(init)
    ensures ModelsCount(init + [ev])
  {
    StepUnfolds(init, ev);
  }

  /** The server log's events as the attribution reads them, one for one. */
  function EventsOf(log: seq<LogEvent>): (r: seq<Event>)
    ensures |r| == |log| && forall k :: 0 <= k < |log| ==> r[k] == EventOf(log[k])
  {
    seq(|log|, k requires 0 <= k < |log| => EventOf(log[k]))
  }

  /** `parse_sess_serv`'s attribution of the server log's telemetry, before the rounding and the summary. */
  function ParseSessServ(log: seq<LogEvent>): (r: Attribution)
    ensures forall t :: t in r.tasks ==> t != ""
  {
    var events := EventsOf(log);
    AttributeSpec(events);
    Attribute(events)
  }

  /**
   * The tasks of the server log are the non-empty spec ids of its task
   * starts; each gets exactly the telemetry entries whose latest preceding
   * task start named it, and each model all of its own entries.
   */
  lemma SessServAttribution(log: seq<LogEvent>, t: string, m: string)
    ensures var r := ParseSessServ(log); var events := EventsOf(log);
      && (t in r.tasks <==> t != "" && exists k :: 0 <= k < |log| && log[k] == TaskStarted(Some(t)))
      && (t in r.tasks ==> r.tasks[t].calls == AttributedCount(events, t))
      && (m in r.models <==> ModelCount(events, m) > 0)
      && (m in r.models ==> r.models[m].calls == ModelCount(events, m))
  {
    var events := EventsOf(log);
    AttributeSpec(events);
    if Started(events, t) {
      var k :| 0 <= k < |events| && events[k] == TaskStart(Some(t));
      assert log[k] == TaskStarted(Some(t));
    }
    if exists k :: 0 <= k < |log| && log[k] == TaskStarted(Some(t)) {
      var k :| 0 <= k < |log| && log[k] == TaskStarted(Some(t));
      assert events[k] == TaskStart(Some(t));
    }
  }

  // ---------------------------------------------------------------------------
  // Agent logs
  // ---------------------------------------------------------------------------

  /** The stems of the JSONL files in a task's directory that hold no model calls. */
  const SkippedStems: set<string> := {"task_result", "resolved_objects"}

  /** The session's task directories are those whose name starts with "t". */
  predicate IsTaskDir(name: string) {
    StartsWith(name, "t")
  }

  /** A file of a task directory that is read as an agent's log; its stem names the agent. */
  predicate IsAgentLog(path: string) {
    Stem(path) !in SkippedStems
  }

  /** A record's stats with their defaults: 0 for a missing or null cost or duration. */
  datatype CallStats = CallStats(cost: real, durationSec: real)

  /** A record counts as a model call iff its cost or its duration is not zero. */
  predicate IsCall(s: CallStats) {
    s.cost != 0.0 || s.durationSec != 0.0
  }

  datatype LogFile = LogFile(path: string, records: seq<CallStats>)

  predicate IsAgentFile(f: LogFile) {
    IsAgentLog(f.path)
  }

  function CallsIn(records: seq<CallStats>): (r: nat)
    ensures r <= |records|
  {
    if |records| == 0 then 0 else (if IsCall(records[0]) then 1 else 0) + CallsIn(records[1..])
  }

  function CostIn(records: seq<CallStats>): real {
    if |records| == 0 then 0.0 else (if IsCall(records[0]) then records[0].cost else 0.0) + CostIn(records[1..])
  }

  /** The calls recorded in one task directory's agent logs. */
  function TaskCallCount(files: seq<LogFile>): nat {
    if |files| == 0 then 0
    else (if IsAgentFile(files[0]) then CallsIn(files[0].records) else 0) + TaskCallCount(files[1..])
  }

  /** The cost recorded in one task directory's agent logs (`task_costs`). */
  function TaskCost(files: seq<LogFile>): real {
    if |files| == 0 then 0.0
    else (if IsAgentFile(files[0]) then CostIn(files[0].records) else 0.0) + TaskCost(files[1..])
  }

  /** The skipped files count for nothing: the task's calls are those of its agent logs alone. */
  lemma {:induction false} SkippedFilesNoCalls(files: seq<LogFile>)
    ensures TaskCallCount(files) == TaskCallCount(Filter(IsAgentFile, files))
  {
    if |files| > 0 {
      SkippedFilesNoCalls(files[1..]);
      FilterStep(IsAgentFile, files);
    }
  }

  /** The skipped files count for nothing: the task's cost is that of its agent logs alone. */
  lemma {:induction false} SkippedFilesNoCost(files: seq<LogFile>)
    ensures TaskCost(files) == TaskCost(Filter(IsAgentFile, files))
  {
    if |files| > 0 {
      SkippedFilesNoCost(files[1..]);
      FilterStep(IsAgentFile, files);
    }
  }

  /** The path of the file `name` in the directory `dir`. */
  function InDir(dir: string, name: string): string {
    dir + "/" + name
  }

  /** Once the last '/' is placed, the file name is what follows it. */
  lemma FileNameAfter(dir: string, name: string)
    requires '/' !in name
    ensures FileName(InDir(dir, name)) == name
  {
    var path := InDir(dir, name);
    assert path[|dir|] == '/';
    assert path[|dir| + 1..] == name;
  }

  /** The stem of a file name is what precedes its last dot, when that dot is inside the name. */
  lemma StemAt(dir: string, name: string, i: nat)
    requires '/' !in name && 0 < i < |name| - 1 && name[i] == '.' && '.' !in name[i + 1..]
    ensures Stem(InDir(dir, name)) == name[..i]
  {
    FileNameAfter(dir, name);
    LastIndexOfIs(name, '.', i);
  }

  /** The task results of any task directory are skipped. */
  lemma TaskResultSkipped(dir: string)
    ensures !IsAgentLog(InDir(dir, "task_result.jsonl"))
  {
    var name := "task_result.jsonl";
    assert name[11..] == ".jsonl";
    StemAt(dir, name, 11);
    assert name[..11] == "task_result";
  }

  /** The resolved objects of any task directory are skipped. */
  lemma ResolvedObjectsSkipped(dir: string)
    ensures !IsAgentLog(InDir(dir, "resolved_objects.jsonl"))
  {
    var name := "resolved_objects.jsonl";
    assert name[16..] == ".jsonl";
    StemAt(dir, name, 16);
    assert name[..16] == "resolved_objects";
  }

  // ---------------------------------------------------------------------------
  // Task scores
  // ---------------------------------------------------------------------------

  /** The score a result record carries: the value of its "score" key when it is an object with one. */
  function RecordScore(record: Json): (r: Option<Json>)
    ensures r.Some? <==> record.Obj? && Assoc.HasKey(record.fields, "score")
  {
    if record.Obj? then Assoc.Get(record.fields, "score") else None
  }

  /** The score of the last record that carries one. */
  function LastScore(records: seq<Json>): Option<Json> {
    if |records| == 0 then None
    else
      var rest := LastScore(records[1..]);
      if rest.Some? then rest else RecordScore(records[0])
  }

  /** The inner loop of `parse_task_results`: every record with a score sets the task's score. */
  function ScoreRecords(scores: Assoc.Dict<Json>, task: string, records: seq<Json>): Assoc.Dict<Json>
    decreases |records|
  {
    if |records| == 0 then scores
    else
      var next := match RecordScore(records[0])
        case Some(s) => Assoc.Put(scores, task, s)
        case None => scores;
      ScoreRecords(next, task, records[1..])
  }

  /** The loop leaves the task with its last score and every other key as it was. */
  lemma {:induction false} GetScoreRecords(scores: Assoc.Dict<Json>, task: string, records: seq<Json>, k: string)
    ensures Assoc.Get(ScoreRecords(scores, task, records), k)
         == if k == task && LastScore(records).Some? then LastScore(records) else Assoc.Get(scores, k)
    decreases |records|
  {
    if |records| > 0 {
      var next := match RecordScore(records[0])
        case Some(s) => Assoc.Put(scores, task, s)
        case None => scores;
      GetScoreRecords(next, task, records[1..], k);
      if RecordScore(records[0]).Some? {
        Assoc.GetPut(scores, task, RecordScore(records[0]).value, k);
      }
    }
  }

  /** A task directory's name and the records of its `task_result.jsonl`, when that file exists. */
  datatype TaskDir = TaskDir(name: string, results: Option<seq<Json>>)

  /** The score `parse_task_results` reads from one directory. */
  function DirScore(d: TaskDir): Option<Json> {
    if IsTaskDir(d.name) && d.results.Some? then LastScore(d.results.value) else None
  }

  function TaskScores(scores: Assoc.Dict<Json>, dirs: seq<TaskDir>): Assoc.Dict<Json>
    decreases |dirs|
  {
    if |dirs| == 0 then scores
    else
      var d := dirs[0];
      var next := if IsTaskDir(d.name) && d.results.Some? then ScoreRecords(scores, d.name, d.results.value) else scores;
      TaskScores(next, dirs[1..])
  }

  /** `parse_task_results`: the score of each task directory whose results carry one. */
  function ParseTaskResults(dirs: seq<TaskDir>): Assoc.Dict<Json> {
    TaskScores([], dirs)
  }

  /** The score the last directory named `k` that has one gives. */
  function NamedScore(dirs: seq<TaskDir>, k: string): Option<Json> {
    if |dirs| == 0 then None
    else
      var rest := NamedScore(dirs[1..], k);
      if rest.Some? then rest else if dirs[0].name == k then DirScore(dirs[0]) else None
  }

  lemma {:induction false} GetTaskScores(scores: Assoc.Dict<Json>, dirs: seq<TaskDir>, k: string)
    ensures Assoc.Get(TaskScores(scores, dirs), k) == if NamedScore(dirs, k).Some? then NamedScore(dirs, k) else Assoc.Get(scores, k)
    decreases |dirs|
  {
    if |dirs| > 0 {
      var d := dirs[0];
      var next := if IsTaskDir(d.name) && d.results.Some? then ScoreRecords(scores, d.name, d.results.value) else scores;
      GetTaskScores(next, dirs[1..], k);
      if IsTaskDir(d.name) && d.results.Some? {
        GetScoreRecords(scores, d.name, d.results.value, k);
      }
    }
  }

  /** With distinct directory names, a name's score is the one its own directory gives. */
  lemma {:induction false} NamedScoreDistinct(dirs: seq<TaskDir>, i: nat)
    requires i < |dirs|
    requires forall a, b :: 0 <= a < b < |dirs| ==> dirs[a].name != dirs[b].name
    ensures NamedScore(dirs, dirs[i].name) == DirScore(dirs[i])
  {
    if i == 0 {
      NoOtherName(dirs[1..], dirs[0].name);
    } else {
      NamedScoreDistinct(dirs[1..], i - 1);
    }
  }

  lemma {:induction false} NoOtherName(dirs: seq<TaskDir>, k: string)
    requires forall a :: 0 <= a < |dirs| ==> dirs[a].name != k
    ensures NamedScore(dirs, k) == None
  {
    if |dirs| > 0 {
      NoOtherName(dirs[1..], k);
    }
  }

  /**
   * Each task directory holding a scored result gets the score of its last
   * scored record; a name without such a directory gets no score.
   */
  lemma ParseTaskResultsSpec(dirs: seq<TaskDir>, k: string)
    requires forall a, b :: 0 <= a < b < |dirs| ==> dirs[a].name != dirs[b].name
    ensures forall i :: 0 <= i < |dirs| && dirs[i].name == k ==> Assoc.Get(ParseTaskResults(dirs), k) == DirScore(dirs[i])
    ensures (forall i :: 0 <= i < |dirs| ==> dirs[i].name != k) ==> Assoc.Get(ParseTaskResults(dirs), k) == None
  {
    GetTaskScores([], dirs, k);
    forall i | 0 <= i < |dirs| && dirs[i].name == k ensures Assoc.Get(ParseTaskResults(dirs), k) == DirScore(dirs[i]) {
      NamedScoreDistinct(dirs, i);
    }
    if forall i :: 0 <= i < |dirs| ==> dirs[i].name != k {
      NoOtherName(dirs, k);
    }
  }
}

=== FILE: watchdog.dfy ===
/**
 * The watchdog's policy check: a conversation of at most three model
 * steps, each either a security decision or a call of one of two tools,
 * that fails closed on every error.
 */
module Watchdog {
  import opened Base
  import opened Seqs
  import opened Employee

  const MaxPolicySteps: nat := 3

  // ---------------------------------------------------------------------------
  // Tools
  // ---------------------------------------------------------------------------

  /** Some member of the team is the requester with the role "Lead". */
  predicate LeadOf(team: seq<MemberRecord>, requester: string) {
    exists i :: 0 <= i < |team| && team[i].employee == requester && team[i].role == Some("Lead")
  }

  /** Scans the team for the requester as Lead, stopping at the first match. */
  function LeadIn(team: seq<MemberRecord>, requester: string): (r: bool)
    ensures r <==> LeadOf(team, requester)
  {
    if |team| == 0 then false
    else if team[0].employee == requester && team[0].role == Some("Lead") then true
    else
      var rest := LeadIn(team[1..], requester);
      assert LeadOf(team[1..], requester) ==> LeadOf(team, requester) by {
        if LeadOf(team[1..], requester) {
          var i :| 0 <= i < |team[1..]| && team[1..][i].employee == requester && team[1..][i].role == Some("Lead");
          assert team[i + 1] == team[1..][i];
        }
      }
      assert LeadOf(team, requester) ==> LeadOf(team[1..], requester) by {
        if LeadOf(team, requester) {
          var i :| 0 <= i < |team| && team[i].employee == requester && team[i].role == Some("Lead");
          assert i > 0;
          assert team[1..][i - 1] == team[i];
        }
      }
      rest
  }

  /**
   * `_check_requester_is_lead`: the project read back names the requester
   * as Lead of its team; a failed read, a missing project or a missing team
   * answer false.
   */
  function RequesterIsLead(reply: Outcome<Option<ProjectRecord>>, requester: string): (r: bool)
    ensures r <==> reply.Done? && reply.value.Some? && reply.value.value.team.Some?
                   && LeadOf(reply.value.value.team.value, requester)
  {
    match reply
    case Failed(_) => false
    case Done(p) => p.Some? && LeadIn(p.value.team.GetOr([]), requester)
  }

  /** The tool actions a model step may ask for; `Unrecognised` names any other class. */
  datatype ToolAction =
    | CheckRequesterIsLead(requesterId: string, projectId: string)
    | SearchTimeEntries(query: string)
    | Unrecognised(className: string)

  /**
   * The services the tools call: reading a project, and the time-entry
   * search, which answers with its result as JSON or fails with a message.
   */
  datatype Tools = Tools(getProject: string -> Outcome<Option<ProjectRecord>>,
                         searchTimeEntries: string -> Result<string, string>)

  /** Python's `str` of a bool. */
  function BoolText(b: bool): string {
    if b then "True" else "False"
  }

  /** `_dispatch_tool`: the tool's result as text; a failure becomes an error line instead of raising. */
  function DispatchTool(a: ToolAction, tools: Tools): (r: string)
    ensures a.CheckRequesterIsLead? ==>
      (r == "DONE: True" <==> RequesterIsLead(tools.getProject(a.projectId), a.requesterId))
      && (r == "DONE: False" <==> !RequesterIsLead(tools.getProject(a.projectId), a.requesterId))
    ensures a.SearchTimeEntries? && tools.searchTimeEntries(a.query).Ok? ==> r == tools.searchTimeEntries(a.query).value
    ensures a.SearchTimeEntries? && tools.searchTimeEntries(a.query).Err? ==>
      r == "ERROR: " + tools.searchTimeEntries(a.query).error
    ensures a.Unrecognised? ==> r == "ERROR: Unknown tool: " + a.className
  {
    match a
    case CheckRequesterIsLead(requester, project) =>
      "DONE: " + BoolText(RequesterIsLead(tools.getProject(project), requester))
    case SearchTimeEntries(query) =>
      (match tools.searchTimeEntries(query)
       case Ok(json) => json
       case Err(message) => "ERROR: " + message)
    case Unrecognised(name) => "ERROR: Unknown tool: " + name
  }

  // ---------------------------------------------------------------------------
  // The policy loop
  // ---------------------------------------------------------------------------

  /** `SecurityDecision`: the decision is one of allow, concerns, deny or reconsider as the model gives it. */
  datatype SecurityDecision = SecurityDecision(reason: string, decision: string, entitiesToChange: Option<seq<string>>)

  /** The action of a model step: a decision, or a tool to call. */
  datatype PolicyAction = Decide(decision: SecurityDecision) | UseTool(tool: ToolAction)

  /** A parsed model step: its JSON dump, as sent back in the conversation, and its action. */
  datatype PolicyStep = PolicyStep(dump: string, action: PolicyAction)

  /** What a model call returns: an error, nothing parsed, or a step. */
  datatype Reply = CallFailed(error: string) | NothingParsed | Parsed(step: PolicyStep)

  datatype Message = Message(role: string, content: string)

  /** The model, as a function of the conversation so far. */
  type Model = seq<Message> -> Reply

  /**
   * The role result: its status, the decision it carries, and whether the
   * task context travels with it (only a decision of the model's has it).
   * `calls` counts the model calls made.
   */
  datatype Verdict = Verdict(status: string, decision: SecurityDecision, withContext: bool, calls: nat)

  /** The status map: allow, deny and concerns pass, anything else denies. */
  function StatusOf(decision: string): (r: string)
    ensures r == "allow" || r == "deny" || r == "concerns"
    ensures decision in {"allow", "deny", "concerns"} ==> r == decision
    ensures r == "allow" <==> decision == "allow"
    ensures r == "concerns" <==> decision == "concerns"
  {
    if decision == "allow" || decision == "deny" || decision == "concerns" then decision else "deny"
  }

  /** A denial the loop makes itself, after `calls` model calls. */
  function Denial(reason: string, calls: nat): Verdict {
    Verdict("deny", SecurityDecision(reason, "deny", None), false, calls)
  }

  /** The conversation after a tool step: the step's dump, then the tool's result. */
  function AfterTool(messages: seq<Message>, step: PolicyStep, result: string): (r: seq<Message>)
    ensures |r| == |messages| + 2 && r[..|messages|] == messages
  {
    messages + [Message("assistant", step.dump), Message("user", "Tool result:\n" + result)]
  }

  /** The loop from step `i` on, with the conversation so far. */
  function PolicyLoop(i: nat, messages: seq<Message>, model: Model, tools: Tools): (r: Verdict)
    requires i <= MaxPolicySteps
    ensures r.status == "allow" || r.status == "deny" || r.status == "concerns"
    ensures r.status == StatusOf(r.decision.decision)
    ensures !r.withContext ==> r.status == "deny" && |r.decision.reason| <= 500
    ensures i < r.calls <= MaxPolicySteps || (i == MaxPolicySteps && r.calls == i)
    decreases MaxPolicySteps - i
  {
    if i == MaxPolicySteps then Denial("Policy check exceeded maximum steps", i)
    else
      match model(messages)
      case CallFailed(error) => Denial(Take("Policy check failed: " + error, 500), i + 1)
      case NothingParsed => Denial("Policy check returned empty result", i + 1)
      case Parsed(step) =>
        match step.action
        case Decide(d) => Verdict(StatusOf(d.decision), d, true, i + 1)
        case UseTool(t) => PolicyLoop(i + 1, AfterTool(messages, step, DispatchTool(t, tools)), model, tools)
  }

  /** `_check_policies_v2` from the system prompt and the user message. */
  function CheckPolicies(systemPrompt: string, userMessage: string, model: Model, tools: Tools): (r: Verdict)
    ensures r.status == "allow" || r.status == "deny" || r.status == "concerns"
    ensures r.status == StatusOf(r.decision.decision)
    ensures r.status == "allow" ==> r.withContext && r.decision.decision == "allow"
    ensures !r.withContext ==> r.status == "deny"
    ensures 1 <= r.calls <= MaxPolicySteps
  {
    PolicyLoop(0, [Message("system", systemPrompt), Message("user", userMessage)], model, tools)
  }

  /** The model never decides on the conversations it is shown. */
  ghost predicate NeverDecides(model: Model) {
    forall m :: !(model(m).Parsed? && model(m).step.action.Decide?)
  }

  /** A model that never decides is denied by the loop itself, without a task context. */
  lemma {:induction false} FailsClosed(i: nat, messages: seq<Message>, model: Model, tools: Tools)
    requires i <= MaxPolicySteps
    requires NeverDecides(model)
    ensures var r := PolicyLoop(i, messages, model, tools);
      !r.withContext && r.decision.decision == "deny" && r.decision.entitiesToChange.None?
    decreases MaxPolicySteps - i
  {
    if i < MaxPolicySteps {
      var reply := model(messages);
      if reply.Parsed? {
        assert !reply.step.action.Decide?;
        FailsClosed(i + 1, AfterTool(messages, reply.step, DispatchTool(reply.step.action.tool, tools)), model, tools);
      }
    }
  }

  /** A model that only ever asks for tools runs out of steps after three calls. */
  lemma {:induction false} ToolsOnlyExhaust(i: nat, messages: seq<Message>, model: Model, tools: Tools)
    requires i <= MaxPolicySteps
    requires forall m :: model(m).Parsed? && model(m).step.action.UseTool?
    ensures PolicyLoop(i, messages, model, tools) == Denial("Policy check exceeded maximum steps", MaxPolicySteps)
    decreases MaxPolicySteps - i
  {
    if i < MaxPolicySteps {
      var step := model(messages).step;
      ToolsOnlyExhaust(i + 1, AfterTool(messages, step, DispatchTool(step.action.tool, tools)), model, tools);
    }
  }

  /** An error of the first call denies at once, with the error in the reason cut to 500 characters. */
  lemma FirstCallFails(systemPrompt: string, userMessage: string, model: Model, tools: Tools, error: string)
    requires model([Message("system", systemPrompt), Message("user", userMessage)]) == CallFailed(error)
    ensures CheckPolicies(systemPrompt, userMessage, model, tools)
         == Denial(Take("Policy check failed: " + error, 500), 1)
  {
  }

  /** A first step that decides ends the loop with the model's own decision, mapped to a status. */
  lemma FirstStepDecides(systemPrompt: string, userMessage: string, model: Model, tools: Tools, step: PolicyStep)
    requires model([Message("system", systemPrompt), Message("user", userMessage)]) == Parsed(step)
    requires step.action.Decide?
    ensures var r := CheckPolicies(systemPrompt, userMessage, model, tools);
      r.decision == step.action.decision && r.withContext && r.calls == 1
      && (step.action.decision.decision == "reconsider" ==> r.status == "deny")
  {
  }
}

=== FILE: watchdog_prompts.dfy ===
/**
 * The rule text of the watchdog's system prompt: the JSON rules of the
 * joined extraction formatted as markdown, and the rulebook section
 * inserted into the prompt.
 */
module WatchdogPrompts {
  import opened Strings
  import opened Seqs
  import ExtractWiki

  const RulesHeader: string := "\n\n## COMPANY DATA ACCESS RULES\n"

  /** The present parts of a rule's source, joined by " > ". */
  function SourceText(file: string, section: string): (r: string)
    ensures file != "" && section != "" ==> r == file + " > " + section
    ensures file != "" && section == "" ==> r == file
    ensures file == "" && section != "" ==> r == section
    ensures file == "" && section == "" ==> r == ""
  {
    var parts := (if file != "" then [file] else []) + (if section != "" then [section] else []);
    assert |parts| == 2 ==> parts == [file, section] && Join(" > ", parts) == file + " > " + Join(" > ", [section]);
    Join(" > ", parts)
  }

  /** The lines of one rule: its category heading, its text, its source, a blank line. */
  function RuleLines(rule: ExtractWiki.Rule): (r: seq<string>)
    ensures |r| == 2 + (if rule.category != "" then 1 else 0) + (if rule.file != "" || rule.section != "" then 1 else 0)
    ensures rule.category != "" ==> r[0] == "### " + rule.category
    ensures r[if rule.category != "" then 1 else 0] == rule.text
    ensures rule.file != "" || rule.section != "" ==>
      r[|r| - 2] == "*Source: " + SourceText(rule.file, rule.section) + "*"
    ensures r[|r| - 1] == ""
  {
    (if rule.category != "" then ["### " + rule.category] else [])
    + [rule.text]
    + (if rule.file != "" || rule.section != "" then ["*Source: " + SourceText(rule.file, rule.section) + "*"] else [])
    + [""]
  }

  function RulesLines(rules: seq<ExtractWiki.Rule>): seq<string> {
    if |rules| == 0 then [] else RuleLines(rules[0]) + RulesLines(rules[1..])
  }

  /** `format_json_rules` on the parsed rules. */
  function FormatJsonRules(rules: seq<ExtractWiki.Rule>): (r: string)
    ensures StartsWith(r, RulesHeader)
    ensures rules == [] ==> r == RulesHeader
  {
    var lines := [RulesHeader] + RulesLines(rules);
    JoinStartsWithFirst(lines);
    Join("\n", lines)
  }

  lemma JoinStartsWithFirst(lines: seq<string>)
    requires |lines| > 0
    ensures StartsWith(Join("\n", lines), lines[0])
  {
    if |lines| > 1 {
      var j := Join("\n", lines);
      assert j == lines[0] + "\n" + Join("\n", lines[1..]);
      assert j[..|lines[0]|] == lines[0];
    }
  }

  /** A rule without a category gets no heading line; one without a source gets no source line. */
  lemma {:induction false} RulesLinesCount(rules: seq<ExtractWiki.Rule>)
    ensures |RulesLines(rules)| >= 2 * |rules|
    ensures (forall i :: 0 <= i < |rules| ==> rules[i].category == "" && rules[i].file == "" && rules[i].section == "")
        ==> |RulesLines(rules)| == 2 * |rules|
  {
    if |rules| > 0 {
      RulesLinesCount(rules[1..]);
      assert forall i :: 0 <= i < |rules[1..]| ==> rules[1..][i] == rules[i + 1];
    }
  }

  /** Formatting the rules of two lists one after the other formats each list in turn. */
  lemma {:induction false} RulesLinesAppend(a: seq<ExtractWiki.Rule>, b: seq<ExtractWiki.Rule>)
    ensures RulesLines(a + b) == RulesLines(a) + RulesLines(b)
  {
    if |a| > 0 {
      assert (a + b)[0] == a[0];
      assert (a + b)[1..] == a[1..] + b;
      RulesLinesAppend(a[1..], b);
    } else {
      assert a + b == b;
    }
  }

  /** Each rule's block sits between the blocks of the rules before it and those after it. */
  lemma BlocksInOrder(rules: seq<ExtractWiki.Rule>, k: nat)
    requires k < |rules|
    ensures RulesLines(rules) == RulesLines(rules[..k]) + RuleLines(rules[k]) + RulesLines(rules[k + 1..])
  {
    var before, rest := rules[..k], rules[k..];
    assert rules == before + rest;
    RulesLinesAppend(before, rest);
    var here, after := RuleLines(rules[k]), RulesLines(rules[k + 1..]);
    assert rest[0] == rules[k] && rest[1..] == rules[k + 1..];
    assert RulesLines(rest) == here + after;
    assert RulesLines(before) + (here + after) == RulesLines(before) + here + after;
  }

  /** The rulebook section of the system prompt: empty without a rulebook, which is otherwise inserted as it is. */
  function RulebookSection(rulebook: string): (r: string)
    ensures r == "" <==> rulebook == ""
    ensures rulebook != "" ==> EndsWith(r, rulebook) && StartsWith(r, RulesHeader)
  {
    if rulebook == "" then ""
    else
      var r := RulesHeader + "\n" + rulebook;
      assert r[|r| - |rulebook|..] == rulebook;
      assert r[..|RulesHeader|] == RulesHeader;
      r
  }

  /**
   * `build_prompt`: the system prompt's text around the rulebook section.
   * The prompt text itself is a parameter; a JSON rulebook is inserted as
   * it is, like a text one, so the JSON flag takes no part.
   */
  function BuildPrompt(before: string, after: string, rulebook: string): (r: string)
    ensures StartsWith(r, before) && EndsWith(r, after)
    ensures rulebook == "" <==> |r| == |before| + |after|
    ensures rulebook != "" ==> EndsWith(r[..|r| - |after|], rulebook)
  {
    var r := before + RulebookSection(rulebook) + after;
    assert r[..|before|] == before && r[|r| - |after|..] == after;
    assert r[..|r| - |after|] == before + RulebookSection(rulebook);
    r
  }

  const ContextHeader: string := "## Task Context (FACTS)\n"
  const DecisionLead: string := "\n\nSecurity decision for: "

  /** `build_user_message`: the task's facts under their heading, then the task the decision is for. */
  function BuildUserMessage(parsedTaskJson: string, taskText: string): (r: string)
    ensures StartsWith(r, ContextHeader + parsedTaskJson)
    ensures EndsWith(r, DecisionLead + taskText)
    ensures |r| == |ContextHeader| + |parsedTaskJson| + |DecisionLead| + |taskText|
  {
    var r := ContextHeader + parsedTaskJson + DecisionLead + taskText;
    assert r[..|ContextHeader + parsedTaskJson|] == ContextHeader + parsedTaskJson;
    assert r[|r| - |DecisionLead + taskText|..] == DecisionLead + taskText;
    r
  }
}

=== FILE: wiki_fragments.dfy ===
/**
 * Markdown section slicing of the wiki tools (`_get_header_level`,
 * `get_wiki_fragments`). Only lines starting with "## ", "### " or "#### "
 * (after stripping) are headers.
 */
module WikiFragments {
  import opened Base
  import opened Strings

  /** `_get_header_level`. */
  function HeaderLevel(h: string): (r: nat)
    ensures r == 0 || r == 2 || r == 3 || r == 4
  {
    if StartsWith(h, "#### ") then 4
    else if StartsWith(h, "### ") then 3
    else if StartsWith(h, "## ") then 2
    else 0
  }

  /** Each level belongs to exactly one prefix: "#### " is 4, "### " is 3, "## " is 2, anything else 0. */
  lemma HeaderLevelSpec(h: string)
    ensures HeaderLevel(h) == 4 <==> StartsWith(h, "#### ")
    ensures HeaderLevel(h) == 3 <==> StartsWith(h, "### ")
    ensures HeaderLevel(h) == 2 <==> StartsWith(h, "## ")
  {
    assert StartsWith(h, "#### ") ==> h[3] == '#' && h[2] == '#';
    assert StartsWith(h, "### ") ==> h[3] == ' ' && h[2] == '#';
    assert StartsWith(h, "## ") ==> h[2] == ' ';
  }

  /** A line as the scan sees it: stripped, with its header level (0 for a line that is no header). */
  datatype Line = Line(text: string, level: nat)

  /** Every line of the page stripped and given its level. */
  function Scan(lines: seq<string>): (r: seq<Line>)
    ensures |r| == |lines|
    ensures forall i :: 0 <= i < |lines| ==> r[i].text == Strip(lines[i]) && r[i].level == HeaderLevel(r[i].text)
  {
    seq(|lines|, i requires 0 <= i < |lines| => Line(Strip(lines[i]), HeaderLevel(Strip(lines[i]))))
  }

  /** Line `i` is a header line. */
  predicate IsHeaderLine(ls: seq<Line>, i: int) {
    0 <= i < |ls| && ls[i].level > 0
  }

  datatype HeaderPos = HeaderPos(line: nat, text: string, level: nat)

  /** The `header_positions` index of the lines from `i` on. */
  function HeaderPositions(ls: seq<Line>, i: nat): (r: seq<HeaderPos>)
    requires i <= |ls|
    ensures forall k :: 0 <= k < |r| ==>
      i <= r[k].line < |ls| && r[k].text == ls[r[k].line].text
      && r[k].level == ls[r[k].line].level > 0
    decreases |ls| - i
  {
    if i == |ls| then []
    else
      var rest := HeaderPositions(ls, i + 1);
      if IsHeaderLine(ls, i) then [HeaderPos(i, ls[i].text, ls[i].level)] + rest
      else rest
  }

  /** One step of `HeaderPositions`. */
  lemma HeaderPositionsStep(ls: seq<Line>, i: nat)
    requires i < |ls|
    ensures IsHeaderLine(ls, i) ==>
      HeaderPositions(ls, i) == [HeaderPos(i, ls[i].text, ls[i].level)] + HeaderPositions(ls, i + 1)
    ensures !IsHeaderLine(ls, i) ==> HeaderPositions(ls, i) == HeaderPositions(ls, i + 1)
  {
  }

  /** The index lists the header lines in ascending order. */
  lemma {:induction false} HeaderPositionsAscending(ls: seq<Line>, i: nat, k: nat, m: nat)
    requires i <= |ls| && k < m < |HeaderPositions(ls, i)|
    ensures HeaderPositions(ls, i)[k].line < HeaderPositions(ls, i)[m].line
    decreases |ls| - i
  {
    HeaderPositionsStep(ls, i);
    var rest := HeaderPositions(ls, i + 1);
    if IsHeaderLine(ls, i) {
      if k > 0 {
        HeaderPositionsAscending(ls, i + 1, k - 1, m - 1);
      } else {
        assert HeaderPositions(ls, i)[m] == rest[m - 1];
      }
    } else {
      HeaderPositionsAscending(ls, i + 1, k, m);
    }
  }

  /** Every header line from `i` on is indexed: `k` is its position. */
  lemma {:induction false} HeaderPositionsComplete(ls: seq<Line>, i: nat, j: int) returns (k: nat)
    requires i <= j < |ls| && IsHeaderLine(ls, j)
    ensures k < |HeaderPositions(ls, i)| && HeaderPositions(ls, i)[k].line == j
    decreases |ls| - i
  {
    HeaderPositionsStep(ls, i);
    if j == i {
      k := 0;
    } else {
      var rest := HeaderPositions(ls, i + 1);
      var k' := HeaderPositionsComplete(ls, i + 1, j);
      if IsHeaderLine(ls, i) {
        k := k' + 1;
        assert HeaderPositions(ls, i)[k] == rest[k'];
      } else {
        k := k';
      }
    }
  }

  /** The position of a header line in the index. */
  lemma PositionOf(ls: seq<Line>, j: int) returns (k: nat)
    requires IsHeaderLine(ls, j)
    ensures k < |HeaderPositions(ls, 0)| && HeaderPositions(ls, 0)[k].line == j
  {
    k := HeaderPositionsComplete(ls, 0, j);
  }

  /** Index of the first position whose text is `h`. */
  function FindHeader(ps: seq<HeaderPos>, h: string): (r: Option<nat>)
    ensures r.Some? ==> r.value < |ps| && ps[r.value].text == h
    ensures r.Some? ==> forall k :: 0 <= k < r.value ==> ps[k].text != h
    ensures r.None? ==> forall k :: 0 <= k < |ps| ==> ps[k].text != h
  {
    if |ps| == 0 then None
    else if ps[0].text == h then Some(0)
    else match FindHeader(ps[1..], h)
      case Some(k) => Some(k + 1)
      case None => None
  }

  /** Index of the first position from `from` on whose level is at most `level`, or `|ps|`. */
  function NextAtMost(ps: seq<HeaderPos>, from: nat, level: nat): (r: nat)
    requires from <= |ps|
    ensures from <= r <= |ps|
    ensures r < |ps| ==> ps[r].level <= level
    ensures forall k :: from <= k < r ==> ps[k].level > level
    decreases |ps| - from
  {
    if from == |ps| then from
    else if ps[from].level <= level then from
    else NextAtMost(ps, from + 1, level)
  }

  /** The line that ends the section opened by position `idx`. */
  function SectionEnd(ps: seq<HeaderPos>, idx: nat, level: nat, n: nat): nat
    requires idx < |ps|
  {
    var k := NextAtMost(ps, idx + 1, level);
    if k < |ps| then ps[k].line else n
  }

  datatype Fragment = Fragment(header: string, content: string)

  /** The fragment for one requested header; `ls` are the scanned `lines`. */
  function FragmentFor(lines: seq<string>, ls: seq<Line>, ps: seq<HeaderPos>, requested: string): (r: Fragment)
    requires |ls| == |lines| && ps == HeaderPositions(ls, 0)
  {
    var h := Strip(requested);
    var level := HeaderLevel(h);
    if level == 0 then Fragment(requested, "[Invalid header format: " + requested + "]")
    else match FindHeader(ps, h)
      case None => Fragment(requested, "[Header not found: " + requested + "]")
      case Some(idx) =>
        var start := ps[idx].line;
        var end := SectionEnd(ps, idx, level, |ls|);
        SectionEndBounds(ls, idx, level);
        Fragment(h, Strip(Join("\n", lines[start..end])))
  }

  /** A section holds at least its header line and ends within the page. */
  lemma SectionEndBounds(ls: seq<Line>, idx: nat, level: nat)
    requires idx < |HeaderPositions(ls, 0)|
    ensures var ps := HeaderPositions(ls, 0);
      ps[idx].line < SectionEnd(ps, idx, level, |ls|) <= |ls|
  {
    var ps := HeaderPositions(ls, 0);
    var next := NextAtMost(ps, idx + 1, level);
    if next < |ps| {
      HeaderPositionsAscending(ls, 0, idx, next);
    }
  }

  /** `get_wiki_fragments` on a page that exists: one fragment per requested header, in order. */
  function WikiFragments(content: string, headers: seq<string>): (r: seq<Fragment>)
    ensures |r| == |headers|
    ensures var lines := SplitLines(content);
      forall i :: 0 <= i < |headers| ==>
        r[i] == FragmentFor(lines, Scan(lines), HeaderPositions(Scan(lines), 0), headers[i])
  {
    var lines := SplitLines(content);
    var ls := Scan(lines);
    var ps := HeaderPositions(ls, 0);
    seq(|headers|, i requires 0 <= i < |headers| => FragmentFor(lines, ls, ps, headers[i]))
  }

  /** The outcome of the tool: the wiki and the page must exist. */
  datatype FragmentsResult = Fragments(fragments: seq<Fragment>) | Failed(error: string)

  function GetWikiFragments(wikiSha: Option<string>, pagePath: string, page: Option<string>,
                            headers: seq<string>): (r: FragmentsResult)
    ensures !Truthy(wikiSha) ==> r == Failed("wiki_sha not provided")
    ensures Truthy(wikiSha) && page.None? ==> r == Failed("Page not found: " + pagePath)
    ensures Truthy(wikiSha) && page.Some? ==> r == Fragments(WikiFragments(page.value, headers))
  {
    if !Truthy(wikiSha) then Failed("wiki_sha not provided")
    else if page.None? then Failed("Page not found: " + pagePath)
    else Fragments(WikiFragments(page.value, headers))
  }

  // ---------------------------------------------------------------------------
  // The section a found header selects, stated over the scanned lines alone
  // ---------------------------------------------------------------------------

  /**
   * Lines `start..end` are the section of header `h` at `level`: `start` is
   * the first line that strips to `h`; `end` is the next header line of
   * level at most `level`, or the end of the page.
   */
  predicate IsSection(ls: seq<Line>, h: string, level: nat, start: nat, end: nat) {
    start < end <= |ls|
    && ls[start].text == h
    && NoEarlier(ls, h, start)
    && NoCloser(ls, level, start, end)
    && ClosesAt(ls, level, end)
  }

  /** No line before `start` is `h`. */
  predicate NoEarlier(ls: seq<Line>, h: string, start: nat)
    requires start <= |ls|
  {
    forall j :: 0 <= j < start ==> ls[j].text != h
  }

  /** A header line of level at most `level`: one that closes a section of that level. */
  predicate Closes(ls: seq<Line>, level: nat, j: int) {
    IsHeaderLine(ls, j) && ls[j].level <= level
  }

  /** No line strictly between `start` and `end` closes a section of `level`. */
  predicate NoCloser(ls: seq<Line>, level: nat, start: nat, end: nat) {
    forall j :: start < j < end ==> !Closes(ls, level, j)
  }

  /** `end` is the end of the page or a line that closes a section of `level`. */
  predicate ClosesAt(ls: seq<Line>, level: nat, end: nat) {
    end == |ls| || Closes(ls, level, end)
  }

  /** Every line whose text is `h` is a header line, as for any `h` with a header level. */
  predicate OnlyHeaders(ls: seq<Line>, h: string) {
    forall j :: 0 <= j < |ls| && ls[j].text == h ==> ls[j].level > 0
  }

  /** No line before the first indexed occurrence of header `h` is `h`. */
  lemma BeforeStart(ls: seq<Line>, h: string, idx: nat)
    requires OnlyHeaders(ls, h)
    requires FindHeader(HeaderPositions(ls, 0), h) == Some(idx)
    ensures NoEarlier(ls, h, HeaderPositions(ls, 0)[idx].line)
  {
    var ps := HeaderPositions(ls, 0);
    forall j | 0 <= j < ps[idx].line && IsHeaderLine(ls, j) ensures ls[j].text != h {
      var k := PositionOf(ls, j);
      if k >= idx {
        if k > idx {
          HeaderPositionsAscending(ls, 0, idx, k);
        }
      }
    }
  }

  /** No header of level at most `level` lies strictly inside the section. */
  lemma InsideSection(ls: seq<Line>, idx: nat, level: nat)
    requires idx < |HeaderPositions(ls, 0)|
    ensures var ps := HeaderPositions(ls, 0);
      NoCloser(ls, level, ps[idx].line, SectionEnd(ps, idx, level, |ls|))
  {
    var ps := HeaderPositions(ls, 0);
    var next := NextAtMost(ps, idx + 1, level);
    var end := SectionEnd(ps, idx, level, |ls|);
    forall j | ps[idx].line < j < end && IsHeaderLine(ls, j)
      ensures ls[j].level > level
    {
      var k := PositionOf(ls, j);
      if k <= idx {
        if k < idx {
          HeaderPositionsAscending(ls, 0, k, idx);
        }
      } else if next <= k {
        if next < k {
          HeaderPositionsAscending(ls, 0, next, k);
        }
      } else {
        assert ps[k].level > level;
      }
    }
  }

  /** The section ends at the page's end or at a header of level at most `level`. */
  lemma EndIsBoundary(ls: seq<Line>, idx: nat, level: nat)
    requires idx < |HeaderPositions(ls, 0)|
    ensures var ps := HeaderPositions(ls, 0); ClosesAt(ls, level, SectionEnd(ps, idx, level, |ls|))
  {
  }

  /** The first indexed occurrence of a header opens exactly its section. */
  lemma SectionOf(ls: seq<Line>, h: string, level: nat, idx: nat)
    requires OnlyHeaders(ls, h)
    requires FindHeader(HeaderPositions(ls, 0), h) == Some(idx)
    ensures var ps := HeaderPositions(ls, 0);
      IsSection(ls, h, level, ps[idx].line, SectionEnd(ps, idx, level, |ls|))
  {
    SectionEndBounds(ls, idx, level);
    BeforeStart(ls, h, idx);
    InsideSection(ls, idx, level);
    EndIsBoundary(ls, idx, level);
  }

  /** A valid header that occurs on the page yields exactly its section, stripped. */
  lemma FragmentIsSection(lines: seq<string>, requested: string) returns (start: nat, end: nat)
    requires HeaderLevel(Strip(requested)) > 0
    requires exists j :: 0 <= j < |lines| && Strip(lines[j]) == Strip(requested)
    ensures IsSection(Scan(lines), Strip(requested), HeaderLevel(Strip(requested)), start, end)
    ensures FragmentFor(lines, Scan(lines), HeaderPositions(Scan(lines), 0), requested)
            == Fragment(Strip(requested), Strip(Join("\n", lines[start..end])))
  {
    var ls := Scan(lines);
    var ps := HeaderPositions(ls, 0);
    var h := Strip(requested);
    var level := HeaderLevel(h);
    var j0 :| 0 <= j0 < |lines| && Strip(lines[j0]) == h;
    assert IsHeaderLine(ls, j0);
    assert OnlyHeaders(ls, h);
    var k0 := PositionOf(ls, j0);
    var idx := FindHeader(ps, h).value;
    start := ps[idx].line;
    end := SectionEnd(ps, idx, level, |ls|);
    SectionOf(ls, h, level, idx);
    SectionEndBounds(ls, idx, level);
  }
}

=== FILE: wiki_rag.dfy ===
/**
 * The deterministic part of the wiki index: cutting a page into sections at
 * its header lines, keeping the sections long enough to be indexed with
 * consecutive document ids, and escaping a query before it is put into the
 * SQL text of a search. The embedding index itself is not modelled.
 */
module WikiRag {
  import opened Base
  import opened Strings

  /** Shorter section bodies are not indexed. */
  const MinChunkLength: nat := 40

  /** A section: its title (none before the first header) and its stripped body. */
  datatype Section = Section(title: Option<string>, body: string)

  /** A page that does not open with the delimiter gets a virtual "Introduction" header. */
  function WithIntroduction(text: string, delim: string): (r: string)
    ensures StartsWith(LStrip(text), delim) ==> r == text
    ensures !StartsWith(LStrip(text), delim) ==> r == delim + " Introduction\n" + text
  {
    if StartsWith(LStrip(text), delim) then text else delim + " Introduction\n" + text
  }

  predicate IsHeader(line: string, delim: string) {
    StartsWith(line, delim)
  }

  /** The characters stripped from a header's title. */
  predicate IsTitleTrim(c: char) {
    c == ' ' || c == '#' || c == '\t'
  }

  /** A header's title: the rest of the line after the delimiter, without spaces, '#' and tabs around it. */
  function Title(line: string, delim: string): string
    requires IsHeader(line, delim)
  {
    StripBy(line[|delim|..], IsTitleTrim)
  }

  /** A section's body: its lines joined and stripped. */
  function Body(lines: seq<string>): string {
    Strip(Join("\n", lines))
  }

  /**
   * How lines are read: which lines are headers, the title a header gives,
   * and the body a group of lines gives. The splitting below only applies
   * these, so its structure is stated once for any of them.
   */
  datatype Format = Format(isHeader: string -> bool, title: string -> string, body: seq<string> -> string)

  /** The title a line gives as a header of the page's delimiter. */
  function TitleOf(line: string, delim: string): string {
    if IsHeader(line, delim) then Title(line, delim) else ""
  }

  /** How `_split_sections` reads a page with this delimiter. */
  function PageFormat(delim: string): Format {
    Format(l => IsHeader(l, delim), l => TitleOf(l, delim), Body)
  }

  /** The number of lines before the next header. */
  function RunLen(lines: seq<string>, f: Format): (n: nat)
    ensures n <= |lines|
    ensures n < |lines| ==> f.isHeader(lines[n])
  {
    if |lines| == 0 || f.isHeader(lines[0]) then 0 else 1 + RunLen(lines[1..], f)
  }

  /** The section closed by a header or by the end of the page: kept when it has lines. */
  function Closed(title: Option<string>, current: seq<string>, f: Format): seq<Section> {
    if |current| > 0 then [Section(title, f.body(current))] else []
  }

  /**
   * The sections of `lines`, given the open section's title and the lines
   * it has gathered so far: the open section takes every line up to the
   * next header and is kept when it has any line; each header opens the
   * next one.
   */
  function SectionsFrom(title: Option<string>, acc: seq<string>, lines: seq<string>, f: Format): seq<Section>
    decreases |lines|
  {
    var n := RunLen(lines, f);
    if n == |lines| then Closed(title, acc + lines[..n], f)
    else Closed(title, acc + lines[..n], f) + SectionsFrom(Some(f.title(lines[n])), [], lines[n + 1..], f)
  }

  /** The sections of a page, as a reference definition over its lines. */
  function Sections(text: string, delim: string): seq<Section> {
    SectionsFrom(None, [], SplitLines(WithIntroduction(text, delim)), PageFormat(delim))
  }

  /** A line that is not a header joins the open section. */
  lemma SectionsFromShift(title: Option<string>, acc: seq<string>, lines: seq<string>, f: Format)
    requires |lines| > 0 && !f.isHeader(lines[0])
    ensures SectionsFrom(title, acc, lines, f) == SectionsFrom(title, acc + [lines[0]], lines[1..], f)
  {
    var n := RunLen(lines, f);
    assert n == 1 + RunLen(lines[1..], f);
    assert acc + lines[..n] == (acc + [lines[0]]) + lines[1..][..n - 1];
    if n < |lines| {
      assert lines[n] == lines[1..][n - 1];
      assert lines[n + 1..] == lines[1..][n..];
    }
  }

  /** A header closes the open section (kept when it has lines) and opens its own. */
  lemma SectionsFromHeader(title: Option<string>, acc: seq<string>, lines: seq<string>, f: Format)
    requires |lines| > 0 && f.isHeader(lines[0])
    ensures SectionsFrom(title, acc, lines, f)
         == Closed(title, acc, f) + SectionsFrom(Some(f.title(lines[0])), [], lines[1..], f)
  {
    assert RunLen(lines, f) == 0;
    assert acc + lines[..0] == acc;
  }

  /** At the end of the page the open section is kept when it has lines. */
  lemma SectionsFromEnd(title: Option<string>, acc: seq<string>, lines: seq<string>, f: Format)
    requires |lines| == 0
    ensures SectionsFrom(title, acc, lines, f) == Closed(title, acc, f)
  {
    assert acc + lines[..0] == acc;
  }

  /** The sections of `lines` taken one line at a time, as the loop of `_split_sections` takes them. */
  function ScanSections(title: Option<string>, acc: seq<string>, lines: seq<string>, f: Format): seq<Section>
    decreases |lines|
  {
    if |lines| == 0 then Closed(title, acc, f)
    else if f.isHeader(lines[0]) then Closed(title, acc, f) + ScanSections(Some(f.title(lines[0])), [], lines[1..], f)
    else ScanSections(title, acc + [lines[0]], lines[1..], f)
  }

  /** Taking the lines one at a time gives the sections the runs between headers give. */
  lemma {:induction false} ScanIsSectionsFrom(title: Option<string>, acc: seq<string>, lines: seq<string>, f: Format)
    ensures ScanSections(title, acc, lines, f) == SectionsFrom(title, acc, lines, f)
    decreases |lines|
  {
    if |lines| == 0 {
      SectionsFromEnd(title, acc, lines, f);
    } else if f.isHeader(lines[0]) {
      SectionsFromHeader(title, acc, lines, f);
      ScanIsSectionsFrom(Some(f.title(lines[0])), [], lines[1..], f);
    } else {
      SectionsFromShift(title, acc, lines, f);
      ScanIsSectionsFrom(title, acc + [lines[0]], lines[1..], f);
    }
  }

  /** `_split_sections`: the loop over the lines, closing the open section at each header and at the end. */
  method SplitSections(text: string, delim: string) returns (sections: seq<Section>)
    ensures sections == Sections(text, delim)
  {
    sections := SplitLinesInto(SplitLines(WithIntroduction(text, delim)), PageFormat(delim));
  }

  /** The loop of `_split_sections`, for any page format. */
  method SplitLinesInto(lines: seq<string>, f: Format) returns (sections: seq<Section>)
    ensures sections == SectionsFrom(None, [], lines, f)
  {
    sections := [];
    var title: Option<string> := None;
    var current: seq<string> := [];
    var rest := lines;
    while |rest| > 0
      invariant sections + ScanSections(title, current, rest, f) == ScanSections(None, [], lines, f)
    {
      var line := rest[0];
      if f.isHeader(line) {
        var closed := Closed(title, current, f);
        assert sections + (closed + ScanSections(Some(f.title(line)), [], rest[1..], f))
            == (sections + closed) + ScanSections(Some(f.title(line)), [], rest[1..], f);
        sections := sections + closed;
        title := Some(f.title(line));
        current := [];
      } else {
        current := current + [line];
      }
      rest := rest[1..];
    }
    ScanIsSectionsFrom(None, [], lines, f);
    sections := sections + Closed(title, current, f);
  }

  /** Once a header has been seen, every later section carries a title. */
  lemma {:induction false} TitledFrom(title: Option<string>, acc: seq<string>, lines: seq<string>, f: Format)
    requires title.Some?
    ensures forall s :: s in SectionsFrom(title, acc, lines, f) ==> s.title.Some?
    decreases |lines|
  {
    var n := RunLen(lines, f);
    if n < |lines| {
      TitledFrom(Some(f.title(lines[n])), [], lines[n + 1..], f);
    }
  }

  /** Every section closed here carries the open title. */
  lemma ClosedTitle(title: Option<string>, current: seq<string>, f: Format, s: Section)
    requires s in Closed(title, current, f)
    ensures s.title == title
  {
  }

  /** Every titled section is named after a header line: line `i`. */
  lemma {:induction false} TitlesFromHeaders(title: Option<string>, acc: seq<string>, lines: seq<string>, f: Format,
                                             s: Section) returns (i: nat)
    requires s in SectionsFrom(title, acc, lines, f) && s.title != title
    ensures i < |lines| && f.isHeader(lines[i]) && s.title == Some(f.title(lines[i]))
    decreases |lines|
  {
    var n := RunLen(lines, f);
    var group := acc + lines[..n];
    assert s !in Closed(title, group, f) by {
      if s in Closed(title, group, f) { ClosedTitle(title, group, f, s); }
    }
    assert n < |lines|;
    var t := Some(f.title(lines[n]));
    assert s in SectionsFrom(t, [], lines[n + 1..], f);
    if s.title == t {
      i := n;
    } else {
      var k := TitlesFromHeaders(t, [], lines[n + 1..], f, s);
      i := n + 1 + k;
      assert lines[n + 1..][k] == lines[i];
    }
  }

  /** Every section of a page but an untitled first one is named after one of the page's header lines. */
  lemma PageTitlesFromHeaders(text: string, delim: string, s: Section) returns (line: string)
    requires s in Sections(text, delim) && s.title.Some?
    ensures line in SplitLines(WithIntroduction(text, delim)) && IsHeader(line, delim)
    ensures s.title == Some(Title(line, delim))
  {
    var lines := SplitLines(WithIntroduction(text, delim));
    var i := TitlesFromHeaders(None, [], lines, PageFormat(delim), s);
    line := lines[i];
  }

  /** `\n`-splitting a line followed by a newline and more text. */
  lemma {:induction false} SplitOnPrefix(a: string, b: string, c: char)
    requires c !in a
    ensures SplitOn(a + [c] + b, c) == [a] + SplitOn(b, c)
  {
    if |a| == 0 {
      assert a + [c] + b == [c] + b;
      assert ([c] + b)[1..] == b;
    } else {
      var s := a + [c] + b;
      assert s[1..] == a[1..] + [c] + b;
      SplitOnPrefix(a[1..], b, c);
      assert [a[0]] + a[1..] == a;
    }
  }

  lemma SplitLinesPrefix(a: string, b: string)
    requires '\n' !in a
    ensures SplitLines(a + "\n" + b) == [a] + SplitLines(b)
  {
    SplitOnPrefix(a, b, '\n');
    var parts := SplitOn(b, '\n');
    assert ([a] + parts)[|[a] + parts| - 1] == parts[|parts| - 1];
    assert ([a] + parts)[..|[a] + parts| - 1] == [a] + parts[..|parts| - 1];
  }

  /** The lines of a page given the virtual "Introduction" header. */
  lemma IntroducedLines(text: string, delim: string)
    requires '\n' !in delim && !StartsWith(LStrip(text), delim)
    ensures SplitLines(WithIntroduction(text, delim)) == [delim + " Introduction"] + SplitLines(text)
    ensures IsHeader(delim + " Introduction", delim)
  {
    var head := delim + " Introduction";
    assert WithIntroduction(text, delim) == head + "\n" + text;
    SplitLinesPrefix(head, text);
    assert head[..|delim|] == delim;
  }

  /** A page given the virtual "Introduction" header has no untitled section. */
  lemma IntroducedPagesAreTitled(text: string, delim: string)
    requires '\n' !in delim && !StartsWith(LStrip(text), delim)
    ensures forall s :: s in Sections(text, delim) ==> s.title.Some?
  {
    var f := PageFormat(delim);
    IntroducedLines(text, delim);
    var lines := [delim + " Introduction"] + SplitLines(text);
    SectionsFromHeader(None, [], lines, f);
    assert lines[1..] == SplitLines(text);
    TitledFrom(Some(f.title(lines[0])), [], SplitLines(text), f);
  }

  /** The virtual header's title is "Introduction". */
  lemma IntroductionTitle(delim: string)
    ensures Title(delim + " Introduction", delim) == "Introduction"
  {
    var rest := (delim + " Introduction")[|delim|..];
    assert rest == " Introduction";
    assert LeadCount(rest, IsTitleTrim) == 1 by {
      assert rest[1..] == "Introduction";
      assert LeadCount(rest[1..], IsTitleTrim) == 0;
    }
    assert rest[1..] == "Introduction";
    assert TrailCount("Introduction", IsTitleTrim) == 0;
  }

  /** A page with no header and text on some line is one "Introduction" section. */
  lemma HeaderlessPage(text: string, delim: string)
    requires '\n' !in delim && !StartsWith(LStrip(text), delim)
    requires SplitLines(text) != []
    requires forall i :: 0 <= i < |SplitLines(text)| ==> !IsHeader(SplitLines(text)[i], delim)
    ensures Sections(text, delim) == [Section(Some("Introduction"), Body(SplitLines(text)))]
  {
    var f := PageFormat(delim);
    var body := SplitLines(text);
    IntroducedLines(text, delim);
    var lines := [delim + " Introduction"] + body;
    assert lines[1..] == body;
    SectionsFromHeader(None, [], lines, f);
    IntroductionTitle(delim);
    assert Sections(text, delim) == SectionsFrom(Some("Introduction"), [], body, f);
    assert RunLen(body, f) == |body|;
    assert [] + body[..|body|] == body;
  }

  // ---------------------------------------------------------------------------
  // Index rows
  // ---------------------------------------------------------------------------

  /** A markdown file of the wiki: its path relative to the wiki and its text. */
  datatype WikiFile = WikiFile(path: string, text: string)

  /** An indexed document: its id, body, file and section title. */
  datatype Row = Row(docId: nat, text: string, filePath: string, sectionTitle: string)

  predicate Indexed(s: Section) {
    |s.body| >= MinChunkLength
  }

  /** The rows of one file's sections, numbered from `start`. */
  function FileRows(path: string, secs: seq<Section>, start: nat): (r: seq<Row>)
    ensures |r| <= |secs|
    ensures forall i :: 0 <= i < |r| ==>
      r[i].docId == start + i && |r[i].text| >= MinChunkLength && r[i].filePath == path
    decreases |secs|
  {
    if |secs| == 0 then []
    else if Indexed(secs[0]) then [Row(start, secs[0].body, path, secs[0].title.GetOr(""))] + FileRows(path, secs[1..], start + 1)
    else FileRows(path, secs[1..], start)
  }

  /** The rows `index_wiki` hands to the index, for files in the order they are read. */
  function IndexRows(files: seq<WikiFile>, delim: string, start: nat): (r: seq<Row>)
    ensures forall i :: 0 <= i < |r| ==> r[i].docId == start + i && |r[i].text| >= MinChunkLength
    decreases |files|
  {
    if |files| == 0 then []
    else
      var fr := FileRows(files[0].path, Sections(files[0].text, delim), start);
      fr + IndexRows(files[1..], delim, start + |fr|)
  }

  /** A row of a section with this body and title exists. */
  predicate HasRow(r: seq<Row>, body: string, title: string) {
    exists i :: 0 <= i < |r| && r[i].text == body && r[i].sectionTitle == title
  }

  /** Some section long enough to be indexed has this body and title. */
  predicate HasIndexedSection(secs: seq<Section>, body: string, title: string) {
    exists j :: 0 <= j < |secs| && Indexed(secs[j]) && secs[j].body == body && secs[j].title.GetOr("") == title
  }

  /** A file's rows are exactly its sections long enough to be indexed. */
  lemma {:induction false} FileRowsSpec(path: string, secs: seq<Section>, start: nat, body: string, title: string)
    ensures HasRow(FileRows(path, secs, start), body, title) <==> HasIndexedSection(secs, body, title)
    decreases |secs|
  {
    if |secs| > 0 {
      var next := start + (if Indexed(secs[0]) then 1 else 0);
      FileRowsSpec(path, secs[1..], next, body, title);
      IndexedSectionCons(secs, body, title);
      var rest := FileRows(path, secs[1..], next);
      if Indexed(secs[0]) {
        var row := Row(start, secs[0].body, path, secs[0].title.GetOr(""));
        assert FileRows(path, secs, start) == [row] + rest;
        HasRowCons(row, rest, body, title);
      } else {
        assert FileRows(path, secs, start) == rest;
      }
    }
  }

  lemma IndexedSectionCons(secs: seq<Section>, body: string, title: string)
    requires |secs| > 0
    ensures HasIndexedSection(secs, body, title) <==>
      (Indexed(secs[0]) && secs[0].body == body && secs[0].title.GetOr("") == title)
      || HasIndexedSection(secs[1..], body, title)
  {
    if HasIndexedSection(secs[1..], body, title) {
      var j :| 0 <= j < |secs[1..]| && Indexed(secs[1..][j]) && secs[1..][j].body == body
               && secs[1..][j].title.GetOr("") == title;
      assert secs[1..][j] == secs[j + 1];
    }
    if HasIndexedSection(secs, body, title) {
      var j :| 0 <= j < |secs| && Indexed(secs[j]) && secs[j].body == body && secs[j].title.GetOr("") == title;
      if j > 0 {
        assert secs[1..][j - 1] == secs[j];
      }
    }
  }

  lemma HasRowCons(row: Row, rest: seq<Row>, body: string, title: string)
    ensures HasRow([row] + rest, body, title) <==> (row.text == body && row.sectionTitle == title) || HasRow(rest, body, title)
  {
    var r := [row] + rest;
    if HasRow(rest, body, title) {
      var i :| 0 <= i < |rest| && rest[i].text == body && rest[i].sectionTitle == title;
      assert r[i + 1] == rest[i];
    }
    if HasRow(r, body, title) {
      var i :| 0 <= i < |r| && r[i].text == body && r[i].sectionTitle == title;
      if i > 0 {
        assert r[i] == rest[i - 1];
      }
    }
    if row.text == body && row.sectionTitle == title {
      assert r[0] == row;
    }
  }

  // ---------------------------------------------------------------------------
  // Search
  // ---------------------------------------------------------------------------

  /** Every '"' of the query preceded by a backslash. */
  function EscapeQuotes(q: string): (r: string)
    ensures forall i :: 0 <= i < |r| && r[i] == '"' ==> i > 0 && r[i - 1] == '\\'
    ensures |r| >= |q|
  {
    if |q| == 0 then ""
    else
      var rest := EscapeQuotes(q[1..]);
      if q[0] == '"' then
        var r := "\\\"" + rest;
        assert forall i :: 2 <= i < |r| ==> r[i] == rest[i - 2];
        r
      else
        var r := [q[0]] + rest;
        assert forall i :: 1 <= i < |r| ==> r[i] == rest[i - 1];
        r
  }

  /** Reads an escaped query back: a backslash before a quote is dropped. */
  function Unescape(s: string): (r: string)
    decreases |s|
  {
    if |s| == 0 then ""
    else if |s| >= 2 && s[0] == '\\' && s[1] == '"' then "\"" + Unescape(s[2..])
    else [s[0]] + Unescape(s[1..])
  }

  /** Escaping loses nothing: the query is read back unchanged. */
  lemma {:induction false} EscapeRoundTrip(q: string)
    ensures Unescape(EscapeQuotes(q)) == q
  {
    if |q| > 0 {
      EscapeRoundTrip(q[1..]);
      var rest := EscapeQuotes(q[1..]);
      if q[0] == '"' {
        assert ("\\\"" + rest)[2..] == rest;
      } else {
        var e := [q[0]] + rest;
        assert e[1..] == rest;
        if q[0] == '\\' && |rest| > 0 {
          // the character after an original backslash is never a quote: any quote carries its own backslash
          assert rest[0] != '"';
        }
      }
      assert q == [q[0]] + q[1..];
    }
  }
}

=== FILE: wrappers.dfy ===
/**
 * The pure parts of the tool wrappers over the company API: the skill-level
 * range table, the local project filter, PATCH-style merges, wiki path
 * disambiguation for deletion, the multi-query wiki search merge, the
 * per-field filter of the batch employee fetch and the project-lead scan.
 * Every API call is a parameter; `paginate_all` is in module Pagination.
 */
module Wrappers {
  import opened Base
  import opened Strings
  import opened Seqs
  import opened Assoc
  import opened Json
  import opened Pagination

  const ServerSystemErrorText :=
    "SERVER ERROR: The server API is broken and not responding correctly. Use outcome 'server_error' when reporting this."

  // ---------------------------------------------------------------------------
  // Skill / will level names
  // ---------------------------------------------------------------------------

  /** `SKILL_LEVEL_SCALE`: the two numeric levels a level name stands for. */
  function Scale(name: string): Option<(int, int)> {
    if name == "Very low" then Some((1, 2))
    else if name == "Basic" then Some((3, 4))
    else if name == "Solid" then Some((5, 6))
    else if name == "Strong" then Some((7, 8))
    else if name == "Exceptional" then Some((9, 10))
    else None
  }

  /** The levels the known names contribute, in order (`all_levels`). */
  function AllLevels(names: seq<string>): (r: seq<int>)
    ensures |r| == 0 <==> forall i :: 0 <= i < |names| ==> Scale(names[i]).None?
  {
    if |names| == 0 then []
    else
      var rest := AllLevels(names[1..]);
      assert forall i :: 1 <= i < |names| ==> names[i] == names[1..][i - 1];
      match Scale(names[0])
      case Some(p) => [p.0, p.1] + rest
      case None => rest
  }

  function MinOf(s: seq<int>): (r: int)
    requires |s| > 0
    ensures r in s && forall i :: 0 <= i < |s| ==> r <= s[i]
  {
    if |s| == 1 then s[0]
    else
      var m := MinOf(s[1..]);
      assert forall i :: 1 <= i < |s| ==> s[i] == s[1..][i - 1];
      if s[0] <= m then s[0] else m
  }

  function MaxOf(s: seq<int>): (r: int)
    requires |s| > 0
    ensures r in s && forall i :: 0 <= i < |s| ==> s[i] <= r
  {
    if |s| == 1 then s[0]
    else
      var m := MaxOf(s[1..]);
      assert forall i :: 1 <= i < |s| ==> s[i] == s[1..][i - 1];
      if s[0] >= m then s[0] else m
  }

  /** `_levels_to_range(names)`. */
  function LevelsToRange(names: Option<seq<string>>): (r: (int, int))
    ensures names.None? || |names.value| == 0 ==> r == (1, 10)
    ensures names.Some? && (forall i :: 0 <= i < |names.value| ==> Scale(names.value[i]).None?) ==> r == (1, 10)
  {
    if names.None? || |names.value| == 0 then (1, 10)
    else
      var all := AllLevels(names.value);
      if |all| == 0 then (1, 10) else (MinOf(all), MaxOf(all))
  }

  /** A level lies in the scale of one of the names. */
  predicate Named(names: seq<string>, v: int) {
    exists i :: 0 <= i < |names| && Scale(names[i]).Some? && (v == Scale(names[i]).value.0 || v == Scale(names[i]).value.1)
  }

  lemma {:induction false} AllLevelsNamed(names: seq<string>, v: int)
    ensures v in AllLevels(names) <==> Named(names, v)
  {
    if |names| > 0 {
      AllLevelsNamed(names[1..], v);
      if Named(names[1..], v) {
        var i :| 0 <= i < |names[1..]| && Scale(names[1..][i]).Some?
          && (v == Scale(names[1..][i]).value.0 || v == Scale(names[1..][i]).value.1);
        assert names[1..][i] == names[i + 1];
      }
      if Named(names, v) {
        var i :| 0 <= i < |names| && Scale(names[i]).Some?
          && (v == Scale(names[i]).value.0 || v == Scale(names[i]).value.1);
        if i > 0 {
          assert names[1..][i - 1] == names[i];
        }
      }
    }
  }

  /**
   * With at least one known name, the range is exactly the span of the
   * known names' levels: both ends are levels of some named entry and
   * every named level lies within it.
   */
  lemma LevelsToRangeSpan(names: seq<string>)
    requires exists i :: 0 <= i < |names| && Scale(names[i]).Some?
    ensures var r := LevelsToRange(Some(names));
      Named(names, r.0) && Named(names, r.1)
      && forall v :: Named(names, v) ==> r.0 <= v <= r.1
  {
    var all := AllLevels(names);
    var r := LevelsToRange(Some(names));
    AllLevelsNamed(names, r.0);
    AllLevelsNamed(names, r.1);
    forall v | Named(names, v) ensures r.0 <= v <= r.1 {
      AllLevelsNamed(names, v);
    }
  }

  lemma NamedOnScale(names: seq<string>, v: int)
    requires Named(names, v)
    ensures 1 <= v <= 10
  {
    var i :| 0 <= i < |names| && Scale(names[i]).Some? && (v == Scale(names[i]).value.0 || v == Scale(names[i]).value.1);
    var n := names[i];
    assert Scale(n).Some?;
  }

  /** Every result lies on the 1..10 scale. */
  lemma LevelsToRangeOnScale(names: Option<seq<string>>)
    ensures 1 <= LevelsToRange(names).0 <= LevelsToRange(names).1 <= 10
  {
    if names.Some? && |names.value| > 0 && |AllLevels(names.value)| > 0 {
      var all := AllLevels(names.value);
      var lo := MinOf(all);
      var hi := MaxOf(all);
      AllLevelsNamed(names.value, lo);
      AllLevelsNamed(names.value, hi);
      NamedOnScale(names.value, lo);
      NamedOnScale(names.value, hi);
      assert LevelsToRange(names) == (lo, hi);
    }
  }

  // ---------------------------------------------------------------------------
  // `search_projects`: the listing is filtered locally
  // ---------------------------------------------------------------------------

  datatype ProjectBrief = ProjectBrief(id: string, name: string)

  predicate ProjectMatches(queryLower: string, p: ProjectBrief) {
    Contains(Lower(p.id), queryLower) || Contains(Lower(p.name), queryLower)
  }

  /** The local filter: an empty or missing query keeps every project. */
  function FilterProjects(ps: seq<ProjectBrief>, query: Option<string>): (r: seq<ProjectBrief>)
  {
    if Truthy(query) then Filter(p => ProjectMatches(Lower(query.value), p), ps) else ps
  }

  /** The result keeps the listing's order and holds exactly the matching projects. */
  lemma FilterProjectsSpec(ps: seq<ProjectBrief>, query: Option<string>)
    ensures IsSubseq(FilterProjects(ps, query), ps)
    ensures forall p :: p in FilterProjects(ps, query) <==>
      p in ps && (!Truthy(query) || ProjectMatches(Lower(query.value), p))
  {
    if Truthy(query) {
      FilterSpec(p => ProjectMatches(Lower(query.value), p), ps);
    } else {
      SubseqRefl(ps);
    }
  }

  lemma {:induction false} SubseqRefl<T>(s: seq<T>)
    ensures IsSubseq(s, s)
  {
    if |s| > 0 {
      SubseqRefl(s[1..]);
    }
  }

  datatype ProjectsResponse = Projects(projects: seq<ProjectBrief>) | ProjectsFailed(errorMessage: string)
                            | ProjectsRaised(message: string)

  /** `search_projects`: only ServerSystemError becomes an unsuccessful response. */
  method SearchProjects(s: PageServer<ProjectBrief>, query: Option<string>) returns (r: ProjectsResponse)
    requires WellBehaved(s)
    ensures r.Projects? ==> r.projects == FilterProjects(s.data, query)
    ensures r.ProjectsFailed? <==> s.maxLimit < 1 && (s.failAt.None? || s.failAt.value.0 != 0)
    ensures r.ProjectsFailed? ==> r.errorMessage == ServerSystemErrorText
    ensures r.ProjectsRaised? ==> s.failAt.Some? && r.message == s.failAt.value.1
    ensures s.failAt.None? && s.maxLimit >= 1 ==> r == Projects(FilterProjects(s.data, query))
  {
    var all := PaginateAll(s);
    match all
    case Fetched(items) =>
      r := Projects(FilterProjects(items, query));
    case ServerSystemError =>
      r := ProjectsFailed(ServerSystemErrorText);
    case Raised(m) =>
      r := ProjectsRaised(m);
  }

  // ---------------------------------------------------------------------------
  // PATCH-style updates: a missing field keeps the current value
  // ---------------------------------------------------------------------------

  /** `merge(new_val, current_val)`. */
  function Merge<T>(newVal: Option<T>, cur: T): (r: T)
    ensures newVal.Some? ==> r == newVal.value
    ensures newVal.None? ==> r == cur
  {
    if newVal.None? then cur else newVal.value
  }

  datatype SkillLevel = SkillLevel(name: string, level: int)

  /** The fields of an employee that `update_employee_info` sends. */
  datatype EmployeeFields = EmployeeFields(notes: string, salary: int, skills: seq<SkillLevel>,
                                           wills: seq<SkillLevel>, location: string, department: string)

  /** The employee as the API returns it: skills and wills may be absent. */
  datatype CurrentEmployee = CurrentEmployee(notes: string, salary: int, skills: Option<seq<SkillLevel>>,
                                             wills: Option<seq<SkillLevel>>, location: string, department: string)

  datatype EmployeePatch = EmployeePatch(notes: Option<string>, salary: Option<int>,
                                         skills: Option<seq<SkillLevel>>, wills: Option<seq<SkillLevel>>,
                                         location: Option<string>, department: Option<string>)

  const EmptyPatch := EmployeePatch(None, None, None, None, None, None)

  /** The current values with absent skill and will lists read as empty. */
  function Baseline(e: CurrentEmployee): (r: EmployeeFields)
    ensures r.skills == (if e.skills.Some? then e.skills.value else [])
    ensures r.wills == (if e.wills.Some? then e.wills.value else [])
  {
    EmployeeFields(e.notes, e.salary, e.skills.GetOr([]), e.wills.GetOr([]), e.location, e.department)
  }

  /** Applies a patch field by field. */
  function ApplyPatch(p: EmployeePatch, cur: EmployeeFields): (r: EmployeeFields) {
    EmployeeFields(Merge(p.notes, cur.notes), Merge(p.salary, cur.salary), Merge(p.skills, cur.skills),
                   Merge(p.wills, cur.wills), Merge(p.location, cur.location), Merge(p.department, cur.department))
  }

  /** `update_employee_info`: the full record sent back to the API. */
  function UpdateEmployeeInfo(p: EmployeePatch, cur: CurrentEmployee): (r: EmployeeFields)
    ensures p == EmptyPatch ==> r == Baseline(cur)
    ensures p.notes.Some? ==> r.notes == p.notes.value
    ensures p.skills.Some? ==> r.skills == p.skills.value
    ensures p.skills.None? && cur.skills.None? ==> r.skills == []
  {
    ApplyPatch(p, Baseline(cur))
  }

  /** Every field is the patch's value when given (even "" or []) and the current one otherwise. */
  lemma ApplyPatchFields(p: EmployeePatch, cur: EmployeeFields)
    ensures var r := ApplyPatch(p, cur);
      (r.notes == if p.notes.Some? then p.notes.value else cur.notes)
      && (r.salary == if p.salary.Some? then p.salary.value else cur.salary)
      && (r.skills == if p.skills.Some? then p.skills.value else cur.skills)
      && (r.wills == if p.wills.Some? then p.wills.value else cur.wills)
      && (r.location == if p.location.Some? then p.location.value else cur.location)
      && (r.department == if p.department.Some? then p.department.value else cur.department)
  {
  }

  /** Re-sending the same patch changes nothing further. */
  lemma ApplyPatchIdempotent(p: EmployeePatch, cur: EmployeeFields)
    ensures ApplyPatch(p, ApplyPatch(p, cur)) == ApplyPatch(p, cur)
  {
  }

  /** A patch that sets every field does not depend on the current record. */
  lemma FullPatchOverrides(p: EmployeePatch, a: EmployeeFields, b: EmployeeFields)
    requires p.notes.Some? && p.salary.Some? && p.skills.Some? && p.wills.Some?
    requires p.location.Some? && p.department.Some?
    ensures ApplyPatch(p, a) == ApplyPatch(p, b)
  {
  }

  /** The fields of a time entry that `update_time_entry` sends. */
  datatype TimeEntryFields = TimeEntryFields(date: string, hours: real, workCategory: string,
                                             notes: string, billable: bool, status: string)

  datatype TimeEntryPatch = TimeEntryPatch(date: Option<string>, hours: Option<real>, workCategory: Option<string>,
                                           notes: Option<string>, billable: Option<bool>, status: Option<string>)

  /** `update_time_entry`: a missing field keeps the current value. */
  function UpdateTimeEntry(p: TimeEntryPatch, cur: TimeEntryFields): (r: TimeEntryFields)
    ensures r.date == Merge(p.date, cur.date) && r.hours == Merge(p.hours, cur.hours)
    ensures r.workCategory == Merge(p.workCategory, cur.workCategory) && r.notes == Merge(p.notes, cur.notes)
    ensures r.billable == Merge(p.billable, cur.billable) && r.status == Merge(p.status, cur.status)
  {
    TimeEntryFields(Merge(p.date, cur.date), Merge(p.hours, cur.hours), Merge(p.workCategory, cur.workCategory),
                    Merge(p.notes, cur.notes), Merge(p.billable, cur.billable), Merge(p.status, cur.status))
  }

  /** An all-absent patch sends the entry back unchanged; a cleared flag is kept as `false`. */
  lemma UpdateTimeEntryKeeps(cur: TimeEntryFields)
    ensures UpdateTimeEntry(TimeEntryPatch(None, None, None, None, None, None), cur) == cur
    ensures UpdateTimeEntry(TimeEntryPatch(None, None, None, Some(""), Some(false), None), cur)
         == cur.(notes := "", billable := false)
  {
  }

  // ---------------------------------------------------------------------------
  // `delete_wiki`: a bare file name must name exactly one page
  // ---------------------------------------------------------------------------

  /** A listed path that a bare file name refers to. */
  predicate PathMatches(file: string, p: string) {
    p == file || EndsWith(p, "/" + file)
  }

  /** Python's `repr` of a list of plain strings. */
  function ReprList(xs: seq<string>): string {
    "[" + Join(", ", seq(|xs|, i requires 0 <= i < |xs| => "'" + xs[i] + "'")) + "]"
  }

  datatype DeleteOutcome = Deleted(path: string) | NeedsClarification(error: string) | DeleteFailed(error: string)

  /**
   * `delete_wiki(file)`. `listing` is the wiki path list (or the listing's
   * error text), `update` the error text of emptying a page, if any.
   */
  function DeleteWiki(file: string, listing: Result<Option<seq<string>>, string>,
                      update: string -> Option<string>): (r: DeleteOutcome)
  {
    if '/' !in file then
      match listing
      case Err(e) => DeleteFailed("Failed to list wiki: " + e)
      case Ok(ps) =>
        var paths := ps.GetOr([]);
        var matches := Filter(p => PathMatches(file, p), paths);
        if |matches| == 0 then
          NeedsClarification("File '" + file + "' not found in wiki. Available files: "
                             + ReprList(paths[..if |paths| < 10 then |paths| else 10]))
        else if |matches| > 1 then
          NeedsClarification("Ambiguous: '" + file + "' found in multiple locations: " + ReprList(matches)
                             + ". Specify full path.")
        else DeleteTarget(matches[0], update)
    else DeleteTarget(file, update)
  }

  function DeleteTarget(path: string, update: string -> Option<string>): (r: DeleteOutcome)
    ensures r.Deleted? <==> update(path).None?
    ensures r.Deleted? ==> r.path == path
  {
    match update(path)
    case None => Deleted(path)
    case Some(e) => DeleteFailed(e)
  }

  /**
   * Only a page the name identifies is deleted: a full path is taken as is,
   * and a bare name is replaced by the one listed path it matches; with zero
   * or several matches the caller is asked to clarify.
   */
  lemma DeleteWikiTarget(file: string, paths: seq<string>, update: string -> Option<string>)
    requires '/' !in file
    ensures var r := DeleteWiki(file, Ok(Some(paths)), update);
      var matching := Filter(p => PathMatches(file, p), paths);
      (r.NeedsClarification? <==> |matching| != 1)
      && (r.Deleted? ==> r.path in paths && PathMatches(file, r.path)
                         && forall q :: q in paths && PathMatches(file, q) ==> q == r.path)
  {
    var matching := Filter(p => PathMatches(file, p), paths);
    FilterSpec(p => PathMatches(file, p), paths);
    if |matching| == 1 {
      assert matching[0] in matching;
      forall q | q in paths && PathMatches(file, q) ensures q == matching[0] {
        assert q in matching;
      }
    }
  }

  lemma DeleteWikiFullPath(file: string, listing: Result<Option<seq<string>>, string>,
                           update: string -> Option<string>)
    requires '/' in file
    ensures DeleteWiki(file, listing, update) == DeleteTarget(file, update)
  {
  }

  // ---------------------------------------------------------------------------
  // `search_wiki`: several queries merged by (file, section, text)
  // ---------------------------------------------------------------------------

  /** One raw search hit; every field may be missing. */
  datatype RawHit = RawHit(filePath: Option<string>, sectionTitle: Option<string>, text: Option<string>,
                           score: Option<int>)

  /** A merged result. Scores are compared only, so an integer scale stands for the floats. */
  datatype WikiHit = WikiHit(file: string, section: string, text: string, score: int)

  function ToHit(h: RawHit): (r: WikiHit)
  {
    WikiHit(h.filePath.GetOr(""), h.sectionTitle.GetOr(""), h.text.GetOr(""), h.score.GetOr(0))
  }

  function HitKey(h: WikiHit): (string, string, string) {
    (h.file, h.section, h.text)
  }

  predicate DistinctHitKeys(s: seq<WikiHit>) {
    forall i, j :: 0 <= i < j < |s| ==> HitKey(s[i]) != HitKey(s[j])
  }

  function FindKey(s: seq<WikiHit>, k: (string, string, string)): (r: Option<nat>)
    ensures r.Some? ==> r.value < |s| && HitKey(s[r.value]) == k
    ensures r.None? ==> forall i :: 0 <= i < |s| ==> HitKey(s[i]) != k
  {
    if |s| == 0 then None
    else if HitKey(s[|s| - 1]) == k then Some(|s| - 1)
    else FindKey(s[..|s| - 1], k)
  }

  /** One step of the merge: keep the higher score for a key already seen, in its original place. */
  function MergeHit(acc: seq<WikiHit>, h: WikiHit): (r: seq<WikiHit>)
    requires DistinctHitKeys(acc)
    ensures DistinctHitKeys(r)
  {
    match FindKey(acc, HitKey(h))
    case Some(i) => if acc[i].score < h.score then acc[i := h] else acc
    case None => acc + [h]
  }

  function MergeHits(acc: seq<WikiHit>, hs: seq<RawHit>): (r: seq<WikiHit>)
    requires DistinctHitKeys(acc)
    ensures DistinctHitKeys(r)
    decreases |hs|
  {
    if |hs| == 0 then acc else MergeHits(MergeHit(acc, ToHit(hs[0])), hs[1..])
  }

  /** The merged hits: entries hold the best score seen for each key. */
  predicate Covers(acc: seq<WikiHit>, h: WikiHit) {
    exists i :: 0 <= i < |acc| && HitKey(acc[i]) == HitKey(h) && acc[i].score >= h.score
  }

  lemma MergeHitCovers(acc: seq<WikiHit>, h: WikiHit, g: WikiHit)
    requires DistinctHitKeys(acc)
    requires g == h || Covers(acc, g)
    ensures Covers(MergeHit(acc, h), g)
  {
    var r := MergeHit(acc, h);
    match FindKey(acc, HitKey(h))
    case Some(i) =>
      if g == h {
        assert HitKey(r[i]) == HitKey(g) && r[i].score >= g.score;
      } else {
        var j :| 0 <= j < |acc| && HitKey(acc[j]) == HitKey(g) && acc[j].score >= g.score;
        assert HitKey(r[j]) == HitKey(g) && r[j].score >= g.score;
      }
    case None =>
      if g == h {
        assert r[|acc|] == h;
      } else {
        var j :| 0 <= j < |acc| && HitKey(acc[j]) == HitKey(g) && acc[j].score >= g.score;
        assert r[j] == acc[j];
      }
  }

  /** Every hit of every query is represented with at least its score. */
  lemma {:induction false} MergeHitsCovers(acc: seq<WikiHit>, hs: seq<RawHit>, g: WikiHit)
    requires DistinctHitKeys(acc)
    requires Covers(acc, g) || exists k :: 0 <= k < |hs| && ToHit(hs[k]) == g
    ensures Covers(MergeHits(acc, hs), g)
    decreases |hs|
  {
    if |hs| > 0 {
      var acc' := MergeHit(acc, ToHit(hs[0]));
      if Covers(acc, g) || ToHit(hs[0]) == g {
        MergeHitCovers(acc, ToHit(hs[0]), g);
      } else {
        var k :| 0 <= k < |hs| && ToHit(hs[k]) == g;
        assert hs[1..][k - 1] == hs[k];
      }
      MergeHitsCovers(acc', hs[1..], g);
    }
  }

  /** Every merged entry is one of the hits (nothing is invented). */
  lemma {:induction false} MergeHitsFromInput(acc: seq<WikiHit>, hs: seq<RawHit>, e: WikiHit)
    requires DistinctHitKeys(acc)
    requires e in MergeHits(acc, hs)
    ensures e in acc || exists k :: 0 <= k < |hs| && ToHit(hs[k]) == e
    decreases |hs|
  {
    if |hs| > 0 {
      var acc' := MergeHit(acc, ToHit(hs[0]));
      MergeHitsFromInput(acc', hs[1..], e);
      if e in acc' && e !in acc {
        var j :| 0 <= j < |acc'| && acc'[j] == e;
        assert e == ToHit(hs[0]);
      }
      if !(e in acc') {
        var k :| 0 <= k < |hs[1..]| && ToHit(hs[1..][k]) == e;
        assert hs[k + 1] == hs[1..][k];
      }
    }
  }

  function HitScore(h: WikiHit): int {
    h.score
  }

  datatype WikiSearchResult = WikiResults(results: seq<WikiHit>) | WikiSearchFailed(error: string)

  /** Runs every query, stopping at the first failure. */
  function RunQueries(queries: seq<string>, search: string -> Result<seq<RawHit>, string>): (r: Result<seq<seq<RawHit>>, string>)
    ensures r.Ok? ==> |r.value| == |queries| && forall i :: 0 <= i < |queries| ==> search(queries[i]) == Ok(r.value[i])
    ensures r.Err? ==> exists i :: 0 <= i < |queries| && search(queries[i]) == Err(r.error)
  {
    if |queries| == 0 then Ok([])
    else match search(queries[0])
      case Err(e) => Err(e)
      case Ok(hs) =>
        match RunQueries(queries[1..], search)
        case Err(e) =>
          var i :| 0 <= i < |queries[1..]| && search(queries[1..][i]) == Err(e);
          assert queries[1..][i] == queries[i + 1];
          Err(e)
        case Ok(rest) =>
          assert forall i :: 1 <= i < |queries| ==> queries[i] == queries[1..][i - 1];
          Ok([hs] + rest)
  }

  /**
   * `top` holds the `k` best-scoring entries of `pool`, or all of them when
   * there are fewer: no entry left out scores above a kept one.
   */
  predicate IsTopK(k: nat, pool: seq<WikiHit>, top: seq<WikiHit>) {
    |top| == (if |pool| < k then |pool| else k)
    && multiset(top) <= multiset(pool)
    && forall e, j :: e in pool && 0 <= j < |top| && e !in top ==> HitScore(e) <= HitScore(top[j])
  }

  /** A prefix of a score-sorted permutation of `pool` holds its best entries. */
  lemma SortedPrefixIsTopK(k: nat, pool: seq<WikiHit>, sorted: seq<WikiHit>)
    requires multiset(sorted) == multiset(pool) && SortedDesc(HitScore, sorted)
    ensures IsTopK(k, pool, sorted[..if |sorted| < k then |sorted| else k])
  {
    var n := if |sorted| < k then |sorted| else k;
    var top := sorted[..n];
    assert |sorted| == |pool| by {
      assert |multiset(sorted)| == |multiset(pool)|;
    }
    assert sorted == top + sorted[n..];
    forall e, j | e in pool && 0 <= j < |top| && e !in top
      ensures HitScore(e) <= HitScore(top[j])
    {
      assert e in multiset(sorted);
      var m :| 0 <= m < |sorted| && sorted[m] == e;
      assert top[j] == sorted[j];
    }
  }

  /**
   * `search_wiki`: the hits of every query, one per (file, section, text)
   * with its best score, by descending score, at most `topK` of them; a
   * failed query fails the search with its error.
   */
  function SearchWiki(wikiSha: Option<string>, queries: seq<string>, topK: nat,
                      search: string -> Result<seq<RawHit>, string>): (r: WikiSearchResult)
    ensures !Truthy(wikiSha) ==> r == WikiSearchFailed("wiki_sha not available")
    ensures Truthy(wikiSha) && RunQueries(queries, search).Err? ==>
      r == WikiSearchFailed(RunQueries(queries, search).error)
    ensures Truthy(wikiSha) && RunQueries(queries, search).Ok? ==>
      r.WikiResults? && IsTopK(topK, MergeHits([], Concat(RunQueries(queries, search).value)), r.results)
    ensures r.WikiResults? ==> |r.results| <= topK && SortedDesc(HitScore, r.results) && DistinctHitKeys(r.results)
  {
    if !Truthy(wikiSha) then WikiSearchFailed("wiki_sha not available")
    else match RunQueries(queries, search)
      case Err(e) => WikiSearchFailed(e)
      case Ok(all) =>
        var merged := MergeHits([], Concat(all));
        var sorted := SortDesc(HitScore, merged);
        SortDescKeepsDistinct(merged, sorted);
        SortedPrefixIsTopK(topK, merged, sorted);
        var top := sorted[..if |sorted| < topK then |sorted| else topK];
        assert SortedDesc(HitScore, top);
        WikiResults(top)
  }

  lemma SortDescKeepsDistinct(merged: seq<WikiHit>, sorted: seq<WikiHit>)
    requires DistinctHitKeys(merged) && multiset(sorted) == multiset(merged)
    ensures DistinctHitKeys(sorted)
  {
    forall i, j | 0 <= i < j < |sorted| ensures HitKey(sorted[i]) != HitKey(sorted[j]) {
      assert sorted[i] in multiset(merged) && sorted[j] in multiset(merged);
      var a :| 0 <= a < |merged| && merged[a] == sorted[i];
      var b :| 0 <= b < |merged| && merged[b] == sorted[j];
      if a == b {
        assert multiset(sorted)[sorted[i]] >= 2 by {
          assert sorted == sorted[..j] + sorted[j..];
          assert sorted[i] in multiset(sorted[..j]);
          assert sorted[j] in multiset(sorted[j..]);
        }
        DistinctOnce(merged, a);
      }
    }
  }

  /** With distinct keys, every entry occurs once. */
  lemma DistinctOnce(s: seq<WikiHit>, a: nat)
    requires DistinctHitKeys(s) && a < |s|
    ensures multiset(s)[s[a]] == 1
  {
    assert s == s[..a] + [s[a]] + s[a + 1..];
    assert s[a] !in multiset(s[..a]);
    assert s[a] !in multiset(s[a + 1..]);
  }

  /** The hits of every query survive the merge with at least their score. */
  lemma SearchWikiBestScores(queries: seq<string>, search: string -> Result<seq<RawHit>, string>,
                             q: nat, k: nat)
    requires RunQueries(queries, search).Ok?
    requires q < |queries| && k < |RunQueries(queries, search).value[q]|
    ensures var all := RunQueries(queries, search).value;
      Covers(MergeHits([], Concat(all)), ToHit(all[q][k]))
  {
    var all := RunQueries(queries, search).value;
    var n := ConcatIndex(all, q, k);
    MergeHitsCovers([], Concat(all), ToHit(all[q][k]));
  }

  lemma {:induction false} ConcatIndex<T>(ss: seq<seq<T>>, q: nat, k: nat) returns (n: nat)
    requires q < |ss| && k < |ss[q]|
    ensures n < |Concat(ss)| && Concat(ss)[n] == ss[q][k]
  {
    if q == 0 {
      n := k;
    } else {
      var m := ConcatIndex(ss[1..], q - 1, k);
      n := |ss[0]| + m;
    }
  }

  // ---------------------------------------------------------------------------
  // `get_employees`: field selection over the built records
  // ---------------------------------------------------------------------------

  /** `build_employee_ext_info` for one id, as the batch sees it. */
  datatype BuildOutcome = Built(info: Dict<Json>) | BuildFailed(message: string) | BuildTerminated

  datatype EmployeesResponse = Employees(employees: seq<Dict<Json>>, total: nat, errors: Option<seq<string>>)
                             | EmployeesTerminated

  /** `id` and `notes` are always kept. */
  function KeepFields(fields: seq<string>): set<string> {
    (set f | f in fields) + {"id", "notes"}
  }

  function SelectFields(d: Dict<Json>, keep: set<string>): (r: Dict<Json>) {
    Filter((e: Entry<Json>) => e.key in keep, d)
  }

  /** `include_projects`: projects are fetched unless a field list leaves them out. */
  function IncludeProjects(fields: Option<seq<string>>): bool {
    fields.None? || "projects" in fields.value
  }

  /** Builds every requested employee in order; the first termination ends the batch. */
  function BuildAll(ids: seq<string>, includeProjects: bool, build: (string, bool) -> BuildOutcome)
    : (r: Option<(seq<Dict<Json>>, seq<string>)>)
    ensures r.Some? ==> |r.value.0| + |r.value.1| == |ids|
    ensures r.None? <==> exists i :: 0 <= i < |ids| && build(ids[i], includeProjects).BuildTerminated?
  {
    if |ids| == 0 then Some(([], []))
    else
      var rest := BuildAll(ids[1..], includeProjects, build);
      assert forall i :: 1 <= i < |ids| ==> ids[i] == ids[1..][i - 1];
      assert forall i :: 0 <= i < |ids[1..]| ==> ids[1..][i] == ids[i + 1];
      match build(ids[0], includeProjects)
      case BuildTerminated => None
      case Built(info) => if rest.None? then None else Some(([info] + rest.value.0, rest.value.1))
      case BuildFailed(m) => if rest.None? then None else Some((rest.value.0, [ErrorLine(ids[0], m)] + rest.value.1))
  }

  /** How many of `ids` build a record. */
  function NumBuilt(ids: seq<string>, includeProjects: bool, build: (string, bool) -> BuildOutcome): nat {
    if |ids| == 0 then 0
    else (if build(ids[0], includeProjects).Built? then 1 else 0) + NumBuilt(ids[1..], includeProjects, build)
  }

  /** How many of `ids` fail to build. */
  function NumFailed(ids: seq<string>, includeProjects: bool, build: (string, bool) -> BuildOutcome): nat {
    if |ids| == 0 then 0
    else (if build(ids[0], includeProjects).BuildFailed? then 1 else 0) + NumFailed(ids[1..], includeProjects, build)
  }

  /** The error line of a failed build. */
  function ErrorLine(id: string, message: string): string {
    id + ": " + message
  }

  /** Counting over the first `i` ids is counting the first id, then the next `i - 1`. */
  lemma PrefixCounts(ids: seq<string>, inc: bool, build: (string, bool) -> BuildOutcome, i: nat)
    requires 1 <= i <= |ids|
    ensures NumBuilt(ids[..i], inc, build)
         == (if build(ids[0], inc).Built? then 1 else 0) + NumBuilt(ids[1..][..i - 1], inc, build)
    ensures NumFailed(ids[..i], inc, build)
         == (if build(ids[0], inc).BuildFailed? then 1 else 0) + NumFailed(ids[1..][..i - 1], inc, build)
  {
    assert ids[..i][1..] == ids[1..][..i - 1];
  }

  /**
   * The built records are the records of the ids that built, in id order:
   * the record of the i-th id comes after those of the ids before it.
   */
  lemma {:induction false} BuildAllRecords(ids: seq<string>, inc: bool, build: (string, bool) -> BuildOutcome)
    requires BuildAll(ids, inc, build).Some?
    ensures var r := BuildAll(ids, inc, build).value;
      |r.0| == NumBuilt(ids, inc, build)
      && forall i :: 0 <= i < |ids| && build(ids[i], inc).Built? ==>
           NumBuilt(ids[..i], inc, build) < |r.0| && r.0[NumBuilt(ids[..i], inc, build)] == build(ids[i], inc).info
  {
    if |ids| > 0 {
      var r := BuildAll(ids, inc, build).value;
      var tail := ids[1..];
      var rest := BuildAll(tail, inc, build).value;
      BuildAllRecords(tail, inc, build);
      var o := build(ids[0], inc);
      assert r.0 == (if o.Built? then [o.info] else []) + rest.0;
      forall i | 0 <= i < |ids| && build(ids[i], inc).Built?
        ensures NumBuilt(ids[..i], inc, build) < |r.0| && r.0[NumBuilt(ids[..i], inc, build)] == build(ids[i], inc).info
      {
        if i == 0 {
          assert ids[..0] == [];
        } else {
          PrefixCounts(ids, inc, build, i);
          assert ids[i] == tail[i - 1];
        }
      }
    }
  }

  /**
   * The error lines are those of the ids that failed, in id order: the line
   * of the i-th id comes after those of the ids before it.
   */
  lemma {:induction false} BuildAllErrors(ids: seq<string>, inc: bool, build: (string, bool) -> BuildOutcome)
    requires BuildAll(ids, inc, build).Some?
    ensures var r := BuildAll(ids, inc, build).value;
      |r.1| == NumFailed(ids, inc, build)
      && forall i :: 0 <= i < |ids| && build(ids[i], inc).BuildFailed? ==>
           NumFailed(ids[..i], inc, build) < |r.1|
           && r.1[NumFailed(ids[..i], inc, build)] == ErrorLine(ids[i], build(ids[i], inc).message)
  {
    if |ids| > 0 {
      var r := BuildAll(ids, inc, build).value;
      var tail := ids[1..];
      var rest := BuildAll(tail, inc, build).value;
      BuildAllErrors(tail, inc, build);
      var o := build(ids[0], inc);
      assert r.1 == (if o.BuildFailed? then [ErrorLine(ids[0], o.message)] else []) + rest.1;
      forall i | 0 <= i < |ids| && build(ids[i], inc).BuildFailed?
        ensures NumFailed(ids[..i], inc, build) < |r.1|
                && r.1[NumFailed(ids[..i], inc, build)] == ErrorLine(ids[i], build(ids[i], inc).message)
      {
        if i == 0 {
          assert ids[..0] == [];
        } else {
          PrefixCounts(ids, inc, build, i);
          assert ids[i] == tail[i - 1];
        }
      }
    }
  }

  /** No id fails exactly when the failure count is zero. */
  lemma {:induction false} NoFailedIff(ids: seq<string>, inc: bool, build: (string, bool) -> BuildOutcome)
    ensures NumFailed(ids, inc, build) == 0 <==> forall i :: 0 <= i < |ids| ==> !build(ids[i], inc).BuildFailed?
  {
    if |ids| > 0 {
      NoFailedIff(ids[1..], inc, build);
      assert forall i :: 1 <= i < |ids| ==> ids[i] == ids[1..][i - 1];
    }
  }

  /** A built record as returned: cut to the kept fields when a field list is given. */
  function Selected(info: Dict<Json>, fields: Option<seq<string>>): Dict<Json> {
    if fields.Some? then SelectFields(info, KeepFields(fields.value)) else info
  }

  /** `get_employees` without the optional sort. */
  function GetEmployees(ids: seq<string>, fields: Option<seq<string>>,
                        build: (string, bool) -> BuildOutcome): (r: EmployeesResponse)
    ensures r.Employees? ==> r.total == |r.employees|
    ensures r.Employees? ==> r.errors.None? || |r.errors.value| > 0
    ensures r.EmployeesTerminated? <==> exists i :: 0 <= i < |ids| && build(ids[i], IncludeProjects(fields)).BuildTerminated?
    ensures r.Employees? ==> var b := BuildAll(ids, IncludeProjects(fields), build);
      b.Some? && |r.employees| == |b.value.0|
      && (forall i :: 0 <= i < |r.employees| ==> r.employees[i] == Selected(b.value.0[i], fields))
      && (r.errors.None? <==> b.value.1 == []) && (r.errors.Some? ==> r.errors.value == b.value.1)
  {
    match BuildAll(ids, IncludeProjects(fields), build)
    case None => EmployeesTerminated
    case Some((infos, errs)) =>
      var kept := seq(|infos|, i requires 0 <= i < |infos| => Selected(infos[i], fields));
      Employees(kept, |kept|, if |errs| == 0 then None else Some(errs))
  }

  /**
   * What `get_employees` returns, per requested id: the record of an id that
   * built, cut to the kept fields, in id order; the error line of an id that
   * failed, in id order; and no error list exactly when no id failed.
   */
  lemma GetEmployeesSpec(ids: seq<string>, fields: Option<seq<string>>, build: (string, bool) -> BuildOutcome)
    requires GetEmployees(ids, fields, build).Employees?
    ensures var r := GetEmployees(ids, fields, build);
      var inc := IncludeProjects(fields);
      r.total == |r.employees| == NumBuilt(ids, inc, build)
      && forall i :: 0 <= i < |ids| && build(ids[i], inc).Built? ==>
           NumBuilt(ids[..i], inc, build) < |r.employees|
           && r.employees[NumBuilt(ids[..i], inc, build)] == Selected(build(ids[i], inc).info, fields)
    ensures var r := GetEmployees(ids, fields, build);
      var inc := IncludeProjects(fields);
      (r.errors.None? <==> forall i :: 0 <= i < |ids| ==> !build(ids[i], inc).BuildFailed?)
      && forall i :: 0 <= i < |ids| && build(ids[i], inc).BuildFailed? ==>
           r.errors.Some? && NumFailed(ids[..i], inc, build) < |r.errors.value|
           && r.errors.value[NumFailed(ids[..i], inc, build)] == ErrorLine(ids[i], build(ids[i], inc).message)
  {
    BuildAllRecords(ids, IncludeProjects(fields), build);
    BuildAllErrors(ids, IncludeProjects(fields), build);
    NoFailedIff(ids, IncludeProjects(fields), build);
  }

  /** A selected record keeps exactly the requested fields plus `id` and `notes`, in order, with their values. */
  lemma SelectFieldsSpec(d: Dict<Json>, fields: seq<string>)
    ensures IsSubseq(SelectFields(d, KeepFields(fields)), d)
    ensures forall e :: e in SelectFields(d, KeepFields(fields)) <==>
      e in d && (e.key in fields || e.key == "id" || e.key == "notes")
  {
    FilterSpec((e: Entry<Json>) => e.key in KeepFields(fields), d);
  }

  // ---------------------------------------------------------------------------
  // `get_project_leads`
  // ---------------------------------------------------------------------------

  datatype TeamMember = TeamMember(employee: string, role: string, timeSlice: real)

  /** The employees holding the Lead role in one team, in team order. */
  function LeadsOf(team: seq<TeamMember>): (r: seq<string>)
    ensures forall x :: x in r <==> exists j :: 0 <= j < |team| && team[j].role == "Lead" && team[j].employee == x
  {
    if |team| == 0 then []
    else
      var rest := LeadsOf(team[1..]);
      assert forall j :: 1 <= j < |team| ==> team[j] == team[1..][j - 1];
      assert forall j :: 0 <= j < |team[1..]| ==> team[1..][j] == team[j + 1];
      (if team[0].role == "Lead" then [team[0].employee] else []) + rest
  }

  /** The leads of every project whose details load; a project that fails is skipped. */
  function AllLeads(projectIds: seq<string>, getProject: string -> Option<seq<TeamMember>>): (r: seq<string>)
    ensures forall x :: x in r <==> exists i :: 0 <= i < |projectIds| && getProject(projectIds[i]).Some?
                                                && x in LeadsOf(getProject(projectIds[i]).value)
  {
    if |projectIds| == 0 then []
    else
      var rest := AllLeads(projectIds[1..], getProject);
      assert forall i :: 1 <= i < |projectIds| ==> projectIds[i] == projectIds[1..][i - 1];
      assert forall i :: 0 <= i < |projectIds[1..]| ==> projectIds[1..][i] == projectIds[i + 1];
      (match getProject(projectIds[0]) case Some(team) => LeadsOf(team) case None => []) + rest
  }

  /** `get_project_leads`: the distinct leads in ascending order. */
  function GetProjectLeads(projectIds: seq<string>, getProject: string -> Option<seq<TeamMember>>): (r: seq<string>)
  {
    SortedSet(AllLeads(projectIds, getProject))
  }

  /** Employee `x` holds the Lead role in some project that loads. */
  predicate LeadsSomeProject(projectIds: seq<string>, getProject: string -> Option<seq<TeamMember>>, x: string) {
    exists i, j ::
      0 <= i < |projectIds| && getProject(projectIds[i]).Some? && 0 <= j < |getProject(projectIds[i]).value|
      && getProject(projectIds[i]).value[j].role == "Lead" && getProject(projectIds[i]).value[j].employee == x
  }

  /**
   * The answer is the unique ascending, duplicate-free list of exactly the
   * employees who lead some project that loads.
   */
  lemma GetProjectLeadsSpec(projectIds: seq<string>, getProject: string -> Option<seq<TeamMember>>, other: seq<string>)
    requires StrictlySorted(other)
    requires forall x :: x in other <==> LeadsSomeProject(projectIds, getProject, x)
    ensures GetProjectLeads(projectIds, getProject) == other
  {
    var r := GetProjectLeads(projectIds, getProject);
    forall x ensures x in r <==> x in other {
      if x in r {
        var i :| 0 <= i < |projectIds| && getProject(projectIds[i]).Some?
          && x in LeadsOf(getProject(projectIds[i]).value);
        var j :| 0 <= j < |getProject(projectIds[i]).value| && getProject(projectIds[i]).value[j].role == "Lead"
          && getProject(projectIds[i]).value[j].employee == x;
      }
      if x in other {
        var i, j :| 0 <= i < |projectIds| && getProject(projectIds[i]).Some?
          && 0 <= j < |getProject(projectIds[i]).value|
          && getProject(projectIds[i]).value[j].role == "Lead" && getProject(projectIds[i]).value[j].employee == x;
        assert x in LeadsOf(getProject(projectIds[i]).value);
      }
    }
    StrictlySortedUnique(r, other);
  }
}
